=== FILE: README.md ===
# ReconCraft core, modelled in Dafny

ReconCraft is a reconnaissance front end. It runs external security tools
such as nmap, wafw00f, smbclient and sqlmap against a list of targets and
collects what they print. The core modelled here is made of several parts:

- the **plugin adapters** (`plugins/*.py`): each wraps one tool. It has its
  per-profile `DEFAULT_ARGS`, its install metadata, `validate` and `run`.
- the **plugin loader** (`core/plugin_loader.py`) and the two older loaders
  (`reconcraft.py`, `gui/common_widgets.py`).
- the **scan engine** (`core/scan_thread.py`). It turns a profile and a
  template into a plugin call (`run_tool`) and saves each job's output under
  a sanitised folder layout (`run_tool_and_save`, `_norm`). It folds the jobs'
  outcomes into logs, progress and a final status (`run`). It also lays out
  the folders of a direct command run (`run_command`).
- the **installers**:
  - `core/installer_utils.py`;
  - the install workers of `gui/tool_worker.py`, with its `has_cmd` cache, the
    streaming runner `_run_cmd` and the serial or parallel install worker;
  - the widget installer of `gui/common_widgets.py`;
  - the presence probe of `core/tools_utils.py`.
- the **reports**: the run model of `core/report_model.py`, the CSV, HTML and
  file-name exports of `core/report_exporter.py`, and the folder conventions
  of `core/file_conventions.py`.
- the **command-line scanner** (`reconcraft.py`): reading the target list,
  loading plugins, the scan loop and CVE extraction.
- the **GUI logic** that does not need Qt:
  - the ANSI-to-HTML conversion of `gui/ansi_text_viewer.py`;
  - the profile and custom-argument state of `gui/settings_profiles_tab.py`;
  - the wrapping arithmetic of `gui/flow_layout.py`.

Everything the program asks of the operating system is a parameter of the
model. That covers:

- PATH lookups (`which`, `onPath`);
- the exit codes and output of processes (`run`, `spawn`, `probe`);
- file tests (`isFile`, `isDir`);
- module imports (`importer`, `importModule`);
- the files read (a sequence of lines, or `None` when missing);
- the order in which a thread pool completes jobs (a permutation);
- cancel events;
- timestamps and fresh run ids.

The model states and proves what the code does for every answer those
oracles can give. Integers are unbounded. Strings are `seq<char>` with ASCII
semantics for `lower`, `upper`, `isalnum` and `isspace`. Paths are strings
joined with `/`, except in the scan engine. There they are lists of
components, as `pathlib` keeps them, and its messages print a path the way
`str(Path(...))` does: empty and "." components dropped, no trailing slash,
one or two leading slashes kept as the root.

Files:

- one module per component: `Adapters`, `PluginLoader`, `ScanEngine`,
  `Installer`, `ToolWorker`, `InstallWorkers`, `CommonWidgets`, `ToolsUtils`,
  `ReportModel`, `ReportExporter`, `FileConventions`, `ReconCli`, `Ansi`,
  `SettingsProfiles`, `FlowLayout`;
- shared helpers:
  - `Text`: Python string methods;
  - `Json`: JSON values and `dict.get`;
  - `Order`: `sorted` with a key;
  - `Paths`: the string form of a POSIX `pathlib` path and its `/` operator;
  - `Wrappers`: `Option` and `Result`.

## Model

| member | source | states |
|---|---|---|
| Adapters.BuildCommandArgs | plugins/template.py:24-26 | The argument list holds exactly the whitespace-separated words of the string. No word is empty or contains a blank, and the words put together give back the string's non-blank characters. |
| Adapters.BuildCommandArgsRoundTrip | plugins/template.py:24-26 | Words without blanks, joined by single spaces, split back into the same list. |
| Adapters.SmbclientQuotesAreLiteral | plugins/smbclient.py:18-27 | smbclient's Normal arguments become the argv `-L {{target}} -U '%' -N`. The quotes around `%` reach the program literally, because no shell ever sees the string. |
| Adapters.GetInstallInfo | plugins/template.py:28-43 | The install info carries the adapter's required tool and hint. The executable falls back to the required tool, and the alias falls back to the executable. |
| Adapters.Validate | plugins/template.py:45-51 | An adapter without `validate` (sqlmap) gives no verdict. Otherwise validation passes exactly when a required tool is named, the hint is one of the eight known ones, and a docker hint comes with a docker command. A failure carries the first failed check's own message: the REQUIRED_TOOL, INSTALL_HINT or DOCKER_RUN text |
| Adapters.ShippedAdaptersValidate | plugins/template.py:45-51 | The template, wafw00f and smbclient adapters pass their own validation. |
| Adapters.TemplateRun | plugins/template.py:53-90 | A DISABLED argument string (case-insensitive, surrounding blanks ignored) is refused first. A runtime name missing from PATH is refused next. Otherwise the runtime name plus the argument words run, writing to `<target>_<required tool>.txt`. |
| Adapters.SqlmapRun | plugins/sqlmap.py:12-49 | Only a string that upper-cases to exactly DISABLED is refused, with no strip. The PATH check uses the required tool. Empty arguments run the bare tool; otherwise `{target}` is replaced and the result is split into words. |
| Adapters.PluginResult | plugins/template.py:82-90 | A refusal reaches the engine as `(message, True)`. A run reaches it as the text read back from the output file, flagged as not an error. |
| Adapters.PaddedDisabledDiverges | plugins/sqlmap.py:16-17 | A padded " disabled " is refused by the template's `run` but reaches sqlmap's command line as a word. |
| Adapters.Wafw00fArgsNameTarget | plugins/wafw00f.py:17-24 | Every wafw00f profile names the target with the double-brace placeholder. |
| Adapters.SqlmapTable | plugins/sqlmap.py:6-10 | sqlmap is disabled in the Passive profile and has no Custom entry. |
| Adapters.PassiveTemplateSkippedByEngine | plugins/template.py:17-22 | In a Passive scan the engine skips the template adapter, as an error, before its `run` is called. |
| Adapters.DisabledDecision | core/scan_thread.py:327-330 | A known tool whose profile entry upper-cases to DISABLED is skipped as an error, whatever the custom arguments are. |
| Ansi.MatchEnd | gui/ansi_text_viewer.py:16 | A match starting at a position is `ESC [`, then digits and semicolons, then `m`. A position that does not hold ESC never starts a match. Conversely, wherever `ESC [`, parameter characters and `m` do start at the position, the match is found and ends just after that `m` |
| Ansi.TokensRoundTrip | gui/ansi_text_viewer.py:46-91 | Splitting the text into literal runs and escape sequences loses nothing: the tokens spell out the text again. |
| Ansi.TokensOfNoEsc | gui/ansi_text_viewer.py:46-91 | Without ESC in the unscanned text, the pending run and that text form one literal run. |
| Ansi.StripAnsi | gui/ansi_text_viewer.py:116-119 | Stripping never lengthens the text and leaves a text without ESC unchanged. |
| Ansi.StripAnsiMatch | gui/ansi_text_viewer.py:116-119 | Text without ESC, then `ESC [ params m`, then anything strips to that text followed by the stripped rest: the match is removed and nothing before it is. |
| Ansi.StripAnsiLoneEsc | gui/ansi_text_viewer.py:116-119 | An ESC that starts no match is kept: text without ESC, that ESC and anything strip to the text, the ESC and the stripped rest. With the two rows above this fixes the result on every input. |
| Ansi.LiteralsOfPending | gui/ansi_text_viewer.py:46-67 | The literal run pending when the scan resumes comes out unchanged in front of the stripped rest. |
| Ansi.StripAnsiNotIdempotent | gui/ansi_text_viewer.py:116-119 | Removing the matches can create a new one: `ESC ESC [ m [ m` strips to `ESC [ m`, which strips to "". |
| Ansi.Codes | gui/ansi_text_viewer.py:70-72 | The codes of a parameter string are never empty, and a string of semicolons only (or an empty one) is a reset. |
| Ansi.DigitFields | gui/ansi_text_viewer.py:70-72 | Every field of a parameter string is a run of digits, so reading it as a number cannot fail. |
| Ansi.AllFieldsEmpty | gui/ansi_text_viewer.py:70-72 | A parameter string made of semicolons splits into empty fields only. |
| Ansi.BgFromKeys | gui/ansi_text_viewer.py:25 | Shifting the foreground table by ten gives a table keyed exactly by the background codes, each holding the colour of the foreground code ten below. |
| Ansi.ColorMapKeys | gui/ansi_text_viewer.py:19-24 | The foreground table covers exactly the codes 30-37 and 90-97. |
| Ansi.BgColorMapKeys | gui/ansi_text_viewer.py:25 | The background table covers exactly the codes 40-47 and 100-107, each with the colour of the foreground code ten below. |
| Ansi.CloseIfOpen | gui/ansi_text_viewer.py:31-34 | `</span>` is emitted exactly when a span is open, and afterwards none is. |
| Ansi.ApplyCode | gui/ansi_text_viewer.py:73-87 | Reset, bold, italic, underline, foreground and background codes close an open span (and emit nothing else) and set their part of the style, leaving the other parts as they were. Any other code changes nothing |
| Ansi.EmitLiteral | gui/ansi_text_viewer.py:49-67 | A literal run keeps the style and the span nesting well formed, and an empty run emits nothing. |
| Ansi.AnsiToHtmlPieces | gui/ansi_text_viewer.py:28-113 | The converted output never opens a span inside another and ends with every span closed. |
| Ansi.PlainTextHtml | gui/ansi_text_viewer.py:49-67 | A text without ESC converts to its HTML-escaped form with newlines as `<br>`, and no span. |
| Ansi.LiteralHtmlPerChar | gui/ansi_text_viewer.py:66-67 | Escaping and then replacing newlines works character by character, because no entity holds a newline. |
| CommonWidgets.WidgetMethods | gui/common_widgets.py:64-104 | apt (the install command only), brew, choco, go, pip and git are each listed exactly when wanted, in that order. The apt entry is the install of the tool. |
| CommonWidgets.WidgetIsCompatWithoutRefresh | gui/common_widgets.py:64-104 | The widget's list equals the corrected installer list. It differs from the installer's list as written only by the apt refresh at its head. |
| CommonWidgets.WidgetNeverRefreshes | gui/common_widgets.py:64-78 | No apt entry of the widget's list is an `apt-get update`. |
| CommonWidgets.TryInstallTool | gui/common_widgets.py:22-141 | A blank argument fails. A command with a space runs once through the shell. Otherwise the listed methods are tried in order with retries, and the first exit code 0 gives "installed" with the winning attempt; with no success the result is "manual". |
| CommonWidgets.WidgetSuccessIsInstall | gui/common_widgets.py:107-132 | A reported install comes from a listed command that exited with 0. When that command is apt, it is the install itself. |
| CommonWidgets.PluginName | gui/common_widgets.py:179 | The plugin name with `.py` appended is the file name. |
| CommonWidgets.LoadPluginsSpec | gui/common_widgets.py:174-182 | Loading fails exactly when some plugin file fails to import. On success the keys are exactly the plugin files' names, and each maps to its module. |
| FileConventions.JoinSplitRoundTrip | core/file_conventions.py:27 | Joining a component without a separator onto a folder can be undone by splitting off the last component. |
| FileConventions.EnsureDir | core/file_conventions.py:15-17 | The folder exists afterwards and the path comes back unchanged. |
| FileConventions.EnsureDirIdempotent | core/file_conventions.py:15-17 | Ensuring a folder twice is the same as ensuring it once. |
| FileConventions.SafeLabel | core/file_conventions.py:21 | The label keeps at most 64 characters and has no separator or space. Each character is the input's own, or `_` where the input had a separator or a space. |
| FileConventions.SafeLabelKeepsPlain | core/file_conventions.py:21 | A short label without separators or spaces is kept as is. |
| FileConventions.ScanRoot | core/file_conventions.py:20-22 | The scan root is `<base>/<scan id>_<safe label>`, and it is created. |
| FileConventions.ToolDirName | core/file_conventions.py:27 | The tool folder has one character per character of the name: spaces become `-` and letters are lower-cased. |
| FileConventions.RunId | core/file_conventions.py:26 | A given non-empty run id is kept; a missing or empty one is replaced by the fresh id. |
| FileConventions.RunDir | core/file_conventions.py:25-28 | The run folder is `<scan root>/<tool folder>/<run id>`, and all three levels are created. |
| FileConventions.RunDirEndsInRunId | core/file_conventions.py:25-28 | A run id without a separator is the run folder's last component, directly under the tool folder. |
| FileConventions.RunPathsOf | core/file_conventions.py:31-39 | The paths are the run folder plus `raw.log`, `run.json`, `findings.jsonl` and `extras` inside it, and `extras` is created as well. |
| FileConventions.RunPathsAreChildren | core/file_conventions.py:31-39 | Each of the four artifacts is a direct child of the run folder. |
| FlowLayout.ItemAt | gui/flow_layout.py:24-25 | An item is returned exactly for an index in range, negative ones excluded. |
| FlowLayout.TakeAt | gui/flow_layout.py:27-30 | In range, the item is returned and removed, and the others keep their order. Out of range, nothing is returned and the list is unchanged. |
| FlowLayout.AddTakeRoundTrip | gui/flow_layout.py:18-30 | Taking the last item undoes an `addItem`. |
| FlowLayout.Drain | gui/flow_layout.py:14-16 | The destructor takes every item, in order, and leaves none. |
| FlowLayout.MinimumSize | gui/flow_layout.py:48-53 | Each side is at least every item's minimum plus twice the margin. It is attained by some item, or it is the invalid size plus the margins. |
| FlowLayout.EmptyMinimumSize | gui/flow_layout.py:48-53 | With no items, each side is one less than twice the margin. |
| FlowLayout.DoLayout | gui/flow_layout.py:55-78 | Measuring sets no geometry. Laying out places every item, with the first at the rectangle's corner, by the flow whose wrap limit is `rect.right()`. |
| FlowLayout.LineHeightIsTallest | gui/flow_layout.py:76 | The height of a line is at least every item placed on it, and is either 0 or the height of one of them. |
| FlowLayout.FlowPrefix | gui/flow_layout.py:60-76 | The items before position `k` are placed exactly as the first `k` items alone would be. |
| FlowLayout.FlowDescends | gui/flow_layout.py:66-68 | For positive heights and non-negative spacing, no item lies below the current line. |
| FlowLayout.FlowLineHeight | gui/flow_layout.py:58-76 | For positive heights and non-negative spacing, the loop's `line_height` is the tallest item on the current line. |
| FlowLayout.WrapRule | gui/flow_layout.py:60-76 | For positive heights and non-negative spacing, item `i` starts a new line exactly when its right edge after item `i - 1` would pass the limit. On the same line it follows item `i - 1` after the spacing. On a new line it starts at the left edge, below the previous line by that line's tallest item plus the spacing. |
| FlowLayout.DoLayoutWraps | gui/flow_layout.py:55-76 | The same rule for the layout as written: an item wraps exactly when one past its last column passes `rect.right()`. |
| FlowLayout.DoLayoutHeight | gui/flow_layout.py:76-78 | The height returned is the last line's offset from the rectangle's top plus the tallest item on that line. |
| FlowLayout.MeasuringMatchesLayout | gui/flow_layout.py:55-78 | Measuring gives the same height as laying out. |
| FlowLayout.HeightForWidth | gui/flow_layout.py:38-39 | The height for a width is the measured layout in a rectangle of that width, and it is 0 with no items. |
| FlowLayout.LinesFit | gui/flow_layout.py:66-70 | For items with height, every item that does not start a line ends by the wrap limit. |
| FlowLayout.HeightCoversItems | gui/flow_layout.py:72-78 | For non-negative heights and spacing, every item lies between the top of the rectangle and the returned height. |
| FlowLayout.ExactFitWraps | gui/flow_layout.py:66 | As written, two 50-wide items in a 100-wide rectangle with no spacing take two lines, though they fit on one. |
| FlowLayout.DoLayoutFixed | gui/flow_layout.py:55-78 | The corrected layout places every item, using the column just past the rectangle as the wrap limit. |
| FlowLayout.LaidOutItemsFit | gui/flow_layout.py:66 | With the corrected test every item that does not start a line lies inside the rectangle. As written, such an item even stays clear of the last column. |
| FlowLayout.DoLayoutFixedWraps | gui/flow_layout.py:66 | With the corrected test an item wraps exactly when its last column would lie outside the rectangle, and the same-line and new-line placement rules hold. |
| InstallWorkers.HintSetsDisjoint | gui/tool_worker.py:542-543 | No hint is both serial and parallel. |
| InstallWorkers.ExclusivePartition | gui/tool_worker.py:545-546 | No plugin falls into both the serial and the parallel partition. |
| InstallWorkers.PercentMono | gui/tool_worker.py:646-665 | Progress percentages grow with the count done and reach 100 at the total. |
| InstallWorkers.Ticks | gui/tool_worker.py:646-668 | The progress trace has one value per item plus the closing 100. It never exceeds 100 and never decreases. |
| InstallWorkers.WorkerRun | gui/tool_worker.py:450-688 | An empty request reports `[100]`, nothing missing, and success. Otherwise success means nothing is missing, and progress ends at 100 without ever decreasing. |
| InstallWorkers.Attempts | gui/tool_worker.py:545-665 | The serial plugins are attempted, then the pool's, and each once. A plugin is attempted exactly when it was requested and its hint is serial or parallel. |
| InstallWorkers.WorkerRunMissing | gui/tool_worker.py:671-681 | A plugin is reported missing exactly when it was attempted and its install did not succeed, whatever order the pool completed in. |
| InstallWorkers.UnknownHintsReportSuccess | gui/tool_worker.py:542-546 | A request whose every hint is in neither set attempts nothing and is reported exactly like an empty request. |
| InstallWorkers.RuntimeNames | gui/tool_worker.py:707-713 | Each plugin is paired with the runtime name the check looks up. |
| InstallWorkers.CheckRun | gui/tool_worker.py:703-731 | The check emits one progress value per plugin and then 100, never decreasing. |
| InstallWorkers.CheckRunMissing | gui/tool_worker.py:715-719 | A plugin is reported missing exactly when its runtime name is not on PATH. |
| Installer.RunCmdStream | core/installer_utils.py:32-56 | The shell is used exactly for a string command. A missing program gives 127 and no output, a launch error gives 1 and the error text, and a finished run gives its exit code and all its lines. |
| Installer.NotFoundIs127 | core/installer_utils.py:51-53 | A missing program is reported with code 127 and no output, whatever the command. |
| Installer.PullCommands | core/installer_utils.py:80-86 | A `docker pull` runs exactly when some word looks like an image, and the image pulled is the last such word. |
| Installer.GetPluginInstallMeta | core/installer_utils.py:145-164 | The hint defaults to "manual" and is stripped and lower-cased. The executable falls back to the required tool, and the alias to the executable. The runtime name is the stripped alias, else the required tool. |
| Installer.MetaHintNormalised | core/installer_utils.py:150 | The normalised hint has no capitals, and an adapter without a hint is installed manually. |
| Installer.MetaAgreesWithAdapter | core/installer_utils.py:145-164 | The installer's executable, alias and runtime name agree with the adapter's own `get_install_info` and `run`. |
| Installer.NativeOutcome | core/installer_utils.py:121-139 | A helper succeeds exactly when its command exits with 0. Its message is the command's output, else "OK" or the failure text. |
| Installer.AptInstallArgv | core/installer_utils.py:101-106 | The install command is `apt install -y <pkg>`, behind `sudo` exactly when not root and `sudo` exists. |
| Installer.AptUpdateArgv | core/installer_utils.py:113-116 | The index refresh runs exactly for root or with `sudo`. |
| Installer.AptInstall | core/installer_utils.py:92-119 | The outcome is that of the install command alone. The refresh runs first when it can, and its result is ignored. |
| Installer.BrewInstall | core/installer_utils.py:121-124 | Without brew on PATH nothing runs and the result is a failure; otherwise the result is that of `brew install`. |
| Installer.ChocoInstall | core/installer_utils.py:126-129 | Without choco on PATH nothing runs and the result is a failure; otherwise the result is that of `choco install -y`. |
| Installer.PipInstall | core/installer_utils.py:131-134 | Success is exactly a zero exit code of `python -m pip install`. |
| Installer.GoInstall | core/installer_utils.py:136-139 | Without go on PATH nothing runs and the result is a failure; otherwise the result is that of `go install`. |
| Installer.DockerInstall | core/installer_utils.py:188-196 | With docker and a docker command, the image named in it is pulled. Success requires the shim to be visible on PATH. |
| Installer.SafeInstallTool | core/installer_utils.py:170-210 | A tool already present runs nothing and succeeds. Otherwise docker, apt, brew, choco, pip and go each run their own installer on the requirement name (go on the install URL or its default module path), "git" gives build guidance, and every other hint gives manual guidance without running anything |
| Installer.SafeInstallSuccessJustified | core/installer_utils.py:170-210 | Success means the tool was already present, or the docker shim is visible, or the last command run exited with 0. An apt success is the install command. |
| Installer.AptMethods | core/installer_utils.py:276-293 | As written, apt contributes the install and also the index refresh, as a method of its own. |
| Installer.TailMethods | core/installer_utils.py:295-318 | brew, choco, go, pip and git are each listed exactly when wanted, in rank order, and none of them is an apt refresh. |
| Installer.CompatMethods | core/installer_utils.py:266-318 | As written, the list is ranked and lists each kind exactly when it is wanted. |
| Installer.CompatMethodsFixed | core/installer_utils.py:266-318 | The corrected list is ranked, lists each kind exactly when wanted, and its apt entry is the install. |
| Installer.FixedDropsOnlyRefresh | core/installer_utils.py:289-293 | The corrected list is the written one without the refresh at its head. |
| Installer.AttemptsFromMethods | core/installer_utils.py:320-321 | Every attempt tries one of the listed methods. |
| Installer.FirstSuccessAt | core/installer_utils.py:320-341 | The first success is the first attempt whose command exited with 0. |
| Installer.TryMethods | core/installer_utils.py:320-341 | The loop stops at the first attempt that exits with 0 and reports it with the number of tries. With no success it tries every attempt. |
| Installer.ShellStatus | core/installer_utils.py:251-263 | A shell run is "installed" exactly on exit code 0, an exception exactly when it raised, and never "manual". |
| Installer.ToolBin | core/installer_utils.py:247-248 | The tool name is the first word of the stripped argument and has no blank. There is none (the code raises) exactly for a blank argument. |
| Installer.CompatTryInstallTool | core/installer_utils.py:216-351 | A blank argument fails. A command with a space runs once through the shell. Otherwise the written list is tried in order with retries: the first success gives "installed" with its attempt, and no success gives "manual". |
| Installer.AptRefreshCountsAsInstall | core/installer_utils.py:289-293 | As written, root with apt wanted gets "installed" from a successful `apt-get update` although every install command fails. |
| Installer.FixedSuccessIsInstall | core/installer_utils.py:276-341 | With the corrected list, an apt success is always the install command. |
| Order.SortByStable | core/plugin_loader.py:101 | `sorted` is stable: entries with the same key (such as "Nmap.py" and "nmap.py" under `name.lower()`) keep the order the listing gave them. |
| Paths.PathStrCanonical | core/scan_thread.py:202-204 | A path already in printed form (a root of "", "/" or "//", then components that are neither empty nor "." nor hold a slash, not both absent) prints as itself. |
| Paths.PathStrIdempotent | core/scan_thread.py:202-204 | Printing a printed path again changes nothing. |
| Paths.PathStrIsDot | core/scan_thread.py:202-204 | A path prints as "." exactly when it has no root and no component that stays. |
| Paths.LeadingDotVanishes | core/scan_thread.py:202-204 | A leading "./" is dropped from any relative path in printed form, so "./raw/nmap.txt" prints as "raw/nmap.txt". |
| Paths.TrailingSlashVanishes | core/scan_thread.py:202-204 | A trailing slash is dropped from any relative path in printed form, so "raw/nmap.txt/" prints as "raw/nmap.txt". |
| Paths.DoubledSlashVanishes | core/scan_thread.py:202-204 | A doubled slash between two relative paths in printed form counts as one, so "raw//nmap.txt" prints as "raw/nmap.txt". |
| Paths.CanonicalParts | core/scan_thread.py:202-204 | A path in printed form is read back as exactly its root and components. |
| Paths.UnderAppends | core/scan_thread.py:220-236 | `Path(p) / c`, for a path `p` in printed form and a component `c` that neither vanishes nor holds a slash, prints as `p` followed by `c`, with one slash between unless `p` is a bare root. |
| Paths.JoinPathAppends | core/scan_thread.py:220-236 | Joining such components one after another onto a path in printed form prints as the path's root followed by all the components joined with single slashes. |
| PluginLoader.Suffix | core/plugin_loader.py:57-58 | The suffix is empty or a dot and at least one more character. It is a proper tail of the name and holds no other dot. |
| PluginLoader.Stem | core/plugin_loader.py:61-62 | The stem followed by the suffix is the name. |
| PluginLoader.ShouldIgnore | core/plugin_loader.py:49-70 | A file is ignored exactly when its suffix is not ".py", its lower-cased stem is reserved, or its name starts with `_`. |
| PluginLoader.JunkNeverPy | core/plugin_loader.py:67-68 | A ".py" name never carries a junk suffix, so that check cannot decide anything further. |
| PluginLoader.TemplateIgnored | core/plugin_loader.py:19 | `template.py` is ignored. |
| PluginLoader.BackupIgnored | core/plugin_loader.py:57-58 | `nmap.py.bak` is ignored. |
| PluginLoader.PlainPluginKept | core/plugin_loader.py:49-70 | `nmap.py` is not ignored. |
| PluginLoader.Filter | core/plugin_loader.py:101-123 | The kept entries are exactly the admitted entries of the listing. |
| PluginLoader.FilterPermutation | core/plugin_loader.py:101-123 | Filtering a rearranged listing keeps the same entries, each as often, so the order of `iterdir()` does not change what is accepted. |
| PluginLoader.FilterKeepsOrder | core/plugin_loader.py:101 | Dropping entries from a listing sorted by lower-cased name keeps it sorted. |
| PluginLoader.BuildMap | core/plugin_loader.py:123 | The map's keys are exactly the stems, and each maps to its imported module. |
| PluginLoader.Discover | core/plugin_loader.py:73-125 | Without a plugins folder nothing is found. Otherwise the accepted entries are the regular, non-ignored files that import (and validate, when asked), each as often as the listing holds it, sorted by lower-cased name. The map's keys are their stems, each bound to its module |
| PluginLoader.ListPluginNames | core/plugin_loader.py:128-132 | The names are the keys of the discovered plugin map, each exactly once, in sorted order: as many names as keys |
| PluginLoader.StemInjectiveOnPy | core/plugin_loader.py:123 | Two ".py" files with the same stem are the same file, so no plugin overwrites another in the map. |
| ReconCli.ReadIpList | reconcraft.py:20-26 | A missing file gives no targets. No target is empty, and there are at most as many targets as lines. |
| ReconCli.ReadIpListMembers | reconcraft.py:20-26 | A target is exactly a non-blank line, stripped. |
| ReconCli.ReadIpListAppend | reconcraft.py:20-26 | Reading a file in two parts gives the targets of each part in turn, so the file order is kept. |
| ReconCli.ReadIpListExample | tests/test_utils.py:1-19 | The helper test's file of two addresses and a blank line gives the two addresses. |
| ReconCli.RunCommand | reconcraft.py:31-55 | With the raw folder given: a string command runs its words and a list runs as given. The returned path is the raw file in that folder whatever happened. Output is saved exactly when the process finished, and it is what the process printed |
| ReconCli.RunCommandIn | reconcraft.py:31-55 | Against the module's folders: an unbound `RAW_DIR` raises `NameError` before anything runs. Otherwise the path is the raw file in that folder and output is saved exactly when the process finished. |
| ReconCli.RunCommandWords | reconcraft.py:36-37 | A command string made by joining words without blanks runs exactly those words. |
| ReconCli.CveTokens | reconcraft.py:64-65 | Every candidate mentions `CVE-`. |
| Text.DedupMembers | reconcraft.py:66-71 | The first occurrences hold exactly the input's elements, with no repeats. |
| Text.DedupIdempotent | reconcraft.py:66-71 | Taking first occurrences twice changes nothing. |
| ReconCli.ExtractCves | reconcraft.py:58-73 | Each distinct candidate is written once, in order of first occurrence, with its searchsploit output. The returned set holds exactly the candidates, all mentioning `CVE-`. |
| ReconCli.CveFileIn | reconcraft.py:59 | The CVE file is `<ip>_cves.txt` in `CVE_DIR`; an unbound `CVE_DIR` raises `NameError`. |
| ReconCli.ExtractCvesIn | reconcraft.py:58-73 | Against the module's folders: an unbound `CVE_DIR` raises `NameError` before anything is opened. Otherwise the CVEs go to the target's CVE file, each distinct candidate once in order of first occurrence, and the returned set holds exactly the candidates. |
| ReconCli.UnboundHelpersFail | reconcraft.py:33 | As the module leaves its folders, `run_command` and `extract_cves` raise `NameError` on every call. |
| ReconCli.BoundHelpersSucceed | reconcraft.py:31-59 | With every folder bound, `run_command` runs the command and saves its output in the raw folder, and the CVE file lies in the CVE folder. |
| ReconCli.WriteCandidates | reconcraft.py:66-71 | Writing one line's candidates continues the first-occurrence list, keeps the set in step with it, and extends the report. |
| ReconCli.ModuleName | reconcraft.py:100 | The module name with `.py` appended is the file name. |
| ReconCli.LoadPluginsMembers | reconcraft.py:92-112 | A module is loaded exactly when a listed `.py` file not starting with `__` is selected, imports, and defines `run`. |
| ReconCli.BrokenModuleSkipped | reconcraft.py:105-110 | A module without `run`, or one whose import fails, is never loaded. |
| ReconCli.StatusText | reconcraft.py:120-122 | A plugin that returns gives "Completed", and one that raises gives "Failed: " and the error. |
| ReconCli.PluginError | reconcraft.py:119-122 | An unbound `RAW_DIR`, then an unbound `BASE_DIR`, is the plugin's error before `run` is entered. With both bound the error is whatever `run` raised. |
| ReconCli.TargetResults | reconcraft.py:114-123 | One target's report has exactly one entry per loaded plugin, holding the status of that plugin's call, unbound-folder errors included |
| ReconCli.ScanAll | reconcraft.py:195-196 | Every scanned target gets the results of its last scan, and earlier report entries of other targets are kept. |
| ReconCli.Selection | reconcraft.py:188 | No `-p` option, or an empty one, selects every plugin. Otherwise the option's comma-separated names are the selection. |
| ReconCli.RunScan | reconcraft.py:183-202 | The run stops exactly when there are no targets, or no plugins for the targets. Otherwise it scans and then dies on `NameError` exactly when `REPORT_DIR` is unbound; when bound, the report goes to `report.json` in that folder and covers exactly the targets read |
| ReconCli.NoTargetsIgnoresPlugins | reconcraft.py:183-186 | With no targets the run stops before the plugins folder is consulted. |
| ReconCli.UnboundScanCrashes | reconcraft.py:119-200 | As the module leaves its folders, a run with targets and plugins records every plugin as failed on the unbound `RAW_DIR` and then dies before writing any report. |
| ReconCli.BoundScanWritesReport | reconcraft.py:114-200 | With every folder bound, the same run writes `report.json` in the report folder, and each plugin's entry is the status of its own `run`. |
| ReportExporter.FirstTarget | core/report_exporter.py:35 | Falsy targets give the default, and a list gives its first element. The expression fails exactly for a truthy value that is neither a list nor a string. |
| ReportExporter.References | core/report_exporter.py:53 | A list of strings is comma-joined, a string is kept, and a falsy non-list gives "". The expression fails exactly for a list holding a non-string or a truthy value that is neither a list nor a string. |
| ReportExporter.CsvRow | core/report_exporter.py:43-55 | A row has one cell per column. |
| ReportExporter.WriteRow | core/report_exporter.py:40-55 | The writer puts the values in column order, with "" for a missing key. |
| ReportExporter.CsvRows | core/report_exporter.py:42-55 | One row per finding, in order. The export fails exactly when some finding is not a dict or has references that cannot be joined. |
| ReportExporter.ExportCsv | core/report_exporter.py:24-55 | A run that is not a dict fails. A `targets` value that cannot be indexed fails with that error (line 35). Otherwise the rows are the findings' rows built on the run's defaults. |
| ReportExporter.RunColumnNames | core/report_exporter.py:25-28 | The run columns, the evidence column and the references column sit at their fixed positions. |
| ReportExporter.RunColumnsShared | core/report_exporter.py:29-55 | Every row agrees on the run's columns, and the evidence column holds the finding's `evidence`. |
| ReportExporter.EscValue | core/report_exporter.py:61-62 | `None` renders as "", a string as its HTML escape, and no rendered value carries markup. |
| ReportExporter.HtmlRowOf | core/report_exporter.py:101-114 | A row renders exactly when the finding's severity can be read. Its class is the escaped lower-cased severity. |
| ReportExporter.HtmlRows | core/report_exporter.py:101-114 | One row per finding, in order. The page fails exactly when some finding is not a dict or has a truthy severity that is not a string. |
| ReportExporter.RenderHtml | core/report_exporter.py:58-125 | The page renders exactly when the run is a dict, its `targets` can be indexed and every finding has a string severity. The five severity counts are shown in order, 0 when missing. The table is the placeholder exactly when there are no findings. Otherwise its rows are the findings' rows, in order. The header carries no markup. |
| ReportExporter.HtmlRowsInOrder | core/report_exporter.py:101-114 | Row `i` of a rendered page is finding `i`'s row, and its class is that finding's escaped severity. |
| ReportExporter.BadSeverityAbortsPage | core/report_exporter.py:101-103 | A finding without a string severity aborts the page, whatever the other findings are. |
| ReportExporter.LoadedCountsShown | core/report_exporter.py:92-96 | For a loaded model, the page shows each severity's count of findings. |
| ReportExporter.FindingRow | core/report_exporter.py:221 | A dict gives its eight fields in order, "" for missing ones. Anything else gives eight empty cells. |
| ReportExporter.FindingsCsv | core/report_exporter.py:209-222 | No findings give no rows; otherwise there is one row per finding, in order. |
| ReportExporter.ExportNamesDistinct | core/report_exporter.py:166-222 | The four exports of one run never share a file name. |
| ReportExporter.ExportPathLayout | core/report_exporter.py:159-163 | With plain names, each export is a direct child of `<run dir>/exports`, itself a direct child of the run folder. |
| ReportExporter.RawToHtml | core/report_exporter.py:177-196 | The page body is the escaped raw text, and the title, heading and body carry no markup. |
| ReportModel.SeverityOf | core/report_model.py:36 | A non-dict has no severity, because the lookup raises. A falsy severity reads as "", and a string is lower-cased. |
| ReportModel.Outcomes | core/report_model.py:29-34 | Each line yields the parse of its stripped text, or nothing when it is blank. |
| ReportModel.FindingsFromLines | core/report_model.py:29-35 | A finding is exactly the parse of a non-blank stripped line. |
| ReportModel.BlankLineSkipped | core/report_model.py:30-32 | A blank line adds no finding. |
| ReportModel.BumpCounts | core/report_model.py:36-38 | One more finding keeps every counter equal to the number of findings of its severity. |
| ReportModel.LoadRunModel | core/report_model.py:13-43 | The schema is "1.0", and an unreadable run file gives `{}`. No findings path gives no findings, and a missing file likewise. Another open error propagates. Otherwise the findings are those of the lines, and every counter matches them. |
| ReportModel.Tally | core/report_model.py:29-40 | The loop collects exactly the parsed findings, with counters that match them. |
| ReportModel.TotalBounded | core/report_model.py:36-38 | The counters add up to at most the number of findings. |
| ReportModel.HighFindingCounted | core/report_model.py:36-38 | A dict finding with severity "HIGH" adds one to "high" and nothing to "low". |
| ScanEngine.Norm | core/scan_thread.py:172-174 | The key uses only lower-case letters, digits, `-`, `_` and `.`. It neither starts nor ends with `_` and is no longer than the input. |
| ScanEngine.NormFixpoint | core/scan_thread.py:172-174 | A valid key comes back unchanged. |
| ScanEngine.NormIdempotent | core/scan_thread.py:172-174 | Sanitising twice is the same as sanitising once. |
| ScanEngine.NormCaseFolded | core/scan_thread.py:172-174 | Distinct names can share a key: case is folded. |
| ScanEngine.NormDotDot | core/scan_thread.py:172-174 | ".." survives as a key. |
| ScanEngine.NormAllUnsafe | core/scan_thread.py:172-174 | A name made only of unsafe characters gives the empty key. |
| ScanEngine.ProfileMode | core/scan_thread.py:49 | The mode is the lower-cased profile name when given, else the lower-cased scan mode, else "normal". |
| ScanEngine.ProfileKeyCanonical | core/scan_thread.py:283-288 | Aggressive, Normal and Passive, in any case and with surrounding blanks, map to their table keys. Any other name is kept as given. |
| ScanEngine.SubstituteNoPlaceholder | core/scan_thread.py:333-335 | A template without `{target}` is passed on unchanged. |
| ScanEngine.DecideRunTool | core/scan_thread.py:259-348 | An unknown tool is not supported. In Custom mode an empty or DISABLED custom template is a skip without error, and anything else calls the plugin with the target substituted. In other modes a template that upper-cases to DISABLED is a skip with error, and anything else calls the plugin. |
| ScanEngine.EmptyTemplateIsNotSkip | core/scan_thread.py:327-337 | An empty template outside Custom mode is not a skip: the plugin is called with "". |
| ScanEngine.PaddedCustomIsNotCustom | core/scan_thread.py:283-293 | " custom" is not the Custom profile. Its key is not remapped, so it misses the table and calls the plugin with "". |
| ScanEngine.RunDirInjective | core/scan_thread.py:229 | For keys and run ids that are neither empty nor ".", two jobs share a folder only if target key, tool key and run id all agree |
| ScanEngine.EmptyKeyCollision | core/scan_thread.py:229 | An empty key is dropped by pathlib, so an empty target key and an empty tool key can share a folder. |
| ScanEngine.DotKeyCollision | core/scan_thread.py:229 | A key "." survives `_norm` and is dropped by pathlib, so a "." target key and a "." tool key can share a folder. |
| ScanEngine.RunToolAndSave | core/scan_thread.py:158-272 | These are reported as errors, each with its own message and no file: a cancelled job, an unsupported tool, a skip with error, a plugin that raises, a `CalledProcessError` (its output), a `(msg, True)` pair (its message) and a tuple of another length (the unpacking error). Any other value, a pair replaced by its message, is settled as `Settle` says. A job of a known tool that was not cancelled leaves its run folder with `formatted` and `exports`, whatever the outcome. A written output lands in `raw_<tool>.log` under the job's run folder and is reported as finished, with that path printed as `pathlib` prints it. |
| ScanEngine.ToolDirs | core/scan_thread.py:259-272 | The folders `run_tool` makes: none for an unknown tool, else the run folder and its two children. |
| ScanEngine.Settle | core/scan_thread.py:200-251 | An existing file named by the output is the result. Otherwise a recent raw path is. Otherwise `None` or blank text is "no output", as an error. Otherwise the text is saved as `raw_<tool>.log` in the run folder and reported as finished. Every path in a message is printed as `pathlib` prints it: the output text or the recent path normalised, and the saved log as the report folder joined with its run folder components. |
| ScanEngine.SavedPathSpelledOut | core/scan_thread.py:220-251 | Under a report folder already in printed form, the saved log prints as that folder, then "All Reports", the target key, the tool key, the run id and `raw_<tool>.log`, joined with single slashes; a key that is empty or "." is left out. |
| ScanEngine.NoneIsNoOutput | core/scan_thread.py:216-217 | A plugin that returns `None`, with no recent raw path, is reported as "no output", as an error, and its run folders stay behind. |
| ScanEngine.KnownToolMakesRunDir | core/scan_thread.py:269-272 | Every job of a known tool that was not cancelled leaves its run folder, errors included. |
| ScanEngine.TextOutputSaved | core/scan_thread.py:201-251 | A text output that does not name a file is saved verbatim under the job's run folder. A blank one is reported as "no output", as an error. |
| ScanEngine.CustomSkipIsSavedAsOutput | core/scan_thread.py:194-238 | A Custom-mode skip reaches the saver as a non-error result, so its message is saved as the tool's output. |
| ScanEngine.Jobs | core/scan_thread.py:100-108 | There is one job per target and tool. |
| ScanEngine.JobsIndex | core/scan_thread.py:100-108 | Job `i * tools + j` runs tool `j` on target `i`. |
| ScanEngine.ProgressBounded | core/scan_thread.py:143-144 | Progress stays within 0..100 and is 100 once every job has completed. |
| ScanEngine.ProgressMonotone | core/scan_thread.py:143-144 | Progress never goes back as more jobs complete. |
| ScanEngine.Fold | core/scan_thread.py:120-146 | After `m` completed jobs there is one log line and one progress value per job, in completion order. The `k`-th progress value is the floor percentage of `k` jobs. The scan is in error exactly when some handled job's result is an error. |
| ScanEngine.RunScan | core/scan_thread.py:79-154 | Any cancel ends in error. Without one, the scan ends in error exactly when some job's result is an error. The first log line announces the launch. |
| ScanEngine.RunScanStatus | core/scan_thread.py:135-154 | Without a cancel, the final status does not depend on the order the pool completed the jobs in. |
| ScanEngine.ProgressNonDecreasing | core/scan_thread.py:143-146 | The progress values never decrease, and a scan that ran to the end finishes at 100. |
| ScanEngine.StripExe | core/scan_thread.py:374-375 | A trailing `.exe` in any case is removed and nothing else changes. |
| ScanEngine.CommandTargetKey | core/scan_thread.py:379-383 | The key is never empty. It is the context's target when there is one, else the sanitised text after the first `_` of the output file name, and "target" when both are empty |
| ScanEngine.CommandPathsOf | core/scan_thread.py:352-397 | An empty argv fails. Otherwise the tool key is the sanitised program name without `.exe`, the target key is the one `CommandTargetKey` derives, and the raw log is `raw_<tool>.log` in that run's folder. The run id is the context's, else the timestamp |
| ScanEngine.CommandPathsInJob | core/scan_thread.py:172-244 | Inside a job, whose context holds the normalised tool, target and run id, a direct command of that tool writes its raw log to the same folder as the job. An empty target key is replaced by "target", so then the keys differ. |
| ScanEngine.FallbackKeyIsToolPart | core/scan_thread.py:379-383 | Outside a scan job, a plugin output file `t_nmap.txt` yields the target key "nmap.txt", which is the tool part. |
| SettingsProfiles.GetPluginSchemas | gui/settings_profiles_tab.py:25-35 | Every plugin has a schema: its own, else the single `args` text field. |
| SettingsProfiles.BuildDefaultProfiles | gui/settings_profiles_tab.py:37-45 | Every profile has, for every plugin, one `args` field holding the plugin's default for that profile, or "". |
| SettingsProfiles.DefaultArgsLookup | gui/settings_profiles_tab.py:37-45 | A plugin without defaults for a profile gets "", and one with defaults gets them. |
| SettingsProfiles.InitTab | gui/settings_profiles_tab.py:18-22 | The tab starts in Normal mode, with custom arguments copied from the Normal profile for every plugin. |
| SettingsProfiles.SelectProfile | gui/settings_profiles_tab.py:120-136 | Selecting a profile other than Custom copies it over the custom arguments. Selecting Custom keeps them. The fields shown are the custom arguments afterwards. |
| SettingsProfiles.EditField | gui/settings_profiles_tab.py:263-279 | An edit switches to Custom. The edited fields take their new values and every other field keeps its old one. |
| SettingsProfiles.EditsSurviveCustom | gui/settings_profiles_tab.py:120-136 | Edits survive a later selection of Custom. |
| SettingsProfiles.OtherProfileDiscardsEdits | gui/settings_profiles_tab.py:120-136 | Selecting another profile after editing replaces the edits by that profile. |
| SettingsProfiles.SelectProfileIdempotent | gui/settings_profiles_tab.py:120-136 | Selecting the same profile twice is the same as selecting it once. |
| SettingsProfiles.ProfileTableIsFixed | gui/settings_profiles_tab.py:120-279 | Neither selecting nor editing changes the profile table. |
| SettingsProfiles.ResourceWarning | gui/settings_profiles_tab.py:106-117 | 1 is sequential, up to 3 balanced, 4 turbo, and 5 or more high. |
| SettingsProfiles.WarningMonotone | gui/settings_profiles_tab.py:104-117 | The warning never weakens as the value grows, and the default value shows "balanced". |
| ToolWorker.HasCmd | gui/tool_worker.py:24-39 | A blank name is never found and never cached. A cached key answers from the cache, and an uncached one asks PATH. Earlier answers are kept. |
| ToolWorker.HasCmdNeverReprobes | gui/tool_worker.py:33-36 | A name once probed is never probed again: any later spelling with the same key gets the first answer, whatever PATH now says. |
| ToolWorker.Emit | gui/tool_worker.py:41-53 | `None` emits "". A text without a trailing newline is kept, and one with a trailing newline loses exactly one. |
| ToolWorker.EmitDropsOneNewline | gui/tool_worker.py:41-53 | Emitting undoes one appended newline, and only one. |
| ToolWorker.KeptDropsOnlyLoneTrailing | gui/tool_worker.py:118-124 | The trailing empty piece is dropped exactly when it is the only empty piece. Otherwise every piece is kept. |
| ToolWorker.BlankLineBufferedTwice | gui/tool_worker.py:118-124 | As written, the line "\n" is buffered as two empty pieces. |
| ToolWorker.PiecesFixed | gui/tool_worker.py:117-124 | The corrected reader keeps the whole split of a line that has no final newline. |
| ToolWorker.PiecesFixedRejoin | gui/tool_worker.py:117-124 | The corrected reader loses nothing: its pieces joined with newlines, plus the final newline, give back the line. |
| ToolWorker.ReadersDifferOnBlankLine | gui/tool_worker.py:118-124 | On a blank line, the reader as written buffers two empty pieces and the corrected one buffers one. |
| ToolWorker.PushAllKeepsLast | gui/tool_worker.py:107-124 | The bounded buffer, filled piece by piece, holds exactly the last `max_lines` pieces. |
| ToolWorker.RunCmd | gui/tool_worker.py:55-188 | Empty arguments and a missing working folder give 2 with a runner error. A missing program gives 127 and a launch error gives 1. A finished run gives its exit code and output. A timeout gives 124 "command timed out", and a cancel gives 130 with the output so far. |
| ToolWorker.OwnExit124ReadsAsTimeout | gui/tool_worker.py:186-187 | A tool that itself exits with 124 is reported as timed out and its output is lost, even with no timeout set. |
| ToolWorker.ArgvInjective | gui/tool_worker.py:197-249 | Distinct install commands have distinct argvs. |
| ToolWorker.RunOnce | gui/tool_worker.py:197-249 | A helper succeeds exactly on exit code 0. Its message is the output, else "OK" or the failure text. |
| ToolWorker.Guarded | gui/tool_worker.py:197-240 | A helper whose package manager is not on PATH runs nothing and says so. Otherwise it runs its one command, and any success is confirmed by a zero exit code. |
| ToolWorker.GoMod | gui/tool_worker.py:245 | The module path always carries a version. A path without one gets `@latest` appended, and one with a version is kept. |
| ToolWorker.GoModIdempotent | gui/tool_worker.py:245 | Pinning a pinned path changes nothing. |
| ToolWorker.AptHelper | gui/tool_worker.py:206-223 | Without apt-get nothing runs, and a non-root user is told to use sudo. A success ran both the refresh and the install. |
| ToolWorker.AptRefreshThenInstall | gui/tool_worker.py:214-223 | A failed refresh stops there. Otherwise the install runs and decides the outcome. |
| ToolWorker.AptHelperSucceeds | gui/tool_worker.py:206-223 | apt succeeds exactly when both the refresh and the install exit with 0. |
| ToolWorker.RouteOf | gui/tool_worker.py:278-320 | apt, brew and choco are used only on their own OS. pip, go, git, manual and docker work anywhere, and every other hint falls back. |
| ToolWorker.TryInstallToolFunc | gui/tool_worker.py:254-333 | A tool already on PATH is reported present and nothing runs. |
| ToolWorker.RouteStepFacts | gui/tool_worker.py:278-333 | Guidance routes run nothing and fail. go installs the URL, else the tool, pinned. Every command runs on its own OS, and every success is confirmed by a zero exit code. |
| ToolWorker.TryInstallRoutes | gui/tool_worker.py:278-333 | git, manual, docker and unknown hints install nothing. go installs the pinned URL, else the pinned tool. |
| ToolWorker.TryInstallSuccessJustified | gui/tool_worker.py:254-333 | Success means the tool was on PATH, or the last command run exited with 0. |
| ToolWorker.TryInstallOnlyNativeManagers | gui/tool_worker.py:278-320 | apt-get runs only on Linux, brew only on macOS, and choco only on Windows. |
| ToolWorker.TryInstallIsRoute | gui/tool_worker.py:270-333 | For a missing tool, the outcome is that of the route picked by the stripped, lower-cased hint. |
| ToolWorker.WorkerRuntimeName | gui/tool_worker.py:564-568 | The name is the stripped alias, else the stripped executable, else the required tool. |
| ToolWorker.WorkerRuntimeNameAgrees | gui/tool_worker.py:564-568 | For an adapter without padded names, the worker's runtime name is the installer's alias. |
| ToolWorker.PullsAgreeWithInstaller | gui/tool_worker.py:589-593 | The worker pulls exactly the image the installer's `pull_image_if_mentioned` pulls. |
| ToolWorker.DockerPath | gui/tool_worker.py:582-611 | Without docker or a docker command nothing runs. Success is exactly docker present with a command, and the shim created and verified. |
| ToolWorker.NotFoundStaysNotFound | gui/tool_worker.py:33-36 | Once neither name was found, every later probe on an extension of that cache answers "not found", whatever PATH says. |
| ToolWorker.InstallOne | gui/tool_worker.py:555-643 | An unknown plugin fails and runs nothing. A tool already present succeeds and runs nothing. |
| ToolWorker.InstallOneNeverConfirms | gui/tool_worker.py:575-633 | As written, a tool that was not on PATH before the attempt is never reported installed, whatever the attempt did. |
| ToolWorker.AptInstallReportedMissing | gui/tool_worker.py:575-633 | Concretely: nmap with hint apt, absent at first, as root, with both apt-get runs exiting 0, is still reported missing. |
| ToolWorker.InstallOneFixed | gui/tool_worker.py:555-643 | Corrected: success means the tool was present before, or the attempt succeeded and PATH now shows the tool. |
| ToolWorker.FixedConfirmsMore | gui/tool_worker.py:633 | The correction only turns false reports into true ones. |
| ToolsUtils.IsToolInstalled | core/tools_utils.py:11-57 | A tool counts as installed exactly when it is on PATH and is a GUI tool or answers one of the flags with 0 or 1, or when its script file exists. The flags are tried in order, and the tool is never run when it is missing or a GUI tool. |
| ToolsUtils.ProbeFlags | core/tools_utils.py:34-49 | The flags are tried in order until one gives 0 or 1. If none does, all four were tried. |
| ToolsUtils.MissingWithoutScriptIsAbsent | core/tools_utils.py:23 | A tool missing from PATH, with no script path, is absent. |
| ToolsUtils.PaddedGuiNameIsLaunched | core/tools_utils.py:20-31 | The GUI test reads the name as given, so a padded GUI tool name is not recognised and gets run. |

## Left out

- Processes, pipes and threads are oracles. This covers `subprocess`, the
  reader thread of `_run_cmd`, `kill` and `terminate`, and the thread pools.
  The model takes each command's exit code and output, and the pool's
  completion order as an arbitrary permutation.
- Cancel events are a parameter giving the point at which the cancel was seen.
- Clocks are parameters. Timestamps and fresh run ids are passed in, and the
  15-second "recent path" test of `run_tool_and_save` is a given optional path.
- The timing of output delivery is left out: the 0.05-second poll of
  `_run_cmd` (gui/tool_worker.py:162) and the 0.25-second throttle of the
  scan engine's `run_command` (core/scan_thread.py:437).
- ScanEngine.Fold: progress is the exact integer floor `done * 100 / total`.
  The source computes `int((done / total) * 100)` in floating point, which
  can round one below: for 29 of 50 jobs the source reports 57 where the
  model says 58 (likewise 29 of 100 and 57 of 100). Floating point is not
  modelled.
- ScanEngine.RunToolAndSave: the message of a `(msg, had_error)` pair is taken
  as text and its flag as a boolean. The source accepts any objects there and
  tests the flag's truthiness; a non-text message is not modelled.
- Qt is left out: widgets, signals and slots, `QTextEdit`, PDF export, and the
  painting in the ANSI viewer and the flow layout. Only the logic they drive
  is modelled.
- The sudo warm-up, `create_docker_shim` file writes and `_verify_docker_shim`
  runs of the install worker are one oracle: whether the shim was created and
  verified.
- The `--create-plugin` and `--list-plugins` options of `reconcraft.py` are
  left out: they only write a file or print. The `report.json` dump is
  modelled only as the path it goes to; the JSON text is not.
- `list_available_plugins` and `check_tool_installed` of `reconcraft.py` are
  left out: they only print or delegate to `which`.
- `save_custom_profile` of `gui/settings_profiles_tab.py` is left out: it only
  writes a JSON file.
- `show_tool_help`, `prepare_scan_directories` and `export_copy_raw` (beyond
  its file name) are left out: they are file or console I/O.
- The searchsploit call made for each CVE is a parameter.
- JSON parsing is an oracle (`parse`). Python's `str()` of floats, lists and
  dicts is a `repr` parameter. CSV quoting is left to the writer: the model states the
  cells, not the bytes.
- Python's string methods are modelled for ASCII. Unicode case mapping and
  Unicode whitespace are not modelled.
- `pathlib` is modelled for POSIX paths only: Windows drives and backslash
  separators are not modelled.
- ReportExporter.ExportCsv: the CSV file is opened for writing, and so
  emptied, before the first row is built (core/report_exporter.py:39). A
  finding whose row fails leaves the header and the earlier rows on disk.
  The model returns the error and states no file contents for that case.
- The manual fallback of both installers also opens a web search with
  `webbrowser.open` (gui/common_widgets.py:138, core/installer_utils.py:348).
  That is a side effect outside the program; only the "manual" result and
  its messages before it are modelled.
- InstallWorkers.WorkerRun: the `except Exception` path
  (gui/tool_worker.py:683-688) is not modelled. The oracles of the model
  never raise, so the worker always reaches its normal end. The source would
  emit 100 and the list still missing, then finish with False.
- ReconCli.ReadIpList: only a missing file is modelled as an error, giving
  no targets (reconcraft.py:25). Other errors on opening or reading, such
  as a permission error or a folder, propagate to the caller in the source
  and are not modelled.
- `os.path.join` and `os.path.split` are modelled for the cases the layout
  uses: relative components without trailing separators.
- `cvss_calc.py`, `install.py`, `main.py`, `core/controller.py`,
  `gui/ui_main.py` and `core/scan_thread_patch_snippets.py` are not part of
  this model, and neither are the plugins other than template, wafw00f,
  smbclient and sqlmap.
- Log and debug messages are modelled only where they are part of a result:
  the scan engine's per-job messages and its launch line.
- ToolCheckWorker's emitted text is left out. Its progress and its list of
  missing plugins are modelled.
- ReportExporter.CsvRow: states only the row's width. The cell-by-cell content is
  stated through `ReportExporter.RunColumnsShared` and `ReportExporter.WriteRow`.
- ToolWorker.TryInstallToolFunc: its own contract covers only the "already
  present" path. The routes are stated by `ToolWorker.TryInstallIsRoute`,
  `ToolWorker.TryInstallRoutes` and `ToolWorker.TryInstallSuccessJustified`.
- ToolWorker.InstallOne: its own contract covers only the unknown-plugin and
  already-present paths. The attempt itself is stated by
  `ToolWorker.InstallOneNeverConfirms`.

## Findings

| source | as written | input that shows it | evidently intended | confidence | as-written member | corrected member |
|---|---|---|---|---|---|---|
| core/installer_utils.py:289-293 | The apt index refresh `apt-get update` is appended to the install methods as a method of its own, of kind apt. Its exit code 0 ends the retry loop with "installed". | Root on Linux, hint "apt", `apt-get update` exits 0 and every install command fails: the result is "installed" and nothing was installed. | The refresh is a preparation step, as in the widget installer. Only an install command can report success. | not executed | Installer.AptRefreshCountsAsInstall | Installer.FixedSuccessIsInstall |
| gui/tool_worker.py:633 | `path_ok` re-reads `has_cmd`, whose cache (lines 33-36) still holds the "not found" stored by the presence check at line 575. | nmap with hint "apt", absent at first, running as root, both apt-get runs exit 0: the plugin is reported missing. | The probe after an install looks PATH up afresh. | not executed | ToolWorker.InstallOneNeverConfirms | ToolWorker.FixedConfirmsMore |
| gui/tool_worker.py:118-124 | The reader drops a trailing empty piece only when it is the first empty piece (`parts.index(p)`), so a blank line keeps both its pieces. | The line "\n" is buffered as two empty lines. | Only the piece after the line's own final newline is dropped. | not executed | ToolWorker.BlankLineBufferedTwice | ToolWorker.PiecesFixedRejoin |
| gui/flow_layout.py:66 | The wrap test compares one past the item's last column with `rect.right()`, which is already the last column inside. | Two 50-wide items in a 100-wide rectangle with spacing 0 take two lines. | An item wraps only when its last column lies outside the rectangle. | not executed | FlowLayout.ExactFitWraps | FlowLayout.DoLayoutFixedWraps |
| reconcraft.py:33 | The assignments of `RAW_DIR`, `CVE_DIR`, `BASE_DIR` and `REPORT_DIR` (lines 147-152) sit inside a string literal, so the globals are never bound. `run_command` reads `RAW_DIR` at line 33, outside its `try`, and `extract_cves` reads `CVE_DIR` at line 59. | Any call, for example `run_command("nmap 10.0.0.1", "nmap.txt")`, raises `NameError: name 'RAW_DIR' is not defined`. | `main` binds the four folders before any helper runs. | not executed | ReconCli.UnboundHelpersFail | ReconCli.BoundHelpersSucceed |
| reconcraft.py:198 | With the folders unbound, line 119 raises `NameError` inside the `try` while building the plugin call, and line 198 raises it again outside any `try`. | One target and one plugin that defines `run`: the plugin is recorded as "Failed: name 'RAW_DIR' is not defined", and the program then dies, so `report.json` is never written. | The plugins run with the raw and base folders, and the report is written to `report.json` in the report folder. | not executed | ReconCli.UnboundScanCrashes | ReconCli.BoundScanWritesReport |

=== FILE: Adapters.dfy ===
/** The plugin adapter contract of `plugins/template.py` and the three
    adapters that follow it (`wafw00f`, `smbclient`) or diverge from it
    (`sqlmap`): module constants, `DEFAULT_ARGS`, `build_command_args`,
    `get_install_info`, `validate` and the decision sequence of `run`.

    Whether a tool is on PATH, the command runner and the file read are
    parameters of `run`; its result is either a refusal or the command it
    hands to the runner. */
module Adapters {
  import opened Wrappers
  import opened Text
  import ScanEngine

  /** Which `run` an adapter ships: the template's, or sqlmap's older one
      (which also has no `validate`). */
  datatype RunStyle = TemplateStyle | SqlmapStyle

  /** An adapter module's constants. Absent optional constants are "". */
  datatype Adapter = Adapter(
    requiredTool: string,
    installHint: string,
    installUrl: string,
    executable: string,
    toolAlias: string,
    dockerRun: string,
    defaultArgs: map<string, string>,
    style: RunStyle)

  const Template := Adapter("toolname", "apt", "", "", "", "",
    map["Aggressive" := "-arg1 -arg2 -extra-aggressive {{target}}",
        "Normal" := "-arg1 -arg2 {{target}}",
        "Passive" := "DISABLED",
        "Custom" := "{{target}}"],
    TemplateStyle)

  const Wafw00f := Adapter("wafw00f", "pip", "https://github.com/EnableSecurity/wafw00f", "", "", "",
    map["Aggressive" := "{{target}} -a -v",
        "Normal" := "{{target}} -a",
        "Passive" := "{{target}}",
        "Custom" := "{{target}}"],
    TemplateStyle)

  const Smbclient := Adapter("smbclient", "apt", "", "", "", "",
    map["Aggressive" := "-L {{target}} -U '%' -N -d 3",
        "Normal" := "-L {{target}} -U '%' -N",
        "Passive" := "-L {{target}} -N",
        "Custom" := "{{target}}"],
    TemplateStyle)

  const Sqlmap := Adapter("sqlmap", "apt", "", "", "", "",
    map["Aggressive" := "-u {target} --batch --random-agent --level=5 --risk=3 --threads=10",
        "Normal" := "-u {target} --batch --random-agent --level=3 --risk=2",
        "Passive" := "DISABLED"],
    SqlmapStyle)

  // =====================================================================
  // build_command_args
  // =====================================================================

  function DropEmpty(parts: seq<string>): (r: seq<string>)
    ensures forall k :: 0 <= k < |r| ==> r[k] != ""
    ensures (forall k :: 0 <= k < |parts| ==> parts[k] != "") ==> r == parts
  {
    if parts == [] then []
    else (if parts[0] == "" then [] else [parts[0]]) + DropEmpty(parts[1..])
  }

  /** `[a for a in s.split() if a]`: the whitespace-separated words; the
      emptiness filter never removes anything. */
  function BuildCommandArgs(s: string): (argv: seq<string>)
    ensures argv == SplitWs(s)
    ensures forall k :: 0 <= k < |argv| ==> argv[k] != "" && NoSpace(argv[k])
    ensures Concat(argv) == RemoveSpaces(s)
  {
    DropEmpty(SplitWs(s))
  }

  /** Words joined by single spaces come back unchanged. */
  lemma BuildCommandArgsRoundTrip(words: seq<string>)
    requires forall k :: 0 <= k < |words| ==> words[k] != "" && NoSpace(words[k])
    ensures BuildCommandArgs(Join(words, " ")) == words
  {
    SplitJoinRoundTrip(words);
  }

  /** smbclient's `'%'` is handed to the program with its quotes, since no
      shell ever sees the argument string. */
  lemma SmbclientQuotesAreLiteral()
    ensures BuildCommandArgs(Smbclient.defaultArgs["Normal"]) == ["-L", "{{target}}", "-U", "'%'", "-N"]
  {
    var words := ["-L", "{{target}}", "-U", "'%'", "-N"];
    SmbclientNormalJoined();
    SmbclientWordsPlain();
    BuildCommandArgsRoundTrip(words);
  }

  lemma SmbclientNormalJoined()
    ensures Join(["-L", "{{target}}", "-U", "'%'", "-N"], " ") == Smbclient.defaultArgs["Normal"]
  {
    JoinFive("-L", "{{target}}", "-U", "'%'", "-N");
    SmbclientNormalSpelled();
    SmbclientNormalLookup();
  }

  lemma SmbclientNormalLookup()
    ensures Smbclient.defaultArgs["Normal"] == "-L {{target}} -U '%' -N"
  {
  }

  lemma SmbclientNormalSpelled()
    ensures "-L" + " " + ("{{target}}" + " " + ("-U" + " " + ("'%'" + " " + "-N"))) == "-L {{target}} -U '%' -N"
  {
  }

  lemma SmbclientWordsPlain()
    ensures var words := ["-L", "{{target}}", "-U", "'%'", "-N"];
      forall k :: 0 <= k < |words| ==> words[k] != "" && NoSpace(words[k])
  {
  }

  /** Five words joined by single spaces. */
  lemma JoinFive(a: string, b: string, c: string, d: string, e: string)
    ensures Join([a, b, c, d, e], " ") == a + " " + (b + " " + (c + " " + (d + " " + e)))
  {
    assert [d, e][1..] == [e];
    assert Join([d, e], " ") == d + " " + e;
    assert [c, d, e][1..] == [d, e];
    assert Join([c, d, e], " ") == c + " " + (d + " " + e);
    assert [b, c, d, e][1..] == [c, d, e];
    assert Join([b, c, d, e], " ") == b + " " + (c + " " + (d + " " + e));
    assert [a, b, c, d, e][1..] == [b, c, d, e];
  }

  // =====================================================================
  // get_install_info / validate
  // =====================================================================

  datatype InstallInfo = InstallInfo(requiredTool: string, installHint: string, installUrl: string,
                                     execName: string, aliasName: string, dockerRun: string)

  /** Lines 28-43 of the template: the executable defaults to the
      required tool, the alias to the executable. */
  function GetInstallInfo(a: Adapter): (info: InstallInfo)
    ensures info.requiredTool == a.requiredTool && info.installHint == a.installHint
    ensures info.execName == (if a.executable != "" then a.executable else a.requiredTool)
    ensures info.aliasName == (if a.toolAlias != "" then a.toolAlias else info.execName)
    ensures a.requiredTool != "" ==> info.execName != "" && info.aliasName != ""
  {
    InstallInfo(a.requiredTool, a.installHint, a.installUrl,
                Or(a.executable, a.requiredTool),
                Or(a.toolAlias, Or(a.executable, a.requiredTool)),
                a.dockerRun)
  }

  const ValidHints: set<string> := {"apt", "brew", "choco", "pip", "go", "git", "manual", "docker"}

  const RequiredToolMsg := "REQUIRED_TOOL is required"
  const InstallHintMsg := "INSTALL_HINT must be one of apt|brew|choco|pip|go|git|manual|docker"
  const DockerRunMsg := "DOCKER_RUN is required when INSTALL_HINT='docker'"

  /** Lines 45-51 of the template: the first failed check raises. The
      result is `None` for an adapter without `validate` (sqlmap). */
  function Validate(a: Adapter): (r: Option<Result<()>>)
    ensures a.style.SqlmapStyle? <==> r.None?
    ensures r.Some? ==>
      (r.value.Ok? <==> a.requiredTool != "" && a.installHint in ValidHints
                        && (a.installHint == "docker" ==> a.dockerRun != ""))
    ensures r.Some? && a.requiredTool == "" ==> r.value == Err(RequiredToolMsg)
    ensures r.Some? && a.requiredTool != "" && a.installHint !in ValidHints ==> r.value == Err(InstallHintMsg)
    ensures r.Some? && a.requiredTool != "" && a.installHint == "docker" && a.dockerRun == "" ==>
      r.value == Err(DockerRunMsg)
  {
    if a.style.SqlmapStyle? then None
    else if a.requiredTool == "" then Some(Err(RequiredToolMsg))
    else if a.installHint !in ValidHints then Some(Err(InstallHintMsg))
    else if a.installHint == "docker" && a.dockerRun == "" then Some(Err(DockerRunMsg))
    else Some(Ok(()))
  }

  /** The shipped adapters pass their own validation. */
  lemma ShippedAdaptersValidate()
    ensures Validate(Template) == Some(Ok(()))
    ensures Validate(Wafw00f) == Some(Ok(()))
    ensures Validate(Smbclient) == Some(Ok(()))
    ensures Validate(Sqlmap).None?
  {
  }

  // =====================================================================
  // run
  // =====================================================================

  /** What `run` does before reading the output file back: refuse with
      `(message, True)`, or call `run_command(argv, raw_file)`. */
  datatype PluginRun = Refused(msg: string) | Ran(argv: seq<string>, rawFile: string)

  function RuntimeName(a: Adapter): string {
    Strip(Or(a.toolAlias, Or(a.executable, a.requiredTool)))
  }

  function DisabledForProfileMsg(name: string, target: string): string {
    "[!] " + name + " is disabled for this profile. Skipping " + target + "."
  }

  function NotOnPathMsg(runtime: string, target: string): string {
    "[!] " + runtime + " not available on PATH. Skipping " + target + "."
  }

  function NotInstalledMsg(name: string, target: string): string {
    "[!] " + name + " not installed. Skipping " + target + "."
  }

  function RawFileName(target: string, name: string): string {
    target + "_" + name + ".txt"
  }

  /** The template's `run` (lines 53-90): a "DISABLED" argument string
      (case-insensitive, surrounding blanks ignored) refuses; a runtime
      name not on PATH refuses; otherwise the runtime name and the split
      arguments are run. */
  function TemplateRun(a: Adapter, target: string, args: string, installed: string -> bool): (r: PluginRun)
    ensures Strip(Upper(args)) == "DISABLED" ==> r == Refused(DisabledForProfileMsg(a.requiredTool, target))
    ensures Strip(Upper(args)) != "DISABLED" && !installed(RuntimeName(a)) ==>
      r == Refused(NotOnPathMsg(RuntimeName(a), target))
    ensures r.Ran? ==>
      installed(RuntimeName(a)) && Strip(Upper(args)) != "DISABLED"
      && |r.argv| >= 1 && r.argv[0] == RuntimeName(a) && r.argv[1..] == SplitWs(args)
      && r.rawFile == RawFileName(target, a.requiredTool)
  {
    if Strip(Upper(args)) == "DISABLED" then Refused(DisabledForProfileMsg(a.requiredTool, target))
    else if !installed(RuntimeName(a)) then Refused(NotOnPathMsg(RuntimeName(a), target))
    else
      var argv := [RuntimeName(a)] + BuildCommandArgs(args);
      assert argv[1..] == SplitWs(args);
      Ran(argv, RawFileName(target, a.requiredTool))
  }

  /** sqlmap's `run` (lines 12-49): only an exactly upper-cased-to
      "DISABLED" string refuses (no strip); the installation check uses the
      plugin name; `{target}` is replaced here and the result split. */
  function SqlmapRun(a: Adapter, target: string, args: string, installed: string -> bool): (r: PluginRun)
    ensures Upper(args) == "DISABLED" ==> r == Refused(DisabledForProfileMsg(a.requiredTool, target))
    ensures Upper(args) != "DISABLED" && !installed(a.requiredTool) ==>
      r == Refused(NotInstalledMsg(a.requiredTool, target))
    ensures r.Ran? ==>
      installed(a.requiredTool) && |r.argv| >= 1 && r.argv[0] == a.requiredTool
      && (args == "" ==> r.argv == [a.requiredTool])
      && (args != "" ==> r.argv[1..] == SplitWs(Replace(args, "{target}", target)))
      && r.rawFile == RawFileName(target, a.requiredTool)
  {
    if Upper(args) == "DISABLED" then Refused(DisabledForProfileMsg(a.requiredTool, target))
    else if !installed(a.requiredTool) then Refused(NotInstalledMsg(a.requiredTool, target))
    else
      var argList := if args != "" then SplitWs(Replace(args, "{target}", target)) else [];
      var argv := [a.requiredTool] + argList;
      assert argv[1..] == argList;
      Ran(argv, RawFileName(target, a.requiredTool))
  }

  function Run(a: Adapter, target: string, args: string, installed: string -> bool): PluginRun {
    if a.style.TemplateStyle? then TemplateRun(a, target, args, installed) else SqlmapRun(a, target, args, installed)
  }

  /** What the scan engine receives from a plugin call: the refusal tuple,
      or the contents of the file the runner wrote, flagged as no error.
      `readBack` stands for running the command and reading its file. */
  function PluginResult(run: PluginRun, readBack: (seq<string>, string) -> string): (v: ScanEngine.PluginValue)
    ensures run.Refused? ==> v == ScanEngine.Pair(run.msg, true)
    ensures run.Ran? ==> v == ScanEngine.Pair(readBack(run.argv, run.rawFile), false)
  {
    match run
    case Refused(m) => ScanEngine.Pair(m, true)
    case Ran(argv, f) => ScanEngine.Pair(readBack(argv, f), false)
  }

  /** A padded " disabled " argument string is refused by the template's
      `run` but reaches sqlmap's command line as a word. */
  lemma PaddedDisabledDiverges(target: string, installed: string -> bool)
    requires installed("sqlmap")
    ensures TemplateRun(Wafw00f, target, " disabled ", installed).Refused?
    ensures SqlmapRun(Sqlmap, target, " disabled ", installed).Ran?
  {
    var u := Upper(" disabled ");
    assert u == " DISABLED " by {
      assert |u| == 10;
      forall i | 0 <= i < 10 ensures u[i] == " DISABLED "[i] {
      }
    }
    var t := TrimStartBy(u, IsSpace);
    assert u[1..] == "DISABLED ";
    assert t == TrimStartBy("DISABLED ", IsSpace) == "DISABLED ";
    assert "DISABLED "[..8] == "DISABLED";
    assert TrimEndBy("DISABLED ", IsSpace) == TrimEndBy("DISABLED", IsSpace) == "DISABLED";
    assert Strip(u) == "DISABLED";
    assert |u| != |"DISABLED"|;
  }

  // =====================================================================
  // DEFAULT_ARGS tables
  // =====================================================================

  /** Every wafw00f profile names the target with the double-brace
      placeholder. */
  lemma Wafw00fArgsNameTarget()
    ensures forall k :: k in Wafw00f.defaultArgs ==> Contains(Wafw00f.defaultArgs[k], "{{target}}")
  {
    forall k | k in Wafw00f.defaultArgs ensures Contains(Wafw00f.defaultArgs[k], "{{target}}") {
      var t := Wafw00f.defaultArgs[k];
      assert t[0..10] == "{{target}}";
      ContainsWitness(t, "{{target}}", 0);
    }
  }

  /** sqlmap is disabled in Passive mode and has no Custom entry, so a
      Custom scan must supply its arguments. */
  lemma SqlmapTable()
    ensures Sqlmap.defaultArgs["Passive"] == "DISABLED"
    ensures "Custom" !in Sqlmap.defaultArgs
    ensures Template.defaultArgs["Passive"] == "DISABLED"
  {
  }

  lemma LowerPassive()
    ensures Lower(Strip("passive")) == "passive"
  {
    StripByNoop("passive", IsSpace);
    var l := Lower("passive");
    assert l == "passive" by { assert |l| == 7 && forall i :: 0 <= i < 7 ==> l[i] == "passive"[i]; }
  }

  /** In a Passive scan the engine skips the template adapter as an error
      before the plugin is ever called. */
  lemma PassiveTemplateSkippedByEngine(target: string, custom: map<string, string>)
    ensures ScanEngine.DecideRunTool("toolname", target, true, Template.defaultArgs, "passive", custom)
            == ScanEngine.Skip(ScanEngine.DisabledMsg("toolname", "Passive", target), true)
  {
    PassiveKey();
    TemplatePassiveDisabled();
    DisabledDecision("toolname", target, Template.defaultArgs, "passive", custom, "Passive");
  }

  lemma PassiveKey()
    ensures ScanEngine.ProfileKey("passive") == "Passive"
    ensures Lower("Passive") != "custom"
  {
    LowerPassive();
    var lk := Lower("Passive");
    assert lk == "passive" by { assert |lk| == 7 && forall i :: 0 <= i < 7 ==> lk[i] == "passive"[i]; }
    assert |lk| != |"custom"|;
  }

  lemma TemplatePassiveDisabled()
    ensures Upper(ScanEngine.Lookup(Template.defaultArgs, "Passive")) == "DISABLED"
  {
    assert ScanEngine.Lookup(Template.defaultArgs, "Passive") == "DISABLED";
    var u := Upper("DISABLED");
    assert u == "DISABLED" by { assert |u| == 8 && forall i :: 0 <= i < 8 ==> u[i] == "DISABLED"[i]; }
  }

  /** A known tool whose profile entry reads DISABLED is skipped as an
      error, whatever the custom arguments. */
  lemma DisabledDecision(tool: string, target: string, defaultArgs: map<string, string>, mode: string,
                         custom: map<string, string>, key: string)
    requires ScanEngine.ProfileKey(mode) == key && Lower(key) != "custom"
    requires Upper(ScanEngine.Lookup(defaultArgs, key)) == "DISABLED"
    ensures ScanEngine.DecideRunTool(tool, target, true, defaultArgs, mode, custom)
            == ScanEngine.Skip(ScanEngine.DisabledMsg(tool, key, target), true)
  {
  }
}

=== FILE: Ansi.dfy ===
/** The raw-output viewer's ANSI handling (`gui/ansi_text_viewer.py`): the
    SGR control function of ECMA-48 (section 8.3.117), `ESC [ params m`,
    turned into HTML spans by `_ansi_to_html`, and removed by `strip_ansi`.

    The text is first cut into literal runs and SGR sequences exactly as
    `re.finditer` with the pattern `\x1b\[([0-9;]*)m` cuts it; the
    converter is then a fold over those tokens. */
module Ansi {
  import opened Wrappers
  import opened Text

  const Esc: char := '\U{1B}'

  // =====================================================================
  // Tokenising: the non-overlapping, left-to-right regex matches
  // =====================================================================

  predicate IsParamChar(c: char) { IsDigit(c) || c == ';' }

  /** End of the maximal run of parameter characters starting at `j`. */
  function RunEnd(s: string, j: nat): (r: nat)
    requires j <= |s|
    ensures j <= r <= |s|
    ensures forall k :: j <= k < r ==> IsParamChar(s[k])
    ensures r == |s| || !IsParamChar(s[r])
    decreases |s| - j
  {
    if j < |s| && IsParamChar(s[j]) then RunEnd(s, j + 1) else j
  }

  /** The end of a match of the pattern starting exactly at `i`, if any.
      The parameter class never contains `m`, so the greedy run either
      stops at an `m` or the position does not match. */
  function MatchEnd(s: string, i: nat): (e: Option<nat>)
    requires i <= |s|
    ensures e.Some? ==>
      i + 3 <= e.value <= |s| && s[i] == Esc && s[i + 1] == '[' && s[e.value - 1] == 'm'
      && ParamsBetween(s, i + 2, e.value - 1)
    ensures i < |s| && s[i] != Esc ==> e.None?
    ensures forall m :: PatternAt(s, i, m) ==> e == Some(m + 1)
  {
    if i + 1 < |s| && s[i] == Esc && s[i + 1] == '[' then
      var r := RunEnd(s, i + 2);
      assert forall m :: PatternAt(s, i, m) ==> r == m by {
        forall m | PatternAt(s, i, m) ensures r == m {
          RunEndAt(s, i + 2, m);
        }
      }
      if r < |s| && s[r] == 'm' then Some(r + 1) else None
    else None
  }

  /** `s[i..m + 1]` spells `ESC [ params m`. */
  predicate PatternAt(s: string, i: nat, m: nat) {
    i + 2 <= m < |s| && s[i] == Esc && s[i + 1] == '[' && s[m] == 'm' && ParamsBetween(s, i + 2, m)
  }

  /** The characters of `s[a..b]` are all parameter characters. */
  predicate ParamsBetween(s: string, a: nat, b: nat)
    requires a <= b <= |s|
  {
    forall k :: a <= k < b ==> IsParamChar(s[k])
  }

  /** A run of parameter characters followed by a non-parameter character
      is exactly the maximal run. */
  lemma RunEndAt(s: string, j: nat, m: nat)
    requires j <= m < |s|
    requires ParamsBetween(s, j, m) && !IsParamChar(s[m])
    ensures RunEnd(s, j) == m
  {
  }

  /** A literal run between matches, or the parameter text of a match. */
  datatype Token = Lit(text: string) | Sgr(params: string)

  function LitTok(t: string): (r: seq<Token>)
    ensures forall k :: 0 <= k < |r| ==> r[k].Lit? && r[k].text != ""
  {
    if t == [] then [] else [Lit(t)]
  }

  /** The scan of `re.finditer`: `pending` is the literal run since the
      last match, `rest` the text not yet scanned. A match at the front of
      `rest` ends the run; otherwise one character joins it. */
  function TokensOf(pending: string, rest: string): (r: seq<Token>)
    ensures forall k :: 0 <= k < |r| ==> r[k].Lit? ==> r[k].text != ""
    decreases |rest|
  {
    if rest == [] then LitTok(pending)
    else
      match MatchEnd(rest, 0)
      case Some(e) => LitTok(pending) + [Sgr(rest[2..e - 1])] + TokensOf([], rest[e..])
      case None => TokensOf(pending + [rest[0]], rest[1..])
  }

  function Tokens(s: string): seq<Token> {
    TokensOf([], s)
  }

  /** The source text of a token. */
  function TokenText(t: Token): string {
    match t
    case Lit(x) => x
    case Sgr(p) => [Esc, '['] + p + "m"
  }

  function Render(ts: seq<Token>): string {
    if ts == [] then "" else TokenText(ts[0]) + Render(ts[1..])
  }

  lemma {:induction false} RenderAppend(a: seq<Token>, b: seq<Token>)
    ensures Render(a + b) == Render(a) + Render(b)
  {
    if a == [] {
      assert a + b == b;
    } else {
      assert (a + b)[0] == a[0];
      assert (a + b)[1..] == a[1..] + b;
      RenderAppend(a[1..], b);
    }
  }

  lemma RenderLitTok(t: string)
    ensures Render(LitTok(t)) == t
  {
    if t != [] {
      assert Render([Lit(t)]) == t + Render([]);
    }
  }

  lemma RenderOne(t: Token)
    ensures Render([t]) == TokenText(t)
  {
    assert Render([t]) == TokenText(t) + Render([]);
  }

  /** The text of a match at the front is the source text of its SGR
      token. */
  lemma MatchText(s: string, e: nat)
    requires MatchEnd(s, 0) == Some(e)
    ensures s[..e] == TokenText(Sgr(s[2..e - 1]))
  {
    assert s[..2] == [Esc, '['];
    assert s[e - 1..e] == "m";
    assert s[..e] == s[..2] + s[2..e - 1] + s[e - 1..e];
  }

  /** One match step of the round trip: the literal run, the match, and
      the tokens after it spell out the pending run and the rest. */
  lemma RenderAtMatch(pending: string, rest: string, e: nat, tail: seq<Token>)
    requires MatchEnd(rest, 0) == Some(e)
    requires Render(tail) == rest[e..]
    ensures Render(LitTok(pending) + [Sgr(rest[2..e - 1])] + tail) == pending + rest
  {
    var head := LitTok(pending) + [Sgr(rest[2..e - 1])];
    calc {
      Render(head + tail);
      == { RenderAppend(head, tail); }
      Render(head) + Render(tail);
      == { RenderHead(pending, rest, e); }
      (pending + rest[..e]) + rest[e..];
      == pending + (rest[..e] + rest[e..]);
      == { assert rest[..e] + rest[e..] == rest; }
      pending + rest;
    }
  }

  lemma RenderHead(pending: string, rest: string, e: nat)
    requires MatchEnd(rest, 0) == Some(e)
    ensures Render(LitTok(pending) + [Sgr(rest[2..e - 1])]) == pending + rest[..e]
  {
    RenderAppend(LitTok(pending), [Sgr(rest[2..e - 1])]);
    RenderLitTok(pending);
    RenderOne(Sgr(rest[2..e - 1]));
    MatchText(rest, e);
  }

  /** Tokenising loses nothing: the tokens spell out the input again. */
  lemma {:induction false} TokensOfRender(pending: string, rest: string)
    ensures Render(TokensOf(pending, rest)) == pending + rest
    decreases |rest|
  {
    if rest == [] {
      RenderLitTok(pending);
      assert pending + rest == pending;
    } else {
      match MatchEnd(rest, 0)
      case Some(e) =>
        TokensOfRender([], rest[e..]);
        assert [] + rest[e..] == rest[e..];
        RenderAtMatch(pending, rest, e, TokensOf([], rest[e..]));
      case None =>
        TokensOfRender(pending + [rest[0]], rest[1..]);
        assert pending + [rest[0]] + rest[1..] == pending + rest;
    }
  }

  lemma TokensRoundTrip(s: string)
    ensures Render(Tokens(s)) == s
  {
    TokensOfRender([], s);
    assert [] + s == s;
  }

  /** Without an ESC character there is no match: the pending run and the
      rest form one literal run. */
  lemma {:induction false} TokensOfNoEsc(pending: string, rest: string)
    requires Esc !in rest
    ensures TokensOf(pending, rest) == LitTok(pending + rest)
    decreases |rest|
  {
    if rest == [] {
      assert pending + rest == pending;
    } else {
      assert rest[0] in rest;
      assert Esc !in rest[1..] by {
        forall k | 0 <= k < |rest| - 1 ensures rest[1..][k] != Esc {
          assert rest[1..][k] == rest[k + 1];
        }
      }
      TokensOfNoEsc(pending + [rest[0]], rest[1..]);
      assert pending + [rest[0]] + rest[1..] == pending + rest;
    }
  }

  /** Text without ESC in front of the rest only joins the pending run. */
  lemma {:induction false} TokensOfSkip(pending: string, a: string, rest: string)
    requires Esc !in a
    ensures TokensOf(pending, a + rest) == TokensOf(pending + a, rest)
    decreases |a|
  {
    if a == [] {
      assert a + rest == rest && pending + a == pending;
    } else {
      assert a[0] in a;
      assert (a + rest)[0] == a[0];
      assert MatchEnd(a + rest, 0).None?;
      assert (a + rest)[1..] == a[1..] + rest;
      assert Esc !in a[1..] by {
        forall k | 0 <= k < |a| - 1 ensures a[1..][k] != Esc {
          assert a[1..][k] == a[k + 1];
        }
      }
      TokensOfSkip(pending + [a[0]], a[1..], rest);
      assert pending + [a[0]] + a[1..] == pending + a;
    }
  }

  // =====================================================================
  // strip_ansi
  // =====================================================================

  function Literals(ts: seq<Token>): string {
    if ts == [] then "" else (if ts[0].Lit? then ts[0].text else "") + Literals(ts[1..])
  }

  /** Lines 116-119: every match removed, the literal runs kept in order. */
  function StripAnsi(s: string): (r: string)
    ensures |r| <= |s|
    ensures Esc !in s ==> r == s
  {
    TokensRoundTrip(s);
    LiteralsShorter(Tokens(s));
    if Esc !in s then
      TokensNoEsc(s);
      LiteralsLitTok(s);
      Literals(Tokens(s))
    else Literals(Tokens(s))
  }

  lemma {:induction false} LiteralsAppend(a: seq<Token>, b: seq<Token>)
    ensures Literals(a + b) == Literals(a) + Literals(b)
  {
    if a == [] {
      assert a + b == b;
    } else {
      assert (a + b)[0] == a[0];
      assert (a + b)[1..] == a[1..] + b;
      LiteralsAppend(a[1..], b);
    }
  }

  lemma LiteralsLitTok(t: string)
    ensures Literals(LitTok(t)) == t
  {
    if t != [] {
      assert Literals([Lit(t)]) == t + Literals([]);
    }
  }

  /** An SGR sequence at the front of the text matches, up to its `m`. */
  lemma MatchAtFront(p: string, b: string)
    requires forall k :: 0 <= k < |p| ==> IsParamChar(p[k])
    ensures var t := [Esc, '['] + p + "m" + b;
      MatchEnd(t, 0) == Some(|p| + 3) && t[2..|p| + 2] == p && t[|p| + 3..] == b
  {
    var t := [Esc, '['] + p + "m" + b;
    assert ParamsBetween(t, 2, |p| + 2) by {
      forall k | 2 <= k < |p| + 2 ensures IsParamChar(t[k]) {
        assert t[k] == p[k - 2];
      }
    }
    assert PatternAt(t, 0, |p| + 2);
  }

  /** A match at the front of the rest ends the pending run; the scan
      continues after the `m`. */
  lemma TokensOfMatch(pending: string, p: string, b: string)
    requires forall k :: 0 <= k < |p| ==> IsParamChar(p[k])
    ensures TokensOf(pending, [Esc, '['] + p + "m" + b) == LitTok(pending) + [Sgr(p)] + Tokens(b)
  {
    MatchAtFront(p, b);
  }

  /** Stripping keeps the literal run and drops the SGR token. */
  lemma LiteralsAtMatch(a: string, p: string, ts: seq<Token>)
    ensures Literals(LitTok(a) + [Sgr(p)] + ts) == a + Literals(ts)
  {
    LiteralsAppend(LitTok(a) + [Sgr(p)], ts);
    LiteralsAppend(LitTok(a), [Sgr(p)]);
    LiteralsLitTok(a);
    assert Literals([Sgr(p)]) == "" + Literals([]);
  }

  /** `strip_ansi` removes a match and keeps the text before it: text
      without ESC, then `ESC [ params m`, then anything strips to that
      text followed by the stripped rest. With `StripAnsiLoneEsc` and the
      no-ESC clause of `StripAnsi` this determines the function on every
      input. */
  lemma StripAnsiMatch(a: string, p: string, b: string)
    requires Esc !in a
    requires forall k :: 0 <= k < |p| ==> IsParamChar(p[k])
    ensures StripAnsi(a + [Esc, '['] + p + "m" + b) == a + StripAnsi(b)
  {
    var t := [Esc, '['] + p + "m" + b;
    assert a + [Esc, '['] + p + "m" + b == a + t;
    TokensOfSkip([], a, t);
    assert [] + a == a;
    TokensOfMatch(a, p, b);
    LiteralsAtMatch(a, p, Tokens(b));
  }

  /** The pending run comes out of `strip_ansi` unchanged, in front of
      the stripped rest. */
  lemma {:induction false} LiteralsOfPending(pending: string, rest: string)
    ensures Literals(TokensOf(pending, rest)) == pending + Literals(Tokens(rest))
    decreases |rest|
  {
    if rest == [] {
      LiteralsLitTok(pending);
      assert pending + "" == pending;
    } else {
      match MatchEnd(rest, 0)
      case Some(e) =>
        LiteralsAtMatch(pending, rest[2..e - 1], TokensOf([], rest[e..]));
        LiteralsAtMatch([], rest[2..e - 1], TokensOf([], rest[e..]));
      case None =>
        LiteralsOfPending(pending + [rest[0]], rest[1..]);
        LiteralsOfPending([rest[0]], rest[1..]);
        assert [] + [rest[0]] == [rest[0]];
    }
  }

  /** An ESC that starts no match is kept like any other character: text
      without ESC, then such an ESC, then anything strips to that text and
      the ESC followed by the stripped rest. */
  lemma StripAnsiLoneEsc(a: string, b: string)
    requires Esc !in a
    requires forall m :: !PatternAt([Esc] + b, 0, m)
    ensures StripAnsi(a + [Esc] + b) == a + [Esc] + StripAnsi(b)
  {
    var t := [Esc] + b;
    assert MatchEnd(t, 0).Some? ==> PatternAt(t, 0, MatchEnd(t, 0).value - 1);
    assert a + [Esc] + b == a + t;
    TokensOfSkip([], a, t);
    assert [] + a == a;
    assert t[0] == Esc && t[1..] == b;
    LiteralsOfPending(a + [Esc], b);
  }

  lemma {:induction false} LiteralsShorter(ts: seq<Token>)
    ensures |Literals(ts)| <= |Render(ts)|
  {
    if ts != [] {
      LiteralsShorter(ts[1..]);
    }
  }

  /** Removing the matches can create a new one, so stripping is not
      idempotent: `ESC ESC [ m [ m` strips to `ESC [ m`, which strips to
      the empty string. */
  lemma StripAnsiNotIdempotent()
    ensures var s := [Esc, Esc, '[', 'm', '[', 'm'];
      StripAnsi(s) == [Esc, '[', 'm'] && StripAnsi(StripAnsi(s)) == ""
  {
    var s := [Esc, Esc, '[', 'm', '[', 'm'];
    FirstStrip(s);
    StripAnsiMatch("", "", "");
    assert "" + [Esc, '['] + "" + "m" + "" == [Esc, '[', 'm'];
  }

  lemma FirstStrip(s: string)
    requires s == [Esc, Esc, '[', 'm', '[', 'm']
    ensures StripAnsi(s) == [Esc, '[', 'm']
  {
    FirstTokens(s);
    TokensNoEsc("[m");
    LiteralsAtMatch([Esc], "", LitTok("[m"));
    LiteralsLitTok("[m");
  }

  lemma FirstTokens(s: string)
    requires s == [Esc, Esc, '[', 'm', '[', 'm']
    ensures Tokens(s) == LitTok([Esc]) + [Sgr("")] + Tokens("[m")
  {
    assert MatchEnd(s, 0).None?;
    assert [] + [s[0]] == [Esc];
    assert s[1..] == [Esc, '['] + "" + "m" + "[m";
    TokensOfMatch([Esc], "", "[m");
  }

  /** ESC-free text is one literal token (none when empty). */
  lemma TokensNoEsc(s: string)
    requires Esc !in s
    ensures Tokens(s) == LitTok(s)
  {
    TokensOfNoEsc([], s);
    assert [] + s == s;
  }

  // =====================================================================
  // SGR parameters and colour tables
  // =====================================================================

  /** Line 70-72: empty fields are dropped, each field is read as a
      decimal number, and no fields at all means a reset. */
  function Codes(params: string): (codes: seq<nat>)
    requires forall k :: 0 <= k < |params| ==> IsParamChar(params[k])
    ensures |codes| >= 1
    ensures (forall k :: 0 <= k < |params| ==> params[k] == ';') ==> codes == [0]
  {
    var fields := SplitOn(params, ';');
    var kept := NonEmptyFields(fields);
    DigitFields(params, fields);
    AllFieldsEmpty(params, fields);
    if kept == [] then [0]
    else
      seq(|kept|, k requires 0 <= k < |kept| => ParseDigits(kept[k]))
  }

  function NonEmptyFields(fs: seq<string>): (r: seq<string>)
    ensures forall k :: 0 <= k < |r| ==> r[k] != "" && r[k] in fs
    ensures r == [] <==> forall k :: 0 <= k < |fs| ==> fs[k] == ""
  {
    if fs == [] then []
    else (if fs[0] == "" then [] else [fs[0]]) + NonEmptyFields(fs[1..])
  }

  /** The fields of a parameter string are digit strings. */
  lemma DigitFields(params: string, fields: seq<string>)
    requires forall k :: 0 <= k < |params| ==> IsParamChar(params[k])
    requires Join(fields, [';']) == params
    requires forall k :: 0 <= k < |fields| ==> ';' !in fields[k]
    ensures forall k :: 0 <= k < |fields| ==> forall i :: 0 <= i < |fields[k]| ==> IsDigit(fields[k][i])
  {
    forall k, i | 0 <= k < |fields| && 0 <= i < |fields[k]|
      ensures IsDigit(fields[k][i])
    {
      JoinContains(fields, ';', k, i);
    }
  }

  /** A character of a joined field occurs in the joined string. */
  lemma {:induction false} JoinContains(fields: seq<string>, sep: char, k: nat, i: nat)
    requires k < |fields| && i < |fields[k]|
    ensures fields[k][i] in Join(fields, [sep])
  {
    if k == 0 {
      if |fields| == 1 {
        assert Join(fields, [sep]) == fields[0];
      } else {
        assert Join(fields, [sep]) == fields[0] + [sep] + Join(fields[1..], [sep]);
        assert Join(fields, [sep])[i] == fields[0][i];
      }
    } else {
      JoinContains(fields[1..], sep, k - 1, i);
      assert Join(fields, [sep]) == fields[0] + [sep] + Join(fields[1..], [sep]);
    }
  }

  /** A parameter string of semicolons only has only empty fields. */
  lemma AllFieldsEmpty(params: string, fields: seq<string>)
    requires Join(fields, [';']) == params
    requires forall k :: 0 <= k < |fields| ==> ';' !in fields[k]
    ensures (forall k :: 0 <= k < |params| ==> params[k] == ';') ==> forall k :: 0 <= k < |fields| ==> fields[k] == ""
  {
    if forall k :: 0 <= k < |params| ==> params[k] == ';' {
      forall k | 0 <= k < |fields| ensures fields[k] == "" {
        forall i | 0 <= i < |fields[k]| ensures fields[k][i] == ';' {
          JoinContains(fields, ';', k, i);
        }
        HeadNotSeparator(fields[k], ';');
      }
    }
  }

  /** A field without the separator does not start with it. */
  lemma HeadNotSeparator(f: string, sep: char)
    requires sep !in f
    ensures f != "" ==> f[0] != sep
  {
    if f != "" {
      assert f[0] in f;
    }
  }

  const ColorMap: map<nat, string> := map[
    30 := "#000000", 31 := "#AA0000", 32 := "#00AA00", 33 := "#AA5500",
    34 := "#0000AA", 35 := "#AA00AA", 36 := "#00AAAA", 37 := "#AAAAAA",
    90 := "#555555", 91 := "#FF5555", 92 := "#55FF55", 93 := "#FFFF55",
    94 := "#5555FF", 95 := "#FF55FF", 96 := "#55FFFF", 97 := "#FFFFFF"]

  /** `{k + 10: v for k, v in src.items() if keep(k)}`. */
  function Shifted(src: map<nat, string>, keep: nat -> bool): (m: map<nat, string>)
    ensures forall code: nat :: code in m <==> code >= 10 && code - 10 in src && keep(code - 10)
    ensures forall code: nat :: code in m ==> m[code] == src[code - 10]
  {
    var keys := set k | k in src && keep(k) :: k + 10;
    assert forall code: nat :: code in keys <==> code >= 10 && code - 10 in src && keep(code - 10) by {
      forall code: nat
        ensures code in keys <==> code >= 10 && code - 10 in src && keep(code - 10)
      {
        if code >= 10 && code - 10 in src && keep(code - 10) {
          var k: nat := code - 10;
          assert k + 10 in keys;
        }
      }
    }
    map code | code in keys :: src[code - 10]
  }

  /** Line 25: the foreground table shifted by ten, built from its two
      halves and merged with `|`. */
  const BgColorMap: map<nat, string> := BgFrom(ColorMap)

  predicate BelowForty(k: nat) { k < 40 }
  predicate FromNinety(k: nat) { k >= 90 }

  function BgFrom(fg: map<nat, string>): map<nat, string> {
    Shifted(fg, BelowForty) + Shifted(fg, FromNinety)
  }

  /** Shifting a table keyed by the foreground codes gives one keyed by the
      background codes. */
  lemma BgFromKeys(fg: map<nat, string>)
    requires forall code: nat :: code in fg <==> IsFgCode(code)
    ensures forall code: nat :: code in BgFrom(fg) <==> IsBgCode(code)
    ensures forall code: nat :: code in BgFrom(fg) ==> code - 10 in fg && BgFrom(fg)[code] == fg[code - 10]
  {
    var low := Shifted(fg, BelowForty);
    var high := Shifted(fg, FromNinety);
    forall code: nat
      ensures code in BgFrom(fg) <==> IsBgCode(code)
    {
      assert code in low <==> 40 <= code <= 47;
      assert code in high <==> 100 <= code <= 107;
    }
  }

  predicate IsFgCode(code: nat) { 30 <= code <= 37 || 90 <= code <= 97 }
  predicate IsBgCode(code: nat) { 40 <= code <= 47 || 100 <= code <= 107 }

  /** `dict.get(code)`. */
  function Get(m: map<nat, string>, code: nat): Option<string> {
    if code in m then Some(m[code]) else None
  }

  /** `BG_COLOR_MAP.get(code)`. */
  function BgColor(code: nat): Option<string> {
    Get(BgColorMap, code)
  }

  /** The foreground table covers exactly the foreground codes. */
  lemma ColorMapKeys()
    ensures forall code: nat :: code in ColorMap <==> IsFgCode(code)
  {
  }

  /** The background table covers exactly the background codes, with the
      colour of the foreground code ten below. */
  lemma BgColorMapKeys()
    ensures forall code: nat :: code in BgColorMap <==> IsBgCode(code)
    ensures forall code: nat :: code in BgColorMap ==> code - 10 in ColorMap && BgColorMap[code] == ColorMap[code - 10]
  {
    ColorMapKeys();
    BgFromKeys(ColorMap);
  }

  // =====================================================================
  // _ansi_to_html
  // =====================================================================

  datatype Style = Style(bold: bool, underline: bool, italic: bool, fg: Option<string>, bg: Option<string>)

  const Plain := Style(false, false, false, None, None)

  /** The converter's output, one `html` list item each. */
  datatype Piece = OpenSpan(css: string) | CloseSpan | Chunk(html: string)

  datatype Conv = Conv(style: Style, open: bool, out: seq<Piece>)

  /** The style declarations, in the order lines 53-63 list them. */
  function Decls(st: Style): seq<string> {
    (if st.bold then ["font-weight:bold"] else [])
    + (if st.underline then ["text-decoration:underline"] else [])
    + (if st.italic then ["font-style:italic"] else [])
    + (if st.fg.Some? && st.fg.value != "" then ["color:" + st.fg.value] else [])
    + (if st.bg.Some? && st.bg.value != "" then ["background-color:" + st.bg.value] else [])
  }

  /** Whether the pieces so far leave a span open; `None` if they ever
      open a span inside another or close one that is not open. */
  function SpanState(ps: seq<Piece>): Option<bool> {
    if ps == [] then Some(false)
    else
      match SpanState(ps[..|ps| - 1])
      case None => None
      case Some(o) =>
        match ps[|ps| - 1]
        case OpenSpan(_) => if o then None else Some(true)
        case CloseSpan => if o then Some(false) else None
        case Chunk(_) => Some(o)
  }

  predicate Inv(c: Conv) { SpanState(c.out) == Some(c.open) }

  lemma SpanStateSnoc(ps: seq<Piece>, p: Piece)
    ensures SpanState(ps + [p]) == (match SpanState(ps)
      case None => None
      case Some(o) =>
        match p
        case OpenSpan(_) => if o then None else Some(true)
        case CloseSpan => if o then Some(false) else None
        case Chunk(_) => Some(o))
  {
    assert (ps + [p])[..|ps|] == ps;
  }

  /** `close_span`: emits `</span>` only when a span is open. */
  function CloseIfOpen(c: Conv): (r: Conv)
    requires Inv(c)
    ensures Inv(r) && !r.open && r.style == c.style
    ensures c.open ==> r.out == c.out + [CloseSpan]
    ensures !c.open ==> r.out == c.out
  {
    if c.open then
      SpanStateSnoc(c.out, CloseSpan);
      Conv(c.style, false, c.out + [CloseSpan])
    else c
  }

  /** One SGR code (lines 73-87): reset, bold, italic, underline,
      foreground and background close the span and change the style; any
      other code changes nothing. */
  /** The codes the converter acts on. */
  predicate Recognised(code: nat) {
    code == 0 || code == 1 || code == 3 || code == 4 || IsFgCode(code) || IsBgCode(code)
  }

  function ApplyCode(c: Conv, code: nat): (r: Conv)
    requires Inv(c)
    ensures Inv(r)
    ensures Recognised(code) ==> !r.open && r.out == CloseIfOpen(c).out
    ensures code == 0 ==> r.style == Plain
    ensures code == 1 ==> r.style == c.style.(bold := true)
    ensures code == 3 ==> r.style == c.style.(italic := true)
    ensures code == 4 ==> r.style == c.style.(underline := true)
    ensures IsFgCode(code) ==> r.style == c.style.(fg := Get(ColorMap, code))
    ensures IsBgCode(code) ==> r.style == c.style.(bg := BgColor(code))
    ensures !Recognised(code) ==> r == c
  {
    if Recognised(code) then
      var d := CloseIfOpen(c);
      Conv(SgrStyle(c.style, code), false, d.out)
    else c
  }

  /** The style after a recognised code. */
  function SgrStyle(st: Style, code: nat): Style {
    if code == 0 then Plain
    else if code == 1 then st.(bold := true)
    else if code == 3 then st.(italic := true)
    else if code == 4 then st.(underline := true)
    else if IsFgCode(code) then st.(fg := Get(ColorMap, code))
    else st.(bg := BgColor(code))
  }

  function ApplyCodes(c: Conv, codes: seq<nat>): (r: Conv)
    requires Inv(c)
    ensures Inv(r)
    decreases |codes|
  {
    if codes == [] then c else ApplyCodes(ApplyCode(c, codes[0]), codes[1..])
  }

  /** `html.escape(literal).replace("\n", "<br>")`. */
  function LiteralHtml(s: string): string {
    Replace(HtmlEscape(s), "\n", "<br>")
  }

  /** A literal run (lines 49-67): opens a span with the current style
      when none is open and the style is not plain, then emits the
      escaped text. */
  function EmitLiteral(c: Conv, lit: string): (r: Conv)
    requires Inv(c)
    ensures Inv(r)
    ensures lit == [] ==> r == c
    ensures r.style == c.style
  {
    if lit == [] then c
    else
      var d :=
        if !c.open && Decls(c.style) != [] then
          SpanStateSnoc(c.out, OpenSpan(Join(Decls(c.style), " ;")));
          Conv(c.style, true, c.out + [OpenSpan(Join(Decls(c.style), " ;"))])
        else c;
      SpanStateSnoc(d.out, Chunk(LiteralHtml(lit)));
      d.(out := d.out + [Chunk(LiteralHtml(lit))])
  }

  function Step(c: Conv, t: Token): (r: Conv)
    requires Inv(c)
    requires t.Sgr? ==> forall k :: 0 <= k < |t.params| ==> IsParamChar(t.params[k])
    ensures Inv(r)
  {
    match t
    case Lit(x) => EmitLiteral(c, x)
    case Sgr(p) => ApplyCodes(c, Codes(p))
  }

  predicate WellFormed(ts: seq<Token>) {
    forall k :: 0 <= k < |ts| ==> ts[k].Sgr? ==> forall i :: 0 <= i < |ts[k].params| ==> IsParamChar(ts[k].params[i])
  }

  lemma {:induction false} TokensOfWellFormed(pending: string, rest: string)
    ensures WellFormed(TokensOf(pending, rest))
    decreases |rest|
  {
    if rest != [] {
      match MatchEnd(rest, 0)
      case Some(e) =>
        TokensOfWellFormed([], rest[e..]);
      case None =>
        TokensOfWellFormed(pending + [rest[0]], rest[1..]);
    }
  }

  function Fold(c: Conv, ts: seq<Token>): (r: Conv)
    requires Inv(c) && WellFormed(ts)
    ensures Inv(r)
    decreases |ts|
  {
    if ts == [] then c else Fold(Step(c, ts[0]), ts[1..])
  }

  /** Lines 28-113 as a list of pieces: the fold over the tokens, then a
      final `</span>` if one is still open. The spans are balanced and
      never nested. */
  function AnsiToHtmlPieces(text: string): (ps: seq<Piece>)
    ensures SpanState(ps) == Some(false)
  {
    TokensOfWellFormed([], text);
    var c := Fold(Conv(Plain, false, []), Tokens(text));
    CloseIfOpen(c).out
  }

  function PieceText(p: Piece): string {
    match p
    case OpenSpan(css) => "<span style=\"" + css + "\">"
    case CloseSpan => "</span>"
    case Chunk(h) => h
  }

  function PiecesText(ps: seq<Piece>): string {
    if ps == [] then "" else PieceText(ps[0]) + PiecesText(ps[1..])
  }

  function AnsiToHtml(text: string): string {
    PiecesText(AnsiToHtmlPieces(text))
  }

  /** Text without ESC converts to its escaped form, with no span. */
  lemma PlainTextHtml(text: string)
    requires Esc !in text
    ensures AnsiToHtml(text) == LiteralHtml(text)
  {
    TokensNoEsc(text);
    var init := Conv(Plain, false, []);
    if text == [] {
      assert Tokens(text) == [];
      assert HtmlEscape("") == "";
    } else {
      assert Tokens(text) == [Lit(text)];
      assert Decls(Plain) == [];
      assert Fold(init, [Lit(text)]) == Conv(Plain, false, [Chunk(LiteralHtml(text))]);
      assert PiecesText([Chunk(LiteralHtml(text))]) == LiteralHtml(text) + "";
    }
  }

  /** A newline in a literal becomes `<br>`: the replacement distributes
      over the escaped characters because no entity holds a newline. */
  lemma {:induction false} LiteralHtmlPerChar(s: string)
    ensures LiteralHtml(s) == (if s == [] then "" else
      (if s[0] == '\n' then "<br>" else EscapeChar(s[0])) + LiteralHtml(s[1..]))
  {
    if s != [] {
      ReplaceSingleAppend(EscapeChar(s[0]), HtmlEscape(s[1..]), '\n', "<br>");
      if s[0] != '\n' {
        assert '\n' !in EscapeChar(s[0]);
        NoCharNoMatch(EscapeChar(s[0]), '\n');
        ReplaceAbsent(EscapeChar(s[0]), "\n", "<br>");
      } else {
        assert EscapeChar(s[0]) == "\n";
        assert Replace("\n", "\n", "<br>") == "<br>" + Replace("", "\n", "<br>");
      }
    }
  }

  lemma NoCharNoMatch(s: string, c: char)
    requires c !in s
    ensures !Contains(s, [c])
  {
    forall i | 0 <= i <= |s| ensures !OccursAt(s, [c], i) {
      if i + 1 <= |s| {
        assert s[i..i + 1] == [s[i]];
      }
    }
  }

  lemma {:induction false} ReplaceSingleAppend(a: string, b: string, c: char, rep: string)
    ensures Replace(a + b, [c], rep) == Replace(a, [c], rep) + Replace(b, [c], rep)
  {
    if a == [] {
      assert a + b == b;
    } else {
      assert (a + b)[1..] == a[1..] + b;
      assert (a + b)[..1] == a[..1];
      ReplaceSingleAppend(a[1..], b, c, rep);
    }
  }
}

=== FILE: CommonWidgets.dfy ===
/** `gui/common_widgets.py`: the widget-side installer `try_install_tool`
    and the plugin folder scan `load_plugins`.

    The installer builds the same kind of method list as the installer
    layer's compatibility entry point, but its apt method is the install
    command alone, with no index refresh in front. PATH lookups, root
    detection, the platform, the Python executable and every command's
    exit code are parameters; a command that raised is `None`. */
module CommonWidgets {
  import opened Wrappers
  import opened Text
  import opened Installer

  /** Lines 64-104: apt (the install command only), brew, choco, go, pip
      and git, each listed exactly when wanted, in that order. */
  function WidgetMethods(toolBin: string, hint: Option<Hint>, url: string, os: Os, isRoot: bool,
                         onPath: string -> bool, python: string): (ms: seq<Method>)
    ensures RankedFrom(ms, 0)
    ensures forall k :: Has(ms, k) <==>
      (if k == AptKind then AptWanted(hint, os, onPath) else TailWanted(k, hint, url, os, onPath))
    ensures forall i :: 0 <= i < |ms| && ms[i].kind == AptKind ==> AptInstallCmd(ms[i], toolBin, isRoot, onPath("sudo"))
  {
    var install := Method(AptKind, ArgvCmd(AptInstallArgv(toolBin, isRoot, onPath("sudo"))));
    var tail := TailMethods(toolBin, hint, url, os, onPath, python);
    InstallThenTail(AptWanted(hint, os, onPath), install, tail);
    Opt(AptWanted(hint, os, onPath), install) + tail
  }

  /** The widget's list is the corrected list of the installer layer, and
      differs from that layer's list as written only by the refresh
      placed in front when apt is wanted and the user is root or has
      `sudo`. */
  lemma WidgetIsCompatWithoutRefresh(toolBin: string, hint: Option<Hint>, url: string, os: Os, isRoot: bool,
                                     onPath: string -> bool, python: string)
    ensures WidgetMethods(toolBin, hint, url, os, isRoot, onPath, python)
            == CompatMethodsFixed(toolBin, hint, url, os, isRoot, onPath, python)
    ensures var written := CompatMethods(toolBin, hint, url, os, isRoot, onPath, python);
      var widget := WidgetMethods(toolBin, hint, url, os, isRoot, onPath, python);
      (AptWanted(hint, os, onPath) && (isRoot || onPath("sudo")) ==> written == [written[0]] + widget)
      && (!(AptWanted(hint, os, onPath) && (isRoot || onPath("sudo"))) ==> written == widget)
  {
    FixedDropsOnlyRefresh(toolBin, hint, url, os, isRoot, onPath, python);
  }

  /** No command the widget lists for apt is an index refresh. */
  lemma WidgetNeverRefreshes(toolBin: string, hint: Option<Hint>, url: string, os: Os, isRoot: bool,
                             onPath: string -> bool, python: string)
    ensures var ms := WidgetMethods(toolBin, hint, url, os, isRoot, onPath, python);
      forall i :: 0 <= i < |ms| && ms[i].kind == AptKind ==>
        ms[i].cmd != ArgvCmd(["apt-get", "update"]) && ms[i].cmd != ArgvCmd(["sudo", "apt-get", "update"])
  {
    var ms := WidgetMethods(toolBin, hint, url, os, isRoot, onPath, python);
    forall i | 0 <= i < |ms| && ms[i].kind == AptKind
      ensures ms[i].cmd != ArgvCmd(["apt-get", "update"]) && ms[i].cmd != ArgvCmd(["sudo", "apt-get", "update"])
    {
      assert |ms[i].cmd.args| >= 4;
    }
  }

  /** Lines 22-141 for a string argument. A command containing a space is
      run once through the shell; otherwise every method is tried up to
      `maxAttempts` times and the first exit code 0 gives "installed",
      and after all of them "manual". A blank argument raises, because
      the tool name is taken before anything else. */
  method TryInstallTool(commandOrTool: string, hint: Option<string>, url: string, maxAttempts: int,
                        os: Os, isRoot: bool, onPath: string -> bool, python: string,
                        run: (Cmd, nat) -> Option<int>)
    returns (r: Result<CompatRun>)
    ensures ToolBin(commandOrTool).None? ==> r.Err?
    ensures ToolBin(commandOrTool).Some? && ' ' in commandOrTool ==>
      r == Ok(CompatRun(ShellStatus(run(ShellCmd(commandOrTool), 1)), None))
    ensures ToolBin(commandOrTool).Some? && ' ' !in commandOrTool ==>
      var ms := WidgetMethods(ToolBin(commandOrTool).value, CompatHint(hint), url, os, isRoot, onPath, python);
      var f := FirstSuccess(Attempts(ms, maxAttempts), run);
      r.Ok? && (f.Some? ==> r.value == CompatRun(Installed, Some(Attempts(ms, maxAttempts)[f.value])))
      && (f.None? ==> r.value == CompatRun(Manual, None))
  {
    var bin := ToolBin(commandOrTool);
    if bin.None? {
      return Err("IndexError: list index out of range");
    }
    if ' ' in commandOrTool {
      return Ok(CompatRun(ShellStatus(run(ShellCmd(commandOrTool), 1)), None));
    }
    var ms := WidgetMethods(bin.value, CompatHint(hint), url, os, isRoot, onPath, python);
    var winner, _ := TryMethods(ms, maxAttempts, run);
    if winner.Some? {
      return Ok(CompatRun(Installed, winner));
    }
    return Ok(CompatRun(Manual, None));
  }

  /** "installed" from the widget always comes from a listed command that
      exited with 0, and an apt success is the install itself. */
  lemma WidgetSuccessIsInstall(toolBin: string, hint: Option<Hint>, url: string, os: Os, isRoot: bool,
                               onPath: string -> bool, python: string, maxAttempts: int,
                               run: (Cmd, nat) -> Option<int>)
    ensures var ms := WidgetMethods(toolBin, hint, url, os, isRoot, onPath, python);
      var f := FirstSuccess(Attempts(ms, maxAttempts), run);
      f.Some? ==>
        var a := Attempts(ms, maxAttempts)[f.value];
        a.via in ms && run(a.via.cmd, a.n) == Some(0)
        && (a.via.kind == AptKind ==> AptInstallCmd(a.via, toolBin, isRoot, onPath("sudo")))
  {
    var ms := WidgetMethods(toolBin, hint, url, os, isRoot, onPath, python);
    AttemptsFromMethods(ms, maxAttempts);
  }

  // ---------------------------------------------------------------------
  // load_plugins (lines 174-182)
  // ---------------------------------------------------------------------

  /** Line 178: a `.py` file whose name does not start with `__`. */
  predicate IsPluginFile(file: string) {
    EndsWith(file, ".py") && !StartsWith(file, "__")
  }

  /** Line 179: the file name without `.py`. */
  function PluginName(file: string): (name: string)
    requires IsPluginFile(file)
    ensures name + ".py" == file
  {
    file[..|file| - 3]
  }

  /** Lines 174-182: every plugin file of the listing imported as
      `plugins.<name>` and keyed by name. `importModule` is the import;
      the first failing import ends the scan with its error. */
  function LoadPlugins<M>(files: seq<string>, importModule: string -> Result<M>): (r: Result<map<string, M>>)
  {
    if files == [] then Ok(map[])
    else
      var last := files[|files| - 1];
      match LoadPlugins(files[..|files| - 1], importModule)
      case Err(e) => Err(e)
      case Ok(m) =>
        if !IsPluginFile(last) then Ok(m)
        else
          match importModule("plugins." + PluginName(last))
          case Err(e) => Err(e)
          case Ok(mod) => Ok(m[PluginName(last) := mod])
  }

  /** Some plugin file of the listing fails to import. */
  predicate SomeImportFails<M>(files: seq<string>, importModule: string -> Result<M>) {
    exists i :: 0 <= i < |files| && IsPluginFile(files[i]) && importModule("plugins." + PluginName(files[i])).Err?
  }

  /** The scan fails exactly when some plugin file fails to import; when
      it succeeds, the keys are exactly the names of the plugin files and
      each maps to its imported module. */
  lemma {:induction false} LoadPluginsSpec<M>(files: seq<string>, importModule: string -> Result<M>)
    ensures LoadPlugins(files, importModule).Err? <==> SomeImportFails(files, importModule)
    ensures LoadPlugins(files, importModule).Ok? ==>
      var m := LoadPlugins(files, importModule).value;
      (forall nm :: nm in m <==> exists i :: 0 <= i < |files| && IsPluginFile(files[i]) && PluginName(files[i]) == nm)
      && (forall nm :: nm in m ==> importModule("plugins." + nm) == Ok(m[nm]))
  {
    if files != [] {
      var init := files[..|files| - 1];
      LoadPluginsSpec(init, importModule);
      assert forall i :: 0 <= i < |init| ==> init[i] == files[i];
      if SomeImportFails(files, importModule) && !SomeImportFails(init, importModule) {
        var i :| 0 <= i < |files| && IsPluginFile(files[i]) && importModule("plugins." + PluginName(files[i])).Err?;
        assert i == |files| - 1;
      }
    }
  }
}

=== FILE: FileConventions.dfy ===
/** `core/file_conventions.py`: the on-disk layout of scan and run
    artifacts, `<base>/<scan_id>_<label>/<tool>/<run_id>/...`.

    Paths are POSIX strings joined the way `os.path.join` joins them. The
    directories `ensure_dir` creates are tracked as a set; a freshId UUID is
    a parameter. */
module FileConventions {
  import opened Wrappers
  import opened Text

  const Sep: char := '/'

  /** `os.path.join(a, b)` on POSIX: an absolute `b` replaces `a`;
      otherwise a separator is inserted unless `a` is empty or already
      ends in one. */
  function PathJoin(a: string, b: string): (r: string)
    ensures |b| > 0 && b[0] == Sep ==> r == b
    ensures (|b| == 0 || b[0] != Sep) && a != [] && a[|a| - 1] != Sep ==> r == a + [Sep] + b
  {
    if |b| > 0 && b[0] == Sep then b
    else if a == [] || a[|a| - 1] == Sep then a + b
    else a + [Sep] + b
  }

  /** `os.path.split(p)` for a path with a separator: the head and the
      last component. */
  function SplitLast(p: string): (r: (string, string))
    requires Sep in p
    ensures Sep !in r.1
  {
    var i := LastSep(p);
    (p[..i], p[i + 1..])
  }

  function LastSep(p: string): (i: nat)
    requires Sep in p
    ensures i < |p| && p[i] == Sep
    ensures forall j :: i < j < |p| ==> p[j] != Sep
  {
    if p[|p| - 1] == Sep then |p| - 1
    else
      assert Sep in p[..|p| - 1] by {
        var k :| 0 <= k < |p| && p[k] == Sep;
        assert p[..|p| - 1][k] == Sep;
      }
      LastSep(p[..|p| - 1])
  }

  /** Joining a relative component onto a directory can be undone:
      splitting off the last component gives the two parts back. */
  lemma JoinSplitRoundTrip(a: string, b: string)
    requires a != [] && a[|a| - 1] != Sep
    requires Sep !in b
    ensures Sep in PathJoin(a, b)
    ensures SplitLast(PathJoin(a, b)) == (a, b)
  {
    var p := a + [Sep] + b;
    AroundMiddle(a, Sep, b);
    assert forall j :: |a| < j < |p| ==> p[j] != Sep;
    LastSepIs(p, |a|);
  }

  lemma AroundMiddle<T>(a: seq<T>, x: T, b: seq<T>)
    ensures var p := a + [x] + b;
      p[|a|] == x && p[..|a|] == a && p[|a| + 1..] == b
      && forall j :: |a| < j < |p| ==> p[j] == b[j - |a| - 1]
  {
  }

  /** The last separator is the one with no separator after it. */
  lemma LastSepIs(p: string, k: nat)
    requires k < |p| && p[k] == Sep
    requires forall j :: k < j < |p| ==> p[j] != Sep
    ensures LastSep(p) == k
  {
  }

  /** `ensure_dir(p)`: creates the directory (existing ones are fine) and
      returns `p` itself. */
  function EnsureDir(dirs: set<string>, p: string): (r: (set<string>, string))
    ensures r.1 == p
    ensures r.0 == dirs + {p}
  {
    (dirs + {p}, p)
  }

  /** Ensuring a directory twice is the same as ensuring it once. */
  lemma EnsureDirIdempotent(dirs: set<string>, p: string)
    ensures EnsureDir(EnsureDir(dirs, p).0, p) == EnsureDir(dirs, p)
  {
  }

  /** `s.replace(c, d)` for single characters. */
  function ReplaceChar(s: string, c: char, d: char): (r: string)
    ensures |r| == |s|
    ensures forall i :: 0 <= i < |s| ==> r[i] == (if s[i] == c then d else s[i])
  {
    seq(|s|, i requires 0 <= i < |s| => if s[i] == c then d else s[i])
  }

  const LabelLimit: nat := 64

  /** Line 21: separators and spaces become `_`, then at most 64
      characters are kept. */
  function SafeLabel(targetLabel: string): (r: string)
    ensures |r| == if |targetLabel| < LabelLimit then |targetLabel| else LabelLimit
    ensures forall i :: 0 <= i < |r| ==> r[i] != Sep && r[i] != ' '
    ensures forall i :: 0 <= i < |r| ==> (r[i] == targetLabel[i] || (r[i] == '_' && (targetLabel[i] == Sep || targetLabel[i] == ' ')))
  {
    var t := ReplaceChar(ReplaceChar(targetLabel, Sep, '_'), ' ', '_');
    if |t| <= LabelLimit then t else t[..LabelLimit]
  }

  /** A short label with neither separators nor spaces is kept as is. */
  lemma SafeLabelKeepsPlain(targetLabel: string)
    requires |targetLabel| <= LabelLimit
    requires forall i :: 0 <= i < |targetLabel| ==> targetLabel[i] != Sep && targetLabel[i] != ' '
    ensures SafeLabel(targetLabel) == targetLabel
  {
  }

  /** Lines 20-22: `<base>/<scan_id>_<safe label>`, created. */
  function ScanRoot(dirs: set<string>, base: string, scanId: string, targetLabel: string): (r: (set<string>, string))
    ensures r.1 == PathJoin(base, scanId + "_" + SafeLabel(targetLabel))
    ensures r.0 == dirs + {r.1}
  {
    EnsureDir(dirs, PathJoin(base, scanId + "_" + SafeLabel(targetLabel)))
  }

  /** Line 27: the tool folder name. */
  function ToolDirName(tool: string): (r: string)
    ensures |r| == |tool|
    ensures forall i :: 0 <= i < |r| ==> r[i] != ' ' && r[i] == (if tool[i] == ' ' then '-' else LowerChar(tool[i]))
  {
    ReplaceChar(Lower(tool), ' ', '-')
  }

  /** Line 26: a missing or empty run id is replaced by a fresh one. */
  function RunId(runId: Option<string>, freshId: string): (r: string)
    ensures runId.Some? && runId.value != "" ==> r == runId.value
    ensures runId.None? || runId.value == "" ==> r == freshId
  {
    if runId.Some? && runId.value != "" then runId.value else freshId
  }

  /** Lines 25-28: the run folder under the tool folder, all three levels
      created. */
  function RunDir(dirs: set<string>, base: string, scanId: string, targetLabel: string, tool: string,
                  runId: Option<string>, freshId: string): (r: (set<string>, string))
    ensures var root := PathJoin(base, scanId + "_" + SafeLabel(targetLabel));
      var toolDir := PathJoin(root, ToolDirName(tool));
      r.1 == PathJoin(toolDir, RunId(runId, freshId))
      && r.0 == dirs + {root, toolDir, r.1}
  {
    var rid := RunId(runId, freshId);
    var (d1, root) := ScanRoot(dirs, base, scanId, targetLabel);
    var (d2, toolDir) := EnsureDir(d1, PathJoin(root, ToolDirName(tool)));
    EnsureDir(d2, PathJoin(toolDir, rid))
  }

  /** The run folder of a relative run id ends in that id as its last
      component, under the tool folder. */
  lemma RunDirEndsInRunId(dirs: set<string>, base: string, scanId: string, targetLabel: string, tool: string,
                          runId: string, freshId: string)
    requires runId != "" && Sep !in runId
    ensures var root := PathJoin(base, scanId + "_" + SafeLabel(targetLabel));
      var toolDir := PathJoin(root, ToolDirName(tool));
      toolDir != [] && toolDir[|toolDir| - 1] != Sep ==>
        SplitLast(RunDir(dirs, base, scanId, targetLabel, tool, Some(runId), freshId).1) == (toolDir, runId)
  {
    var root := PathJoin(base, scanId + "_" + SafeLabel(targetLabel));
    var toolDir := PathJoin(root, ToolDirName(tool));
    if toolDir != [] && toolDir[|toolDir| - 1] != Sep {
      JoinSplitRoundTrip(toolDir, runId);
    }
  }

  datatype RunPaths = RunPaths(dir: string, rawLog: string, runJson: string, findingsJsonl: string, extras: string)

  /** Lines 31-39: the run folder and its four fixed children; `extras`
      is created too. */
  function RunPathsOf(dirs: set<string>, base: string, scanId: string, targetLabel: string, tool: string,
                      runId: Option<string>, freshId: string): (r: (set<string>, RunPaths))
    ensures var (d, rd) := RunDir(dirs, base, scanId, targetLabel, tool, runId, freshId);
      r.1.dir == rd
      && r.1.rawLog == PathJoin(rd, "raw.log")
      && r.1.runJson == PathJoin(rd, "run.json")
      && r.1.findingsJsonl == PathJoin(rd, "findings.jsonl")
      && r.1.extras == PathJoin(rd, "extras")
      && r.0 == d + {r.1.extras}
  {
    var (d, rd) := RunDir(dirs, base, scanId, targetLabel, tool, runId, freshId);
    var (d2, extras) := EnsureDir(d, PathJoin(rd, "extras"));
    (d2, RunPaths(rd, PathJoin(rd, "raw.log"), PathJoin(rd, "run.json"), PathJoin(rd, "findings.jsonl"), extras))
  }

  /** The four artifacts are direct children of the run folder. */
  lemma RunPathsAreChildren(dirs: set<string>, base: string, scanId: string, targetLabel: string, tool: string,
                            runId: Option<string>, freshId: string)
    ensures var p := RunPathsOf(dirs, base, scanId, targetLabel, tool, runId, freshId).1;
      p.dir != [] && p.dir[|p.dir| - 1] != Sep ==>
        SplitLast(p.rawLog) == (p.dir, "raw.log")
        && SplitLast(p.runJson) == (p.dir, "run.json")
        && SplitLast(p.findingsJsonl) == (p.dir, "findings.jsonl")
        && SplitLast(p.extras) == (p.dir, "extras")
  {
    var p := RunPathsOf(dirs, base, scanId, targetLabel, tool, runId, freshId).1;
    if p.dir != [] && p.dir[|p.dir| - 1] != Sep {
      ChildrenOf(p);
    }
  }

  lemma ChildrenOf(p: RunPaths)
    requires p.dir != [] && p.dir[|p.dir| - 1] != Sep
    requires p.rawLog == PathJoin(p.dir, "raw.log") && p.runJson == PathJoin(p.dir, "run.json")
    requires p.findingsJsonl == PathJoin(p.dir, "findings.jsonl") && p.extras == PathJoin(p.dir, "extras")
    ensures SplitLast(p.rawLog) == (p.dir, "raw.log")
    ensures SplitLast(p.runJson) == (p.dir, "run.json")
    ensures SplitLast(p.findingsJsonl) == (p.dir, "findings.jsonl")
    ensures SplitLast(p.extras) == (p.dir, "extras")
  {
    NamesHaveNoSep();
    ChildOf(p.dir, "raw.log", p.rawLog);
    ChildOf(p.dir, "run.json", p.runJson);
    ChildOf(p.dir, "findings.jsonl", p.findingsJsonl);
    ChildOf(p.dir, "extras", p.extras);
  }

  lemma NamesHaveNoSep()
    ensures Sep !in "raw.log" && Sep !in "run.json" && Sep !in "findings.jsonl" && Sep !in "extras"
  {
  }

  lemma ChildOf(dir: string, name: string, path: string)
    requires dir != [] && dir[|dir| - 1] != Sep
    requires Sep !in name && path == PathJoin(dir, name)
    ensures Sep in path && SplitLast(path) == (dir, name)
  {
    JoinSplitRoundTrip(dir, name);
  }
}

=== FILE: FlowLayout.dfy ===
/** `gui/flow_layout.py`: a layout that places items left to right and
    wraps them onto a new line when the row is full.

    Items are given by their size hints; the spacing, the rectangle and
    the contents margin are parameters. Qt's `QRect.right()` is
    `x + width - 1` and a default `QSize()` is the invalid size (-1, -1);
    both are written out. */
module FlowLayout {
  import opened Wrappers

  // ---------------------------------------------------------------------
  // The item list (lines 18-30)
  // ---------------------------------------------------------------------

  /** Line 25: the item at `index`, or `None` out of range (a negative
      index included). */
  function ItemAt<T>(items: seq<T>, index: int): (r: Option<T>)
    ensures r.Some? <==> 0 <= index < |items|
    ensures r.Some? ==> r.value == items[index]
  {
    if 0 <= index < |items| then Some(items[index]) else None
  }

  /** Lines 27-30: removes and returns the item at `index`; out of range
      nothing is returned and the list is unchanged. */
  function TakeAt<T>(items: seq<T>, index: int): (r: (Option<T>, seq<T>))
    ensures r.0 == ItemAt(items, index)
    ensures r.0.None? ==> r.1 == items
    ensures r.0.Some? ==> |r.1| == |items| - 1 && r.1 == items[..index] + items[index + 1..]
  {
    if 0 <= index < |items| then (Some(items[index]), items[..index] + items[index + 1..]) else (None, items)
  }

  /** Taking an item out and adding it back at the end keeps the same
      items; taking the last one undoes an `addItem`. */
  lemma AddTakeRoundTrip<T>(items: seq<T>, x: T)
    ensures TakeAt(items + [x], |items|) == (Some(x), items)
  {
    var s := items + [x];
    assert s[..|items|] + s[|items| + 1..] == items;
    assert TakeAt(s, |items|).1 == items;
  }

  /** Lines 14-16: the destructor takes the first item until none is left;
      it takes every item, in order. */
  method Drain<T>(items: seq<T>) returns (taken: seq<T>, left: seq<T>)
    ensures left == [] && taken == items
  {
    taken, left := [], items;
    while |left| > 0
      invariant taken + left == items
      decreases |left|
    {
      var r := TakeAt(left, 0);
      assert r.1 == left[1..];
      taken := taken + [r.0.value];
      left := r.1;
    }
  }

  // ---------------------------------------------------------------------
  // minimumSize (lines 48-53)
  // ---------------------------------------------------------------------

  datatype Size = Size(w: int, h: int)

  function Max(a: int, b: int): int {
    if a < b then b else a
  }

  /** `QSize.expandedTo`: the componentwise maximum. */
  function ExpandedTo(a: Size, b: Size): Size {
    Size(Max(a.w, b.w), Max(a.h, b.h))
  }

  /** The fold of lines 49-51, from the invalid size (-1, -1). */
  function Expand(mins: seq<Size>): (s: Size)
    ensures s.w >= -1 && s.h >= -1
    ensures forall i :: 0 <= i < |mins| ==> mins[i].w <= s.w && mins[i].h <= s.h
    ensures s.w == -1 || exists i :: 0 <= i < |mins| && s.w == mins[i].w
    ensures s.h == -1 || exists i :: 0 <= i < |mins| && s.h == mins[i].h
  {
    if mins == [] then Size(-1, -1)
    else
      var s := Expand(mins[..|mins| - 1]);
      assert forall i :: 0 <= i < |mins| - 1 ==> mins[..|mins| - 1][i] == mins[i];
      ExpandedTo(s, mins[|mins| - 1])
  }

  /** Lines 48-53: the largest minimum width and the largest minimum
      height over the items, each plus twice the top margin. */
  function MinimumSize(mins: seq<Size>, top: int): (s: Size)
    ensures forall i :: 0 <= i < |mins| ==> mins[i].w + 2 * top <= s.w && mins[i].h + 2 * top <= s.h
    ensures s.w == 2 * top - 1 || exists i :: 0 <= i < |mins| && s.w == mins[i].w + 2 * top
    ensures s.h == 2 * top - 1 || exists i :: 0 <= i < |mins| && s.h == mins[i].h + 2 * top
  {
    var e := Expand(mins);
    Size(e.w + 2 * top, e.h + 2 * top)
  }

  /** With no items the invalid starting size shows through: each side is
      one less than twice the margin. */
  lemma EmptyMinimumSize(top: int)
    ensures MinimumSize([], top) == Size(2 * top - 1, 2 * top - 1)
  {
  }

  // ---------------------------------------------------------------------
  // doLayout (lines 55-78)
  // ---------------------------------------------------------------------

  datatype Rect = Rect(x: int, y: int, w: int, h: int)

  /** `QRect.right()`: the last column inside the rectangle. */
  function Right(r: Rect): int {
    r.x + r.w - 1
  }

  datatype Pos = Pos(x: int, y: int)

  /** The loop's variables after some items: the next item's `x`, the
      current line's `y` and height, and where each item went. */
  datatype Cursor = Cursor(x: int, y: int, lineHeight: int, placed: seq<Pos>)

  /** Lines 58-76 over `items`: an item wraps when its right edge, one
      past its last column, passes `limit` and the line already has some
      height. The layout as written uses `limit = rect.right()`. */
  function Flow(items: seq<Size>, rect: Rect, spacing: int, limit: int): (c: Cursor)
    ensures |c.placed| == |items|
    ensures items != [] ==> c.placed[0] == Pos(rect.x, rect.y)
    ensures items != [] ==>
      var last := c.placed[|items| - 1];
      c.x == last.x + items[|items| - 1].w + spacing && c.y == last.y && c.lineHeight >= items[|items| - 1].h
    ensures items == [] ==> c == Cursor(rect.x, rect.y, 0, [])
  {
    if items == [] then Cursor(rect.x, rect.y, 0, [])
    else
      var c := Flow(items[..|items| - 1], rect, spacing, limit);
      var item := items[|items| - 1];
      var wrap := c.x + item.w > limit && c.lineHeight > 0;
      var x := if wrap then rect.x else c.x;
      var y := if wrap then c.y + c.lineHeight + spacing else c.y;
      var height := if wrap then 0 else c.lineHeight;
      Cursor(x + item.w + spacing, y, Max(height, item.h), c.placed + [Pos(x, y)])
  }

  /** What `doLayout` gives: the height used and the geometry set on the
      items (none when only measuring). */
  datatype LayoutResult = LayoutResult(height: int, geometry: seq<Pos>)

  /** Lines 55-78 as written. */
  function DoLayout(items: seq<Size>, rect: Rect, spacing: int, testOnly: bool): (r: LayoutResult)
    ensures testOnly ==> r.geometry == []
    ensures !testOnly ==> r.geometry == Flow(items, rect, spacing, Right(rect)).placed && |r.geometry| == |items|
  {
    var c := Flow(items, rect, spacing, Right(rect));
    LayoutResult(c.y + c.lineHeight - rect.y, if testOnly then [] else c.placed)
  }

  /** Measuring gives the same height as laying out. */
  lemma MeasuringMatchesLayout(items: seq<Size>, rect: Rect, spacing: int)
    ensures DoLayout(items, rect, spacing, true).height == DoLayout(items, rect, spacing, false).height
  {
  }

  /** Lines 38-39: the height for a width is a measuring layout in the
      rectangle (0, 0, width, 0). */
  function HeightForWidth(items: seq<Size>, spacing: int, width: int): (h: int)
    ensures h == DoLayout(items, Rect(0, 0, width, 0), spacing, true).height
    ensures items == [] ==> h == 0
  {
    DoLayout(items, Rect(0, 0, width, 0), spacing, true).height
  }

  /** Every item after the first of its line ends by `limit`: an item
      that would pass it starts a new line, when the items have height. */
  lemma {:induction false} LinesFit(items: seq<Size>, rect: Rect, spacing: int, limit: int)
    requires forall i :: 0 <= i < |items| ==> items[i].h > 0
    ensures var c := Flow(items, rect, spacing, limit);
      forall i :: 0 <= i < |items| ==> c.placed[i].x == rect.x || c.placed[i].x + items[i].w <= limit
  {
    if items != [] {
      var init := items[..|items| - 1];
      assert forall i :: 0 <= i < |init| ==> init[i] == items[i];
      LinesFit(init, rect, spacing, limit);
      var c := Flow(init, rect, spacing, limit);
      assert init != [] ==> c.lineHeight > 0;
    }
  }

  /** The height returned covers every item: no item's bottom lies below
      `rect.y + height`, for non-negative spacing and heights. */
  lemma {:induction false} HeightCoversItems(items: seq<Size>, rect: Rect, spacing: int, limit: int)
    requires spacing >= 0
    requires forall i :: 0 <= i < |items| ==> items[i].h >= 0
    ensures var c := Flow(items, rect, spacing, limit);
      c.lineHeight >= 0 && c.y >= rect.y
      && forall i :: 0 <= i < |items| ==> rect.y <= c.placed[i].y && c.placed[i].y + items[i].h <= c.y + c.lineHeight
  {
    if items != [] {
      var init := items[..|items| - 1];
      assert forall i :: 0 <= i < |init| ==> init[i] == items[i];
      HeightCoversItems(init, rect, spacing, limit);
    }
  }

  /** The height of the line at `y`: the tallest of the items placed on
      it, 0 when there are none (see `LineHeightIsTallest`). */
  function LineHeight(items: seq<Size>, g: seq<Pos>, y: int): int
    requires |g| == |items|
  {
    if items == [] then 0
    else
      var n := |items| - 1;
      Max(LineHeight(items[..n], g[..n], y), if g[n].y == y then items[n].h else 0)
  }

  /** `LineHeight` is at least every item on the line, and is either 0 or
      the height of one of them. */
  lemma {:induction false} LineHeightIsTallest(items: seq<Size>, g: seq<Pos>, y: int)
    requires |g| == |items|
    ensures LineHeight(items, g, y) >= 0
    ensures forall j :: 0 <= j < |items| && g[j].y == y ==> items[j].h <= LineHeight(items, g, y)
    ensures LineHeight(items, g, y) == 0 || exists j :: 0 <= j < |items| && g[j].y == y && items[j].h == LineHeight(items, g, y)
  {
    if items != [] {
      var n := |items| - 1;
      LineHeightIsTallest(items[..n], g[..n], y);
      assert forall j :: 0 <= j < n ==> items[..n][j] == items[j] && g[..n][j] == g[j];
    }
  }

  /** A line no item is on has height 0. */
  lemma {:induction false} LineHeightEmpty(items: seq<Size>, g: seq<Pos>, y: int)
    requires |g| == |items|
    requires forall j :: 0 <= j < |items| ==> g[j].y < y
    ensures LineHeight(items, g, y) == 0
  {
    if items != [] {
      var n := |items| - 1;
      assert forall j :: 0 <= j < n ==> g[..n][j] == g[j];
      LineHeightEmpty(items[..n], g[..n], y);
    }
  }

  /** A prefix of the items is laid out as the start of the whole list. */
  lemma {:induction false} FlowPrefix(items: seq<Size>, rect: Rect, spacing: int, limit: int, k: nat)
    requires k <= |items|
    ensures Flow(items[..k], rect, spacing, limit).placed == Flow(items, rect, spacing, limit).placed[..k]
    decreases |items| - k
  {
    if k < |items| {
      var init := items[..|items| - 1];
      FlowPrefix(init, rect, spacing, limit, k);
      assert init[..k] == items[..k];
    } else {
      assert items[..k] == items;
    }
  }

  /** With positive heights and non-negative spacing the lines go down
      the page: no item lies below the current line. */
  lemma {:induction false} FlowDescends(items: seq<Size>, rect: Rect, spacing: int, limit: int)
    requires spacing >= 0
    requires forall j :: 0 <= j < |items| ==> items[j].h > 0
    ensures forall j :: 0 <= j < |items| ==>
      Flow(items, rect, spacing, limit).placed[j].y <= Flow(items, rect, spacing, limit).y
  {
    if items != [] {
      var n := |items| - 1;
      var init := items[..n];
      assert forall j :: 0 <= j < n ==> init[j] == items[j];
      FlowDescends(init, rect, spacing, limit);
      var c0 := Flow(init, rect, spacing, limit);
      var c := Flow(items, rect, spacing, limit);
      assert c.placed[..n] == c0.placed;
      assert c.y >= c0.y;
      assert c.placed[n].y == c.y;
      forall j | 0 <= j < n ensures c.placed[j].y <= c.y {
        assert c.placed[j] == c0.placed[j];
        assert c0.placed[j].y <= c0.y;
      }
    }
  }

  /** The loop's `line_height` is the tallest item on the current line. */
  lemma {:induction false} FlowLineHeight(items: seq<Size>, rect: Rect, spacing: int, limit: int)
    requires spacing >= 0
    requires forall j :: 0 <= j < |items| ==> items[j].h > 0
    ensures var c := Flow(items, rect, spacing, limit);
      c.lineHeight == LineHeight(items, c.placed, c.y)
  {
    if items != [] {
      var n := |items| - 1;
      var init := items[..n];
      assert forall j :: 0 <= j < n ==> init[j] == items[j];
      FlowLineHeight(init, rect, spacing, limit);
      FlowDescends(init, rect, spacing, limit);
      var c0 := Flow(init, rect, spacing, limit);
      var c := Flow(items, rect, spacing, limit);
      assert c.placed[..n] == c0.placed;
      var tail := if c.placed[n].y == c.y then items[n].h else 0;
      assert tail == items[n].h;
      assert LineHeight(items, c.placed, c.y) == Max(LineHeight(init, c0.placed, c.y), tail);
      if c0.x + items[n].w > limit && c0.lineHeight > 0 {
        assert c.y > c0.y;
        LineHeightEmpty(init, c0.placed, c.y);
      }
    }
  }

  /** The wrap rule in both directions. Item `i` starts a new line exactly
      when, placed after item `i - 1`, its right edge would pass `limit`;
      on the same line it follows item `i - 1` after the spacing; on a new
      line it starts at the rectangle's left edge, one line height plus
      the spacing further down, the line height being the tallest item of
      the line before. */
  lemma WrapRule(items: seq<Size>, rect: Rect, spacing: int, limit: int, i: nat)
    requires spacing >= 0
    requires forall j :: 0 <= j < |items| ==> items[j].h > 0
    requires 0 < i < |items|
    ensures var g := Flow(items, rect, spacing, limit).placed;
      && (g[i].y > g[i - 1].y <==> g[i - 1].x + items[i - 1].w + spacing + items[i].w > limit)
      && g[i].y >= g[i - 1].y
      && (g[i].y == g[i - 1].y ==> g[i].x == g[i - 1].x + items[i - 1].w + spacing)
      && (g[i].y > g[i - 1].y ==>
            g[i].x == rect.x && g[i].y == g[i - 1].y + LineHeight(items[..i], g[..i], g[i - 1].y) + spacing)
  {
    var g := Flow(items, rect, spacing, limit).placed;
    var p := items[..i + 1];
    FlowPrefix(items, rect, spacing, limit, i + 1);
    FlowPrefix(items, rect, spacing, limit, i);
    var init := p[..i];
    assert init == items[..i];
    assert forall j :: 0 <= j < i ==> init[j] == items[j];
    FlowLineHeight(init, rect, spacing, limit);
    var c := Flow(init, rect, spacing, limit);
    assert c.placed == g[..i];
    LineHeightIsTallest(init, c.placed, c.y);
    assert Flow(p, rect, spacing, limit).placed == g[..i + 1];
    assert g[i - 1] == c.placed[i - 1];
    assert c.lineHeight > 0;
  }

  /** The layout as written wraps an item exactly when its right edge,
      one past its last column, passes the rectangle's last column. */
  lemma DoLayoutWraps(items: seq<Size>, rect: Rect, spacing: int, i: nat)
    requires spacing >= 0
    requires forall j :: 0 <= j < |items| ==> items[j].h > 0
    requires 0 < i < |items|
    ensures var g := DoLayout(items, rect, spacing, false).geometry;
      && (g[i].y > g[i - 1].y <==> g[i - 1].x + items[i - 1].w + spacing + items[i].w > Right(rect))
      && (g[i].y == g[i - 1].y ==> g[i].x == g[i - 1].x + items[i - 1].w + spacing)
      && (g[i].y > g[i - 1].y ==>
            g[i].x == rect.x && g[i].y == g[i - 1].y + LineHeight(items[..i], g[..i], g[i - 1].y) + spacing)
  {
    WrapRule(items, rect, spacing, Right(rect), i);
  }

  /** The height returned is the last line's offset from the top of the
      rectangle plus the tallest item on that line (0 with no items). */
  lemma DoLayoutHeight(items: seq<Size>, rect: Rect, spacing: int, testOnly: bool)
    requires spacing >= 0
    requires forall j :: 0 <= j < |items| ==> items[j].h > 0
    ensures DoLayout(items, rect, spacing, testOnly).height
         == Flow(items, rect, spacing, Right(rect)).y
            + LineHeight(items, Flow(items, rect, spacing, Right(rect)).placed, Flow(items, rect, spacing, Right(rect)).y)
            - rect.y
  {
    FlowLineHeight(items, rect, spacing, Right(rect));
  }

  /** The wrap test as evidently intended: an item fits when its last
      column is inside the rectangle. */
  function DoLayoutFixed(items: seq<Size>, rect: Rect, spacing: int, testOnly: bool): (r: LayoutResult)
    ensures testOnly ==> r.geometry == []
    ensures !testOnly ==> r.geometry == Flow(items, rect, spacing, rect.x + rect.w).placed && |r.geometry| == |items|
  {
    var c := Flow(items, rect, spacing, rect.x + rect.w);
    LayoutResult(c.y + c.lineHeight - rect.y, if testOnly then [] else c.placed)
  }

  /** With the corrected test every item after the first of its line
      lies inside the rectangle; as written it even stays clear of the
      last column. */
  lemma LaidOutItemsFit(items: seq<Size>, rect: Rect, spacing: int)
    requires forall i :: 0 <= i < |items| ==> items[i].h > 0
    ensures var g := DoLayoutFixed(items, rect, spacing, false).geometry;
      forall i :: 0 <= i < |items| ==> g[i].x == rect.x || g[i].x + items[i].w - 1 <= Right(rect)
    ensures var g := DoLayout(items, rect, spacing, false).geometry;
      forall i :: 0 <= i < |items| ==> g[i].x == rect.x || g[i].x + items[i].w - 1 < Right(rect)
  {
    LinesFit(items, rect, spacing, rect.x + rect.w);
    LinesFit(items, rect, spacing, Right(rect));
  }

  /** With the corrected test an item wraps exactly when its last column
      would lie outside the rectangle. */
  lemma DoLayoutFixedWraps(items: seq<Size>, rect: Rect, spacing: int, i: nat)
    requires spacing >= 0
    requires forall j :: 0 <= j < |items| ==> items[j].h > 0
    requires 0 < i < |items|
    ensures var g := DoLayoutFixed(items, rect, spacing, false).geometry;
      && (g[i].y > g[i - 1].y <==> g[i - 1].x + items[i - 1].w + spacing + items[i].w - 1 > Right(rect))
      && (g[i].y == g[i - 1].y ==> g[i].x == g[i - 1].x + items[i - 1].w + spacing)
      && (g[i].y > g[i - 1].y ==>
            g[i].x == rect.x && g[i].y == g[i - 1].y + LineHeight(items[..i], g[..i], g[i - 1].y) + spacing)
  {
    WrapRule(items, rect, spacing, rect.x + rect.w, i);
  }

  /** As written, an item whose last column is exactly the rectangle's
      last column is moved to a new line: two 50-wide items in a 100-wide
      rectangle with no spacing take two lines, though they fit on one. */
  lemma ExactFitWraps()
    ensures var items := [Size(50, 10), Size(50, 10)];
      var rect := Rect(0, 0, 100, 0);
      DoLayout(items, rect, 0, false) == LayoutResult(20, [Pos(0, 0), Pos(0, 10)])
      && DoLayoutFixed(items, rect, 0, false) == LayoutResult(10, [Pos(0, 0), Pos(50, 0)])
      && 50 + items[1].w - 1 <= Right(rect)
  {
    var items := [Size(50, 10), Size(50, 10)];
    assert items[..1] == [Size(50, 10)];
    assert items[..1][..0] == [];
  }
}

=== FILE: InstallWorkers.dfy ===
/** `gui/tool_worker.py`, the two worker threads: `ToolInstallWorker.run`
    partitions the requested plugins by install hint, installs them and
    reports progress and what is still missing; `ToolCheckWorker.run`
    reports which plugins' runtime names are not on PATH. */
module InstallWorkers {
  import opened Wrappers
  import opened Text
  import opened ToolWorker

  /** Lines 542-543: the hints run one at a time and the hints run in the
      thread pool. A hint in neither set is never attempted. */
  const SerialHints: set<string> := {"apt", "brew", "choco", "docker", "git", "manual", ""}
  const ParallelHints: set<string> := {"pip", "go"}

  function Lookup(plugins: map<string, Plugin>, pn: string): Option<Plugin> {
    if pn in plugins then Some(plugins[pn]) else None
  }

  function IsSerial(plugins: map<string, Plugin>): string -> bool {
    pn => WorkerHint(Lookup(plugins, pn)) in SerialHints
  }

  function IsParallel(plugins: map<string, Plugin>): string -> bool {
    pn => WorkerHint(Lookup(plugins, pn)) in ParallelHints
  }

  /** No hint is both serial and parallel. */
  lemma HintSetsDisjoint(h: string)
    ensures !(h in SerialHints && h in ParallelHints)
  {
    if h in ParallelHints {
      assert h == "pip" || h == "go";
      assert h[0] != 'a' && h[0] != 'b' && h[0] != 'c' && h[0] != 'd' && h[0] != 'm';
      assert h != "" && h != "git" by {
        assert h[0] == 'p' || h[1] == 'o';
      }
    }
  }

  lemma ExclusivePartition(plugins: map<string, Plugin>)
    ensures forall pn :: !(IsSerial(plugins)(pn) && IsParallel(plugins)(pn))
  {
    forall pn: string {
      HintSetsDisjoint(WorkerHint(Lookup(plugins, pn)));
    }
  }

  /** Whether the worker attempts the plugin at all. */
  predicate Attempted(plugins: map<string, Plugin>, pn: string) {
    IsSerial(plugins)(pn) || IsParallel(plugins)(pn)
  }

  /** Two comprehensions with exclusive conditions together keep at most
      the whole list. */
  lemma {:induction false} SelectDisjoint(xs: seq<string>, f: string -> bool, g: string -> bool)
    requires forall x :: !(f(x) && g(x))
    ensures |Select(xs, f)| + |Select(xs, g)| <= |xs|
  {
    if xs != [] {
      SelectDisjoint(xs[..|xs| - 1], f, g);
    }
  }

  /** Python's `int(100 * done / total)` for non-negative counts. */
  function Percent(done: nat, total: nat): nat
    requires 0 < total
  {
    100 * done / total
  }

  /** Percentages grow with the count and reach 100 at the total. */
  lemma PercentMono(a: nat, b: nat, total: nat)
    requires 0 < total && a <= b <= total
    ensures Percent(a, total) <= Percent(b, total) <= 100
    ensures b == total ==> Percent(b, total) == 100
  {
    DivMono(100 * a, 100 * b, total);
    DivMono(100 * b, 100 * total, total);
    DivOfMultiple(100, total);
  }

  /** Floor division by a positive number is monotone. */
  lemma DivMono(a: int, b: int, t: int)
    requires 0 < t && a <= b
    ensures a / t <= b / t
  {
    DivBounds(a, t);
    DivBounds(b, t);
    MulMonoWhen(t, b / t + 1, a / t);
  }

  /** `(k * t) / t == k` for positive `t`. */
  lemma DivOfMultiple(k: int, t: int)
    requires 0 < t
    ensures (k * t) / t == k
  {
    var q := (k * t) / t;
    DivBounds(k * t, t);
    MulMonoWhen(t, q + 1, k);
    MulMonoWhen(t, k + 1, q);
  }

  /** The quotient brackets the dividend. */
  lemma DivBounds(a: int, t: int)
    requires 0 < t
    ensures t * (a / t) <= a < t * (a / t) + t
  {
  }

  /** Multiplying by a non-negative number keeps the order. */
  lemma MulMonoWhen(t: int, x: int, y: int)
    requires 0 <= t
    ensures x <= y ==> t * x <= t * y
  {
    if x <= y {
      assert t * y == t * x + t * (y - x);
    }
  }

  /** The progress values emitted after each of the first `n` items. */
  function Steps(n: nat, total: nat): (ps: seq<nat>)
    requires n <= total
    ensures |ps| == n
    ensures forall i :: 0 <= i < n ==> ps[i] <= 100
    ensures forall i :: 0 < i < n ==> ps[i - 1] <= ps[i]
    ensures 0 < n ==> ps[n - 1] == Percent(n, total)
  {
    if n == 0 then []
    else
      var prev := Steps(n - 1, total);
      PercentMono(n - 1, n, total);
      prev + [Percent(n, total)]
  }

  /** The whole progress trace: one value per item, then the closing 100. */
  function Ticks(n: nat, total: nat): (ps: seq<nat>)
    requires n <= total
    ensures |ps| == n + 1 && ps[n] == 100
    ensures forall i :: 0 <= i < |ps| ==> ps[i] <= 100
    ensures forall i :: 0 < i < |ps| ==> ps[i - 1] <= ps[i]
    ensures n == total && 0 < n ==> ps[n - 1] == 100
  {
    if 0 < n then
      PercentMono(n, n, total);
      Steps(n, total) + [100]
    else [100]
  }

  datatype Summary = Summary(progress: seq<nat>, missing: seq<string>, finished: bool)

  /** Lines 450-688 with the outcome of each `_install_one` call given as
      `installed`, and the order the pool finishes in as `completion`, a
      permutation of the parallel items. */
  function WorkerRun(toInstall: seq<string>, plugins: map<string, Plugin>, installed: string -> bool,
                     completion: seq<string>): (r: Summary)
    requires multiset(completion) == multiset(Select(toInstall, IsParallel(plugins)))
    ensures toInstall == [] ==> r == Summary([100], [], true)
    ensures r.finished <==> r.missing == []
    ensures |r.progress| >= 1 && r.progress[|r.progress| - 1] == 100
    ensures forall i :: 0 <= i < |r.progress| ==> r.progress[i] <= 100
    ensures forall i :: 0 < i < |r.progress| ==> r.progress[i - 1] <= r.progress[i]
  {
    if toInstall == [] then Summary([100], [], true)
    else
      var order := Attempts(toInstall, plugins, completion);
      var missing := Select(order, pn => !installed(pn));
      Summary(Ticks(|order|, |toInstall|), missing, missing == [])
  }

  /** The attempts in the order they finish: the serial items in list
      order, then the pool's completion order. */
  function Attempts(toInstall: seq<string>, plugins: map<string, Plugin>, completion: seq<string>): (order: seq<string>)
    requires multiset(completion) == multiset(Select(toInstall, IsParallel(plugins)))
    ensures |order| == |Select(toInstall, IsSerial(plugins))| + |Select(toInstall, IsParallel(plugins))| <= |toInstall|
    ensures forall pn :: pn in order <==> pn in toInstall && Attempted(plugins, pn)
  {
    var serial := Select(toInstall, IsSerial(plugins));
    assert forall pn :: pn in completion <==> pn in multiset(completion);
    assert |completion| == |multiset(completion)|;
    ExclusivePartition(plugins);
    SelectDisjoint(toInstall, IsSerial(plugins), IsParallel(plugins));
    SelectMembers(toInstall, IsSerial(plugins));
    SelectMembers(toInstall, IsParallel(plugins));
    serial + completion
  }

  /** A plugin is reported missing exactly when it was attempted and its
      install did not succeed. */
  lemma WorkerRunMissing(toInstall: seq<string>, plugins: map<string, Plugin>, installed: string -> bool,
                         completion: seq<string>, pn: string)
    requires multiset(completion) == multiset(Select(toInstall, IsParallel(plugins)))
    ensures pn in WorkerRun(toInstall, plugins, installed, completion).missing <==>
      pn in toInstall && Attempted(plugins, pn) && !installed(pn)
  {
    if toInstall != [] {
      SelectMembers(Attempts(toInstall, plugins, completion), (p: string) => !installed(p));
    }
  }

  /** A request whose every hint is outside both sets is reported exactly
      as an empty request: nothing attempted, nothing missing, finished. */
  lemma UnknownHintsReportSuccess(toInstall: seq<string>, plugins: map<string, Plugin>, installed: string -> bool)
    requires forall i :: 0 <= i < |toInstall| ==> !Attempted(plugins, toInstall[i])
    ensures Select(toInstall, IsParallel(plugins)) == []
            && WorkerRun(toInstall, plugins, installed, []) == Summary([100], [], true)
  {
    NoneSelected(toInstall, IsParallel(plugins));
    if toInstall != [] {
      var order := Attempts(toInstall, plugins, []);
      assert order == [] by {
        NoneSelected(toInstall, IsSerial(plugins));
      }
      assert Select(order, (pn: string) => !installed(pn)) == [];
      assert Ticks(|order|, |toInstall|) == [100];
    }
  }

  lemma {:induction false} NoneSelected(xs: seq<string>, keep: string -> bool)
    requires forall i :: 0 <= i < |xs| ==> !keep(xs[i])
    ensures Select(xs, keep) == []
  {
    if xs != [] {
      var ys := xs[..|xs| - 1];
      assert forall i :: 0 <= i < |ys| ==> ys[i] == xs[i];
      NoneSelected(ys, keep);
    }
  }

  /** Lines 707-713: each plugin's name with the name the check looks up. */
  function RuntimeNames(plugins: seq<(string, Plugin)>): (es: seq<(string, string)>)
    ensures |es| == |plugins|
    ensures forall i :: 0 <= i < |es| ==> es[i] == (plugins[i].0, WorkerRuntimeName(plugins[i].1, plugins[i].0))
  {
    seq(|plugins|, i requires 0 <= i < |plugins| => (plugins[i].0, WorkerRuntimeName(plugins[i].1, plugins[i].0)))
  }

  /** Lines 715-719: the plugin names whose runtime name is not on PATH, in
      order. */
  function CheckMissing(entries: seq<(string, string)>, which: string -> bool): seq<string> {
    if entries == [] then []
    else
      var rest := CheckMissing(entries[..|entries| - 1], which);
      var last := entries[|entries| - 1];
      if !which(last.1) then rest + [last.0] else rest
  }

  lemma {:induction false} CheckMissingSpec(entries: seq<(string, string)>, which: string -> bool, nm: string)
    ensures nm in CheckMissing(entries, which) <==>
      exists i :: 0 <= i < |entries| && entries[i].0 == nm && !which(entries[i].1)
  {
    if entries != [] {
      var init := entries[..|entries| - 1];
      CheckMissingSpec(init, which, nm);
      assert forall i :: 0 <= i < |init| ==> init[i] == entries[i];
    }
  }

  datatype CheckSummary = CheckSummary(progress: seq<nat>, missing: seq<string>)

  /** Lines 703-731: one progress value per plugin, then 100. */
  function CheckRun(plugins: seq<(string, Plugin)>, which: string -> bool): (r: CheckSummary)
    ensures |r.progress| == |plugins| + 1 && r.progress[|plugins|] == 100
    ensures plugins != [] ==> r.progress[|plugins| - 1] == 100
    ensures forall i :: 0 < i < |r.progress| ==> r.progress[i - 1] <= r.progress[i]
  {
    CheckSummary(Ticks(|plugins|, |plugins|), CheckMissing(RuntimeNames(plugins), which))
  }

  /** A plugin name is reported missing exactly when a plugin of that name
      has its runtime name (alias, else executable, else required tool)
      absent from PATH. */
  lemma CheckRunMissing(plugins: seq<(string, Plugin)>, which: string -> bool, nm: string)
    ensures nm in CheckRun(plugins, which).missing <==>
      exists i :: 0 <= i < |plugins| && plugins[i].0 == nm && !which(WorkerRuntimeName(plugins[i].1, plugins[i].0))
  {
    var es := RuntimeNames(plugins);
    CheckMissingSpec(es, which, nm);
    if exists i :: 0 <= i < |plugins| && plugins[i].0 == nm && !which(WorkerRuntimeName(plugins[i].1, plugins[i].0)) {
      var i :| 0 <= i < |plugins| && plugins[i].0 == nm && !which(WorkerRuntimeName(plugins[i].1, plugins[i].0));
      assert es[i].0 == nm && !which(es[i].1);
    }
  }
}

=== FILE: Installer.dfy ===
/** `core/installer_utils.py`: the decisions of the installer layer. The
    process runner's return codes, the metadata read from a plugin, the
    image guess for a docker shim, the native installers, the routing of
    `safe_install_tool`, and the method list and retry loop of
    `compat_try_install_tool`.

    PATH lookups, root detection, the platform name, the Python
    executable and every command's outcome are parameters. */
module Installer {
  import opened Wrappers
  import opened Text
  import opened Adapters

  // =====================================================================
  // run_cmd_stream
  // =====================================================================

  /** An argument list, or one string run through the shell. */
  datatype Cmd = ArgvCmd(args: seq<string>) | ShellCmd(text: string)

  /** What starting the process gave: its exit code and output lines, a
      missing executable, or another error. */
  datatype Spawn = Completed(rc: int, lines: seq<string>) | NotFound | SpawnError(error: string)

  /** Lines 32-56. The shell is used exactly for a string command;
      `spawn(args, shell)` is what `Popen` did. */
  function RunCmdStream(args: Cmd, spawn: (Cmd, bool) -> Spawn): (r: (int, string))
    ensures spawn(args, args.ShellCmd?).NotFound? ==> r == (127, "")
    ensures spawn(args, args.ShellCmd?).SpawnError? ==> r == (1, spawn(args, args.ShellCmd?).error)
    ensures spawn(args, args.ShellCmd?).Completed? ==>
      r == (spawn(args, args.ShellCmd?).rc, Concat(spawn(args, args.ShellCmd?).lines))
  {
    match spawn(args, args.ShellCmd?)
    case Completed(rc, lines) => (rc, Concat(lines))
    case NotFound => (127, "")
    case SpawnError(e) => (1, e)
  }

  /** A missing executable is reported with the shell's "not found" code
      and no output, whatever the command. */
  lemma NotFoundIs127(args: Cmd, spawn: (Cmd, bool) -> Spawn)
    requires spawn(args, args.ShellCmd?) == NotFound
    ensures RunCmdStream(args, spawn).0 == 127 && RunCmdStream(args, spawn).1 == ""
  {
  }

  // =====================================================================
  // pull_image_if_mentioned
  // =====================================================================

  /** Line 83: a token that looks like an image names a registry path or
      a tag. */
  predicate LooksLikeImage(t: string) { '/' in t || ':' in t }

  /** Index of the last token that looks like an image, or -1. */
  function LastImageIndex(toks: seq<string>): (i: int)
    ensures -1 <= i < |toks|
    ensures i >= 0 ==> LooksLikeImage(toks[i])
    ensures forall j :: i < j < |toks| ==> !LooksLikeImage(toks[j])
  {
    if toks == [] then -1
    else if LooksLikeImage(toks[|toks| - 1]) then |toks| - 1
    else LastImageIndex(toks[..|toks| - 1])
  }

  /** Lines 80-86: the `docker pull` run for a `DOCKER_RUN` string. The
      image is the last of its words that looks like one; without such a
      word nothing is pulled. */
  function PullCommands(dockerRun: string): (cmds: seq<seq<string>>)
    ensures var toks := SplitWs(dockerRun);
      (cmds == [] <==> forall j :: 0 <= j < |toks| ==> !LooksLikeImage(toks[j]))
      && (cmds != [] ==> exists i :: 0 <= i < |toks| && cmds == [["docker", "pull", toks[i]]]
                          && LooksLikeImage(toks[i])
                          && forall j :: i < j < |toks| ==> !LooksLikeImage(toks[j]))
  {
    var toks := SplitWs(dockerRun);
    var i := LastImageIndex(toks);
    if i < 0 then [] else [["docker", "pull", toks[i]]]
  }

  // =====================================================================
  // Install hints and platforms
  // =====================================================================

  /** An install hint, once its string has been compared with the known
      names; anything else (including "manual") is `OtherHint`. */
  datatype Hint = AptHint | BrewHint | ChocoHint | PipHint | GoHint | GitHint | DockerHint | OtherHint

  function HintOf(h: string): (k: Hint)
    ensures k == AptHint <==> h == "apt"
    ensures k == GoHint <==> h == "go"
    ensures k == GitHint <==> h == "git"
    ensures k == DockerHint <==> h == "docker"
    ensures k == BrewHint <==> h == "brew"
    ensures k == ChocoHint <==> h == "choco"
    ensures k == PipHint <==> h == "pip"
  {
    if h == "apt" then AptHint
    else if h == "brew" then BrewHint
    else if h == "choco" then ChocoHint
    else if h == "pip" then PipHint
    else if h == "go" then GoHint
    else if h == "git" then GitHint
    else if h == "docker" then DockerHint
    else OtherHint
  }

  /** `platform.system().lower()`, sorted into the three names the
      installers compare against. */
  datatype Os = Linux | Darwin | Windows | OtherOs

  // =====================================================================
  // get_plugin_install_meta
  // =====================================================================

  datatype InstallMeta = InstallMeta(requiredTool: string, installHint: string, installUrl: string,
                                     runtimeName: string, aliasName: string, dockerRun: string, executable: string)

  /** Lines 145-164: the hint defaults to "manual" and is normalised; the
      alias falls back to the executable and then to the required tool;
      the runtime name is the stripped alias, or the required tool when
      that strips to nothing. */
  function GetPluginInstallMeta(a: Adapter): (m: InstallMeta)
    ensures m.requiredTool == a.requiredTool && m.installUrl == a.installUrl && m.dockerRun == a.dockerRun
    ensures m.installHint == Lower(Strip(Or(a.installHint, "manual")))
    ensures m.executable == (if a.executable != "" then a.executable else a.requiredTool)
    ensures m.aliasName == (if a.toolAlias != "" then a.toolAlias else m.executable)
    ensures m.runtimeName == (if Strip(m.aliasName) != "" then Strip(m.aliasName) else a.requiredTool)
    ensures a.requiredTool != "" ==> m.runtimeName != "" && m.aliasName != "" && m.executable != ""
  {
    var alias := Or(a.toolAlias, Or(a.executable, a.requiredTool));
    InstallMeta(a.requiredTool, Lower(Strip(Or(a.installHint, "manual"))), a.installUrl,
                Or(Strip(alias), a.requiredTool), alias, a.dockerRun, Or(a.executable, a.requiredTool))
  }

  /** The normalised hint is lower case, and an adapter without a hint is
      installed manually. */
  lemma MetaHintNormalised(a: Adapter)
    ensures var h := GetPluginInstallMeta(a).installHint;
      forall i :: 0 <= i < |h| ==> !IsUpper(h[i])
    ensures a.installHint == "" ==> GetPluginInstallMeta(a).installHint == "manual"
  {
    if a.installHint == "" {
      var m := "manual";
      assert m[0] == 'm' && m[5] == 'l';
      StripByNoop(m, IsSpace);
      var l := Lower(m);
      assert l == m by {
        assert l[0] == 'm' && l[1] == 'a' && l[2] == 'n' && l[3] == 'u' && l[4] == 'a' && l[5] == 'l';
      }
    }
  }

  /** The installer's names agree with the adapter's own
      `get_install_info`, and its runtime name with the one the adapter
      runs whenever that is not blank. */
  lemma MetaAgreesWithAdapter(a: Adapter)
    ensures GetPluginInstallMeta(a).executable == GetInstallInfo(a).execName
    ensures GetPluginInstallMeta(a).aliasName == GetInstallInfo(a).aliasName
    ensures RuntimeName(a) != "" ==> GetPluginInstallMeta(a).runtimeName == RuntimeName(a)
  {
  }

  // =====================================================================
  // Native installers (lines 92-139)
  // =====================================================================

  /** What one installer did: success, its message, and the commands it
      ran in order. */
  datatype InstallRun = InstallRun(ok: bool, msg: string, commands: seq<seq<string>>)

  /** A reported success comes from the last command run, which exited
      with 0. */
  predicate Backed(r: InstallRun, run: seq<string> -> (int, string)) {
    r.ok ==> r.commands != [] && run(r.commands[|r.commands| - 1]).0 == 0
  }

  /** `(rc == 0, out if out else ("OK" if rc == 0 else failMsg))`. */
  function NativeOutcome(argv: seq<string>, failMsg: string, run: seq<string> -> (int, string)): (r: InstallRun)
    ensures r.ok <==> run(argv).0 == 0
    ensures run(argv).1 != "" ==> r.msg == run(argv).1
    ensures run(argv).1 == "" && run(argv).0 == 0 ==> r.msg == "OK"
    ensures run(argv).1 == "" && run(argv).0 != 0 ==> r.msg == failMsg
    ensures r.commands == [argv]
    ensures Backed(r, run)
  {
    var (rc, out) := run(argv);
    InstallRun(rc == 0, if out != "" then out else if rc == 0 then "OK" else failMsg, [argv])
  }

  /** Lines 101-106: plain `apt` as root, through `sudo` when it exists,
      plain `apt` otherwise (with a warning). */
  function AptInstallArgv(pkg: string, isRoot: bool, hasSudo: bool): (argv: seq<string>)
    ensures |argv| == (if !isRoot && hasSudo then 5 else 4)
    ensures (|argv| == 5) ==> argv[0] == "sudo"
    ensures argv[|argv| - 4] == "apt" && argv[|argv| - 3] == "install" && argv[|argv| - 2] == "-y" && argv[|argv| - 1] == pkg
  {
    if !isRoot && hasSudo then ["sudo", "apt", "install", "-y", pkg] else ["apt", "install", "-y", pkg]
  }

  /** Lines 113-116: the index refresh, only for root or with `sudo`. */
  function AptUpdateArgv(isRoot: bool, hasSudo: bool): (argv: Option<seq<string>>)
    ensures argv.Some? <==> isRoot || hasSudo
    ensures argv.Some? ==> |argv.value| == (if isRoot then 2 else 3)
    ensures argv.Some? ==> argv.value[|argv.value| - 2] == "apt-get" && argv.value[|argv.value| - 1] == "update"
  {
    if isRoot then Some(["apt-get", "update"])
    else if hasSudo then Some(["sudo", "apt-get", "update"])
    else None
  }

  /** Lines 92-119: the refresh (whose result is ignored) and then the
      install, which alone decides the outcome. */
  function AptInstall(pkg: string, isRoot: bool, hasSudo: bool, run: seq<string> -> (int, string)): (r: InstallRun)
    ensures r.ok <==> run(AptInstallArgv(pkg, isRoot, hasSudo)).0 == 0
    ensures |r.commands| == (if isRoot || hasSudo then 2 else 1)
    ensures r.commands[|r.commands| - 1] == AptInstallArgv(pkg, isRoot, hasSudo)
    ensures Backed(r, run)
  {
    var install := NativeOutcome(AptInstallArgv(pkg, isRoot, hasSudo), "apt install failed", run);
    match AptUpdateArgv(isRoot, hasSudo)
    case Some(update) => InstallRun(install.ok, install.msg, [update] + install.commands)
    case None => install
  }

  /** Lines 121-124. */
  function BrewInstall(pkg: string, onPath: string -> bool, run: seq<string> -> (int, string)): (r: InstallRun)
    ensures !onPath("brew") ==> !r.ok && r.commands == []
    ensures onPath("brew") ==> r == NativeOutcome(["brew", "install", pkg], "brew install failed", run)
    ensures Backed(r, run)
  {
    if !onPath("brew") then InstallRun(false, "Homebrew not found (https://brew.sh)", [])
    else NativeOutcome(["brew", "install", pkg], "brew install failed", run)
  }

  /** Lines 126-129. */
  function ChocoInstall(pkg: string, onPath: string -> bool, run: seq<string> -> (int, string)): (r: InstallRun)
    ensures !onPath("choco") ==> !r.ok && r.commands == []
    ensures onPath("choco") ==> r == NativeOutcome(["choco", "install", pkg, "-y"], "choco install failed", run)
    ensures Backed(r, run)
  {
    if !onPath("choco") then InstallRun(false, "Chocolatey not found (https://chocolatey.org/install)", [])
    else NativeOutcome(["choco", "install", pkg, "-y"], "choco install failed", run)
  }

  /** Lines 131-134: `python -m pip install pkg` with the running
      interpreter `python`. */
  function PipInstall(pkg: string, python: string, run: seq<string> -> (int, string)): (r: InstallRun)
    ensures r.ok <==> run([python, "-m", "pip", "install", pkg]).0 == 0
    ensures r.commands == [[python, "-m", "pip", "install", pkg]]
    ensures Backed(r, run)
  {
    NativeOutcome([python, "-m", "pip", "install", pkg], "pip install failed", run)
  }

  /** Lines 136-139. */
  function GoInstall(goPath: string, onPath: string -> bool, run: seq<string> -> (int, string)): (r: InstallRun)
    ensures !onPath("go") ==> !r.ok && r.commands == []
    ensures onPath("go") ==> r == NativeOutcome(["go", "install", goPath], "go install failed", run)
    ensures Backed(r, run)
  {
    if !onPath("go") then InstallRun(false, "Go not found (https://go.dev/dl/)", [])
    else NativeOutcome(["go", "install", goPath], "go install failed", run)
  }

  /** Line 203: the ProjectDiscovery module path assumed for a Go tool
      without a URL. */
  function DefaultGoPath(tool: string): string {
    "github.com/projectdiscovery/" + tool + "/cmd/" + tool + "@latest"
  }

  // =====================================================================
  // safe_install_tool
  // =====================================================================

  /** What creating the docker shim gave: whether the file was written,
      where, and whether the alias resolves on PATH afterwards. */
  datatype Shim = Shim(written: bool, path: string, visible: bool)

  /** Lines 188-196. */
  function DockerInstall(dockerRun: string, onPath: string -> bool, shim: Shim): (r: InstallRun)
    ensures !onPath("docker") ==> !r.ok && r.commands == []
    ensures onPath("docker") && dockerRun == "" ==> !r.ok && r.commands == []
    ensures onPath("docker") && dockerRun != "" ==> (r.ok <==> shim.written && shim.visible)
    ensures onPath("docker") && dockerRun != "" ==> r.commands == PullCommands(dockerRun)
  {
    if !onPath("docker") then InstallRun(false, "Docker not found. Install Docker Engine/Desktop.", [])
    else if dockerRun == "" then InstallRun(false, "Plugin missing DOCKER_RUN.", [])
    else
      var ok := shim.written && shim.visible;
      InstallRun(ok, if ok then "Shim created at " + shim.path else "Failed to create shim", PullCommands(dockerRun))
  }

  /** Line 178: the tool name used for installs. */
  function ReqName(m: InstallMeta): string { Or(m.requiredTool, "tool") }

  /** The tool is already reachable by its alias or its required name. */
  predicate Present(m: InstallMeta, onPath: string -> bool) {
    onPath(m.aliasName) || onPath(ReqName(m))
  }

  /** Lines 170-210: nothing is run when the tool is already present;
      otherwise the hint picks one installer, while "git" and every
      other hint only explain what to do. */
  function SafeInstallTool(a: Adapter, onPath: string -> bool, isRoot: bool, python: string, shim: Shim,
                           run: seq<string> -> (int, string)): (r: InstallRun)
    ensures var m := GetPluginInstallMeta(a);
      Present(m, onPath) ==> r.ok && r.commands == [] && r.msg == Or(m.aliasName, ReqName(m)) + " already present"
    ensures var m := GetPluginInstallMeta(a);
      !Present(m, onPath) && m.installHint == "docker" ==> r == DockerInstall(m.dockerRun, onPath, shim)
    ensures var m := GetPluginInstallMeta(a);
      !Present(m, onPath) && m.installHint == "apt" ==> r == AptInstall(ReqName(m), isRoot, onPath("sudo"), run)
    ensures var m := GetPluginInstallMeta(a);
      !Present(m, onPath) && m.installHint == "brew" ==> r == BrewInstall(ReqName(m), onPath, run)
    ensures var m := GetPluginInstallMeta(a);
      !Present(m, onPath) && m.installHint == "choco" ==> r == ChocoInstall(ReqName(m), onPath, run)
    ensures var m := GetPluginInstallMeta(a);
      !Present(m, onPath) && m.installHint == "pip" ==> r == PipInstall(ReqName(m), python, run)
    ensures var m := GetPluginInstallMeta(a);
      !Present(m, onPath) && m.installHint == "go" ==>
        r == GoInstall(Or(m.installUrl, DefaultGoPath(ReqName(m))), onPath, run)
    ensures var m := GetPluginInstallMeta(a);
      !Present(m, onPath) && m.installHint == "git" ==>
        !r.ok && r.commands == [] && r.msg == "Manual git build required: " + Or(m.installUrl, "no URL provided")
    ensures var m := GetPluginInstallMeta(a);
      !Present(m, onPath) && HintOf(m.installHint) == OtherHint ==>
        !r.ok && r.commands == [] && r.msg == "Manual install: " + Or(m.installUrl, ReqName(m))
  {
    var m := GetPluginInstallMeta(a);
    var req := ReqName(m);
    if Present(m, onPath) then InstallRun(true, Or(m.aliasName, req) + " already present", [])
    else
      match HintOf(m.installHint)
      case DockerHint => DockerInstall(m.dockerRun, onPath, shim)
      case AptHint => AptInstall(req, isRoot, onPath("sudo"), run)
      case BrewHint => BrewInstall(req, onPath, run)
      case ChocoHint => ChocoInstall(req, onPath, run)
      case PipHint => PipInstall(req, python, run)
      case GoHint => GoInstall(Or(m.installUrl, DefaultGoPath(req)), onPath, run)
      case GitHint => InstallRun(false, "Manual git build required: " + Or(m.installUrl, "no URL provided"), [])
      case OtherHint => InstallRun(false, "Manual install: " + Or(m.installUrl, req), [])
  }

  /** A reported success is backed by something: the tool was already
      there, the docker shim is visible, or the last command run exited
      with 0, and for apt that command is the install, not the refresh. */
  lemma SafeInstallSuccessJustified(a: Adapter, onPath: string -> bool, isRoot: bool, python: string, shim: Shim,
                                    run: seq<string> -> (int, string))
    ensures var r := SafeInstallTool(a, onPath, isRoot, python, shim, run);
      var m := GetPluginInstallMeta(a);
      r.ok ==> Present(m, onPath)
               || (m.installHint == "docker" && shim.visible)
               || (r.commands != [] && run(r.commands[|r.commands| - 1]).0 == 0)
    ensures var r := SafeInstallTool(a, onPath, isRoot, python, shim, run);
      var m := GetPluginInstallMeta(a);
      r.ok && !Present(m, onPath) && m.installHint == "apt" ==>
        r.commands[|r.commands| - 1] == AptInstallArgv(ReqName(m), isRoot, onPath("sudo"))
  {
    var m := GetPluginInstallMeta(a);
    var r := SafeInstallTool(a, onPath, isRoot, python, shim, run);
    if !Present(m, onPath) {
      var req := ReqName(m);
      match HintOf(m.installHint)
      case DockerHint =>
      case AptHint =>
        assert r == AptInstall(req, isRoot, onPath("sudo"), run);
      case BrewHint =>
        assert r == BrewInstall(req, onPath, run);
      case ChocoHint =>
        assert r == ChocoInstall(req, onPath, run);
      case PipHint =>
        assert r == PipInstall(req, python, run);
      case GoHint =>
        assert r == GoInstall(Or(m.installUrl, DefaultGoPath(req)), onPath, run);
      case GitHint =>
      case OtherHint =>
    }
  }

  // =====================================================================
  // compat_try_install_tool: method list
  // =====================================================================

  /** The six install methods, in the order the list is built. */
  datatype Kind = AptKind | BrewKind | ChocoKind | GoKind | PipKind | GitKind

  /** The name each method carries in the source's `(name, cmd)` pairs. */
  function KindName(k: Kind): string {
    match k
    case AptKind => "apt"
    case BrewKind => "brew"
    case ChocoKind => "choco"
    case GoKind => "go"
    case PipKind => "pip"
    case GitKind => "git"
  }

  function Rank(k: Kind): nat {
    match k
    case AptKind => 0
    case BrewKind => 1
    case ChocoKind => 2
    case GoKind => 3
    case PipKind => 4
    case GitKind => 5
  }

  /** One install method: its kind and its command. */
  datatype Method = Method(kind: Kind, cmd: Cmd)

  /** The methods are listed in the order apt, brew, choco, go, pip, git,
      none ranked below `low`. */
  predicate RankedFrom(ms: seq<Method>, low: nat) {
    ms == [] || (low <= Rank(ms[0].kind) && RankedFrom(ms[1..], Rank(ms[0].kind)))
  }

  /** A ranked list is sorted by rank, every rank at least `low`. */
  lemma {:induction false} RankedSorted(ms: seq<Method>, low: nat)
    requires RankedFrom(ms, low)
    ensures forall k :: 0 <= k < |ms| ==> low <= Rank(ms[k].kind)
    ensures forall i, j :: 0 <= i < j < |ms| ==> Rank(ms[i].kind) <= Rank(ms[j].kind)
  {
    if ms != [] {
      var tail := ms[1..];
      RankedSorted(tail, Rank(ms[0].kind));
      forall i, j | 0 <= i < j < |ms| ensures Rank(ms[i].kind) <= Rank(ms[j].kind) {
        assert ms[j] == tail[j - 1];
        if i > 0 { assert ms[i] == tail[i - 1]; }
      }
      forall k | 0 < k < |ms| ensures low <= Rank(ms[k].kind) {
        assert ms[k] == tail[k - 1];
      }
    }
  }

  /** The kinds of the listed methods, in order. */
  function Kinds(ms: seq<Method>): (ks: seq<Kind>)
    ensures |ks| == |ms| && forall i :: 0 <= i < |ms| ==> ks[i] == ms[i].kind
  {
    seq(|ms|, i requires 0 <= i < |ms| => ms[i].kind)
  }

  /** Some method of kind `k` is listed. */
  predicate Has(ms: seq<Method>, k: Kind) {
    k in Kinds(ms)
  }

  /** `[m]` when `b` holds, else nothing. */
  function Opt(b: bool, m: Method): (ms: seq<Method>)
    ensures |ms| <= 1
    ensures forall i :: 0 <= i < |ms| ==> ms[i] == m
    ensures forall k :: Has(ms, k) <==> b && m.kind == k
  {
    if b then
      assert Kinds([m]) == [m.kind];
      [m]
    else []
  }

  /** Prepending methods of one rank to a list ranked no lower keeps the
      order, and a kind is listed when either part lists it. */
  lemma Prepend(head: seq<Method>, rank: nat, rest: seq<Method>)
    requires forall k :: 0 <= k < |head| ==> Rank(head[k].kind) == rank
    requires RankedFrom(rest, rank)
    ensures RankedFrom(head + rest, rank)
    ensures forall k :: Has(head + rest, k) <==> Has(head, k) || Has(rest, k)
  {
    assert Kinds(head + rest) == Kinds(head) + Kinds(rest);
    PrependRanked(head, rank, rest);
  }

  lemma {:induction false} PrependRanked(head: seq<Method>, rank: nat, rest: seq<Method>)
    requires forall k :: 0 <= k < |head| ==> Rank(head[k].kind) == rank
    requires RankedFrom(rest, rank)
    ensures RankedFrom(head + rest, rank)
  {
    if head != [] {
      PrependRanked(head[1..], rank, rest);
      assert (head + rest)[1..] == head[1..] + rest;
    } else {
      assert head + rest == rest;
    }
  }

  predicate AptWanted(hint: Option<Hint>, os: Os, onPath: string -> bool) {
    hint == Some(AptHint) || (os == Linux && onPath("apt"))
  }

  predicate BrewWanted(hint: Option<Hint>, os: Os, onPath: string -> bool) {
    hint == Some(BrewHint) || (os == Darwin && onPath("brew"))
  }

  predicate ChocoWanted(hint: Option<Hint>, os: Os, onPath: string -> bool) {
    hint == Some(ChocoHint) || (os == Windows && onPath("choco"))
  }

  predicate GoWanted(hint: Option<Hint>, onPath: string -> bool) {
    hint == Some(GoHint) || onPath("go")
  }

  predicate PipWanted(hint: Option<Hint>) {
    hint == Some(PipHint) || hint.None?
  }

  predicate GitWanted(hint: Option<Hint>, url: string) {
    hint == Some(GitHint) && url != ""
  }

  /** Whether the method of kind `k` after apt is listed. */
  predicate TailWanted(k: Kind, hint: Option<Hint>, url: string, os: Os, onPath: string -> bool) {
    match k
    case AptKind => false
    case BrewKind => BrewWanted(hint, os, onPath)
    case ChocoKind => ChocoWanted(hint, os, onPath)
    case GoKind => GoWanted(hint, onPath)
    case PipKind => PipWanted(hint)
    case GitKind => GitWanted(hint, url)
  }

  /** The shell chain of line 318. */
  function GitChain(url: string, toolBin: string): string {
    "git clone " + url + " && cd " + toolBin + " && sudo make install"
  }

  /** Lines 295-318: every method after apt, each listed exactly when
      wanted, in order, and none of them an apt refresh. */
  function TailMethods(toolBin: string, hint: Option<Hint>, url: string, os: Os,
                       onPath: string -> bool, python: string): (ms: seq<Method>)
    ensures RankedFrom(ms, 1)
    ensures forall k :: Has(ms, k) <==> TailWanted(k, hint, url, os, onPath)
    ensures LongCmds(ms)
  {
    var git := Method(GitKind, ShellCmd(GitChain(url, toolBin)));
    var pip := Method(PipKind, ArgvCmd([python, "-m", "pip", "install", toolBin]));
    var go := Method(GoKind, ArgvCmd(["go", "install", Or(url, DefaultGoPath(toolBin))]));
    var choco := Method(ChocoKind, ArgvCmd(["choco", "install", toolBin, "-y"]));
    var brew := Method(BrewKind, ArgvCmd(["brew", "install", toolBin]));
    var ms := Chain(BrewWanted(hint, os, onPath), brew, ChocoWanted(hint, os, onPath), choco,
                    GoWanted(hint, onPath), go, PipWanted(hint), pip, GitWanted(hint, url), git);
    forall k ensures Has(ms, k) <==> TailWanted(k, hint, url, os, onPath) {
      TailWantedCases(k, hint, url, os, onPath);
    }
    ms
  }

  /** The methods after apt in rank order, each listed when its flag
      holds: the chain of `if`s of lines 295-318. */
  function Chain(bBrew: bool, brew: Method, bChoco: bool, choco: Method, bGo: bool, go: Method,
                 bPip: bool, pip: Method, bGit: bool, git: Method): (ms: seq<Method>)
    requires brew.kind == BrewKind && choco.kind == ChocoKind && go.kind == GoKind
    requires pip.kind == PipKind && git.kind == GitKind
    requires LongCmd(brew) && LongCmd(choco) && LongCmd(go) && LongCmd(pip) && LongCmd(git)
    ensures RankedFrom(ms, 1) && LongCmds(ms)
    ensures forall k :: Has(ms, k) <==>
      (bBrew && k == BrewKind) || (bChoco && k == ChocoKind) || (bGo && k == GoKind)
      || (bPip && k == PipKind) || (bGit && k == GitKind)
  {
    var t2 := LowerChain(bGo, go, bPip, pip, bGit, git);
    var t3 := Cons(bChoco, choco, t2);
    var t4 := Cons(bBrew, brew, t3);
    forall k ensures Has(t4, k) <==>
      (bBrew && k == BrewKind) || (bChoco && k == ChocoKind) || (bGo && k == GoKind)
      || (bPip && k == PipKind) || (bGit && k == GitKind)
    {
      assert Has(t3, k) <==> (bChoco && k == ChocoKind) || Has(t2, k);
    }
    t4
  }

  /** The go, pip and git part of `Chain`. */
  function LowerChain(bGo: bool, go: Method, bPip: bool, pip: Method, bGit: bool, git: Method): (ms: seq<Method>)
    requires go.kind == GoKind && pip.kind == PipKind && git.kind == GitKind
    requires LongCmd(go) && LongCmd(pip) && LongCmd(git)
    ensures RankedFrom(ms, 3) && LongCmds(ms)
    ensures forall k :: Has(ms, k) <==> (bGo && k == GoKind) || (bPip && k == PipKind) || (bGit && k == GitKind)
  {
    var t0 := Cons(bGit, git, []);
    var t1 := Cons(bPip, pip, t0);
    var t2 := Cons(bGo, go, t1);
    forall k ensures Has(t2, k) <==> (bGo && k == GoKind) || (bPip && k == PipKind) || (bGit && k == GitKind) {
      assert Has(t1, k) <==> (bPip && k == PipKind) || Has(t0, k);
    }
    t2
  }

  predicate LongCmd(m: Method) {
    m.cmd.ShellCmd? || |m.cmd.args| >= 3
  }

  /** `TailWanted` as one test per kind. */
  lemma TailWantedCases(k: Kind, hint: Option<Hint>, url: string, os: Os, onPath: string -> bool)
    ensures TailWanted(k, hint, url, os, onPath) <==>
      (BrewWanted(hint, os, onPath) && k == BrewKind) || (ChocoWanted(hint, os, onPath) && k == ChocoKind)
      || (GoWanted(hint, onPath) && k == GoKind) || (PipWanted(hint) && k == PipKind)
      || (GitWanted(hint, url) && k == GitKind)
  {
  }

  /** `m` followed by `rest` when `b` holds, else `rest`: one `if` of the
      list-building code. */
  function Cons(b: bool, m: Method, rest: seq<Method>): (ms: seq<Method>)
    requires RankedFrom(rest, Rank(m.kind)) && LongCmds(rest)
    requires LongCmd(m)
    ensures RankedFrom(ms, Rank(m.kind)) && LongCmds(ms)
    ensures forall k :: Has(ms, k) <==> (b && m.kind == k) || Has(rest, k)
  {
    var head := Opt(b, m);
    Prepend(head, Rank(m.kind), rest);
    LongCmdsAppend(head, rest);
    head + rest
  }

  /** Every command is a shell line or has at least three words, so
      none of them is a root user's two-word refresh. */
  predicate LongCmds(ms: seq<Method>) {
    forall i :: 0 <= i < |ms| ==> ms[i].cmd.ShellCmd? || |ms[i].cmd.args| >= 3
  }

  lemma LongCmdsAppend(a: seq<Method>, b: seq<Method>)
    requires LongCmds(a) && LongCmds(b)
    ensures LongCmds(a + b)
  {
    forall i | 0 <= i < |a + b| ensures (a + b)[i].cmd.ShellCmd? || |(a + b)[i].cmd.args| >= 3 {
      if i >= |a| { assert (a + b)[i] == b[i - |a|]; }
    }
  }

  /** An apt install command for the tool, rather than the refresh. */
  predicate AptInstallCmd(m: Method, toolBin: string, isRoot: bool, hasSudo: bool) {
    m.cmd == ArgvCmd(AptInstallArgv(toolBin, isRoot, hasSudo))
  }

  /** Lines 276-293 as written: besides the install itself, the apt
      index refresh is appended as a method of its own, of kind apt. */
  function AptMethods(toolBin: string, isRoot: bool, hasSudo: bool): (ms: seq<Method>)
    ensures forall i :: 0 <= i < |ms| ==> ms[i].kind == AptKind
    ensures |ms| == (if isRoot || hasSudo then 2 else 1)
    ensures AptInstallCmd(ms[|ms| - 1], toolBin, isRoot, hasSudo)
    ensures |ms| == 2 ==> ms[0].cmd == ArgvCmd(AptUpdateArgv(isRoot, hasSudo).value)
  {
    var install := Method(AptKind, ArgvCmd(AptInstallArgv(toolBin, isRoot, hasSudo)));
    match AptUpdateArgv(isRoot, hasSudo)
    case Some(update) => [Method(AptKind, ArgvCmd(update)), install]
    case None => [install]
  }

  /** Lines 266-318 as written. */
  function CompatMethods(toolBin: string, hint: Option<Hint>, url: string, os: Os, isRoot: bool,
                         onPath: string -> bool, python: string): (ms: seq<Method>)
    ensures RankedFrom(ms, 0)
    ensures Has(ms, AptKind) <==> AptWanted(hint, os, onPath)
    ensures AptWanted(hint, os, onPath) ==>
      ms == AptMethods(toolBin, isRoot, onPath("sudo")) + TailMethods(toolBin, hint, url, os, onPath, python)
    ensures !AptWanted(hint, os, onPath) ==> ms == TailMethods(toolBin, hint, url, os, onPath, python)
  {
    var tail := TailMethods(toolBin, hint, url, os, onPath, python);
    var apt := if AptWanted(hint, os, onPath) then AptMethods(toolBin, isRoot, onPath("sudo")) else [];
    Prepend(apt, 0, tail);
    assert Has(apt, AptKind) <==> AptWanted(hint, os, onPath);
    apt + tail
  }

  /** The list as evidently intended, and as the widget installer builds
      it: the apt refresh is a preparation step, not a method that can
      report success, so apt contributes only its install command. */
  function CompatMethodsFixed(toolBin: string, hint: Option<Hint>, url: string, os: Os, isRoot: bool,
                              onPath: string -> bool, python: string): (ms: seq<Method>)
    ensures RankedFrom(ms, 0)
    ensures Has(ms, AptKind) <==> AptWanted(hint, os, onPath)
    ensures forall i :: 0 <= i < |ms| && ms[i].kind == AptKind ==> AptInstallCmd(ms[i], toolBin, isRoot, onPath("sudo"))
    ensures ms == Opt(AptWanted(hint, os, onPath), Method(AptKind, ArgvCmd(AptInstallArgv(toolBin, isRoot, onPath("sudo")))))
                  + TailMethods(toolBin, hint, url, os, onPath, python)
  {
    var tail := TailMethods(toolBin, hint, url, os, onPath, python);
    var install := Method(AptKind, ArgvCmd(AptInstallArgv(toolBin, isRoot, onPath("sudo"))));
    InstallThenTail(AptWanted(hint, os, onPath), install, tail);
    Opt(AptWanted(hint, os, onPath), install) + tail
  }

  /** The install method, when wanted, in front of the methods after apt:
      the list stays ranked, lists apt exactly when wanted, and every apt
      method in it is the install. */
  lemma InstallThenTail(wanted: bool, install: Method, tail: seq<Method>)
    requires install.kind == AptKind
    requires RankedFrom(tail, 1)
    ensures var ms := Opt(wanted, install) + tail;
      RankedFrom(ms, 0)
      && (forall k :: Has(ms, k) <==> (wanted && k == AptKind) || Has(tail, k))
      && (Has(ms, AptKind) <==> wanted)
      && (forall i :: 0 <= i < |ms| && ms[i].kind == AptKind ==> ms[i] == install)
  {
    var apt := Opt(wanted, install);
    Prepend(apt, 0, tail);
    OnlyHeadIsApt(apt, install, tail);
    RankedSorted(tail, 1);
  }

  /** When the rest holds no apt method, every apt method of the list is
      the one at its head. */
  lemma OnlyHeadIsApt(head: seq<Method>, m: Method, rest: seq<Method>)
    requires forall i :: 0 <= i < |head| ==> head[i] == m
    requires RankedFrom(rest, 1)
    ensures forall i :: 0 <= i < |head + rest| && (head + rest)[i].kind == AptKind ==> (head + rest)[i] == m
  {
    var s := head + rest;
    RankedSorted(rest, 1);
    forall i | 0 <= i < |s| && s[i].kind == AptKind ensures s[i] == m {
      if i >= |head| {
        assert false;
      }
    }
  }

  /** The corrected list is the written one without the refresh. */
  lemma FixedDropsOnlyRefresh(toolBin: string, hint: Option<Hint>, url: string, os: Os, isRoot: bool,
                              onPath: string -> bool, python: string)
    ensures var written := CompatMethods(toolBin, hint, url, os, isRoot, onPath, python);
      var fixed := CompatMethodsFixed(toolBin, hint, url, os, isRoot, onPath, python);
      (AptWanted(hint, os, onPath) && (isRoot || onPath("sudo")) ==>
         written == [written[0]] + fixed && written[0].cmd == ArgvCmd(AptUpdateArgv(isRoot, onPath("sudo")).value))
      && (!(AptWanted(hint, os, onPath) && (isRoot || onPath("sudo"))) ==> written == fixed)
  {
    var written := CompatMethods(toolBin, hint, url, os, isRoot, onPath, python);
    var fixed := CompatMethodsFixed(toolBin, hint, url, os, isRoot, onPath, python);
    var tail := TailMethods(toolBin, hint, url, os, onPath, python);
    var install := Method(AptKind, ArgvCmd(AptInstallArgv(toolBin, isRoot, onPath("sudo"))));
    if AptWanted(hint, os, onPath) {
      var apt := AptMethods(toolBin, isRoot, onPath("sudo"));
      assert written == apt + tail;
      assert Opt(true, install) == [install];
      assert fixed == [install] + tail;
      assert apt[|apt| - 1] == install;
      if isRoot || onPath("sudo") {
        assert apt == [apt[0], install];
        ConsPair(apt[0], install, tail);
      } else {
        assert apt == [install];
      }
    } else {
      assert Opt(false, install) == [];
      assert fixed == [] + tail;
    }
  }

  lemma ConsPair<T>(x: T, y: T, tail: seq<T>)
    ensures [x, y] + tail == [x] + ([y] + tail)
    ensures ([x, y] + tail)[0] == x
  {
  }

  // =====================================================================
  // compat_try_install_tool: the retry loop
  // =====================================================================

  /** Attempt `n` (from 1) of a method. */
  datatype Attempt = Attempt(via: Method, n: nat)

  /** Line 321: attempts 1..maxAttempts of one method. */
  function Tries(m: Method, maxAttempts: int): (ts: seq<Attempt>)
    ensures |ts| == (if maxAttempts > 0 then maxAttempts else 0)
    ensures forall k :: 0 <= k < |ts| ==> ts[k] == Attempt(m, k + 1)
  {
    seq(if maxAttempts > 0 then maxAttempts else 0, k requires k >= 0 => Attempt(m, k + 1))
  }

  /** Every attempt of every method, in the order of the nested loops. */
  function Attempts(ms: seq<Method>, maxAttempts: int): seq<Attempt> {
    if ms == [] then [] else Attempts(ms[..|ms| - 1], maxAttempts) + Tries(ms[|ms| - 1], maxAttempts)
  }

  lemma AttemptsStep(ms: seq<Method>, i: nat, maxAttempts: int)
    requires i < |ms|
    ensures Attempts(ms[..i + 1], maxAttempts) == Attempts(ms[..i], maxAttempts) + Tries(ms[i], maxAttempts)
  {
    assert ms[..i + 1][..i] == ms[..i];
  }

  /** Attempts of a prefix of the methods are a prefix of all attempts. */
  lemma {:induction false} AttemptsPrefix(ms: seq<Method>, i: nat, maxAttempts: int)
    requires i <= |ms|
    ensures Attempts(ms[..i], maxAttempts) <= Attempts(ms, maxAttempts)
    decreases |ms| - i
  {
    if i < |ms| {
      AttemptsStep(ms, i, maxAttempts);
      AttemptsPrefix(ms, i + 1, maxAttempts);
    } else {
      assert ms[..i] == ms;
    }
  }

  /** Every attempt tries one of the methods. */
  lemma {:induction false} AttemptsFromMethods(ms: seq<Method>, maxAttempts: int)
    ensures forall k :: 0 <= k < |Attempts(ms, maxAttempts)| ==> Attempts(ms, maxAttempts)[k].via in ms
  {
    if ms != [] {
      var init := ms[..|ms| - 1];
      AttemptsFromMethods(init, maxAttempts);
      var a := Attempts(init, maxAttempts);
      var t := Tries(ms[|ms| - 1], maxAttempts);
      var all: seq<Attempt> := a + t;
      forall k | 0 <= k < |all| ensures all[k].via in ms {
        if k < |a| { assert a[k].via in init; } else { assert t[k - |a|].via == ms[|ms| - 1]; }
      }
    }
  }

  /** `_stream` returned 0 for this attempt (`None` is an exception). */
  predicate Succeeds(a: Attempt, run: (Cmd, nat) -> Option<int>) {
    run(a.via.cmd, a.n) == Some(0)
  }

  /** The index of the first successful attempt. */
  function FirstSuccess(ats: seq<Attempt>, run: (Cmd, nat) -> Option<int>): (r: Option<nat>)
    ensures r.Some? ==> r.value < |ats| && Succeeds(ats[r.value], run)
    ensures r.Some? ==> forall k :: 0 <= k < r.value ==> !Succeeds(ats[k], run)
    ensures r.None? ==> forall k :: 0 <= k < |ats| ==> !Succeeds(ats[k], run)
  {
    if ats == [] then None
    else if Succeeds(ats[0], run) then Some(0)
    else
      match FirstSuccess(ats[1..], run)
      case None => None
      case Some(k) => Some(k + 1)
  }

  /** The first success is where the first successful attempt is. */
  lemma FirstSuccessAt(ats: seq<Attempt>, i: nat, run: (Cmd, nat) -> Option<int>)
    requires i < |ats| && Succeeds(ats[i], run)
    requires forall k :: 0 <= k < i ==> !Succeeds(ats[k], run)
    ensures FirstSuccess(ats, run) == Some(i)
  {
    var f := FirstSuccess(ats, run);
    assert f.Some?;
    assert !(f.value < i);
    assert !(f.value > i);
  }

  /** Lines 320-341: the methods in order, each tried up to `maxAttempts`
      times; the first exit code 0 stops everything. `tried` is how many
      attempts ran. */
  method TryMethods(ms: seq<Method>, maxAttempts: int, run: (Cmd, nat) -> Option<int>)
    returns (winner: Option<Attempt>, tried: nat)
    ensures var f := FirstSuccess(Attempts(ms, maxAttempts), run);
      (winner.Some? <==> f.Some?)
      && (f.Some? ==> winner.value == Attempts(ms, maxAttempts)[f.value] && tried == f.value + 1)
      && (f.None? ==> tried == |Attempts(ms, maxAttempts)|)
  {
    ghost var all := Attempts(ms, maxAttempts);
    var n := if maxAttempts > 0 then maxAttempts else 0;
    tried := 0;
    var i := 0;
    while i < |ms|
      invariant 0 <= i <= |ms|
      invariant tried == |Attempts(ms[..i], maxAttempts)| && tried <= |all|
      invariant forall k :: 0 <= k < tried ==> !Succeeds(all[k], run)
    {
      AttemptsStep(ms, i, maxAttempts);
      AttemptsPrefix(ms, i + 1, maxAttempts);
      ghost var here := Attempts(ms[..i + 1], maxAttempts);
      var attempt := 1;
      while attempt <= n
        invariant 1 <= attempt <= n + 1
        invariant tried == |Attempts(ms[..i], maxAttempts)| + attempt - 1
        invariant forall k :: 0 <= k < tried ==> !Succeeds(all[k], run)
      {
        assert all[tried] == here[tried] == Attempt(ms[i], attempt);
        if run(ms[i].cmd, attempt) == Some(0) {
          FirstSuccessAt(all, tried, run);
          winner := Some(Attempt(ms[i], attempt));
          tried := tried + 1;
          return;
        }
        tried := tried + 1;
        attempt := attempt + 1;
      }
      i := i + 1;
    }
    assert ms[..|ms|] == ms;
    winner := None;
  }

  // =====================================================================
  // compat_try_install_tool
  // =====================================================================

  /** The returned word: "installed", "failed", "exception" or "manual". */
  datatype InstallStatus = Installed | InstallFailed | InstallException | Manual

  /** Lines 251-263: one shell run of the whole command. */
  function ShellStatus(rc: Option<int>): (s: InstallStatus)
    ensures s == Installed <==> rc == Some(0)
    ensures s == InstallException <==> rc.None?
    ensures s != Manual
  {
    match rc
    case None => InstallException
    case Some(c) => if c == 0 then Installed else InstallFailed
  }

  /** Line 248: `s.strip().split()[0]`, which raises for a blank name. */
  function ToolBin(s: string): (r: Option<string>)
    ensures r.None? <==> SplitWs(Strip(s)) == []
    ensures r.Some? ==> r.value == SplitWs(Strip(s))[0] && r.value != "" && NoSpace(r.value)
  {
    var ws := SplitWs(Strip(s));
    if ws == [] then None else Some(ws[0])
  }

  /** The hint of lines 270-318, compared verbatim (neither stripped nor
      lower-cased). */
  function CompatHint(hint: Option<string>): (h: Option<Hint>)
    ensures h.None? <==> hint.None?
    ensures hint.Some? ==> h == Some(HintOf(hint.value))
  {
    match hint
    case None => None
    case Some(s) => Some(HintOf(s))
  }

  /** The outcome of `compat_try_install_tool` and the successful
      attempt, if any. */
  datatype CompatRun = CompatRun(status: InstallStatus, winner: Option<Attempt>)

  /** Lines 216-351 for a string argument. The tool name is taken
      first, so a blank argument raises even when it contains a space.
      Then a command containing a space is run once through the shell;
      otherwise the methods are tried and the result is "installed" or,
      after all of them, "manual". */
  method CompatTryInstallTool(commandOrTool: string, hint: Option<string>, url: string, maxAttempts: int,
                              os: Os, isRoot: bool, onPath: string -> bool, python: string,
                              run: (Cmd, nat) -> Option<int>)
    returns (r: Result<CompatRun>)
    ensures ToolBin(commandOrTool).None? ==> r.Err?
    ensures ToolBin(commandOrTool).Some? && ' ' in commandOrTool ==>
      r == Ok(CompatRun(ShellStatus(run(ShellCmd(commandOrTool), 1)), None))
    ensures ToolBin(commandOrTool).Some? && ' ' !in commandOrTool ==>
      var ms := CompatMethods(ToolBin(commandOrTool).value, CompatHint(hint), url, os, isRoot, onPath, python);
      var f := FirstSuccess(Attempts(ms, maxAttempts), run);
      r.Ok? && (f.Some? ==> r.value == CompatRun(Installed, Some(Attempts(ms, maxAttempts)[f.value])))
      && (f.None? ==> r.value == CompatRun(Manual, None))
  {
    var bin := ToolBin(commandOrTool);
    if bin.None? {
      return Err("IndexError: list index out of range");
    }
    if ' ' in commandOrTool {
      return Ok(CompatRun(ShellStatus(run(ShellCmd(commandOrTool), 1)), None));
    }
    var ms := CompatMethods(bin.value, CompatHint(hint), url, os, isRoot, onPath, python);
    var winner, _ := TryMethods(ms, maxAttempts, run);
    if winner.Some? {
      return Ok(CompatRun(Installed, winner));
    }
    return Ok(CompatRun(Manual, None));
  }

  /** The command line of the refresh a root user runs. */
  const RootRefresh: Cmd := ArgvCmd(["apt-get", "update"])

  /** As written, a root user whose index refresh succeeds gets
      "installed" from the refresh alone, although every install command
      fails: the refresh is the first apt method tried. */
  lemma AptRefreshCountsAsInstall(onPath: string -> bool, python: string)
    ensures var ms := CompatMethods("nmap", Some(AptHint), "", Linux, true, onPath, python);
      var run := (c: Cmd, n: nat) => if c == RootRefresh then Some(0) else Some(100);
      var f := FirstSuccess(Attempts(ms, 2), run);
      f == Some(0) && Attempts(ms, 2)[0].via.cmd == RootRefresh
      && !AptInstallCmd(Attempts(ms, 2)[0].via, "nmap", true, onPath("sudo"))
      && forall i, n :: 0 <= i < |ms| && ms[i].cmd != RootRefresh ==> run(ms[i].cmd, n) != Some(0)
  {
    var ms := CompatMethods("nmap", Some(AptHint), "", Linux, true, onPath, python);
    var run := (c: Cmd, n: nat) => if c == RootRefresh then Some(0) else Some(100);
    AttemptsPrefix(ms, 1, 2);
    AttemptsStep(ms, 0, 2);
    assert ms[..0] == [];
    var all := Attempts(ms, 2);
    assert all[0] == Attempt(ms[0], 1);
    FirstSuccessAt(all, 0, run);
  }

  /** With the corrected list, "installed" always comes from an install
      command: a winning apt attempt is the install, never the refresh. */
  lemma FixedSuccessIsInstall(toolBin: string, hint: Option<Hint>, url: string, os: Os, isRoot: bool,
                              onPath: string -> bool, python: string, maxAttempts: int,
                              run: (Cmd, nat) -> Option<int>)
    ensures var ms := CompatMethodsFixed(toolBin, hint, url, os, isRoot, onPath, python);
      var f := FirstSuccess(Attempts(ms, maxAttempts), run);
      f.Some? && Attempts(ms, maxAttempts)[f.value].via.kind == AptKind ==>
        AptInstallCmd(Attempts(ms, maxAttempts)[f.value].via, toolBin, isRoot, onPath("sudo"))
  {
    var ms := CompatMethodsFixed(toolBin, hint, url, os, isRoot, onPath, python);
    AttemptsFromMethods(ms, maxAttempts);
  }
}

=== FILE: Json.dfy ===
/** Parsed JSON values as the Python code sees them after `json.load`:
    `None`, booleans, integers, floats, strings, lists and dicts. Parsing itself
    is a library call and stays outside the model; callers receive it as
    a function from text to an optional value. */
module Json {
  import opened Wrappers
  import opened Text

  datatype Json =
    | Null
    | Bool(b: bool)
    | Num(n: int)
    | Real(r: real)                       // a JSON number with a fraction or exponent
    | Str(s: string)
    | Arr(items: seq<Json>)
    | Obj(fields: map<string, Json>)

  /** Python truthiness of a parsed value. */
  predicate Truthy(j: Json) {
    match j
    case Null => false
    case Bool(b) => b
    case Num(n) => n != 0
    case Real(r) => r != 0.0
    case Str(s) => s != ""
    case Arr(items) => items != []
    case Obj(fields) => fields != map[]
  }

  /** `d.get(key)` on a dict: `None` when the key is absent. */
  function Field(fields: map<string, Json>, key: string): (v: Json)
    ensures key !in fields ==> v == Null
    ensures key in fields ==> v == fields[key]
  {
    if key in fields then fields[key] else Null
  }

  /** `d.get(key, default)` on a dict. */
  function FieldOr(fields: map<string, Json>, key: string, default: Json): (v: Json)
    ensures key !in fields ==> v == default
    ensures key in fields ==> v == fields[key]
  {
    if key in fields then fields[key] else default
  }

  /** `x or default`. */
  function OrElse(j: Json, default: Json): (v: Json)
    ensures Truthy(j) ==> v == j
    ensures !Truthy(j) ==> v == default
  {
    if Truthy(j) then j else default
  }

  /** Python's `str(x)` of a scalar; floats, lists and dicts are printed
      with `repr`, a library rendering passed in as a parameter. */
  function PyStr(j: Json, repr: Json -> string): (r: string)
    ensures j.Str? ==> r == j.s
    ensures j.Null? ==> r == "None"
  {
    match j
    case Null => "None"
    case Bool(b) => if b then "True" else "False"
    case Num(n) => IntToString(n)
    case Real(_) => repr(j)
    case Str(s) => s
    case Arr(_) => repr(j)
    case Obj(_) => repr(j)
  }
}

=== FILE: Order.dfy ===
/** Python's ordering of `str` values (code point by code point, a proper
    prefix first) and the two sorts the loader relies on: `sorted(...)`
    with a key function, and plain `sorted(...)` of strings. */
module Order {

  /** `a <= b` for Python strings. */
  predicate LexLe(a: string, b: string)
    decreases |a|
  {
    a == [] || (b != [] && (a[0] < b[0] || (a[0] == b[0] && LexLe(a[1..], b[1..]))))
  }

  lemma {:induction false} LexLeTotal(a: string, b: string)
    ensures LexLe(a, b) || LexLe(b, a)
    decreases |a|
  {
    if a != [] && b != [] && a[0] == b[0] {
      LexLeTotal(a[1..], b[1..]);
    }
  }

  lemma {:induction false} LexLeTrans(a: string, b: string, c: string)
    requires LexLe(a, b) && LexLe(b, c)
    ensures LexLe(a, c)
    decreases |a|
  {
    if a != [] && a[0] == b[0] && b[0] == c[0] {
      LexLeTrans(a[1..], b[1..], c[1..]);
    }
  }

  lemma {:induction false} LexLeAntisym(a: string, b: string)
    requires LexLe(a, b) && LexLe(b, a)
    ensures a == b
    decreases |a|
  {
    if a != [] {
      LexLeAntisym(a[1..], b[1..]);
      assert a == [a[0]] + a[1..] && b == [b[0]] + b[1..];
    }
  }

  /** `s` is in non-decreasing order of `key`. */
  predicate SortedBy<T>(s: seq<T>, key: T -> string) {
    forall i, j :: 0 <= i < j < |s| ==> LexLe(key(s[i]), key(s[j]))
  }

  /** Inserts `x` in front of the first element whose key is not below
      its own. */
  function InsertBy<T>(x: T, s: seq<T>, key: T -> string): (r: seq<T>)
    requires SortedBy(s, key)
    ensures SortedBy(r, key)
    ensures multiset(r) == multiset(s) + multiset{x}
  {
    if s == [] then [x]
    else if LexLe(key(x), key(s[0])) then
      HeadBoundsSorted(x, s, key);
      [x] + s
    else
      var rest := InsertBy(x, s[1..], key);
      LexLeTotal(key(x), key(s[0]));
      HeadBoundsInsert(x, s, rest, key);
      ConsSorted(s[0], rest, key);
      ConsMultiset(s, x, rest);
      [s[0]] + rest
  }

  lemma ConsSorted<T>(h: T, rest: seq<T>, key: T -> string)
    requires SortedBy(rest, key)
    requires forall j :: 0 <= j < |rest| ==> LexLe(key(h), key(rest[j]))
    ensures SortedBy([h] + rest, key)
  {
    var r := [h] + rest;
    forall i, j | 0 <= i < j < |r| ensures LexLe(key(r[i]), key(r[j])) {
      assert r[j] == rest[j - 1];
      if i > 0 {
        assert r[i] == rest[i - 1];
      }
    }
  }

  lemma ConsMultiset<T>(s: seq<T>, x: T, rest: seq<T>)
    requires s != [] && multiset(rest) == multiset(s[1..]) + multiset{x}
    ensures multiset([s[0]] + rest) == multiset(s) + multiset{x}
  {
    assert s == [s[0]] + s[1..];
  }

  /** An element whose key is at most the first key of a sorted list is at
      most every key of it. */
  lemma HeadBoundsSorted<T>(x: T, s: seq<T>, key: T -> string)
    requires SortedBy(s, key) && s != [] && LexLe(key(x), key(s[0]))
    ensures forall j :: 0 < j < |s| ==> LexLe(key(x), key(s[j]))
  {
    forall j | 0 < j < |s| ensures LexLe(key(x), key(s[j])) {
      LexLeTrans(key(x), key(s[0]), key(s[j]));
    }
  }

  /** The first element of a sorted list is at most every element of the
      rest with one element no smaller inserted. */
  lemma HeadBoundsInsert<T>(x: T, s: seq<T>, rest: seq<T>, key: T -> string)
    requires SortedBy(s, key) && s != [] && LexLe(key(s[0]), key(x))
    requires multiset(rest) == multiset(s[1..]) + multiset{x}
    ensures forall j :: 0 <= j < |rest| ==> LexLe(key(s[0]), key(rest[j]))
  {
    forall j | 0 <= j < |rest| ensures LexLe(key(s[0]), key(rest[j])) {
      assert rest[j] in multiset(rest);
      if rest[j] != x {
        assert rest[j] in multiset(s[1..]);
        var k :| 0 <= k < |s[1..]| && s[1..][k] == rest[j];
        assert s[k + 1] == rest[j];
      }
    }
  }

  /** Python's `sorted(s, key=key)`: a permutation of `s` in key order. */
  function SortBy<T>(s: seq<T>, key: T -> string): (r: seq<T>)
    ensures SortedBy(r, key)
    ensures multiset(r) == multiset(s)
  {
    if s == [] then []
    else
      assert s == [s[0]] + s[1..];
      InsertBy(s[0], SortBy(s[1..], key), key)
  }

  /** The elements of `s` whose key is `k`, in their order in `s`. */
  function WithKey<T>(s: seq<T>, key: T -> string, k: string): (r: seq<T>)
    ensures |r| <= |s|
  {
    if s == [] then []
    else (if key(s[0]) == k then [s[0]] else []) + WithKey(s[1..], key, k)
  }

  lemma {:induction false} LexLeRefl(a: string)
    ensures LexLe(a, a)
    decreases |a|
  {
    if a != [] {
      LexLeRefl(a[1..]);
    }
  }

  /** Inserting `x` puts it in front of every element of equal key. */
  lemma {:induction false} InsertByWithKey<T>(x: T, s: seq<T>, key: T -> string, k: string)
    requires SortedBy(s, key)
    ensures WithKey(InsertBy(x, s, key), key, k)
         == (if key(x) == k then [x] else []) + WithKey(s, key, k)
    decreases |s|
  {
    if s == [] {
      WithKeyCons(x, [], key, k);
    } else if LexLe(key(x), key(s[0])) {
      WithKeyCons(x, s, key, k);
    } else {
      var rest := InsertBy(x, s[1..], key);
      InsertByWithKey(x, s[1..], key, k);
      LexLeRefl(key(x));
      assert InsertBy(x, s, key) == [s[0]] + rest;
      InsertPastHead(x, s, rest, key, k);
    }
  }

  /** An element of another key than `x` stays in front of it. */
  lemma InsertPastHead<T>(x: T, s: seq<T>, rest: seq<T>, key: T -> string, k: string)
    requires s != [] && key(s[0]) != key(x)
    requires WithKey(rest, key, k) == (if key(x) == k then [x] else []) + WithKey(s[1..], key, k)
    ensures WithKey([s[0]] + rest, key, k) == (if key(x) == k then [x] else []) + WithKey(s, key, k)
  {
    WithKeyCons(s[0], rest, key, k);
    WithKeyCons(s[0], s[1..], key, k);
    assert [s[0]] + s[1..] == s;
  }

  lemma WithKeyCons<T>(h: T, rest: seq<T>, key: T -> string, k: string)
    ensures WithKey([h] + rest, key, k) == (if key(h) == k then [h] else []) + WithKey(rest, key, k)
  {
    assert ([h] + rest)[1..] == rest;
  }

  /** `sorted` is stable: the elements of any one key keep their order. */
  lemma {:induction false} SortByStable<T>(s: seq<T>, key: T -> string, k: string)
    ensures WithKey(SortBy(s, key), key, k) == WithKey(s, key, k)
    decreases |s|
  {
    if s != [] {
      SortByStable(s[1..], key, k);
      InsertByWithKey(s[0], SortBy(s[1..], key), key, k);
    }
  }

  function Id(s: string): string { s }
}

=== FILE: Paths.dfy ===
/** The string form of a POSIX `pathlib` path, as the scan engine prints
    it in its "Output saved to" messages. */
module Paths {
  import opened Text

  /** A component `pathlib` keeps: empty and "." components vanish. */
  predicate PathPart(c: string) {
    c != "" && c != "."
  }

  /** The components of `s`, split at "/" without the vanishing ones. */
  function Parts(s: string): (r: seq<string>)
    ensures forall k :: 0 <= k < |r| ==> PathPart(r[k]) && '/' !in r[k]
  {
    SelectMembers(SplitOn(s, '/'), PathPart);
    Select(SplitOn(s, '/'), PathPart)
  }

  /** The root: exactly two leading slashes are kept as "//", one or
      three and more become "/", and a relative path has none. */
  function Anchor(s: string): (r: string)
    ensures r == "" || r == "/" || r == "//"
    ensures r == "" <==> (s == [] || s[0] != '/')
  {
    if |s| >= 2 && s[0] == '/' && s[1] == '/' && (|s| == 2 || s[2] != '/') then "//"
    else if |s| >= 1 && s[0] == '/' then "/"
    else ""
  }

  /** `str(PurePosixPath(s))`: the root followed by the kept components
      joined with single slashes, or "." when that is empty. */
  function PathStr(s: string): (r: string)
    ensures r != ""
  {
    var t := Anchor(s) + Join(Parts(s), "/");
    if t == "" then "." else t
  }

  /** A path prints as "." exactly when it has neither a root nor a
      component that stays. */
  lemma PathStrIsDot(s: string)
    ensures PathStr(s) == "." <==> Anchor(s) == "" && Parts(s) == []
  {
    var cs := Parts(s);
    var t := Anchor(s) + Join(cs, "/");
    JoinStarts(cs);
    if Anchor(s) != "" {
      assert t[0] == '/';
    } else if cs != [] {
      assert t == Join(cs, "/");
      assert |t| >= |cs[0]| >= 1;
      assert |t| == 1 ==> t == t[..|cs[0]|];
    }
  }

  /** A path already in the form `PathStr` produces: a root and components
      that neither vanish nor hold a slash, not both empty. */
  predicate Canonical(root: string, cs: seq<string>) {
    && (root == "" || root == "/" || root == "//")
    && Plain(cs)
    && (root == "" ==> cs != [])
  }

  /** Components that neither vanish nor hold a slash. */
  predicate Plain(cs: seq<string>) {
    forall k :: 0 <= k < |cs| ==> PathPart(cs[k]) && '/' !in cs[k]
  }

  /** A joined path starts with its first component. */
  lemma JoinStarts(cs: seq<string>)
    ensures cs != [] ==> |Join(cs, "/")| >= |cs[0]| && Join(cs, "/")[..|cs[0]|] == cs[0]
  {
  }

  /** Joining a head onto a non-empty list puts one slash between. */
  lemma JoinCons(a: string, rest: seq<string>)
    requires rest != []
    ensures Join([a] + rest, "/") == a + "/" + Join(rest, "/")
  {
    assert ([a] + rest)[1..] == rest;
  }

  /** A root written as leading empty components. */
  function RootParts(root: string): seq<string> {
    if root == "" then [] else if root == "/" then [""] else ["", ""]
  }

  /** A root before a joined list is the join of the longer list. */
  lemma RootJoin(root: string, xs: seq<string>)
    requires root == "" || root == "/" || root == "//"
    requires xs != []
    ensures root + Join(xs, "/") == Join(RootParts(root) + xs, "/")
  {
    if root == "/" {
      JoinCons("", xs);
    } else if root == "//" {
      var j := Join(xs, "/");
      JoinCons("", xs);
      JoinCons("", [""] + xs);
      assert [""] + ([""] + xs) == RootParts(root) + xs;
      assert Join([""] + xs, "/") == "/" + j;
      assert Join(RootParts(root) + xs, "/") == "/" + ("/" + j);
      assert "/" + ("/" + j) == root + j;
    } else {
      assert RootParts(root) + xs == xs;
    }
  }

  /** Reading a root and slash-free pieces, the first of them not empty,
      back from their join: the root is kept and the vanishing pieces are
      dropped. */
  lemma DropVanishing(s: string, root: string, xs: seq<string>)
    requires root == "" || root == "/" || root == "//"
    requires xs != [] && xs[0] != ""
    requires forall k :: 0 <= k < |xs| ==> '/' !in xs[k]
    requires s == root + Join(xs, "/")
    ensures Parts(s) == Select(xs, PathPart)
    ensures Anchor(s) == root
  {
    RootPartsVanish(s, root, xs);
    AnchorKept(s, root, xs);
  }

  /** The pieces a root adds in front are all empty, so none is kept. */
  lemma RootPartsVanish(s: string, root: string, xs: seq<string>)
    requires root == "" || root == "/" || root == "//"
    requires xs != []
    requires forall k :: 0 <= k < |xs| ==> '/' !in xs[k]
    requires s == root + Join(xs, "/")
    ensures Parts(s) == Select(xs, PathPart)
  {
    SplitRoot(s, root, xs);
    SelectAppend(RootParts(root), xs, PathPart);
    assert Select(RootParts(root), PathPart) == [];
  }

  /** Splitting a rooted join gives the root's empty pieces, then the join's. */
  lemma SplitRoot(s: string, root: string, xs: seq<string>)
    requires root == "" || root == "/" || root == "//"
    requires xs != []
    requires forall k :: 0 <= k < |xs| ==> '/' !in xs[k]
    requires s == root + Join(xs, "/")
    ensures SplitOn(s, '/') == RootParts(root) + xs
  {
    var pre := RootParts(root);
    var all := pre + xs;
    RootJoin(root, xs);
    forall k | 0 <= k < |all| ensures '/' !in all[k] {
      if k >= |pre| {
        assert all[k] == xs[k - |pre|];
      }
    }
    SplitJoinOn(all, '/');
  }

  /** A root before a first piece that is neither empty nor starts with a
      slash is read back as the anchor. */
  lemma AnchorKept(s: string, root: string, xs: seq<string>)
    requires root == "" || root == "/" || root == "//"
    requires xs != [] && xs[0] != "" && '/' !in xs[0]
    requires s == root + Join(xs, "/")
    ensures Anchor(s) == root
  {
    JoinStarts(xs);
    assert xs[0][0] in xs[0];
    assert s[|root|] == xs[0][0];
  }

  /** A bare root has no components and prints as itself. */
  lemma RootAlone(root: string)
    requires root == "/" || root == "//"
    ensures Parts(root) == [] && Anchor(root) == root && PathStr(root) == root
  {
    SplitOnSep("", "", '/');
    assert "/" == "" + ['/'] + "";
    assert SplitOn("/", '/') == ["", ""];
    if root == "//" {
      SplitOnSep("", "/", '/');
      assert "//" == "" + ['/'] + "/";
      assert SplitOn("//", '/') == ["", "", ""];
      assert Select(["", "", ""], PathPart) == [];
      assert Anchor("//") == "//";
    }
  }

  /** `PathStr` leaves a canonical path as it is. */
  lemma PathStrCanonical(root: string, cs: seq<string>)
    requires Canonical(root, cs)
    ensures PathStr(root + Join(cs, "/")) == root + Join(cs, "/")
  {
    if cs == [] {
      RootAlone(root);
    } else {
      SelectAll(cs, PathPart);
      DropVanishing(root + Join(cs, "/"), root, cs);
      JoinStarts(cs);
    }
  }

  /** Printing a printed path again changes nothing. */
  lemma PathStrIdempotent(s: string)
    ensures PathStr(PathStr(s)) == PathStr(s)
  {
    var root, cs := Anchor(s), Parts(s);
    if root == "" && cs == [] {
      DropVanishing(".", "", ["."]);
      assert Select(["."], PathPart) == [];
    } else {
      PathStrCanonical(root, cs);
    }
  }

  /** A leading "./" vanishes from a canonical relative path. */
  lemma LeadingDotVanishes(cs: seq<string>)
    requires Canonical("", cs)
    ensures PathStr("./" + Join(cs, "/")) == Join(cs, "/")
  {
    var p := Join(cs, "/");
    var s := "./" + p;
    JoinCons(".", cs);
    assert s == "" + Join(["."] + cs, "/");
    DropVanishing(s, "", ["."] + cs);
    SelectDot(cs);
    JoinStarts(cs);
  }

  /** A leading "." piece is the only one that vanishes. */
  lemma SelectDot(cs: seq<string>)
    requires Canonical("", cs)
    ensures Select(["."] + cs, PathPart) == cs
  {
    SelectAppend(["."], cs, PathPart);
    SelectAll(cs, PathPart);
  }

  /** A trailing slash vanishes from a canonical relative path. */
  lemma TrailingSlashVanishes(cs: seq<string>)
    requires Canonical("", cs)
    ensures PathStr(Join(cs, "/") + "/") == Join(cs, "/")
  {
    var s := Join(cs, "/") + "/";
    JoinAppend(cs, [""]);
    assert s == "" + Join(cs + [""], "/");
    DropVanishing(s, "", cs + [""]);
    SelectAppend(cs, [""], PathPart);
    SelectAll(cs, PathPart);
    assert Parts(s) == cs;
    JoinStarts(cs);
  }

  /** A doubled slash between two canonical relative paths counts as one. */
  lemma DoubledSlashVanishes(a: seq<string>, b: seq<string>)
    requires Canonical("", a) && Canonical("", b)
    ensures PathStr(Join(a, "/") + "//" + Join(b, "/")) == Join(a, "/") + "/" + Join(b, "/")
  {
    var s := Join(a, "/") + "//" + Join(b, "/");
    DoubledSlashParts(a, b);
    JoinAppend(a, b);
    JoinStarts(a + b);
    assert (a + b)[0] == a[0];
  }

  /** The pieces around a doubled slash are read back without the empty
      one between them. */
  lemma DoubledSlashParts(a: seq<string>, b: seq<string>)
    requires Canonical("", a) && Canonical("", b)
    ensures Parts(Join(a, "/") + "//" + Join(b, "/")) == a + b
    ensures Anchor(Join(a, "/") + "//" + Join(b, "/")) == ""
  {
    var xs := a + ([""] + b);
    var s := Join(a, "/") + "//" + Join(b, "/");
    DoubledSlashJoin(a, b);
    SlashFreeSplice(a, b);
    DropVanishing(s, "", xs);
    SelectSplice(a, b);
  }

  /** A doubled slash is the join with an empty piece in between. */
  lemma DoubledSlashJoin(a: seq<string>, b: seq<string>)
    requires a != [] && b != []
    ensures Join(a, "/") + "//" + Join(b, "/") == "" + Join(a + ([""] + b), "/")
  {
    JoinCons("", b);
    JoinAppend(a, [""] + b);
  }

  /** Splicing an empty piece between slash-free pieces keeps them slash-free. */
  lemma SlashFreeSplice(a: seq<string>, b: seq<string>)
    requires Canonical("", a) && Canonical("", b)
    ensures forall k :: 0 <= k < |a + ([""] + b)| ==> '/' !in (a + ([""] + b))[k]
  {
    var xs := a + ([""] + b);
    forall k | 0 <= k < |xs| ensures '/' !in xs[k] {
      if k < |a| {
        assert xs[k] == a[k];
      } else if k > |a| {
        assert xs[k] == b[k - |a| - 1];
      }
    }
  }

  /** The spliced empty piece is the only one that vanishes. */
  lemma SelectSplice(a: seq<string>, b: seq<string>)
    requires Canonical("", a) && Canonical("", b)
    ensures Select(a + ([""] + b), PathPart) == a + b
  {
    SelectAppend(a, [""] + b, PathPart);
    SelectAppend([""], b, PathPart);
    SelectAll(a, PathPart);
    SelectAll(b, PathPart);
  }

  /** Joining two non-empty lists puts one slash between their joins. */
  lemma {:induction false} JoinAppend(a: seq<string>, b: seq<string>)
    requires a != [] && b != []
    ensures Join(a + b, "/") == Join(a, "/") + "/" + Join(b, "/")
  {
    if |a| == 1 {
      JoinCons(a[0], b);
    } else {
      JoinAppend(a[1..], b);
      assert (a + b) == [a[0]] + (a[1..] + b);
      JoinCons(a[0], a[1..] + b);
      JoinCons(a[0], a[1..]);
      assert [a[0]] + a[1..] == a;
    }
  }
  /** `str(Path(base) / rel)`: an absolute `rel` replaces `base`, a
      relative one adds its kept components after those of `base`. */
  function Under(base: string, rel: string): (r: string)
    ensures r != ""
  {
    if rel != [] && rel[0] == '/' then PathStr(rel)
    else PathStr(Anchor(base) + Join(Parts(base) + Parts(rel), "/"))
  }

  /** `str(Path(base) / parts[0] / parts[1] / ...)`. */
  function JoinPath(base: string, parts: seq<string>): (r: string)
    ensures r != ""
    decreases |parts|
  {
    if parts == [] then PathStr(base)
    else Under(JoinPath(base, parts[..|parts| - 1]), parts[|parts| - 1])
  }

  /** A plain component is read back as itself. */
  lemma PartsOfPart(p: string)
    requires PathPart(p) && '/' !in p
    ensures Parts(p) == [p] && Anchor(p) == ""
  {
    SplitOnNoSep(p, '/');
    assert p[0] in p;
  }

  /** A canonical path is read back as its root and components. */
  lemma CanonicalParts(root: string, cs: seq<string>)
    requires Canonical(root, cs)
    ensures Parts(root + Join(cs, "/")) == cs && Anchor(root + Join(cs, "/")) == root
  {
    if cs == [] {
      RootAlone(root);
    } else {
      SelectAll(cs, PathPart);
      DropVanishing(root + Join(cs, "/"), root, cs);
    }
  }

  /** Plain components added to a canonical path keep it canonical. */
  lemma CanonicalAppend(root: string, cs: seq<string>, xs: seq<string>)
    requires Canonical(root, cs)
    requires Plain(xs)
    ensures Canonical(root, cs + xs)
  {
    forall k | 0 <= k < |cs + xs| ensures PathPart((cs + xs)[k]) && '/' !in (cs + xs)[k] {
      if k >= |cs| {
        assert (cs + xs)[k] == xs[k - |cs|];
      }
    }
  }

  /** Adding a plain component to a canonical path puts one slash before it. */
  lemma UnderAppends(root: string, cs: seq<string>, p: string)
    requires Canonical(root, cs)
    requires PathPart(p) && '/' !in p
    ensures Under(root + Join(cs, "/"), p) == root + Join(cs + [p], "/")
  {
    var base := root + Join(cs, "/");
    CanonicalParts(root, cs);
    PartsOfPart(p);
    assert p[0] != '/';
    CanonicalAppend(root, cs, [p]);
    PathStrCanonical(root, cs + [p]);
  }

  /** Joining plain components onto a canonical path spells them out with
      single slashes. */
  lemma {:induction false} JoinPathAppends(root: string, cs: seq<string>, parts: seq<string>)
    requires Canonical(root, cs)
    requires Plain(parts)
    ensures JoinPath(root + Join(cs, "/"), parts) == root + Join(cs + parts, "/")
    decreases |parts|
  {
    if parts == [] {
      assert cs + parts == cs;
      PathStrCanonical(root, cs);
    } else {
      var n := |parts| - 1;
      var init, last := parts[..n], parts[n];
      JoinPathAppends(root, cs, init);
      CanonicalAppend(root, cs, init);
      UnderAppends(root, cs + init, last);
      SnocSplit(cs, parts);
    }
  }

  /** Splitting off the last element and putting it back. */
  lemma SnocSplit(cs: seq<string>, parts: seq<string>)
    requires parts != []
    ensures cs + parts[..|parts| - 1] + [parts[|parts| - 1]] == cs + parts
  {
    assert parts[..|parts| - 1] + [parts[|parts| - 1]] == parts;
  }
}

=== FILE: PluginLoader.dfy ===
/** The plugin loader of `core/plugin_loader.py`: which files of the plugins
    folder are candidates, the order they are visited in, and the
    fail-soft import/validate loop that builds the plugin map.

    The folder lookup, the directory listing and Python's import machinery
    are parameters: the listing is a sequence of entries, and importing a
    module is an oracle that either fails or yields a module description. */
module PluginLoader {
  import opened Wrappers
  import opened Text
  import opened Order

  // =====================================================================
  // pathlib name parts
  // =====================================================================

  /** Index of the last `c` in `s`, or -1. */
  function LastIndexOf(s: string, c: char): (i: int)
    ensures -1 <= i < |s|
    ensures i >= 0 ==> s[i] == c
    ensures forall j :: i < j < |s| ==> s[j] != c
  {
    if s == [] then -1
    else if s[|s| - 1] == c then |s| - 1
    else LastIndexOf(s[..|s| - 1], c)
  }

  /** `Path(name).suffix`: from the last dot, unless that dot is the first
      or the last character. */
  function Suffix(name: string): (r: string)
    ensures r == [] || (r[0] == '.' && 2 <= |r| < |name| && r == name[|name| - |r|..])
    ensures forall j :: 0 < j < |r| ==> r[j] != '.'
  {
    var i := LastIndexOf(name, '.');
    if 0 < i < |name| - 1 then name[i..] else ""
  }

  /** `Path(name).stem`: the name without its suffix. */
  function Stem(name: string): (r: string)
    ensures r + Suffix(name) == name
  {
    var i := LastIndexOf(name, '.');
    if 0 < i < |name| - 1 then name[..i] else name
  }

  // =====================================================================
  // _should_ignore
  // =====================================================================

  const IgnoreStems: set<string> := {"__init__", "template"}

  const JunkSuffixes: seq<string> := [".bak", ".disabled", ".example", ".tmp", "~"]

  /** Lines 49-70, check by check. A file is loadable only when its suffix
      is exactly ".py", its lower-cased stem is not reserved and its name
      does not start with "_"; the junk-suffix check never fires on its own
      because a ".py" name cannot end in any of those suffixes. */
  function ShouldIgnore(name: string): (ignored: bool)
    ensures ignored <==> Suffix(name) != ".py" || Lower(Stem(name)) in IgnoreStems || StartsWith(name, "_")
  {
    if Suffix(name) != ".py" then true
    else if Lower(Stem(name)) in IgnoreStems then true
    else if StartsWith(name, "__") || StartsWith(name, "_") then true
    else if exists j :: 0 <= j < |JunkSuffixes| && EndsWith(name, JunkSuffixes[j]) then
      JunkNeverPy(name);
      true
    else false
  }

  /** A name whose suffix is ".py" ends in "y", which none of the junk
      suffixes does. */
  lemma JunkNeverPy(name: string)
    requires Suffix(name) == ".py"
    ensures forall j :: 0 <= j < |JunkSuffixes| ==> !EndsWith(name, JunkSuffixes[j])
  {
    assert name[|name| - 1] == 'y';
    forall j | 0 <= j < |JunkSuffixes|
      ensures !EndsWith(name, JunkSuffixes[j])
    {
      var suf := JunkSuffixes[j];
      assert suf[|suf| - 1] != 'y';
    }
  }

  lemma TemplateIgnored()
    ensures ShouldIgnore("template.py")
  {
    var n := "template.py";
    assert n[8] == '.' && n[9] == 'p' && n[10] == 'y';
    assert LastIndexOf(n, '.') == 8;
    assert Suffix(n) == n[8..] == ".py";
    assert Stem(n) == n[..8] == "template";
    var low := Lower("template");
    assert low == "template" by { assert |low| == 8 && forall i :: 0 <= i < 8 ==> low[i] == "template"[i]; }
  }

  lemma BackupIgnored()
    ensures ShouldIgnore("nmap.py.bak")
  {
    var n := "nmap.py.bak";
    assert n[7] == '.' && n[8] == 'b' && n[9] == 'a' && n[10] == 'k';
    assert LastIndexOf(n, '.') == 7;
    assert Suffix(n) == n[7..] == ".bak";
  }

  lemma PlainPluginKept()
    ensures !ShouldIgnore("nmap.py")
  {
    var n := "nmap.py";
    assert n[4] == '.' && n[5] == 'p' && n[6] == 'y';
    assert LastIndexOf(n, '.') == 4;
    assert Suffix(n) == n[4..] == ".py";
    assert Stem(n) == n[..4] == "nmap";
    var low := Lower("nmap");
    assert low == "nmap" by { assert |low| == 4 && forall i :: 0 <= i < 4 ==> low[i] == "nmap"[i]; }
    assert |low| != |"template"| && |low| != |"__init__"|;
    assert n[0] != '_';
  }

  // =====================================================================
  // discover_plugins / list_plugin_names
  // =====================================================================

  /** One entry of the plugins folder. */
  datatype Entry = Entry(name: string, isFile: bool)

  /** What importing `plugins.<stem>` produced: whether it has a
      `validate` attribute and whether calling it raises. */
  datatype Module = Module(hasValidate: bool, validateRaises: bool)

  /** The ordered plugin map: the accepted file names in visit order and
      the stem-to-module map. */
  datatype Discovery = Discovery(accepted: seq<Entry>, plugins: map<string, Module>)

  function LowerName(e: Entry): string { Lower(e.name) }

  /** An entry survives the loop body: a regular, non-ignored file whose
      import succeeds and, when validation is on, whose `validate` (if
      any) does not raise. A `validate` that returns False still loads. */
  predicate Admitted(e: Entry, importer: string -> Option<Module>, runValidate: bool) {
    e.isFile && !ShouldIgnore(e.name)
    && importer(Stem(e.name)).Some?
    && !(runValidate && importer(Stem(e.name)).value.hasValidate && importer(Stem(e.name)).value.validateRaises)
  }

  function AdmitAll(importer: string -> Option<Module>, runValidate: bool): Entry -> bool {
    e => Admitted(e, importer, runValidate)
  }

  /** The entries the loop of lines 101-123 keeps, in visit order. */
  function Filter(entries: seq<Entry>, admit: Entry -> bool): (r: seq<Entry>)
    ensures forall e :: e in r <==> e in entries && admit(e)
  {
    if entries == [] then []
    else (if admit(entries[0]) then [entries[0]] else []) + Filter(entries[1..], admit)
  }

  /** How often the filter keeps an entry: as often as the input holds it,
      when admitted. */
  lemma {:induction false} FilterCount(entries: seq<Entry>, admit: Entry -> bool, x: Entry)
    ensures multiset(Filter(entries, admit))[x] == if admit(x) then multiset(entries)[x] else 0
  {
    if entries != [] {
      FilterCount(entries[1..], admit, x);
      assert entries == [entries[0]] + entries[1..];
    }
  }

  /** Filtering a rearrangement keeps the same entries, each as often. */
  lemma FilterPermutation(a: seq<Entry>, b: seq<Entry>, admit: Entry -> bool)
    requires multiset(a) == multiset(b)
    ensures multiset(Filter(a, admit)) == multiset(Filter(b, admit))
  {
    forall x ensures multiset(Filter(a, admit))[x] == multiset(Filter(b, admit))[x] {
      FilterCount(a, admit, x);
      FilterCount(b, admit, x);
    }
  }

  /** Filtering only drops entries, so a sorted listing stays sorted. */
  lemma {:induction false} FilterKeepsOrder(entries: seq<Entry>, admit: Entry -> bool)
    requires SortedBy(entries, LowerName)
    ensures SortedBy(Filter(entries, admit), LowerName)
  {
    if entries != [] {
      var rest := Filter(entries[1..], admit);
      assert SortedBy(entries[1..], LowerName) by {
        forall i, j | 0 <= i < j < |entries[1..]|
          ensures LexLe(LowerName(entries[1..][i]), LowerName(entries[1..][j]))
        {
          assert entries[1..][i] == entries[i + 1] && entries[1..][j] == entries[j + 1];
        }
      }
      FilterKeepsOrder(entries[1..], admit);
      if admit(entries[0]) {
        var r := [entries[0]] + rest;
        forall i, j | 0 <= i < j < |r|
          ensures LexLe(LowerName(r[i]), LowerName(r[j]))
        {
          if i == 0 {
            assert r[j] in entries[1..];
            var k :| 0 <= k < |entries[1..]| && entries[1..][k] == r[j];
            assert entries[k + 1] == r[j];
          } else {
            assert r[i] == rest[i - 1] && r[j] == rest[j - 1];
          }
        }
      }
    }
  }

  /** The stems of a sequence of entries. */
  function Stems(es: seq<Entry>): (r: seq<string>)
    ensures |r| == |es| && forall k :: 0 <= k < |es| ==> r[k] == Stem(es[k].name)
  {
    seq(|es|, k requires 0 <= k < |es| => Stem(es[k].name))
  }

  /** `plugin_map[stem] = module` for the stem of each kept entry in turn. */
  function BuildMap(stems: seq<string>, importer: string -> Option<Module>): (m: map<string, Module>)
    requires forall k :: 0 <= k < |stems| ==> importer(stems[k]).Some?
    ensures forall n :: n in m <==> n in stems
    ensures forall n :: n in m ==> importer(n) == Some(m[n])
  {
    if stems == [] then map[]
    else
      var init := stems[..|stems| - 1];
      var stem := stems[|stems| - 1];
      assert forall k :: 0 <= k < |init| ==> init[k] == stems[k];
      assert stems == init + [stem];
      BuildMap(init, importer)[stem := importer(stem).value]
  }

  /** Every element of a sorted copy is in the original and back. */
  lemma SameElements<T>(a: seq<T>, b: seq<T>)
    requires multiset(a) == multiset(b)
    ensures forall x :: x in a <==> x in b
  {
    forall x ensures x in a <==> x in b {
      assert x in a <==> x in multiset(a);
      assert x in b <==> x in multiset(b);
    }
  }

  /** Lines 73-125. `dirFound` says whether a plugins folder was located;
      `listing` is what `iterdir()` returned in any order. */
  function Discover(dirFound: bool, listing: seq<Entry>, importer: string -> Option<Module>, runValidate: bool): (d: Discovery)
    ensures !dirFound ==> d == Discovery([], map[])
    ensures SortedBy(d.accepted, LowerName)
    ensures forall e :: e in d.accepted <==> dirFound && e in listing && Admitted(e, importer, runValidate)
    ensures forall n :: n in d.plugins ==> importer(n) == Some(d.plugins[n])
    ensures forall n :: n in d.plugins <==> n in Stems(d.accepted)
    ensures dirFound ==> multiset(d.accepted) == multiset(Filter(listing, AdmitAll(importer, runValidate)))
  {
    if !dirFound then Discovery([], map[])
    else
      var sorted := SortBy(listing, LowerName);
      var admit := AdmitAll(importer, runValidate);
      SameElements(sorted, listing);
      FilterPermutation(sorted, listing, admit);
      FilterKeepsOrder(sorted, admit);
      var kept := Filter(sorted, admit);
      assert forall k :: 0 <= k < |kept| ==> admit(kept[k]);
      Discovery(kept, BuildMap(Stems(kept), importer))
  }

  /** Lines 128-132: the keys of the discovered plugin map, each once, in
      code-point order. */
  function ListPluginNames(dirFound: bool, listing: seq<Entry>, importer: string -> Option<Module>, runValidate: bool): (names: seq<string>)
    ensures SortedBy(names, Id)
    ensures Distinct(names)
    ensures forall n :: n in names <==> n in Discover(dirFound, listing, importer, runValidate).plugins
    ensures |names| == |Discover(dirFound, listing, importer, runValidate).plugins|
  {
    var d := Discover(dirFound, listing, importer, runValidate);
    var keys := Dedup(Stems(d.accepted));
    DedupMembers(Stems(d.accepted));
    var r := SortBy(keys, Id);
    SameElements(r, keys);
    DistinctPermutation(keys, r);
    DistinctCard(r, d.plugins.Keys);
    r
  }

  /** Two files with a ".py" suffix and the same stem have the same name,
      so in a folder listing (where names are distinct) the map has one key
      per accepted file. */
  lemma StemInjectiveOnPy(a: string, b: string)
    requires Suffix(a) == ".py" && Suffix(b) == ".py"
    requires Stem(a) == Stem(b)
    ensures a == b
  {
    assert a == Stem(a) + ".py";
    assert b == Stem(b) + ".py";
  }
}

=== FILE: ReconCli.dfy ===
/** The original command-line entry point, `reconcraft.py`: the target
    list, the plugin filter, the per-target report, command splitting and
    the CVE token collection.

    Files are passed in as their lines (`None` for a missing file), the
    plugins folder as its listing, importing a module as an oracle that
    fails or says whether the module defines `run`, and each plugin call
    and each subprocess as an oracle giving its outcome. */
module ReconCli {
  import opened Wrappers
  import opened Text
  import opened FileConventions

  // =====================================================================
  // The module-level folders
  // =====================================================================

  /** `BASE_DIR`, `CVE_DIR`, `RAW_DIR` and `REPORT_DIR`, each bound to a
      folder or unbound. The assignments of lines 147-152 sit inside a
      string literal, so as written none of them is ever bound and every
      read of one raises `NameError`. */
  datatype Folders = Folders(baseDir: Option<string>, cveDir: Option<string>, rawDir: Option<string>, reportDir: Option<string>)

  /** The folders as the module leaves them. */
  const Unbound := Folders(None, None, None, None)

  predicate AllBound(f: Folders) {
    f.baseDir.Some? && f.cveDir.Some? && f.rawDir.Some? && f.reportDir.Some?
  }

  /** The message of the `NameError` raised by reading an unbound global. */
  function NameError(name: string): (m: string)
    ensures |m| > |name|
  {
    "name '" + name + "' is not defined"
  }

  lemma NameErrorInjective(a: string, b: string)
    ensures NameError(a) == NameError(b) ==> a == b
  {
    if NameError(a) == NameError(b) {
      assert a == NameError(a)[6..|NameError(a)| - 16];
      assert b == NameError(b)[6..|NameError(b)| - 16];
    }
  }

  // =====================================================================
  // read_ip_list
  // =====================================================================

  /** `line.strip()` of every line. */
  function StrippedLines(lines: seq<string>): (r: seq<string>)
    ensures |r| == |lines| && forall i :: 0 <= i < |lines| ==> r[i] == Strip(lines[i])
  {
    seq(|lines|, i requires 0 <= i < |lines| => Strip(lines[i]))
  }

  predicate NonEmpty(s: string) { s != "" }

  /** Lines 20-26: the stripped non-blank lines in file order, or nothing
      for a missing file. */
  function ReadIpList(file: Option<seq<string>>): (targets: seq<string>)
    ensures file.None? ==> targets == []
    ensures forall k :: 0 <= k < |targets| ==> targets[k] != ""
    ensures file.Some? ==> |targets| <= |file.value|
  {
    match file
    case None => []
    case Some(lines) => Select(StrippedLines(lines), NonEmpty)
  }

  /** A target is exactly a line that is not blank, stripped. */
  lemma ReadIpListMembers(lines: seq<string>, t: string)
    ensures t in ReadIpList(Some(lines)) <==> t != "" && exists i :: 0 <= i < |lines| && Strip(lines[i]) == t
  {
    var ss := StrippedLines(lines);
    var r := ReadIpList(Some(lines));
    assert r == Select(ss, NonEmpty);
    SelectMembers(ss, NonEmpty);
    if t in r {
      assert t in ss && NonEmpty(t);
      var i :| 0 <= i < |ss| && ss[i] == t;
      assert Strip(lines[i]) == t;
    }
    if t != "" && exists i :: 0 <= i < |lines| && Strip(lines[i]) == t {
      var i :| 0 <= i < |lines| && Strip(lines[i]) == t;
      assert ss[i] == t;
      assert t in ss && NonEmpty(t);
    }
  }

  /** Reading a file in two parts gives the targets of each part in turn. */
  lemma ReadIpListAppend(a: seq<string>, b: seq<string>)
    ensures ReadIpList(Some(a + b)) == ReadIpList(Some(a)) + ReadIpList(Some(b))
  {
    assert StrippedLines(a + b) == StrippedLines(a) + StrippedLines(b);
    SelectAppend(StrippedLines(a), StrippedLines(b), NonEmpty);
  }

  /** A word followed by a newline strips back to the word. */
  lemma StripNewline(w: string)
    requires w != [] && !IsSpace(w[0]) && !IsSpace(w[|w| - 1])
    ensures Strip(w + "\n") == w
  {
    var s := w + "\n";
    assert TrimStartBy(s, IsSpace) == s by {
      assert s[0] == w[0];
    }
    assert TrimEndBy(s, IsSpace) == TrimEndBy(w, IsSpace) by {
      assert s[..|s| - 1] == w;
      assert IsSpace(s[|s| - 1]);
    }
    assert TrimEndBy(w, IsSpace) == w;
  }

  /** The helper test's file: two addresses and a trailing blank line. */
  lemma ReadIpListExample()
    ensures ReadIpList(Some(["192.168.1.1" + "\n", "example.com" + "\n", "\n"])) == ["192.168.1.1", "example.com"]
  {
    ExampleStripped();
    var ss: seq<string> := ["192.168.1.1", "example.com", ""];
    assert ss[..2][..1] == ["192.168.1.1"];
    assert ss[..2][..1][..0] == [];
    assert Select(ss[..2][..1], NonEmpty) == ["192.168.1.1"];
    assert Select(ss[..2], NonEmpty) == ["192.168.1.1", "example.com"];
    assert ss[..|ss| - 1] == ss[..2] && !NonEmpty(ss[|ss| - 1]);
  }

  lemma ExampleStripped()
    ensures StrippedLines(["192.168.1.1" + "\n", "example.com" + "\n", "\n"]) == ["192.168.1.1", "example.com", ""]
  {
    var a, b := "192.168.1.1", "example.com";
    assert !IsSpace(a[0]) && !IsSpace(a[|a| - 1]) && !IsSpace(b[0]) && !IsSpace(b[|b| - 1]);
    TwoWordsAndBlank(a, b);
  }

  /** Two words on their own lines, then a blank line, strip to the words
      and "". */
  lemma TwoWordsAndBlank(a: string, b: string)
    requires a != [] && !IsSpace(a[0]) && !IsSpace(a[|a| - 1])
    requires b != [] && !IsSpace(b[0]) && !IsSpace(b[|b| - 1])
    ensures StrippedLines([a + "\n", b + "\n", "\n"]) == [a, b, ""]
  {
    StripNewline(a);
    StripNewline(b);
    StripByAll("\n", IsSpace);
    StrippedThree(a + "\n", b + "\n", "\n");
  }

  lemma StrippedThree(x: string, y: string, z: string)
    ensures StrippedLines([x, y, z]) == [Strip(x), Strip(y), Strip(z)]
  {
  }

  // =====================================================================
  // run_command
  // =====================================================================

  /** A command is a string (split on whitespace) or an argument list. */
  datatype Command = Line(text: string) | Argv(args: seq<string>)

  /** What the subprocess did: finished with its output, ran past the
      180-second timeout, or raised. */
  datatype CommandOutcome = Exited(stdout: string) | TimedOut | Raised(error: string)

  /** The argument list, the output file and what was written to it. */
  datatype CommandRun = CommandRun(argv: seq<string>, path: string, saved: Option<string>)

  function ArgvOf(command: Command): seq<string> {
    match command
    case Line(text) => SplitWs(text)
    case Argv(args) => args
  }

  /** Lines 31-55. `rawDir` is the raw-output folder; the file path is
      returned whatever the subprocess did, and written only when it
      finished. */
  function RunCommand(command: Command, rawDir: string, rawFile: string, run: seq<string> -> CommandOutcome): (r: CommandRun)
    ensures r.path == PathJoin(rawDir, rawFile)
    ensures command.Line? ==> r.argv == SplitWs(command.text)
    ensures command.Argv? ==> r.argv == command.args
    ensures r.saved.Some? <==> run(r.argv).Exited?
    ensures r.saved.Some? ==> r.saved.value == run(r.argv).stdout
  {
    var argv := ArgvOf(command);
    match run(argv)
    case Exited(out) => CommandRun(argv, PathJoin(rawDir, rawFile), Some(out))
    case _ => CommandRun(argv, PathJoin(rawDir, rawFile), None)
  }

  /** Lines 31-55 against the module's folders: line 33 reads `RAW_DIR`
      before the `try`, so when it is unbound the call raises and nothing
      runs. */
  function RunCommandIn(command: Command, folders: Folders, rawFile: string, run: seq<string> -> CommandOutcome)
    : (r: Result<CommandRun>)
    ensures folders.rawDir.None? <==> r.Err?
    ensures r.Err? ==> r.error == NameError("RAW_DIR")
    ensures r.Ok? ==> r.value.path == PathJoin(folders.rawDir.value, rawFile)
    ensures r.Ok? ==> (r.value.saved.Some? <==> run(r.value.argv).Exited?)
  {
    match folders.rawDir
    case None => Err(NameError("RAW_DIR"))
    case Some(dir) => Ok(RunCommand(command, dir, rawFile, run))
  }

  /** A command string made by joining space-free words runs those words. */
  lemma RunCommandWords(words: seq<string>, rawDir: string, rawFile: string, run: seq<string> -> CommandOutcome)
    requires forall k :: 0 <= k < |words| ==> |words[k]| > 0 && NoSpace(words[k])
    ensures RunCommand(Line(Join(words, " ")), rawDir, rawFile, run).argv == words
  {
    SplitJoinRoundTrip(words);
  }

  // =====================================================================
  // extract_cves
  // =====================================================================

  predicate MentionsCve(w: string) { Contains(w, "CVE-") }

  /** Lines 64-65: the words of a line mentioning `CVE-`. */
  function CveTokens(line: string): (ws: seq<string>)
    ensures forall k :: 0 <= k < |ws| ==> MentionsCve(ws[k])
  {
    if MentionsCve(line) then Select(SplitWs(Strip(line)), MentionsCve) else []
  }

  /** Every candidate of the file, line by line, repeats included. */
  function Candidates(lines: seq<string>): (cs: seq<string>)
    ensures forall k :: 0 <= k < |cs| ==> MentionsCve(cs[k])
  {
    if lines == [] then []
    else Candidates(lines[..|lines| - 1]) + CveTokens(lines[|lines| - 1])
  }

  lemma CandidatesStep(lines: seq<string>, i: nat)
    requires i < |lines|
    ensures Candidates(lines[..i + 1]) == Candidates(lines[..i]) + CveTokens(lines[i])
  {
    assert lines[..i + 1][..i] == lines[..i];
  }


  /** What the CVE file holds for the written CVEs: each CVE on its line,
      then the `searchsploit` output and a blank line. */
  function CveReport(written: seq<string>, searchsploit: string -> string): string {
    if written == [] then ""
    else CveReport(written[..|written| - 1], searchsploit)
         + written[|written| - 1] + "\n" + searchsploit(written[|written| - 1]) + "\n\n"
  }

  lemma CveReportPush(written: seq<string>, cve: string, searchsploit: string -> string)
    ensures CveReport(written + [cve], searchsploit) == CveReport(written, searchsploit) + cve + "\n" + searchsploit(cve) + "\n\n"
  {
    assert (written + [cve])[..|written|] == written;
  }

  /** The set holds exactly the listed CVEs and the report is theirs. */
  ghost predicate Tracked(found: set<string>, written: seq<string>, report: string, searchsploit: string -> string) {
    (forall x :: x in found <==> x in written) && report == CveReport(written, searchsploit)
  }

  /** Writing a CVE not yet found keeps the set and the list in step and
      extends the report by its entry. */
  lemma WriteNew(written: seq<string>, found: set<string>, cve: string, report: string,
                 searchsploit: string -> string)
    requires Tracked(found, written, report, searchsploit)
    requires cve !in found
    ensures cve !in written
    ensures Tracked(found + {cve}, written + [cve], report + cve + "\n" + searchsploit(cve) + "\n\n", searchsploit)
  {
    CveReportPush(written, cve, searchsploit);
  }

  /** Lines 58-73. `found` is the returned set (the list is in set order),
      `written` the CVEs in the order they were written and `report` the
      text of the CVE file. */
  method ExtractCves(lines: seq<string>, searchsploit: string -> string)
    returns (found: set<string>, written: seq<string>, report: string)
    ensures written == Dedup(Candidates(lines))
    ensures Distinct(written) && |found| == |written|
    ensures forall x :: x in found <==> x in Candidates(lines)
    ensures forall x :: x in found ==> MentionsCve(x)
    ensures report == CveReport(written, searchsploit)
  {
    found := {};
    written := [];
    report := "";
    var i := 0;
    while i < |lines|
      invariant 0 <= i <= |lines|
      invariant written == Dedup(Candidates(lines[..i]))
      invariant forall x :: x in found <==> x in written
      invariant report == CveReport(written, searchsploit)
    {
      CandidatesStep(lines, i);
      found, written, report := WriteCandidates(Candidates(lines[..i]), CveTokens(lines[i]), found, written, report, searchsploit);
      i := i + 1;
    }
    assert lines[..|lines|] == lines;
    DedupMembers(Candidates(lines));
    DistinctCard(written, found);
  }

  /** Line 59: the CVE file of a target, in `CVE_DIR`. */
  function CveFileIn(folders: Folders, ip: string): (r: Result<string>)
    ensures folders.cveDir.None? <==> r.Err?
    ensures r.Err? ==> r.error == NameError("CVE_DIR")
    ensures r.Ok? ==> r.value == PathJoin(folders.cveDir.value, ip + "_cves.txt")
  {
    match folders.cveDir
    case None => Err(NameError("CVE_DIR"))
    case Some(dir) => Ok(PathJoin(dir, ip + "_cves.txt"))
  }

  /** What one `extract_cves` call produced: the CVE file, the returned
      set, the CVEs in writing order and the file's text. */
  datatype CveRun = CveRun(file: string, found: set<string>, written: seq<string>, text: string)

  /** Lines 58-73 against the module's folders: line 59 reads `CVE_DIR`
      before anything is opened, so when it is unbound the call raises. */
  method ExtractCvesIn(folders: Folders, ip: string, lines: seq<string>, searchsploit: string -> string)
    returns (r: Result<CveRun>)
    ensures folders.cveDir.None? <==> r.Err?
    ensures r.Err? ==> r.error == NameError("CVE_DIR")
    ensures r.Ok? ==> r.value.file == PathJoin(folders.cveDir.value, ip + "_cves.txt")
    ensures r.Ok? ==> r.value.written == Dedup(Candidates(lines))
    ensures r.Ok? ==> forall x :: x in r.value.found <==> x in Candidates(lines)
    ensures r.Ok? ==> r.value.text == CveReport(r.value.written, searchsploit)
  {
    match CveFileIn(folders, ip)
    case Err(e) =>
      r := Err(e);
    case Ok(file) =>
      var found, written, text := ExtractCves(lines, searchsploit);
      r := Ok(CveRun(file, found, written, text));
  }

  /** As written, both helpers handed to the plugins raise `NameError`
      whatever they are asked. */
  lemma UnboundHelpersFail(command: Command, rawFile: string, run: seq<string> -> CommandOutcome, ip: string)
    ensures RunCommandIn(command, Unbound, rawFile, run) == Err(NameError("RAW_DIR"))
    ensures CveFileIn(Unbound, ip) == Err(NameError("CVE_DIR"))
  {
  }

  /** With the folders bound, `run_command` runs the command and saves its
      output in the raw folder, and `extract_cves` writes to the target's
      CVE file. */
  lemma BoundHelpersSucceed(folders: Folders, command: Command, rawFile: string, run: seq<string> -> CommandOutcome, ip: string)
    requires AllBound(folders)
    ensures var r := RunCommandIn(command, folders, rawFile, run);
      r.Ok? && r.value.path == PathJoin(folders.rawDir.value, rawFile) && r.value.argv == ArgvOf(command)
      && (run(ArgvOf(command)).Exited? ==> r.value.saved == Some(run(ArgvOf(command)).stdout))
    ensures CveFileIn(folders, ip) == Ok(PathJoin(folders.cveDir.value, ip + "_cves.txt"))
  {
  }

  /** Lines 66-71 for the candidates of one line, given the CVEs written
      for the candidates `before` it. */
  method WriteCandidates(ghost before: seq<string>, cands: seq<string>, found0: set<string>, written0: seq<string>,
                         report0: string, searchsploit: string -> string)
    returns (found: set<string>, written: seq<string>, report: string)
    requires written0 == Dedup(before)
    requires forall x :: x in found0 <==> x in written0
    requires report0 == CveReport(written0, searchsploit)
    ensures written == Dedup(before + cands)
    ensures forall x :: x in found <==> x in written
    ensures report == CveReport(written, searchsploit)
  {
    found, written, report := found0, written0, report0;
    assert before + cands[..0] == before;
    var j := 0;
    while j < |cands|
      invariant 0 <= j <= |cands|
      invariant written == Dedup(before + cands[..j])
      invariant Tracked(found, written, report, searchsploit)
    {
      var cve := cands[j];
      DedupPush(before, cands, j);
      assert Dedup(before + cands[..j + 1]) == if cve in written then written else written + [cve];
      if cve !in found {
        WriteNew(written, found, cve, report, searchsploit);
        found := found + {cve};
        written := written + [cve];
        report := report + cve + "\n" + searchsploit(cve) + "\n\n";
      }
      j := j + 1;
    }
    assert before + cands[..|cands|] == before + cands;
  }

  // =====================================================================
  // load_plugins
  // =====================================================================

  /** Line 99: a `.py` file whose name does not start with `__`. */
  predicate IsPluginFile(name: string) {
    EndsWith(name, ".py") && !StartsWith(name, "__")
  }

  /** Line 100: the module name is the file name minus `.py`. */
  function ModuleName(name: string): (m: string)
    requires EndsWith(name, ".py")
    ensures m + ".py" == name
  {
    name[..|name| - 3]
  }

  /** Line 101: a non-empty selection restricts the modules by name. */
  predicate InSelection(selected: Option<seq<string>>, m: string) {
    selected.None? || selected.value == [] || m in selected.value
  }

  /** Lines 99-107: the file yields a loaded plugin: it is a candidate,
      selected, imports, and defines `run`. */
  predicate LoadsAs(name: string, selected: Option<seq<string>>, importer: string -> Option<bool>) {
    IsPluginFile(name) && InSelection(selected, ModuleName(name)) && importer(ModuleName(name)) == Some(true)
  }

  /** Lines 92-112. `importer(m)` is `None` when importing `plugins.m`
      raises (logged and skipped) and otherwise says whether the module
      has `run`. The result is the loaded module names in listing order. */
  function LoadPlugins(dirFound: bool, listing: seq<string>, selected: Option<seq<string>>,
                       importer: string -> Option<bool>): (names: seq<string>)
    ensures !dirFound ==> names == []
    ensures |names| <= |listing|
  {
    if !dirFound then []
    else
      var files := Select(listing, f => LoadsAs(f, selected, importer));
      seq(|files|, k requires 0 <= k < |files| => ModuleName(files[k]))
  }

  /** A module is loaded exactly when a listed file loads as it. */
  lemma LoadPluginsMembers(listing: seq<string>, selected: Option<seq<string>>,
                           importer: string -> Option<bool>, m: string)
    ensures m in LoadPlugins(true, listing, selected, importer) <==>
      exists f :: f in listing && LoadsAs(f, selected, importer) && ModuleName(f) == m
  {
    var p := (f: string) => LoadsAs(f, selected, importer);
    var files := Select(listing, p);
    SelectMembers(listing, p);
    var names := LoadPlugins(true, listing, selected, importer);
    if m in names {
      var k :| 0 <= k < |names| && names[k] == m;
      assert files[k] in listing;
    }
    if exists f :: f in listing && LoadsAs(f, selected, importer) && ModuleName(f) == m {
      var f :| f in listing && LoadsAs(f, selected, importer) && ModuleName(f) == m;
      assert f in files;
      var k :| 0 <= k < |files| && files[k] == f;
      assert names[k] == m;
    }
  }

  /** A module without `run`, or one whose import fails, is never loaded. */
  lemma BrokenModuleSkipped(listing: seq<string>, selected: Option<seq<string>>,
                            importer: string -> Option<bool>, m: string)
    requires importer(m) != Some(true)
    ensures m !in LoadPlugins(true, listing, selected, importer)
  {
    LoadPluginsMembers(listing, selected, importer, m);
  }

  // =====================================================================
  // scan_target
  // =====================================================================

  /** The report key of a plugin: its module's `__name__`. */
  function PluginKey(m: string): string { "plugins." + m }

  lemma PluginKeyInjective(a: string, b: string)
    ensures PluginKey(a) == PluginKey(b) ==> a == b
  {
    if PluginKey(a) == PluginKey(b) {
      assert a == PluginKey(a)[8..] && b == PluginKey(b)[8..];
    }
  }

  /** Lines 120-122. */
  function StatusText(raised: Option<string>): (t: string)
    ensures raised.None? ==> t == "Completed"
    ensures raised.Some? ==> t == "Failed: " + raised.value
  {
    match raised
    case None => "Completed"
    case Some(e) => "Failed: " + e
  }

  /** Line 119: the call's arguments are evaluated inside the `try`, first
      `RAW_DIR` and then `BASE_DIR`, so an unbound one is the plugin's
      error before `run` is entered. `raises(m, ip)` is what `run` itself
      raised, if anything. */
  function PluginError(folders: Folders, m: string, ip: string, raises: (string, string) -> Option<string>): (e: Option<string>)
    ensures folders.rawDir.None? ==> e == Some(NameError("RAW_DIR"))
    ensures folders.rawDir.Some? && folders.baseDir.None? ==> e == Some(NameError("BASE_DIR"))
    ensures folders.rawDir.Some? && folders.baseDir.Some? ==> e == raises(m, ip)
  {
    if folders.rawDir.None? then Some(NameError("RAW_DIR"))
    else if folders.baseDir.None? then Some(NameError("BASE_DIR"))
    else raises(m, ip)
  }

  /** Lines 120-122: the status a plugin's call leaves in the report. */
  function PluginStatus(folders: Folders, m: string, ip: string, raises: (string, string) -> Option<string>): string {
    StatusText(PluginError(folders, m, ip, raises))
  }

  /** Lines 116-123 for one target; the return value of `run` is ignored. */
  function TargetResults(ip: string, plugins: seq<string>, folders: Folders, raises: (string, string) -> Option<string>)
    : (r: map<string, string>)
    ensures forall k :: k in r <==> exists m :: m in plugins && k == PluginKey(m)
    ensures forall m :: m in plugins ==> r[PluginKey(m)] == PluginStatus(folders, m, ip, raises)
  {
    if plugins == [] then map[]
    else
      var m := plugins[|plugins| - 1];
      var prev := TargetResults(ip, plugins[..|plugins| - 1], folders, raises);
      assert forall x :: x in plugins <==> x in plugins[..|plugins| - 1] || x == m by {
        assert plugins == plugins[..|plugins| - 1] + [m];
      }
      assert forall x :: PluginKey(x) == PluginKey(m) ==> x == m by {
        forall x { PluginKeyInjective(x, m); }
      }
      prev[PluginKey(m) := PluginStatus(folders, m, ip, raises)]
  }

  /** Lines 195-196: every target scanned in order; a repeated target
      starts afresh. */
  function ScanAll(report: map<string, map<string, string>>, targets: seq<string>, plugins: seq<string>,
                   folders: Folders, raises: (string, string) -> Option<string>): (r: map<string, map<string, string>>)
    ensures forall ip :: ip in r <==> ip in report || ip in targets
    ensures forall ip :: ip in targets ==> r[ip] == TargetResults(ip, plugins, folders, raises)
    ensures forall ip :: ip in report && ip !in targets ==> r[ip] == report[ip]
  {
    if targets == [] then report
    else
      var ip := targets[|targets| - 1];
      var prev := ScanAll(report, targets[..|targets| - 1], plugins, folders, raises);
      assert forall x :: x in targets <==> x in targets[..|targets| - 1] || x == ip by {
        assert targets == targets[..|targets| - 1] + [ip];
      }
      prev[ip := TargetResults(ip, plugins, folders, raises)]
  }

  // =====================================================================
  // main
  // =====================================================================

  /** Line 188: `-p a,b` selects by name; no option (or an empty one)
      selects everything. */
  function Selection(pluginsArg: Option<string>): (s: Option<seq<string>>)
    ensures pluginsArg.None? || pluginsArg.value == "" ==> s.None?
    ensures pluginsArg.Some? && pluginsArg.value != "" ==> s == Some(SplitOn(pluginsArg.value, ','))
  {
    if pluginsArg.Some? && pluginsArg.value != "" then Some(SplitOn(pluginsArg.value, ',')) else None
  }

  /** How a scan run ends: no targets, no plugins, the report written to
      `path`, or an uncaught error once the scans are done. */
  datatype CliOutcome =
    | NoTargets
    | NoPlugins
    | Scanned(report: map<string, map<string, string>>, path: string)
    | Crashed(error: string)

  /** The scans of lines 194-196 for the targets read and the plugins
      loaded. */
  function ScanReport(targets: seq<string>, plugins: seq<string>, folders: Folders,
                      raises: (string, string) -> Option<string>): map<string, map<string, string>>
  {
    ScanAll(map[], targets, plugins, folders, raises)
  }

  /** Lines 183-202, after the option handling: read targets, stop when
      there are none, load plugins, stop when there are none, scan every
      target, then write the report to `REPORT_DIR/report.json` (line 198
      reads `REPORT_DIR` outside any `try`). */
  function RunScan(folders: Folders, ipFile: Option<seq<string>>, pluginsArg: Option<string>, dirFound: bool, listing: seq<string>,
                   importer: string -> Option<bool>, raises: (string, string) -> Option<string>): (o: CliOutcome)
    ensures o.NoTargets? <==> ReadIpList(ipFile) == []
    ensures o.NoPlugins? <==> ReadIpList(ipFile) != [] && LoadPlugins(dirFound, listing, Selection(pluginsArg), importer) == []
    ensures o.Crashed? <==> !o.NoTargets? && !o.NoPlugins? && folders.reportDir.None?
    ensures o.Crashed? ==> o.error == NameError("REPORT_DIR")
    ensures o.Scanned? ==> o.path == PathJoin(folders.reportDir.value, "report.json")
    ensures o.Scanned? ==> forall ip :: ip in o.report <==> ip in ReadIpList(ipFile)
  {
    var targets := ReadIpList(ipFile);
    if targets == [] then NoTargets
    else
      var plugins := LoadPlugins(dirFound, listing, Selection(pluginsArg), importer);
      if plugins == [] then NoPlugins
      else
        var report := ScanReport(targets, plugins, folders, raises);
        match folders.reportDir
        case None => Crashed(NameError("REPORT_DIR"))
        case Some(dir) => Scanned(report, PathJoin(dir, "report.json"))
  }

  /** With no targets the run stops before the plugins folder is even
      consulted: the outcome is the same whatever it holds. */
  lemma NoTargetsIgnoresPlugins(folders: Folders, pluginsArg: Option<string>, dirFound: bool, listing: seq<string>,
                                importer: string -> Option<bool>, raises: (string, string) -> Option<string>,
                                dirFound2: bool, listing2: seq<string>, importer2: string -> Option<bool>)
    ensures RunScan(folders, None, pluginsArg, dirFound, listing, importer, raises)
         == RunScan(folders, None, pluginsArg, dirFound2, listing2, importer2, raises) == NoTargets
  {
  }

  /** As written, a run with targets and plugins records every plugin as
      failed on the unbound `RAW_DIR` and then dies on the unbound
      `REPORT_DIR`, so no report is ever written. */
  lemma UnboundScanCrashes(ipFile: Option<seq<string>>, pluginsArg: Option<string>, dirFound: bool, listing: seq<string>,
                           importer: string -> Option<bool>, raises: (string, string) -> Option<string>)
    requires ReadIpList(ipFile) != [] && LoadPlugins(dirFound, listing, Selection(pluginsArg), importer) != []
    ensures RunScan(Unbound, ipFile, pluginsArg, dirFound, listing, importer, raises) == Crashed(NameError("REPORT_DIR"))
    ensures var plugins := LoadPlugins(dirFound, listing, Selection(pluginsArg), importer);
      var report := ScanReport(ReadIpList(ipFile), plugins, Unbound, raises);
      forall ip, m :: ip in ReadIpList(ipFile) && m in plugins ==>
        report[ip][PluginKey(m)] == "Failed: " + NameError("RAW_DIR")
  {
  }

  /** With the folders bound, the same run writes `report.json` in the
      report folder, and each plugin's entry is what its own `run` did. */
  lemma BoundScanWritesReport(folders: Folders, ipFile: Option<seq<string>>, pluginsArg: Option<string>, dirFound: bool,
                              listing: seq<string>, importer: string -> Option<bool>, raises: (string, string) -> Option<string>)
    requires AllBound(folders)
    requires ReadIpList(ipFile) != [] && LoadPlugins(dirFound, listing, Selection(pluginsArg), importer) != []
    ensures var o := RunScan(folders, ipFile, pluginsArg, dirFound, listing, importer, raises);
      var plugins := LoadPlugins(dirFound, listing, Selection(pluginsArg), importer);
      o.Scanned? && o.path == PathJoin(folders.reportDir.value, "report.json")
      && forall ip, m :: ip in ReadIpList(ipFile) && m in plugins ==>
        o.report[ip][PluginKey(m)] == StatusText(raises(m, ip))
  {
  }
}

=== FILE: ReportExporter.dfy ===
/** `core/report_exporter.py`: the rows of the run CSV, the structure of
    the HTML report, the findings CSV projection and the names of the
    files written under `<run_dir>/exports`.

    A CSV row is the list of cell values in column order (`None` is
    `Null`); the `csv` module's quoting and the HTML page's fixed
    template text stay outside the model. Failures that Python raises
    part-way (a `.get` on something that is not a dict, a `join` over
    non-strings) make the export an `Err`. */
module ReportExporter {
  import opened Wrappers
  import opened Text
  import opened Json
  import opened ReportModel
  import opened FileConventions

  // =====================================================================
  // export_csv
  // =====================================================================

  /** Lines 25-28, in order. */
  const Columns: seq<string> := [
    "scan_id", "run_id", "tool", "tool_version", "target", "asset", "location", "port", "service",
    "category", "severity", "score", "title", "evidence_snippet", "references", "started_at", "ended_at"]

  /** `(run.get("targets") or [dflt])[0]`: the first target, the first
      character of a string, or a failure for values that cannot be
      indexed by 0. */
  function FirstTarget(run: map<string, Json>, dflt: Json): (r: Result<Json>)
    ensures !Truthy(Field(run, "targets")) ==> r == Ok(dflt)
    ensures Field(run, "targets").Arr? && Truthy(Field(run, "targets")) ==> r == Ok(Field(run, "targets").items[0])
    ensures r.Err? <==> Truthy(Field(run, "targets")) && !Field(run, "targets").Arr? && !Field(run, "targets").Str?
  {
    match OrElse(Field(run, "targets"), Arr([dflt]))
    case Arr(items) => Ok(items[0])
    case Str(s) => Ok(Str([s[0]]))
    case Obj(_) => Err("KeyError: 0")
    case _ => Err("TypeError: object is not subscriptable")
  }

  /** Every item is a string. */
  predicate AllStrings(items: seq<Json>) {
    forall k :: 0 <= k < |items| ==> items[k].Str?
  }

  function Texts(items: seq<Json>): (r: seq<string>)
    requires AllStrings(items)
    ensures |r| == |items| && forall k :: 0 <= k < |items| ==> r[k] == items[k].s
  {
    seq(|items|, k requires 0 <= k < |items| => items[k].s)
  }

  /** Line 53: a list is comma-joined, another truthy value is the only
      element, anything falsy gives the empty string; `join` fails on a
      non-string element. */
  function References(fi: map<string, Json>): (r: Result<string>)
    ensures var v := Field(fi, "references");
      (v.Arr? && AllStrings(v.items) ==> r == Ok(Join(Texts(v.items), ",")))
      && (v.Str? ==> r == Ok(v.s))
      && (!Truthy(v) && !v.Arr? ==> r == Ok(""))
      && (r.Err? <==> (v.Arr? && !AllStrings(v.items)) || (Truthy(v) && !v.Arr? && !v.Str?))
  {
    var v := Field(fi, "references");
    if v.Arr? then
      if AllStrings(v.items) then Ok(Join(Texts(v.items), ",")) else Err("TypeError: expected str instance")
    else if Truthy(v) then
      if v.Str? then Ok(v.s) else Err("TypeError: expected str instance")
    else Ok("")
  }

  /** Lines 30-38: the run-level cells shared by every row. */
  datatype RunCells = RunCells(scanId: Json, runId: Json, tool: Json, toolVersion: Json, target: Json,
                               startedAt: Json, endedAt: Json)

  function Defaults(run: map<string, Json>, target: Json): RunCells {
    RunCells(Field(run, "scan_id"), Field(run, "run_id"), Field(run, "tool"), Field(run, "tool_version"),
             target, Field(run, "started_at"), Field(run, "ended_at"))
  }

  /** Lines 43-55: the row written for one finding, in column order:
      `{**defaults, ...}` passed through `DictWriter`, whose keys are
      exactly the seventeen columns. */
  function CsvRow(d: RunCells, fi: map<string, Json>, refs: string): (cells: seq<Json>)
    ensures |cells| == |Columns|
  {
    [d.scanId, d.runId, d.tool, d.toolVersion, d.target,
     Field(fi, "asset"), Field(fi, "location"), Field(fi, "port"), Field(fi, "service"),
     Field(fi, "category"), Field(fi, "severity"), Field(fi, "score"), Field(fi, "title"),
     Field(fi, "evidence"), Str(refs), d.startedAt, d.endedAt]
  }

  /** `csv.DictWriter.writerow` with fieldnames `cols`: the values in
      column order, `restval` "" for a missing key. */
  function WriteRow(cols: seq<string>, row: map<string, Json>): (cells: seq<Json>)
    ensures |cells| == |cols|
    ensures forall k :: 0 <= k < |cols| ==> cells[k] == FieldOr(row, cols[k], Str(""))
  {
    seq(|cols|, k requires 0 <= k < |cols| => FieldOr(row, cols[k], Str("")))
  }

  /** A finding the CSV writer cannot turn into a row: not an object, or
      with references that cannot be joined. */
  predicate RowFails(f: Json) {
    !f.Obj? || References(f.fields).Err?
  }

  /** `row` is the row the CSV writer makes of the finding `f`. */
  predicate RowOf(defaults: RunCells, f: Json, row: seq<Json>) {
    !RowFails(f) && row == CsvRow(defaults, f.fields, References(f.fields).value)
  }

  /** The cells of the rows after the header, one finding at a time. */
  function CsvRows(defaults: RunCells, findings: seq<Json>): (r: Result<seq<seq<Json>>>)
    ensures r.Ok? ==> |r.value| == |findings|
    ensures r.Ok? ==> forall i :: 0 <= i < |findings| ==> RowOf(defaults, findings[i], r.value[i])
    ensures r.Err? <==> exists i :: 0 <= i < |findings| && RowFails(findings[i])
  {
    if findings == [] then Ok([])
    else
      var fi := findings[0];
      if !fi.Obj? then Err("AttributeError: object has no attribute 'get'")
      else
        match References(fi.fields)
        case Err(e) => Err(e)
        case Ok(refs) =>
          match CsvRows(defaults, findings[1..])
          case Err(e) =>
            FailsLater(findings);
            Err(e)
          case Ok(rest) =>
            RowsCons(defaults, findings, CsvRow(defaults, fi.fields, refs), rest);
            Ok([CsvRow(defaults, fi.fields, refs)] + rest)
  }

  lemma FailsLater(findings: seq<Json>)
    requires findings != []
    requires exists i :: 0 <= i < |findings[1..]| && RowFails(findings[1..][i])
    ensures exists i :: 0 <= i < |findings| && RowFails(findings[i])
  {
    var i :| 0 <= i < |findings[1..]| && RowFails(findings[1..][i]);
    assert findings[i + 1] == findings[1..][i];
  }

  lemma RowsCons(defaults: RunCells, findings: seq<Json>, row: seq<Json>, rest: seq<seq<Json>>)
    requires findings != [] && RowOf(defaults, findings[0], row)
    requires |rest| == |findings| - 1
    requires forall i :: 0 <= i < |rest| ==> RowOf(defaults, findings[1..][i], rest[i])
    ensures forall i :: 0 <= i < |findings| ==> RowOf(defaults, findings[i], ([row] + rest)[i])
    ensures !exists i :: 0 <= i < |findings| && RowFails(findings[i])
  {
    forall i | 0 <= i < |findings| ensures RowOf(defaults, findings[i], ([row] + rest)[i]) {
      if i > 0 {
        assert findings[i] == findings[1..][i - 1];
      }
    }
  }

  /** Lines 24-55. The header is `Columns`; the result is the data rows. */
  function ExportCsv(model: RunModel): (r: Result<seq<seq<Json>>>)
    ensures !model.run.Obj? ==> r.Err?
    ensures model.run.Obj? && FirstTarget(model.run.fields, Null).Ok? ==>
      r == CsvRows(Defaults(model.run.fields, FirstTarget(model.run.fields, Null).value), model.findings)
    ensures model.run.Obj? && FirstTarget(model.run.fields, Null).Err? ==>
      r == Err(FirstTarget(model.run.fields, Null).error)
  {
    if !model.run.Obj? then Err("AttributeError: object has no attribute 'get'")
    else
      match FirstTarget(model.run.fields, Null)
      case Err(e) => Err(e)
      case Ok(target) => CsvRows(Defaults(model.run.fields, target), model.findings)
  }

  /** The positions of the columns filled from the run. */
  const RunColumns: set<nat> := {0, 1, 2, 3, 4, 15, 16}

  lemma RunColumnNames()
    ensures Columns[0] == "scan_id" && Columns[1] == "run_id" && Columns[2] == "tool"
    ensures Columns[3] == "tool_version" && Columns[4] == "target"
    ensures Columns[15] == "started_at" && Columns[16] == "ended_at"
    ensures Columns[13] == "evidence_snippet" && Columns[14] == "references"
  {
  }

  /** The columns that come from the run are the same in every row, and
      the evidence column holds the finding's `evidence`. */
  lemma RunColumnsShared(model: RunModel, i: nat, j: nat, k: nat)
    requires ExportCsv(model).Ok?
    requires i < |ExportCsv(model).value| && j < |ExportCsv(model).value|
    requires k in RunColumns
    ensures ExportCsv(model).value[i][k] == ExportCsv(model).value[j][k]
    ensures model.findings[i].Obj?
    ensures ExportCsv(model).value[i][13] == Field(model.findings[i].fields, "evidence")
  {
    var d := Defaults(model.run.fields, FirstTarget(model.run.fields, Null).value);
    var rows := ExportCsv(model).value;
    assert rows == CsvRows(d, model.findings).value;
    var fi, fj := model.findings[i].fields, model.findings[j].fields;
    assert rows[i] == CsvRow(d, fi, References(fi).value);
    assert rows[j] == CsvRow(d, fj, References(fj).value);
    CsvRowShared(d, fi, References(fi).value, fj, References(fj).value, k);
  }

  /** Two rows built on the same run cells agree on every run column. */
  lemma CsvRowShared(d: RunCells, fi: map<string, Json>, ri: string, fj: map<string, Json>, rj: string, k: nat)
    requires k in RunColumns
    ensures CsvRow(d, fi, ri)[k] == CsvRow(d, fj, rj)[k]
    ensures CsvRow(d, fi, ri)[13] == Field(fi, "evidence")
  {
  }

  // =====================================================================
  // _render_html
  // =====================================================================

  /** `esc(x)`: `None` is empty, anything else is `html.escape(str(x))`. */
  function EscValue(x: Json, repr: Json -> string): (r: string)
    ensures NoMarkup(r)
    ensures x.Null? ==> r == ""
    ensures x.Str? ==> r == HtmlEscape(x.s)
  {
    if x.Null? then "" else HtmlEscape(PyStr(x, repr))
  }

  /** One table row of lines 103-114, cells already escaped. */
  datatype HtmlRow = HtmlRow(sevClass: string, severity: string, title: string, asset: string,
                             location: string, port: string, service: string, category: string, evidence: string)

  /** The table body: the placeholder row of line 121, or the rows. */
  datatype TableBody = Placeholder | Rows(rows: seq<HtmlRow>)

  /** The variable parts of the page: the header cards and the table. */
  datatype HtmlReport = HtmlReport(tool: string, target: string, runId: string, started: string, ended: string,
                                   status: string, exitCode: string, counts: seq<string>, body: TableBody)

  /** `counts.get(k, 0)`, printed. */
  function CountText(counts: map<string, int>, k: string): string {
    IntToString(if k in counts then counts[k] else 0)
  }

  function HtmlRowOf(fi: Json, repr: Json -> string): (r: Result<HtmlRow>)
    ensures r.Ok? <==> SeverityOf(fi).Some?
    ensures r.Ok? ==> r.value.sevClass == HtmlEscape(SeverityOf(fi).value)
  {
    match SeverityOf(fi)
    case None => Err("AttributeError")
    case Some(sev) =>
      var f := fi.fields;
      Ok(HtmlRow(HtmlEscape(sev), EscValue(Field(f, "severity"), repr), EscValue(Field(f, "title"), repr),
                 EscValue(Field(f, "asset"), repr), EscValue(Field(f, "location"), repr),
                 EscValue(Field(f, "port"), repr), EscValue(Field(f, "service"), repr),
                 EscValue(Field(f, "category"), repr), EscValue(Field(f, "evidence"), repr)))
  }

  /** Lines 101-114: the rows in finding order; the first finding that
      is not a dict or has a non-string severity aborts the page. */
  function HtmlRows(findings: seq<Json>, repr: Json -> string): (r: Result<seq<HtmlRow>>)
    ensures r.Ok? ==> |r.value| == |findings|
    ensures r.Ok? ==> forall i :: 0 <= i < |findings| ==> SeverityOf(findings[i]).Some? && r.value[i].sevClass == HtmlEscape(SeverityOf(findings[i]).value)
    ensures r.Ok? ==> forall i :: 0 <= i < |findings| ==> HtmlRowOf(findings[i], repr) == Ok(r.value[i])
    ensures r.Err? <==> exists i :: 0 <= i < |findings| && SeverityOf(findings[i]).None?
  {
    if forall i :: 0 <= i < |findings| ==> SeverityOf(findings[i]).Some? then
      Ok(seq(|findings|, i requires 0 <= i < |findings| => HtmlRowOf(findings[i], repr).value))
    else Err("AttributeError: object has no attribute 'get'")
  }

  /** Lines 58-125: the header cards, the five severity counts (0 when
      missing) and the table, whose body is a placeholder exactly when
      there are no findings. */
  function RenderHtml(model: RunModel, repr: Json -> string): (r: Result<HtmlReport>)
    ensures !model.run.Obj? ==> r.Err?
    ensures r.Ok? <==>
      model.run.Obj? && FirstTarget(model.run.fields, Str("")).Ok? && HtmlRows(model.findings, repr).Ok?
    ensures r.Ok? && r.value.body.Rows? ==> r.value.body.rows == HtmlRows(model.findings, repr).value
    ensures r.Ok? ==> (|r.value.counts| == |Severities|
      && forall i :: 0 <= i < |Severities| ==> r.value.counts[i] == CountText(model.counts, Severities[i]))
    ensures r.Ok? ==> (r.value.body.Placeholder? <==> model.findings == [])
    ensures r.Ok? && r.value.body.Rows? ==> |r.value.body.rows| == |model.findings|
    ensures r.Ok? ==> NoMarkup(r.value.tool) && NoMarkup(r.value.target) && NoMarkup(r.value.runId)
  {
    if !model.run.Obj? then Err("AttributeError: object has no attribute 'get'")
    else
      var run := model.run.fields;
      match FirstTarget(run, Str(""))
      case Err(e) => Err(e)
      case Ok(target) =>
        match HtmlRows(model.findings, repr)
        case Err(e) => Err(e)
        case Ok(rows) =>
          var counts := seq(|Severities|, i requires 0 <= i < |Severities| => CountText(model.counts, Severities[i]));
          Ok(HtmlReport(EscValue(Field(run, "tool"), repr), EscValue(target, repr), EscValue(Field(run, "run_id"), repr),
                        EscValue(Field(run, "started_at"), repr), EscValue(Field(run, "ended_at"), repr),
                        EscValue(Field(run, "status"), repr), EscValue(Field(run, "exit_code"), repr),
                        counts, if rows == [] then Placeholder else Rows(rows)))
  }

  /** Row `i` of the page is finding `i`, coloured by its own severity;
      a page renders only when every finding has a string severity. */
  lemma HtmlRowsInOrder(model: RunModel, repr: Json -> string, i: nat)
    requires RenderHtml(model, repr).Ok?
    requires i < |model.findings|
    ensures RenderHtml(model, repr).value.body.Rows?
    ensures RenderHtml(model, repr).value.body.rows[i] == HtmlRowOf(model.findings[i], repr).value
    ensures RenderHtml(model, repr).value.body.rows[i].sevClass == HtmlEscape(SeverityOf(model.findings[i]).value)
  {
    var rows := HtmlRows(model.findings, repr);
    assert rows.Ok? && HtmlRowOf(model.findings[i], repr) == Ok(rows.value[i]);
  }

  /** A finding without a string severity aborts the page, whatever the
      other findings are. */
  lemma BadSeverityAbortsPage(model: RunModel, repr: Json -> string, i: nat)
    requires i < |model.findings| && SeverityOf(model.findings[i]).None?
    ensures RenderHtml(model, repr).Err?
  {
    assert HtmlRows(model.findings, repr).Err?;
  }

  /** For a loaded model the page shows, for each severity, how many
      findings count towards it. */
  lemma LoadedCountsShown(model: RunModel, repr: Json -> string, i: nat)
    requires CountsMatch(model.counts, model.findings)
    requires RenderHtml(model, repr).Ok?
    requires i < |Severities|
    ensures RenderHtml(model, repr).value.counts[i] == IntToString(CountOf(model.findings, Severities[i]))
  {
    assert Severities[i] in model.counts;
  }

  // =====================================================================
  // export_findings_csv
  // =====================================================================

  /** Line 215. */
  const FindingFields: seq<string> := ["severity", "title", "asset", "location", "port", "service", "category", "evidence"]

  /** Line 221: a dict contributes its eight fields (missing ones ""),
      anything else a row of empty strings. */
  function FindingRow(row: Json): (cells: seq<Json>)
    ensures |cells| == |FindingFields|
    ensures row.Obj? ==> forall k :: 0 <= k < |FindingFields| ==> cells[k] == FieldOr(row.fields, FindingFields[k], Str(""))
    ensures !row.Obj? ==> forall k :: 0 <= k < |FindingFields| ==> cells[k] == Str("")
  {
    match row
    case Obj(fields) => WriteRow(FindingFields, map k | k in FindingFields :: FieldOr(fields, k, Str("")))
    case _ => WriteRow(FindingFields, map k | k in FindingFields :: Str(""))
  }

  /** Lines 209-222: one row per element of `findings or []`. */
  function FindingsCsv(findings: Option<seq<Json>>): (rows: seq<seq<Json>>)
    ensures findings.None? ==> rows == []
    ensures findings.Some? ==> (|rows| == |findings.value|
      && forall i :: 0 <= i < |rows| ==> rows[i] == FindingRow(findings.value[i]))
  {
    var fs := if findings.Some? then findings.value else [];
    seq(|fs|, i requires 0 <= i < |fs| => FindingRow(fs[i]))
  }

  // =====================================================================
  // Export file names
  // =====================================================================

  /** Lines 159-163: `<run_dir>/exports`. */
  function ExportsDir(runDir: string): string {
    PathJoin(runDir, "exports")
  }

  datatype ExportKind = RawLog | RawHtml | FindingsJson | FindingsCsvFile

  /** Lines 172, 194, 204 and 216: the file name of each export. */
  function ExportName(kind: ExportKind, tool: string, runId: string): (n: string)
    ensures |n| > 0
  {
    match kind
    case RawLog => tool + "_" + runId + ".log"
    case RawHtml => tool + "_" + runId + ".html"
    case FindingsJson => "findings_" + runId + ".json"
    case FindingsCsvFile => "findings_" + runId + ".csv"
  }

  function ExportPath(runDir: string, kind: ExportKind, tool: string, runId: string): string {
    PathJoin(ExportsDir(runDir), ExportName(kind, tool, runId))
  }

  /** The four exports of one run never share a name: each ends in a
      different character. */
  lemma ExportNamesDistinct(k1: ExportKind, k2: ExportKind, tool: string, runId: string)
    requires k1 != k2
    ensures ExportName(k1, tool, runId) != ExportName(k2, tool, runId)
  {
    var n1 := ExportName(k1, tool, runId);
    var n2 := ExportName(k2, tool, runId);
    assert n1[|n1| - 1] != n2[|n2| - 1];
  }

  /** With plain names, each export is a direct child of
      `<run_dir>/exports`, which is a direct child of the run folder. */
  lemma ExportPathLayout(runDir: string, kind: ExportKind, tool: string, runId: string)
    requires runDir != [] && runDir[|runDir| - 1] != Sep
    requires Sep !in tool && Sep !in runId
    ensures SplitLast(ExportsDir(runDir)) == (runDir, "exports")
    ensures SplitLast(ExportPath(runDir, kind, tool, runId)) == (ExportsDir(runDir), ExportName(kind, tool, runId))
  {
    JoinSplitRoundTrip(runDir, "exports");
    var dir := ExportsDir(runDir);
    assert dir == runDir + [Sep] + "exports";
    var name := ExportName(kind, tool, runId);
    assert Sep !in name by {
      var fixed := ["_", ".log", ".html", "findings_", ".json", ".csv"];
      assert forall k :: 0 <= k < |fixed| ==> Sep !in fixed[k];
      match kind
      case RawLog => NotInConcat(tool + "_", runId, Sep); NotInConcat(tool + "_" + runId, ".log", Sep);
      case RawHtml => NotInConcat(tool + "_", runId, Sep); NotInConcat(tool + "_" + runId, ".html", Sep);
      case FindingsJson => NotInConcat("findings_", runId, Sep); NotInConcat("findings_" + runId, ".json", Sep);
      case FindingsCsvFile => NotInConcat("findings_", runId, Sep); NotInConcat("findings_" + runId, ".csv", Sep);
    }
    JoinSplitRoundTrip(dir, name);
  }

  lemma NotInConcat(a: string, b: string, c: char)
    requires c !in a && c !in b
    ensures c !in a + b
  {
    assert forall i :: 0 <= i < |a + b| ==> (a + b)[i] == if i < |a| then a[i] else b[i - |a|];
  }

  /** Lines 177-196: the raw-text page; its visible parts are escaped. */
  datatype RawPage = RawPage(title: string, heading: string, body: string)

  function RawToHtml(rawText: string, tool: string, target: string, runId: string): (p: RawPage)
    ensures p.body == HtmlEscape(rawText)
    ensures NoMarkup(p.title) && NoMarkup(p.heading) && NoMarkup(p.body)
  {
    var title := HtmlEscape(tool) + " – " + HtmlEscape(runId);
    var heading := HtmlEscape(tool) + " — " + HtmlEscape(target) + " — " + HtmlEscape(runId);
    var a, b, c := HtmlEscape(tool), HtmlEscape(target), HtmlEscape(runId);
    NoMarkupAppend(a, " – ");
    NoMarkupAppend(a + " – ", c);
    NoMarkupAppend(a, " — ");
    NoMarkupAppend(a + " — ", b);
    NoMarkupAppend(a + " — " + b, " — ");
    NoMarkupAppend(a + " — " + b + " — ", c);
    RawPage(title, heading, HtmlEscape(rawText))
  }
}

=== FILE: ReportModel.dfy ===
/** `core/report_model.py`: one run (`run.json` plus `findings.jsonl`)
    loaded into the normalised in-memory model with per-severity counts.

    Reading the two files and `json.loads` are parameters: the run file
    arrives already parsed (or `None` when it could not be read or
    parsed), the findings file as its outcome of opening plus its lines,
    and the JSON parser as a function from a line to an optional value. */
module ReportModel {
  import opened Wrappers
  import opened Text
  import opened Json

  const SchemaVersion: string := "1.0"

  /** The severity keys, in the order the model's counts list them. */
  const Severities: seq<string> := ["critical", "high", "medium", "low", "info"]

  const ZeroCounts: map<string, int> :=
    map["critical" := 0, "high" := 0, "medium" := 0, "low" := 0, "info" := 0]

  datatype RunModel = RunModel(schemaVersion: string, run: Json, findings: seq<Json>, counts: map<string, int>)

  /** What opening the findings file gives: missing, another error (which
      propagates), or its lines. */
  datatype FindingsFile = NotFound | OpenError(error: string) | Lines(lines: seq<string>)

  /** `(obj.get("severity") or "").lower()`, or `None` where that raises:
      `obj` is not a dict, or its truthy severity is not a string. */
  function SeverityOf(obj: Json): (sev: Option<string>)
    ensures !obj.Obj? ==> sev.None?
    ensures obj.Obj? && !Truthy(Field(obj.fields, "severity")) ==> sev == Some("")
    ensures obj.Obj? && Field(obj.fields, "severity").Str? ==> sev == Some(Lower(Field(obj.fields, "severity").s))
  {
    match obj
    case Obj(fields) =>
      var v := Field(fields, "severity");
      if !Truthy(v) then Some("")
      else if v.Str? then Some(Lower(v.s))
      else None
    case _ => None
  }

  /** The finding adds one to the count of key `k`. */
  predicate CountsAs(obj: Json, k: string) {
    SeverityOf(obj) == Some(k)
  }

  /** How many findings count towards severity `k`: the independent
      reference the loop's counters are checked against. */
  function CountOf(fs: seq<Json>, k: string): (n: nat)
    ensures n <= |fs|
  {
    if fs == [] then 0
    else CountOf(fs[..|fs| - 1], k) + (if CountsAs(fs[|fs| - 1], k) then 1 else 0)
  }

  /** The line yields a finding: it is not blank once stripped and it
      parses. */
  function ParsedLine(line: string, parse: string -> Option<Json>): Option<Json> {
    var l := Strip(line);
    if l == "" then None else parse(l)
  }

  /** What each line of the file yields, in file order. */
  function Outcomes(lines: seq<string>, parse: string -> Option<Json>): (os: seq<Option<Json>>)
    ensures |os| == |lines| && forall i :: 0 <= i < |lines| ==> os[i] == ParsedLine(lines[i], parse)
  {
    seq(|lines|, i requires 0 <= i < |lines| => ParsedLine(lines[i], parse))
  }

  /** The values present in a sequence of outcomes, in order. */
  function Somes(os: seq<Option<Json>>): (fs: seq<Json>)
    ensures |fs| <= |os|
  {
    if os == [] then []
    else
      var prev := Somes(os[..|os| - 1]);
      match os[|os| - 1]
      case Some(obj) => prev + [obj]
      case None => prev
  }

  lemma {:induction false} SomesMembers(os: seq<Option<Json>>)
    ensures forall f :: f in Somes(os) <==> Some(f) in os
  {
    if os != [] {
      SomesMembers(os[..|os| - 1]);
      assert os == os[..|os| - 1] + [os[|os| - 1]];
    }
  }

  /** The findings appended by lines 29-40, in file order. */
  function Findings(lines: seq<string>, parse: string -> Option<Json>): (fs: seq<Json>)
    ensures |fs| <= |lines|
  {
    Somes(Outcomes(lines, parse))
  }

  /** Every finding is the parse of a non-blank stripped line, and every
      such parse is a finding. */
  lemma FindingsFromLines(lines: seq<string>, parse: string -> Option<Json>, f: Json)
    ensures f in Findings(lines, parse) <==>
      exists i :: 0 <= i < |lines| && Strip(lines[i]) != "" && parse(Strip(lines[i])) == Some(f)
  {
    var os := Outcomes(lines, parse);
    SomesMembers(os);
    if f in Findings(lines, parse) {
      var i :| 0 <= i < |os| && os[i] == Some(f);
      assert ParsedLine(lines[i], parse) == Some(f);
    }
    if exists i :: 0 <= i < |lines| && Strip(lines[i]) != "" && parse(Strip(lines[i])) == Some(f) {
      var i :| 0 <= i < |lines| && Strip(lines[i]) != "" && parse(Strip(lines[i])) == Some(f);
      assert os[i] == Some(f);
    }
  }

  /** A blank line adds nothing. */
  lemma BlankLineSkipped(lines: seq<string>, blank: string, parse: string -> Option<Json>)
    requires Blank(blank)
    ensures Findings(lines + [blank], parse) == Findings(lines, parse)
  {
    StripBlank(blank);
    var os := Outcomes(lines + [blank], parse);
    assert os[..|lines|] == Outcomes(lines, parse);
    assert os[|lines|] == None;
  }

  lemma SomesStep(os: seq<Option<Json>>, i: nat)
    requires i < |os|
    ensures os[i].Some? ==> Somes(os[..i + 1]) == Somes(os[..i]) + [os[i].value]
    ensures os[i].None? ==> Somes(os[..i + 1]) == Somes(os[..i])
  {
    assert os[..i + 1][..i] == os[..i];
  }

  /** The counters agree with the findings: exactly the five keys, each
      holding how many findings count towards it. */
  ghost predicate CountsMatch(counts: map<string, int>, fs: seq<Json>) {
    (forall k :: k in counts <==> k in Severities)
    && forall k :: k in counts ==> counts[k] == CountOf(fs, k)
  }

  /** Lines 36-38: one finding's effect on the counters. */
  function Bump(counts: map<string, int>, obj: Json): map<string, int> {
    var sev := SeverityOf(obj);
    if sev.Some? && sev.value in counts then counts[sev.value := counts[sev.value] + 1] else counts
  }

  lemma BumpCounts(counts: map<string, int>, fs: seq<Json>, obj: Json)
    requires CountsMatch(counts, fs)
    ensures CountsMatch(Bump(counts, obj), fs + [obj])
  {
    assert (fs + [obj])[..|fs|] == fs;
    var b := Bump(counts, obj);
    forall k | k in b ensures b[k] == CountOf(fs + [obj], k) {
      assert CountOf(fs + [obj], k) == CountOf(fs, k) + (if CountsAs(obj, k) then 1 else 0);
    }
  }

  /** Lines 13-43. `runJson` is the parsed run file, `None` when reading
      or parsing it failed; `findingsPath` is the optional path. */
  method LoadRunModel(runJson: Option<Json>, findingsPath: Option<string>,
                      open: string -> FindingsFile, parse: string -> Option<Json>)
    returns (r: Result<RunModel>)
    ensures r.Ok? ==> r.value.schemaVersion == SchemaVersion
    ensures r.Ok? ==> r.value.run == (if runJson.Some? then runJson.value else Obj(map[]))
    ensures r.Ok? ==> CountsMatch(r.value.counts, r.value.findings)
    ensures (findingsPath.None? || findingsPath.value == "") ==> r.Ok? && r.value.findings == []
    ensures findingsPath.Some? && findingsPath.value != "" ==>
      match open(findingsPath.value)
      case NotFound => r.Ok? && r.value.findings == []
      case OpenError(e) => r == Err(e)
      case Lines(ls) => r.Ok? && r.value.findings == Findings(ls, parse)
  {
    var run := if runJson.Some? then runJson.value else Obj(map[]);
    var counts := ZeroCounts;
    if findingsPath.None? || findingsPath.value == "" {
      return Ok(RunModel(SchemaVersion, run, [], counts));
    }
    match open(findingsPath.value)
    case NotFound =>
      return Ok(RunModel(SchemaVersion, run, [], counts));
    case OpenError(e) =>
      return Err(e);
    case Lines(ls) =>
      var findings, tallied := Tally(ls, parse);
      return Ok(RunModel(SchemaVersion, run, findings, tallied));
  }

  /** The loop of lines 29-40 over the lines of an opened file. */
  method Tally(ls: seq<string>, parse: string -> Option<Json>) returns (findings: seq<Json>, counts: map<string, int>)
    ensures findings == Findings(ls, parse)
    ensures CountsMatch(counts, findings)
  {
    findings := [];
    counts := ZeroCounts;
    var outcomes := Outcomes(ls, parse);
    var i := 0;
    while i < |ls|
      invariant 0 <= i <= |ls|
      invariant findings == Somes(outcomes[..i])
      invariant CountsMatch(counts, findings)
    {
      SomesStep(outcomes, i);
      var parsed := outcomes[i];
      if parsed.Some? {
        BumpCounts(counts, findings, parsed.value);
        findings := findings + [parsed.value];
        counts := Bump(counts, parsed.value);
      }
      i := i + 1;
    }
    assert outcomes[..|ls|] == outcomes;
  }

  /** The total of the five counters. */
  function Total(fs: seq<Json>): nat {
    CountOf(fs, "critical") + CountOf(fs, "high") + CountOf(fs, "medium") + CountOf(fs, "low") + CountOf(fs, "info")
  }

  /** Each finding counts towards at most one severity, so the counters
      never add up to more than the findings; a finding that is not a
      dict, or whose severity is not a string, is kept but not counted. */
  lemma {:induction false} TotalBounded(fs: seq<Json>)
    ensures Total(fs) <= |fs|
  {
    if fs != [] {
      TotalBounded(fs[..|fs| - 1]);
    }
  }

  /** A dict finding whose severity is "HIGH" adds one to "high" only. */
  lemma HighFindingCounted(fs: seq<Json>)
    ensures var f := Obj(map["severity" := Str("HIGH")]);
      CountOf(fs + [f], "high") == CountOf(fs, "high") + 1
      && CountOf(fs + [f], "low") == CountOf(fs, "low")
  {
    var f := Obj(map["severity" := Str("HIGH")]);
    var low := Lower("HIGH");
    assert low == "high" by {
      assert |low| == 4 && low[0] == 'h' && low[1] == 'i' && low[2] == 'g' && low[3] == 'h';
    }
    assert SeverityOf(f) == Some("high");
    assert (fs + [f])[..|fs|] == fs;
  }
}

=== FILE: ScanEngine.dfy ===
/** The scan engine of `core/scan_thread.py`: path-key sanitising, profile
    resolution, the per-job outcome normalisation of `run_tool_and_save`,
    the artifact layout, the `run` fold over job completions, and the key
    derivation of `run_command`.

    The thread pool, the subprocess, the clock and the filesystem are not
    modelled: completion order, cancellation, timestamps, plugin return
    values and file existence are all parameters. */
module ScanEngine {
  import opened Wrappers
  import opened Text
  import opened Paths

  // =====================================================================
  // _norm
  // =====================================================================

  /** Characters `_norm` keeps as they are (after lower-casing). */
  predicate KeepsChar(c: char) {
    IsAlnum(c) || c == '-' || c == '_' || c == '.'
  }

  /** Characters that can appear in a sanitised key. */
  predicate KeyChar(c: char) {
    IsLower(c) || IsDigit(c) || c == '-' || c == '_' || c == '.'
  }

  predicate IsUnderscore(c: char) { c == '_' }

  /** A string in the image of `_norm`: key characters only, and neither
      end is an underscore. */
  predicate IsKey(k: string) {
    (forall i :: 0 <= i < |k| ==> KeyChar(k[i]))
    && (k == [] || (k[0] != '_' && k[|k| - 1] != '_'))
  }

  function SafeChar(c: char): char {
    if KeepsChar(c) then c else '_'
  }

  function MapSafe(s: string): (r: string)
    ensures |r| == |s|
    ensures forall i :: 0 <= i < |s| ==> r[i] == SafeChar(s[i])
  {
    seq(|s|, i requires 0 <= i < |s| => SafeChar(s[i]))
  }

  /** `_norm(s)`: trim, lower-case, turn every character that is not
      alphanumeric or one of `-_.` into `_`, then strip `_` at both ends.
      The result is always a key and never longer than the input. */
  function Norm(s: string): (r: string)
    ensures IsKey(r)
    ensures |r| <= |s|
  {
    var low := Lower(Strip(s));
    var safe := MapSafe(low);
    assert forall c :: c in safe ==> KeyChar(c) by {
      forall i | 0 <= i < |safe| ensures KeyChar(safe[i]) {
        assert !IsUpper(low[i]);
      }
    }
    StripByMembers(safe, IsUnderscore);
    StripBy(safe, IsUnderscore)
  }

  /** A key is a fixed point of `_norm`. */
  lemma NormFixpoint(k: string)
    requires IsKey(k)
    ensures Norm(k) == k
  {
    assert forall i :: 0 <= i < |k| ==> !IsSpace(k[i]);
    StripByNoop(k, IsSpace);
    assert Lower(k) == k;
    assert MapSafe(k) == k;
    StripByNoop(k, IsUnderscore);
  }

  /** `_norm` is idempotent: sanitising a sanitised key changes nothing. */
  lemma NormIdempotent(s: string)
    ensures Norm(Norm(s)) == Norm(s)
  {
    NormFixpoint(Norm(s));
  }

  /** Distinct names can share a key (the accepted limitation of the
      sanitiser): case is folded, and "." and ".." survive as keys. */
  lemma NormCaseFolded()
    ensures Norm("A") == "a"
  {
    var s1 := Strip("A");
    StripByNoop("A", IsSpace);
    var s2 := Lower(s1);
    assert s2 == "a" by { assert |s2| == 1 && s2[0] == 'a'; }
    var s3 := MapSafe(s2);
    assert s3 == "a" by { assert |s3| == 1 && s3[0] == 'a'; }
    StripByNoop("a", IsUnderscore);
  }

  lemma NormDotDot()
    ensures Norm("..") == ".."
  {
    NormFixpoint("..");
  }

  lemma NormAllUnsafe()
    ensures Norm("***") == ""
  {
    var s1 := Strip("***");
    StripByNoop("***", IsSpace);
    var s2 := Lower(s1);
    assert s2 == "***" by { assert |s2| == 3 && s2[0] == s2[1] == s2[2] == '*'; }
    var s3 := MapSafe(s2);
    assert forall i :: 0 <= i < |s3| ==> s3[i] == '_';
    StripByAll(s3, IsUnderscore);
  }

  // =====================================================================
  // Profile resolution (run_tool)
  // =====================================================================

  /** `(profile_mode or scan_mode or "Normal").lower()`; Python's `None`
      and `""` are both falsy, so both are written `""` here. */
  function ProfileMode(profileMode: string, scanMode: string): (r: string)
    ensures profileMode != "" ==> r == Lower(profileMode)
    ensures profileMode == "" && scanMode != "" ==> r == Lower(scanMode)
    ensures profileMode == "" && scanMode == "" ==> r == "normal"
  {
    Lower(if profileMode != "" then profileMode else if scanMode != "" then scanMode else "Normal")
  }

  /** The `DEFAULT_ARGS` key looked up for a mode: the stripped,
      lower-cased `aggressive`/`normal`/`passive` map to their capitalised
      keys; anything else (including any spelling of `custom`) is used
      unchanged. */
  function ProfileKey(mode: string): (r: string)
  {
    var low := Lower(Strip(mode));
    if low == "custom" then mode
    else if low == "aggressive" then "Aggressive"
    else if low == "normal" then "Normal"
    else if low == "passive" then "Passive"
    else mode
  }

  lemma ProfileKeyCanonical(mode: string)
    ensures Lower(Strip(mode)) == "aggressive" ==> ProfileKey(mode) == "Aggressive"
    ensures Lower(Strip(mode)) == "normal" ==> ProfileKey(mode) == "Normal"
    ensures Lower(Strip(mode)) == "passive" ==> ProfileKey(mode) == "Passive"
    ensures Lower(Strip(mode)) !in {"aggressive", "normal", "passive"} ==> ProfileKey(mode) == mode
  {
  }

  /** `dict.get(key, "")` for the argument tables. */
  function Lookup(m: map<string, string>, key: string): string {
    if key in m then m[key] else ""
  }

  /** Both placeholder spellings, `{{target}}` first, then `{target}`. */
  function Substitute(template: string, target: string): string {
    Replace(Replace(template, "{{target}}", target), "{target}", target)
  }

  lemma DoubleBraceContainsSingle(t: string)
    requires Contains(t, "{{target}}")
    ensures Contains(t, "{target}")
  {
    var i :| 0 <= i <= |t| && OccursAt(t, "{{target}}", i);
    assert t[i + 1..i + 9] == t[i..i + 10][1..9];
    ContainsWitness(t, "{target}", i + 1);
  }

  /** A template without a placeholder is passed through unchanged. */
  lemma SubstituteNoPlaceholder(template: string, target: string)
    requires !Contains(template, "{target}")
    ensures Substitute(template, target) == template
  {
    if Contains(template, "{{target}}") {
      DoubleBraceContainsSingle(template);
    }
    ReplaceAbsent(template, "{{target}}", target);
    ReplaceAbsent(template, "{target}", target);
  }

  // =====================================================================
  // run_tool: what happens to one (tool, target) before the plugin runs
  // =====================================================================

  /** What `run_tool` does for a job: raise for an unknown tool, return a
      message without calling the plugin, or call the plugin with the
      substituted argument string. */
  datatype ToolDecision =
    | NotSupported
    | Skip(msg: string, isError: bool)
    | CallPlugin(args: string)

  function CustomSkipMsg(tool: string, target: string): string {
    "\U{26A0} Custom disables: " + tool + " (skipped for " + target + ")."
  }

  function DisabledMsg(tool: string, key: string, target: string): string {
    "[!] " + tool + " is disabled for " + key + " mode. Skipping " + target + "."
  }

  /** Lines 259-348. `known` is `tool in self.plugin_map`, `defaultArgs`
      the plugin's `DEFAULT_ARGS`, `mode` the engine's profile mode and
      `customArgs` the flattened Custom-profile map. */
  function DecideRunTool(tool: string, target: string, known: bool,
                         defaultArgs: map<string, string>, mode: string,
                         customArgs: map<string, string>): (d: ToolDecision)
    ensures !known <==> d.NotSupported?
    ensures known && Lower(ProfileKey(mode)) == "custom" ==>
      var raw := Strip(Lookup(customArgs, tool));
      (raw == "" || Upper(raw) == "DISABLED" <==> d == Skip(CustomSkipMsg(tool, target), false))
      && (raw != "" && Upper(raw) != "DISABLED" ==> d == CallPlugin(Substitute(raw, target)))
    ensures known && Lower(ProfileKey(mode)) != "custom" ==>
      var tpl := Lookup(defaultArgs, ProfileKey(mode));
      (Upper(tpl) == "DISABLED" <==> d == Skip(DisabledMsg(tool, ProfileKey(mode), target), true))
      && (Upper(tpl) != "DISABLED" ==> d == CallPlugin(Substitute(tpl, target)))
  {
    if !known then NotSupported
    else
      var key := ProfileKey(mode);
      if Lower(key) == "custom" then
        var raw := Strip(Lookup(customArgs, tool));
        if raw == "" || Upper(raw) == "DISABLED" then Skip(CustomSkipMsg(tool, target), false)
        else CallPlugin(Substitute(raw, target))
      else
        var tpl := Lookup(defaultArgs, key);
        if Upper(tpl) == "DISABLED" then Skip(DisabledMsg(tool, key, target), true)
        else CallPlugin(Substitute(tpl, target))
  }

  /** An empty non-Custom template is not a skip: the plugin is called
      with the empty string. */
  lemma EmptyTemplateIsNotSkip(tool: string, target: string, defaultArgs: map<string, string>, mode: string, customArgs: map<string, string>)
    requires Lower(ProfileKey(mode)) != "custom"
    requires Lookup(defaultArgs, ProfileKey(mode)) == ""
    ensures DecideRunTool(tool, target, true, defaultArgs, mode, customArgs) == CallPlugin("")
  {
    assert Upper("") != "DISABLED";
  }

  lemma StripPaddedCustom()
    ensures Lower(Strip(" custom")) == "custom"
  {
    var w := "custom";
    assert !IsSpace(w[0]) && !IsSpace(w[|w| - 1]);
    StripLeadingBlank(w);
    assert [' '] + w == " custom";
    LowerNoop(w);
  }

  /** A profile name padded with blanks (" custom") is not the Custom
      profile: its key is not remapped, so it misses `DEFAULT_ARGS` and the
      plugin is called with an empty argument string. */
  lemma PaddedCustomIsNotCustom(tool: string, target: string, defaultArgs: map<string, string>, customArgs: map<string, string>)
    requires " custom" !in defaultArgs
    ensures DecideRunTool(tool, target, true, defaultArgs, " custom", customArgs) == CallPlugin("")
  {
    StripPaddedCustom();
    var key := ProfileKey(" custom");
    assert key == " custom";
    assert |Lower(key)| == 7;
    assert Lookup(defaultArgs, key) == "";
    assert Upper("") == "";
    assert Substitute("", target) == "";
  }

  // =====================================================================
  // Artifact layout
  // =====================================================================

  /** `Path / c`: pathlib drops an empty component and a "." component.
      Paths are component lists relative to the scan's report folder. */
  function Child(p: seq<string>, c: string): (r: seq<string>)
    ensures c == "" || c == "." ==> r == p
    ensures c != "" && c != "." ==> r == p + [c]
  {
    if c == "" || c == "." then p else p + [c]
  }

  /** `<root>/All Reports/<target_key>/<tool_key>/<run_id>`. */
  function RunDir(targetKey: string, toolKey: string, runId: string): seq<string> {
    Child(Child(Child(["All Reports"], targetKey), toolKey), runId)
  }

  function RawLogName(toolKey: string): string {
    "raw_" + toolKey + ".log"
  }

  /** The directories the engine creates for one run. */
  function RunDirs(targetKey: string, toolKey: string, runId: string): (r: set<seq<string>>)
  {
    var d := RunDir(targetKey, toolKey, runId);
    {d, d + ["formatted"], d + ["exports"]}
  }

  /** A key pathlib keeps as a component of its own. */
  predicate Kept(c: string) { c != "" && c != "." }

  /** For keys and run ids pathlib keeps, the layout is exactly four
      components deep, so two runs share a directory only if all three
      parts agree. */
  lemma RunDirInjective(t1: string, k1: string, r1: string, t2: string, k2: string, r2: string)
    requires Kept(t1) && Kept(k1) && Kept(r1) && Kept(t2) && Kept(k2) && Kept(r2)
    requires RunDir(t1, k1, r1) == RunDir(t2, k2, r2)
    ensures t1 == t2 && k1 == k2 && r1 == r2
  {
    assert RunDir(t1, k1, r1) == ["All Reports", t1, k1, r1];
    assert RunDir(t2, k2, r2) == ["All Reports", t2, k2, r2];
  }

  /** An empty key is dropped by pathlib, so an empty target key and an
      empty tool key can land in the same directory. */
  lemma EmptyKeyCollision(k: string, r: string)
    requires k != "" && r != ""
    ensures RunDir("", k, r) == RunDir(k, "", r)
  {
  }

  /** The same holds for a "." key, which sanitising keeps: a target "."
      and a tool "x" write to the folder of target "x" and tool ".". */
  lemma DotKeyCollision(k: string, r: string)
    ensures RunDir(".", k, r) == RunDir(k, ".", r)
    ensures Norm(".") == "."
  {
    NormFixpoint(".");
  }

  // =====================================================================
  // run_tool_and_save: normalising one job's outcome
  // =====================================================================

  /** What a plugin's `run` handed back. */
  datatype PluginValue =
    | Pair(msg: string, hadError: bool)   // the `(message, is_error)` tuple
    | Tuple(size: nat)                    // a tuple of any other length
    | Str(s: string)
    | NoneValue
    | Other(text: string)                 // any other object; `text` is its str()

  /** A plugin call either returns or raises. */
  datatype Invocation =
    | Returned(v: PluginValue)
    | Raised(err: string)                 // any exception; `err` is str(e)
    | ProcessError(output: string)        // subprocess.CalledProcessError

  /** What the engine itself wrote for a job: the directories it made
      and the raw log (path and contents). */
  datatype RawWrite = RawWrite(dirs: set<seq<string>>, path: seq<string>, contents: string)

  /** One job's normalised outcome: the log line, the error flag, the
      raw log the engine wrote, if any, and the run folders `run_tool`
      made before calling the plugin. */
  datatype JobOutcome = JobOutcome(msg: string, isError: bool, written: Option<RawWrite>, runDirs: set<seq<string>>)

  function AbortedSkipMsg(tool: string, target: string): string {
    "\U{23F9}\U{FE0F} Skipping " + tool + " for " + target + " (aborted)."
  }

  function FailedMsg(tool: string, target: string, m: string): string {
    "\U{274C} " + tool + " failed for " + target + ": " + m
  }

  function FinishedMsg(tool: string, target: string, path: string): string {
    "\U{2705} " + tool + " finished for " + target + ". Output saved to: " + path
  }

  function NoOutputMsg(tool: string, target: string): string {
    "\U{274C} " + tool + " produced no output for " + target + "."
  }

  function CrashMsg(tool: string, target: string, e: string): string {
    "\U{274C} " + tool + " crashed for " + target + ": " + e
  }

  function NotSupportedError(tool: string): string {
    "Tool '" + tool + "' is not supported."
  }

  /** Line 195: `msg, had_error = output` on a tuple of another length. */
  function UnpackError(size: nat): string {
    if size > 2 then "too many values to unpack (expected 2)"
    else "not enough values to unpack (expected 2, got " + IntToString(size) + ")"
  }

  /** `str(Path(root) / parts[0] / ...)`, as the messages print it. */
  function PathText(root: string, parts: seq<string>): string {
    JoinPath(root, parts)
  }

  /** The raw log written for an output the engine had to save itself. */
  function SaveRaw(tool: string, target: string, runId: string, text: string): (w: RawWrite)
  {
    var d := RunDir(Norm(target), Norm(tool), runId);
    RawWrite({["All Reports"], ["machine"]} + RunDirs(Norm(target), Norm(tool), runId),
             d + [RawLogName(Norm(tool))], text)
  }

  /** Lines 260-272: for a known tool, `run_tool` makes the run folder and
      its `formatted` and `exports` children before deciding anything. */
  function ToolDirs(decision: ToolDecision, tool: string, target: string, runId: string): (r: set<seq<string>>)
    ensures decision.NotSupported? <==> r == {}
  {
    if decision.NotSupported? then {} else RunDirs(Norm(target), Norm(tool), runId)
  }

  /** The plugin call `run_tool` makes for a decision. */
  function Invoke(decision: ToolDecision, tool: string, invoke: string -> Invocation): Invocation {
    match decision
    case NotSupported => Raised(NotSupportedError(tool))
    case Skip(m, e) => Returned(Pair(m, e))
    case CallPlugin(a) => invoke(a)
  }

  /** Lines 200-251: what becomes of a value that is neither an error
      pair nor a tuple of another length (a pair has been replaced by its
      message): a path to an existing file is the output; otherwise a
      recent raw path is; otherwise nothing or blank text is an error;
      otherwise the engine saves the text itself. */
  function Settle(root: string, tool: string, target: string, output: PluginValue,
                  isFile: string -> bool, recent: Option<string>, runId: string, dirs: set<seq<string>>): (o: JobOutcome)
    requires !output.Pair? && !output.Tuple?
    ensures o.runDirs == dirs
    ensures o.written.Some? ==>
      !o.isError && recent.None?
      && o.written.value.path == RunDir(Norm(target), Norm(tool), runId) + [RawLogName(Norm(tool))]
      && o.msg == FinishedMsg(tool, target, PathText(root, o.written.value.path))
    ensures o.isError ==> o.written.None?
    ensures output.Str? && isFile(output.s) ==> o == JobOutcome(FinishedMsg(tool, target, PathStr(output.s)), false, None, dirs)
    ensures !(output.Str? && isFile(output.s)) && recent.Some? ==>
      o == JobOutcome(FinishedMsg(tool, target, PathStr(recent.value)), false, None, dirs)
    ensures !(output.Str? && isFile(output.s)) && recent.None? && (output.NoneValue? || (output.Str? && Blank(output.s))) ==>
      o == JobOutcome(NoOutputMsg(tool, target), true, None, dirs)
    ensures !(output.Str? && isFile(output.s)) && recent.None? && !output.NoneValue? && !(output.Str? && Blank(output.s)) ==>
      var w := SaveRaw(tool, target, runId, if output.Str? then output.s else output.text);
      o == JobOutcome(FinishedMsg(tool, target, PathText(root, w.path)), false, Some(w), dirs)
  {
    StripBlank(if output.Str? then output.s else "");
    if output.Str? && isFile(output.s) then JobOutcome(FinishedMsg(tool, target, PathStr(output.s)), false, None, dirs)
    else if recent.Some? then JobOutcome(FinishedMsg(tool, target, PathStr(recent.value)), false, None, dirs)
    else if output.NoneValue? || (output.Str? && Strip(output.s) == "") then
      JobOutcome(NoOutputMsg(tool, target), true, None, dirs)
    else
      var w := SaveRaw(tool, target, runId, if output.Str? then output.s else output.text);
      JobOutcome(FinishedMsg(tool, target, PathText(root, w.path)), false, Some(w), dirs)
  }

  /** Lines 158-256 for one job. `cancelled` is the cancel event when the
      job starts; `invoke` is the plugin's behaviour for an argument
      string; `isFile` answers `Path(p).is_file()`; `recent` is a raw path
      recorded for this (tool key, target key) less than 15 seconds ago
      that still exists; `runId` is the job's timestamp. */
  function RunToolAndSave(root: string, tool: string, target: string, cancelled: bool,
                          decision: ToolDecision, invoke: string -> Invocation,
                          isFile: string -> bool, recent: Option<string>, runId: string): (o: JobOutcome)
    ensures cancelled ==> o == JobOutcome(AbortedSkipMsg(tool, target), true, None, {})
    ensures !cancelled ==> o.runDirs == ToolDirs(decision, tool, target, runId)
    ensures !cancelled && decision.NotSupported? ==>
      o == JobOutcome(CrashMsg(tool, target, NotSupportedError(tool)), true, None, {})
    ensures !cancelled && decision.Skip? && decision.isError ==>
      o == JobOutcome(FailedMsg(tool, target, decision.msg), true, None, o.runDirs)
    ensures var i := Invoke(decision, tool, invoke);
      !cancelled && i.Raised? ==> o == JobOutcome(CrashMsg(tool, target, i.err), true, None, o.runDirs)
    ensures var i := Invoke(decision, tool, invoke);
      !cancelled && i.ProcessError? ==> o == JobOutcome(FailedMsg(tool, target, i.output), true, None, o.runDirs)
    ensures var i := Invoke(decision, tool, invoke);
      !cancelled && i.Returned? && i.v.Pair? && i.v.hadError ==>
        o == JobOutcome(FailedMsg(tool, target, i.v.msg), true, None, o.runDirs)
    ensures var i := Invoke(decision, tool, invoke);
      !cancelled && i.Returned? && i.v.Tuple? ==>
        o == JobOutcome(CrashMsg(tool, target, UnpackError(i.v.size)), true, None, o.runDirs)
    ensures var i := Invoke(decision, tool, invoke);
      !cancelled && i.Returned? && !i.v.Tuple? && !(i.v.Pair? && i.v.hadError) ==>
        o == Settle(root, tool, target, if i.v.Pair? then Str(i.v.msg) else i.v, isFile, recent, runId, o.runDirs)
    ensures o.written.Some? ==>
      !o.isError && recent.None?
      && o.written.value.path == RunDir(Norm(target), Norm(tool), runId) + [RawLogName(Norm(tool))]
      && o.msg == FinishedMsg(tool, target, PathText(root, o.written.value.path))
    ensures o.isError ==> o.written.None?
  {
    if cancelled then JobOutcome(AbortedSkipMsg(tool, target), true, None, {})
    else
      var dirs := ToolDirs(decision, tool, target, runId);
      match Invoke(decision, tool, invoke)
      case Raised(e) => JobOutcome(CrashMsg(tool, target, e), true, None, dirs)
      case ProcessError(out) => JobOutcome(FailedMsg(tool, target, out), true, None, dirs)
      case Returned(v) =>
        if v.Pair? && v.hadError then JobOutcome(FailedMsg(tool, target, v.msg), true, None, dirs)
        else if v.Tuple? then JobOutcome(CrashMsg(tool, target, UnpackError(v.size)), true, None, dirs)
        else Settle(root, tool, target, if v.Pair? then Str(v.msg) else v, isFile, recent, runId, dirs)
  }

  /** A plugin that returns nothing, with no recent raw path, is reported
      as having produced no output, and its run folders stay behind. */
  lemma NoneIsNoOutput(root: string, tool: string, target: string, args: string,
                       invoke: string -> Invocation, isFile: string -> bool, runId: string)
    requires invoke(args) == Returned(NoneValue)
    ensures RunToolAndSave(root, tool, target, false, CallPlugin(args), invoke, isFile, None, runId)
         == JobOutcome(NoOutputMsg(tool, target), true, None, RunDirs(Norm(target), Norm(tool), runId))
  {
    var o := RunToolAndSave(root, tool, target, false, CallPlugin(args), invoke, isFile, None, runId);
    assert o == Settle(root, tool, target, NoneValue, isFile, None, runId, o.runDirs);
  }

  /** Under a report folder already in printed form, the saved log's path
      prints as that folder, "/", and the run folder's components joined
      with single slashes. */
  lemma SavedPathSpelledOut(base: string, cs: seq<string>, targetKey: string, toolKey: string, runId: string)
    requires Canonical(base, cs)
    requires IsKey(targetKey) && IsKey(toolKey) && '/' !in runId
    ensures PathText(base + Join(cs, "/"), RunDir(targetKey, toolKey, runId) + [RawLogName(toolKey)])
         == base + Join(cs + (RunDir(targetKey, toolKey, runId) + [RawLogName(toolKey)]), "/")
  {
    RunDirPlain(targetKey, toolKey, runId);
    JoinPathAppends(base, cs, RunDir(targetKey, toolKey, runId) + [RawLogName(toolKey)]);
  }

  /** The run folder and raw log name are components that print as written. */
  lemma RunDirPlain(targetKey: string, toolKey: string, runId: string)
    requires IsKey(targetKey) && IsKey(toolKey) && '/' !in runId
    ensures Plain(RunDir(targetKey, toolKey, runId) + [RawLogName(toolKey)])
  {
    assert !KeyChar('/');
    var a := Child(["All Reports"], targetKey);
    var b := Child(a, toolKey);
    var c := Child(b, runId);
    ChildPlain(["All Reports"], targetKey);
    ChildPlain(a, toolKey);
    ChildPlain(b, runId);
    ChildPlain(c, RawLogName(toolKey));
  }

  /** A slash-free child keeps a path's components plain. */
  lemma ChildPlain(p: seq<string>, c: string)
    requires Plain(p) && '/' !in c
    ensures Plain(Child(p, c))
  {
    if c != "" && c != "." {
      assert forall k :: 0 <= k < |p| ==> (p + [c])[k] == p[k];
    }
  }

  /** Every job of a known tool that was not cancelled leaves its run
      folder behind, whether the job erred or not. */
  lemma KnownToolMakesRunDir(root: string, tool: string, target: string, decision: ToolDecision,
                             invoke: string -> Invocation, isFile: string -> bool, recent: Option<string>, runId: string)
    requires !decision.NotSupported?
    ensures RunDir(Norm(target), Norm(tool), runId)
         in RunToolAndSave(root, tool, target, false, decision, invoke, isFile, recent, runId).runDirs
  {
  }

  /** A plain text output that is not a path is saved verbatim under the
      run directory and reported as finished; a blank one is an error. */
  lemma TextOutputSaved(root: string, tool: string, target: string, args: string,
                        invoke: string -> Invocation, isFile: string -> bool, runId: string, s: string)
    requires invoke(args) == Returned(Str(s))
    requires !isFile(s)
    ensures var o := RunToolAndSave(root, tool, target, false, CallPlugin(args), invoke, isFile, None, runId);
      && (Blank(s) ==> o == JobOutcome(NoOutputMsg(tool, target), true, None, RunDirs(Norm(target), Norm(tool), runId)))
      && (!Blank(s) ==>
            !o.isError && o.written.Some? && o.written.value.contents == s
            && RunDir(Norm(target), Norm(tool), runId) in o.written.value.dirs)
  {
    var o := RunToolAndSave(root, tool, target, false, CallPlugin(args), invoke, isFile, None, runId);
    assert o == Settle(root, tool, target, Str(s), isFile, None, runId, o.runDirs);
    StripBlank(s);
  }

  /** A Custom-profile skip is reported as `(message, False)`, so unless
      the message happens to name a file the engine saves the skip message
      itself as the tool's raw log and reports the tool as finished. */
  lemma CustomSkipIsSavedAsOutput(root: string, tool: string, target: string,
                                  invoke: string -> Invocation, isFile: string -> bool, runId: string)
    requires !isFile(CustomSkipMsg(tool, target))
    ensures var o := RunToolAndSave(root, tool, target, false, Skip(CustomSkipMsg(tool, target), false),
                                    invoke, isFile, None, runId);
      !o.isError && o.written.Some? && o.written.value.contents == CustomSkipMsg(tool, target)
  {
    var m := CustomSkipMsg(tool, target);
    assert m[0] == '\U{26A0}' && !IsSpace(m[0]);
    assert !Blank(m);
    var dirs := ToolDirs(Skip(m, false), tool, target, runId);
    TextIsSaved(root, tool, target, m, isFile, runId, dirs);
    assert RunToolAndSave(root, tool, target, false, Skip(m, false), invoke, isFile, None, runId)
        == Settle(root, tool, target, Str(m), isFile, None, runId, dirs);
  }

  /** Text that is not blank and names no file, with no recent path, is
      saved as the raw log and reported as finished. */
  lemma TextIsSaved(root: string, tool: string, target: string, s: string,
                    isFile: string -> bool, runId: string, dirs: set<seq<string>>)
    requires !isFile(s) && !Blank(s)
    ensures var o := Settle(root, tool, target, Str(s), isFile, None, runId, dirs);
      !o.isError && o.written == Some(SaveRaw(tool, target, runId, s))
  {
  }

  // =====================================================================
  // run: submission, the completion fold, progress and final status
  // =====================================================================

  /** The jobs in submission order: every tool for the first target, then
      every tool for the next, as `(tool, target)` pairs. */
  function Jobs(targets: seq<string>, tools: seq<string>): (r: seq<(string, string)>)
    ensures |r| == |targets| * |tools|
  {
    if targets == [] then []
    else seq(|tools|, j requires 0 <= j < |tools| => (tools[j], targets[0])) + Jobs(targets[1..], tools)
  }

  /** Job `i * |tools| + j` runs tool `j` on target `i`. */
  lemma {:induction false} JobsIndex(targets: seq<string>, tools: seq<string>, i: nat, j: nat)
    requires i < |targets| && j < |tools|
    ensures i * |tools| + j < |Jobs(targets, tools)|
    ensures Jobs(targets, tools)[i * |tools| + j] == (tools[j], targets[i])
  {
    var n := |tools|;
    assert (i + 1) * n == i * n + n;
    assert i * n + j < (i + 1) * n <= |targets| * n by {
      assert i + 1 <= |targets|;
    }
    if i > 0 {
      JobsIndex(targets[1..], tools, i - 1, j);
      assert (i - 1) * n + j == i * n + j - n;
    }
  }

  /** What a job handed back to the fold: the usual `(message, is_error)`
      tuple, or a bare value, which the fold counts as an error. */
  datatype JobResult = Tagged(msg: string, isError: bool) | Untagged(text: string)

  function ResultOf(o: JobOutcome): JobResult {
    Tagged(o.msg, o.isError)
  }

  predicate IsErrorResult(r: JobResult) {
    r.Untagged? || r.isError
  }

  function LogOf(r: JobResult): string {
    if r.Tagged? then r.msg else r.text
  }

  /** When the cancel event was first seen by `run`: never, before any
      job was submitted, while submitting (after `submitted` jobs), or
      while draining completions (after `handled` results were logged). */
  datatype Cancel =
    | NotCancelled
    | BeforeStart
    | DuringSubmission(submitted: nat)
    | DuringCompletion(handled: nat)

  datatype Status = DoneSuccess | DoneError

  /** The percentage emitted after `completed` of `total` jobs, as an
      integer floor. */
  function Progress(completed: nat, total: nat): nat {
    if total == 0 then 100 else (completed * 100) / total
  }

  lemma MulMono(a: nat, b: nat, d: nat)
    requires a <= b
    ensures a * d <= b * d
  {
    assert b * d == a * d + (b - a) * d;
  }

  lemma DivMonotone(x: nat, y: nat, d: nat)
    requires x <= y && d > 0
    ensures x / d <= y / d
  {
    var q := x / d;
    var r := y / d;
    assert q * d <= x by { assert x == q * d + x % d; }
    assert y < (r + 1) * d by { assert y == r * d + y % d; }
    if r + 1 <= q {
      MulMono(r + 1, q, d);
      assert false;
    }
  }

  /** Progress stays within 0..100 and is exactly 100 once every job has
      completed. */
  lemma ProgressBounded(completed: nat, total: nat)
    requires completed <= total
    ensures Progress(completed, total) <= 100
    ensures completed == total ==> Progress(completed, total) == 100
  {
    if total > 0 {
      MulMono(completed, total, 100);
      DivMonotone(completed * 100, total * 100, total);
      assert total * 100 == 100 * total;
    }
  }

  /** Progress never goes backwards as more jobs complete. */
  lemma ProgressMonotone(a: nat, b: nat, total: nat)
    requires a <= b
    ensures Progress(a, total) <= Progress(b, total)
  {
    if total > 0 {
      DivMonotone(a * 100, b * 100, total);
    }
  }

  /** A completion order: every job index exactly once. */
  predicate IsPermutation(order: seq<nat>, n: nat) {
    |order| == n
    && (forall k :: 0 <= k < |order| ==> order[k] < n)
    && (forall k, l :: 0 <= k < l < |order| ==> order[k] != order[l])
  }

  /** The running state of the completion loop. */
  datatype Acc = Acc(error: bool, logs: seq<string>, progress: seq<nat>)

  /** The first `m` iterations of the `as_completed` loop over the
      results, visited in completion order. */
  function Fold(results: seq<JobResult>, order: seq<nat>, total: nat, m: nat): (a: Acc)
    requires m <= |order|
    requires forall k :: 0 <= k < |order| ==> order[k] < |results|
    ensures |a.logs| == m && |a.progress| == m
    ensures forall k :: 0 <= k < m ==> a.logs[k] == LogOf(results[order[k]])
    ensures forall k :: 0 <= k < m ==> a.progress[k] == Progress(k + 1, total)
    ensures a.error <==> exists k :: 0 <= k < m && IsErrorResult(results[order[k]])
    decreases m
  {
    if m == 0 then Acc(false, [], [])
    else
      var prev := Fold(results, order, total, m - 1);
      var r := results[order[m - 1]];
      Acc(prev.error || IsErrorResult(r), prev.logs + [LogOf(r)], prev.progress + [Progress(m, total)])
  }

  /** Everything `run` emits: log lines, progress values and the final
      status. */
  datatype ScanReport = ScanReport(logs: seq<string>, progress: seq<nat>, status: Status)

  const AbortedBeforeStart := "\U{23F9}\U{FE0F} Scan aborted before start."
  const CancellingRemaining := "\U{23F9}\U{FE0F} Cancelling remaining tasks\U{2026}"
  const AbortedByUser := "\U{23F9}\U{FE0F} Scan aborted by user."

  function LaunchMsg(targetCount: nat): string {
    "\U{2699} Launching tools on " + IntToString(targetCount) + " target(s)..."
  }

  /** Lines 79-154. `results[i]` is what job `i` (in `Jobs` order)
      returned, `order` the order in which the pool completed them, and
      `cancel` when the cancel event was seen. A cancel after the last
      completion is `DuringCompletion(|results|)`: the loop has finished,
      but the final check still reports an abort. */
  function RunScan(targetCount: nat, results: seq<JobResult>, order: seq<nat>, cancel: Cancel): (rep: ScanReport)
    requires IsPermutation(order, |results|)
    requires cancel.DuringSubmission? ==> cancel.submitted < |results|
    requires cancel.DuringCompletion? ==> cancel.handled <= |results|
    ensures cancel != NotCancelled ==> rep.status == DoneError
    ensures cancel == NotCancelled ==>
      (rep.status == DoneError <==> exists k :: 0 <= k < |order| && IsErrorResult(results[order[k]]))
    ensures |rep.logs| > 0 && rep.logs[0] == LaunchMsg(targetCount)
    ensures |rep.progress| == (match cancel
                                case NotCancelled => |results|
                                case DuringCompletion(h) => h
                                case _ => 0)
  {
    var launch := [LaunchMsg(targetCount)];
    match cancel
    case BeforeStart => ScanReport(launch + [AbortedBeforeStart], [], DoneError)
    case DuringSubmission(_) => ScanReport(launch + [CancellingRemaining, AbortedByUser], [], DoneError)
    case DuringCompletion(h) =>
      var a := Fold(results, order, |results|, h);
      var tail := if h < |results| then [CancellingRemaining, AbortedByUser] else [AbortedByUser];
      ScanReport(launch + a.logs + tail, a.progress, DoneError)
    case NotCancelled =>
      var a := Fold(results, order, |results|, |results|);
      ScanReport(launch + a.logs, a.progress, if a.error then DoneError else DoneSuccess)
  }

  /** Without a cancel the scan fails exactly when some job's result is an
      error, whatever order the pool completed them in. */
  lemma {:induction false} RunScanStatus(targetCount: nat, results: seq<JobResult>, order: seq<nat>)
    requires IsPermutation(order, |results|)
    ensures RunScan(targetCount, results, order, NotCancelled).status == DoneError
            <==> exists i :: 0 <= i < |results| && IsErrorResult(results[i])
  {
    var n := |results|;
    if exists i :: 0 <= i < n && IsErrorResult(results[i]) {
      var i :| 0 <= i < n && IsErrorResult(results[i]);
      var k := PermutationHits(order, n, i);
      assert IsErrorResult(results[order[k]]);
    }
  }

  /** Every job index appears somewhere in a completion order. */
  lemma {:induction false} PermutationHits(order: seq<nat>, n: nat, i: nat) returns (k: nat)
    requires IsPermutation(order, n)
    requires i < n
    ensures k < |order| && order[k] == i
  {
    var seen := set k | 0 <= k < |order| :: order[k];
    var below := Range(n);
    assert seen <= below;
    assert |below| == n;
    assert |seen| == n by { DistinctImage(order); }
    if i !in seen {
      SubsetCard(seen, below - {i});
      assert false;
    }
    k :| 0 <= k < |order| && order[k] == i;
  }

  lemma {:induction false} SubsetCard(a: set<nat>, b: set<nat>)
    requires a <= b
    ensures |a| <= |b|
    decreases a
  {
    if a != {} {
      var x :| x in a;
      SubsetCard(a - {x}, b - {x});
    }
  }

  /** The job indices `0 .. n-1`. */
  function Range(n: nat): (r: set<nat>)
    ensures forall j :: 0 <= j ==> (j in r <==> j < n)
    ensures |r| == n
  {
    if n == 0 then {} else Range(n - 1) + {n - 1}
  }

  /** A sequence of distinct values has as many values as positions. */
  lemma {:induction false} DistinctImage(order: seq<nat>)
    requires forall k, l :: 0 <= k < l < |order| ==> order[k] != order[l]
    ensures |set k | 0 <= k < |order| :: order[k]| == |order|
  {
    if order != [] {
      var m := |order| - 1;
      var init := order[..m];
      DistinctImage(init);
      assert (set k | 0 <= k < |order| :: order[k]) == (set k | 0 <= k < |init| :: init[k]) + {order[m]};
      assert order[m] !in (set k | 0 <= k < |init| :: init[k]);
    }
  }

  /** The progress values never decrease, and a scan that ran to the end
      finishes at 100. */
  lemma ProgressNonDecreasing(targetCount: nat, results: seq<JobResult>, order: seq<nat>, cancel: Cancel)
    requires IsPermutation(order, |results|)
    requires cancel.DuringSubmission? ==> cancel.submitted < |results|
    requires cancel.DuringCompletion? ==> cancel.handled <= |results|
    ensures var p := RunScan(targetCount, results, order, cancel).progress;
      (forall a, b :: 0 <= a <= b < |p| ==> p[a] <= p[b])
      && (forall a :: 0 <= a < |p| ==> p[a] <= 100)
      && (cancel == NotCancelled && |results| > 0 ==> p[|p| - 1] == 100)
  {
    var p := RunScan(targetCount, results, order, cancel).progress;
    forall a, b | 0 <= a <= b < |p| ensures p[a] <= p[b] {
      ProgressMonotone(a + 1, b + 1, |results|);
    }
    forall a | 0 <= a < |p| ensures p[a] <= 100 {
      ProgressBounded(a + 1, |results|);
    }
    if cancel == NotCancelled && |results| > 0 {
      ProgressBounded(|results|, |results|);
    }
  }

  // =====================================================================
  // run_command: key and path derivation
  // =====================================================================

  /** `Path(s).name`: the last component after dropping empty and "."
      components. */
  function Basename(s: string): (r: string)
    ensures '/' !in r
  {
    var parts := SplitOn(s, '/');
    var kept := Keep(parts);
    if kept == [] then "" else kept[|kept| - 1]
  }

  function Keep(parts: seq<string>): (r: seq<string>)
    requires forall k :: 0 <= k < |parts| ==> '/' !in parts[k]
    ensures forall k :: 0 <= k < |r| ==> '/' !in r[k] && r[k] != "" && r[k] != "."
  {
    if parts == [] then []
    else (if parts[0] == "" || parts[0] == "." then [] else [parts[0]]) + Keep(parts[1..])
  }

  /** Drops a trailing `.exe` in any letter case. */
  function StripExe(name: string): (r: string)
    ensures EndsWith(Lower(name), ".exe") ==> r + name[|name| - 4..] == name
    ensures !EndsWith(Lower(name), ".exe") ==> r == name
  {
    if EndsWith(Lower(name), ".exe") then name[..|name| - 4] else name
  }

  /** The context `run_tool_and_save` exposes while a plugin runs. */
  datatype RunCtx = RunCtx(tool: string, target: string, runId: string)

  /** Where `run_command` writes and under which keys it records it. */
  datatype CommandPaths = CommandPaths(toolKey: string, targetKey: string, runId: string, rawLog: seq<string>)

  /** The target key `run_command` uses: the context's, else the sanitised
      text after the first `_` of the output file name, else "target". */
  function CommandTargetKey(ctx: Option<RunCtx>, outfileName: string): (k: string)
    ensures k != ""
    ensures ctx.Some? && ctx.value.target != "" ==> k == ctx.value.target
    ensures (ctx.None? || ctx.value.target == "") && Norm(AfterFirst(outfileName, '_')) != "" ==>
      k == Norm(AfterFirst(outfileName, '_'))
    ensures (ctx.None? || ctx.value.target == "") && Norm(AfterFirst(outfileName, '_')) == "" ==> k == "target"
  {
    if ctx.Some? && ctx.value.target != "" then ctx.value.target
    else
      var tail := Norm(AfterFirst(outfileName, '_'));
      if tail != "" then tail else "target"
  }

  /** Lines 352-397. `now` stands for the timestamp taken when there is no
      context run id. An empty argv raises before anything runs. */
  function CommandPathsOf(argv: seq<string>, outfileName: string, ctx: Option<RunCtx>, now: string): (r: Result<CommandPaths>)
    ensures argv == [] <==> r.Err?
    ensures r.Ok? ==>
      r.value.toolKey == Norm(StripExe(Basename(argv[0])))
      && r.value.targetKey == CommandTargetKey(ctx, outfileName)
      && r.value.rawLog == RunDir(r.value.targetKey, r.value.toolKey, r.value.runId) + [RawLogName(r.value.toolKey)]
      && (ctx.Some? && ctx.value.runId != "" ==> r.value.runId == ctx.value.runId)
      && (ctx.None? || ctx.value.runId == "" ==> r.value.runId == now)
  {
    if argv == [] then Err("list index out of range")
    else
      var toolKey := Norm(StripExe(Basename(argv[0])));
      var targetKey := CommandTargetKey(ctx, outfileName);
      var runId := if ctx.Some? && ctx.value.runId != "" then ctx.value.runId else now;
      Ok(CommandPaths(toolKey, targetKey, runId, RunDir(targetKey, toolKey, runId) + [RawLogName(toolKey)]))
  }

  /** Inside a job, `run_command` records its log under the keys the
      engine looks up afterwards (lines 206-213) and writes it where the
      engine would have written it, provided the program's name sanitises
      to the job's tool key and the target key is not empty. With an
      empty target key the recorded key is a different one, so the
      engine's lookup misses. */
  lemma CommandPathsInJob(argv: seq<string>, outfileName: string, tool: string, target: string, runId: string, now: string)
    requires argv != [] && runId != ""
    ensures var r := CommandPathsOf(argv, outfileName, Some(RunCtx(Norm(tool), Norm(target), runId)), now);
      r.Ok? && r.value.runId == runId
      && (Norm(target) != "" && Norm(StripExe(Basename(argv[0]))) == Norm(tool) ==>
            r.value.toolKey == Norm(tool) && r.value.targetKey == Norm(target)
            && r.value.rawLog == RunDir(Norm(target), Norm(tool), runId) + [RawLogName(Norm(tool))])
      && (Norm(target) == "" ==> r.value.targetKey != Norm(target))
  {
  }

  lemma AfterFirstUnderscoreExample()
    ensures AfterFirst("t_nmap.txt", '_') == "nmap.txt"
  {
    var name := "t_nmap.txt";
    assert name[0] == 't' && name[1] == '_';
    assert IndexOf(name, '_') == 1;
    assert name[2..] == "nmap.txt";
  }

  /** Outside a scan job the plugins' `<target>_<tool>.txt` file names make
      the fallback target key the sanitised tool part plus ".txt", not the
      target: for target "t" and tool "nmap" the key is "nmap.txt". */
  lemma FallbackKeyIsToolPart()
    ensures CommandTargetKey(None, "t_nmap.txt") == "nmap.txt"
  {
    AfterFirstUnderscoreExample();
    NormFixpoint("nmap.txt");
  }
}

=== FILE: SettingsProfiles.dfy ===
/** `gui/settings_profiles_tab.py`: the scan-profile table and the state
    the settings tab keeps while profiles are switched and fields edited.

    The widgets are left out: the field values a user sees are a
    parameter, and only the tab's own state (current mode, the profile
    table, the custom arguments) is modelled. */
module SettingsProfiles {
  import opened Wrappers

  /** Line 18: the four profiles. */
  datatype Mode = Aggressive | Normal | Passive | Custom

  /** The profile's name, the key of a plugin's `DEFAULT_ARGS`. */
  function ModeName(m: Mode): string {
    match m
    case Aggressive => "Aggressive"
    case Normal => "Normal"
    case Passive => "Passive"
    case Custom => "Custom"
  }

  /** A field value: text, or the number of an integer field. */
  datatype Value = Str(text: string) | Num(n: int)

  /** One entry of a `CONFIG_SCHEMA`: its type name, label and default value. */
  datatype FieldSpec = FieldSpec(kind: string, caption: string, initial: Value)

  type Schema = map<string, FieldSpec>

  /** What the tab reads from a plugin module: its `CONFIG_SCHEMA`, if
      any, and its `DEFAULT_ARGS` keyed by profile name. */
  datatype PluginModule = PluginModule(configSchema: Option<Schema>, defaultArgs: map<string, string>)

  /** Field values per plugin. */
  type Config = map<string, map<string, Value>>

  /** Lines 28-34: the schema of a plugin that declares none. */
  const DefaultSchema: Schema := map["args" := FieldSpec("str", "Arguments", Str(""))]

  /** Lines 25-35: every plugin's schema, the default one when it
      declares none. */
  function GetPluginSchemas(pluginMap: map<string, PluginModule>): (schemas: map<string, Schema>)
    ensures schemas.Keys == pluginMap.Keys
    ensures forall p :: p in pluginMap && pluginMap[p].configSchema.Some? ==> schemas[p] == pluginMap[p].configSchema.value
    ensures forall p :: p in pluginMap && pluginMap[p].configSchema.None? ==>
      schemas[p].Keys == {"args"} && schemas[p]["args"] == FieldSpec("str", "Arguments", Str(""))
  {
    map p | p in pluginMap :: if pluginMap[p].configSchema.Some? then pluginMap[p].configSchema.value else DefaultSchema
  }

  const AllModes: set<Mode> := {Aggressive, Normal, Passive, Custom}

  lemma EveryModeListed()
    ensures forall m: Mode :: m in AllModes
  {
    forall m: Mode
      ensures m in AllModes
    {
      if m.Aggressive? {
        assert m == Aggressive;
      } else if m.Normal? {
        assert m == Normal;
      } else if m.Passive? {
        assert m == Passive;
      } else {
        assert m == Custom;
      }
    }
  }

  /** `DEFAULT_ARGS.get(mode, "")`. */
  function DefaultArg(pm: PluginModule, m: Mode): string {
    if ModeName(m) in pm.defaultArgs then pm.defaultArgs[ModeName(m)] else ""
  }

  /** Lines 37-45: for every profile and every plugin, the single field
      `args` holding the plugin's default for that profile, or "". */
  function BuildDefaultProfiles(pluginMap: map<string, PluginModule>): (profiles: map<Mode, Config>)
    ensures forall m: Mode :: m in profiles && profiles[m].Keys == pluginMap.Keys
    ensures forall m: Mode, p :: p in pluginMap ==> profiles[m][p] == map["args" := Str(DefaultArg(pluginMap[p], m))]
  {
    EveryModeListed();
    map m | m in AllModes :: map p | p in pluginMap :: map["args" := Str(DefaultArg(pluginMap[p], m))]
  }

  /** A plugin without `DEFAULT_ARGS` for a profile gets empty arguments
      there, and one that lists the profile gets its own text. */
  lemma DefaultArgsLookup(pluginMap: map<string, PluginModule>, m: Mode, p: string)
    requires p in pluginMap
    ensures ModeName(m) !in pluginMap[p].defaultArgs ==> BuildDefaultProfiles(pluginMap)[m][p]["args"] == Str("")
    ensures ModeName(m) in pluginMap[p].defaultArgs ==>
      BuildDefaultProfiles(pluginMap)[m][p]["args"] == Str(pluginMap[p].defaultArgs[ModeName(m)])
  {
  }

  /** The tab's state. */
  datatype Tab = Tab(mode: Mode, schemas: map<string, Schema>, profileConfigs: map<Mode, Config>, customArgs: Config)

  /** The configuration whose values the fields show (lines 131-136). */
  function Shown(t: Tab): Config {
    if t.mode == Custom then t.customArgs
    else if t.mode in t.profileConfigs then t.profileConfigs[t.mode] else map[]
  }

  /** Lines 120-136: selecting a profile. A profile other than Custom is
      copied over the custom arguments so that switching to Custom later
      starts from it; selecting Custom keeps the custom arguments. */
  function SelectProfile(t: Tab, m: Mode): (r: Tab)
    requires m in t.profileConfigs
    ensures r.mode == m && r.schemas == t.schemas && r.profileConfigs == t.profileConfigs
    ensures m == Custom ==> r.customArgs == t.customArgs
    ensures m != Custom ==> r.customArgs == t.profileConfigs[m]
    ensures Shown(r) == r.customArgs
  {
    if m == Custom then t.(mode := Custom)
    else t.(mode := m, customArgs := t.profileConfigs[m])
  }

  /** Lines 15-22 and 104: the tab as constructed, in Normal mode with the
      custom arguments a copy of the Normal profile for every plugin. */
  function InitTab(pluginMap: map<string, PluginModule>): (t: Tab)
    ensures t.mode == Normal
    ensures t.schemas.Keys == pluginMap.Keys && t.customArgs.Keys == pluginMap.Keys
    ensures forall p :: p in pluginMap ==> t.customArgs[p] == map["args" := Str(DefaultArg(pluginMap[p], Normal))]
  {
    var schemas := GetPluginSchemas(pluginMap);
    var profiles := BuildDefaultProfiles(pluginMap);
    var custom := map p | p in schemas :: profiles[Normal][p];
    SelectProfile(Tab(Normal, schemas, profiles, custom), Normal)
  }

  /** Lines 263-279: any field edit. The mode becomes Custom and the value
      of every field on screen is written into the custom arguments,
      creating a plugin's entry when it has none; everything else is
      kept. `fields` holds the values on screen, by plugin and field. */
  function EditField(t: Tab, fields: Config): (r: Tab)
    ensures r.mode == Custom && r.schemas == t.schemas && r.profileConfigs == t.profileConfigs
    ensures r.customArgs.Keys == t.customArgs.Keys + fields.Keys
    ensures forall p :: p in r.customArgs ==>
      r.customArgs[p].Keys == (if p in t.customArgs then t.customArgs[p].Keys else {}) + (if p in fields then fields[p].Keys else {})
    ensures forall p, f :: p in fields && f in fields[p] ==> r.customArgs[p][f] == fields[p][f]
    ensures forall p, f :: p in t.customArgs && f in t.customArgs[p] && !(p in fields && f in fields[p]) ==>
      f in r.customArgs[p] && r.customArgs[p][f] == t.customArgs[p][f]
  {
    var merged := map p | p in t.customArgs.Keys + fields.Keys ::
      (if p in t.customArgs then t.customArgs[p] else map[]) + (if p in fields then fields[p] else map[]);
    t.(mode := Custom, customArgs := merged)
  }

  /** Edits survive a later selection of Custom. */
  lemma EditsSurviveCustom(t: Tab, fields: Config)
    requires Custom in t.profileConfigs
    ensures var r := SelectProfile(EditField(t, fields), Custom);
      forall p, f :: p in fields && f in fields[p] ==> r.customArgs[p][f] == fields[p][f]
  {
  }

  /** Selecting any other profile after editing replaces the edits by
      that profile. */
  lemma OtherProfileDiscardsEdits(t: Tab, fields: Config, m: Mode)
    requires m in t.profileConfigs && m != Custom
    ensures SelectProfile(EditField(t, fields), m).customArgs == t.profileConfigs[m]
  {
  }

  /** The toggle signal fires for the radio button losing its check and
      for the one gaining it, so a selection runs twice; the second run
      changes nothing. */
  lemma SelectProfileIdempotent(t: Tab, m: Mode)
    requires m in t.profileConfigs
    ensures SelectProfile(SelectProfile(t, m), m) == SelectProfile(t, m)
  {
  }

  /** Neither switching nor editing ever changes the profile table. */
  lemma ProfileTableIsFixed(t: Tab, m: Mode, fields: Config)
    requires m in t.profileConfigs
    ensures SelectProfile(t, m).profileConfigs == t.profileConfigs
    ensures EditField(t, fields).profileConfigs == t.profileConfigs
    ensures SelectProfile(EditField(t, fields), m).profileConfigs == t.profileConfigs
  {
  }

  // ---------------------------------------------------------------------
  // Concurrency control (lines 55-57 and 106-117)
  // ---------------------------------------------------------------------

  const MinConcurrency: int := 1
  const MaxConcurrency: int := 8
  const DefaultConcurrency: int := 2

  /** The four warnings. */
  datatype Band = Sequential | Balanced | Turbo | High

  function BandRank(b: Band): nat {
    match b
    case Sequential => 0
    case Balanced => 1
    case Turbo => 2
    case High => 3
  }

  /** Lines 106-117: the warning shown for a concurrency value. */
  function ResourceWarning(n: int): (b: Band)
    ensures b == Sequential <==> n == 1
    ensures b == Balanced <==> n != 1 && n <= 3
    ensures b == Turbo <==> n == 4
    ensures b == High <==> n >= 5
  {
    if n == 1 then Sequential
    else if n <= 3 then Balanced
    else if n <= 4 then Turbo
    else High
  }

  /** Within the spin box's range, the warning never weakens as the value
      grows, and the default shows the balanced warning. */
  lemma WarningMonotone(a: int, b: int)
    requires MinConcurrency <= a <= b <= MaxConcurrency
    ensures BandRank(ResourceWarning(a)) <= BandRank(ResourceWarning(b))
    ensures ResourceWarning(DefaultConcurrency) == Balanced
  {
  }
}

=== FILE: Text.dfy ===
/** The slice of Python's `str` behaviour the repository relies on, over
    ASCII: `isspace`, `isalnum`, `lower`, `upper`, `strip`, `split()`,
    `split(sep, 1)`, `replace`, `startswith`, `endswith`, `in` and `join`.
    Characters outside ASCII are never letters, digits or whitespace here. */
module Text {

  // ---------------------------------------------------------------------
  // Character classes
  // ---------------------------------------------------------------------

  /** Python's ASCII whitespace: space, \t \n \v \f \r and \x1c-\x1f. */
  predicate IsSpace(c: char) {
    c == ' ' || ('\t' <= c <= '\r') || ('\U{1C}' <= c <= '\U{1F}')
  }

  predicate IsUpper(c: char) { 'A' <= c <= 'Z' }

  predicate IsLower(c: char) { 'a' <= c <= 'z' }

  predicate IsDigit(c: char) { '0' <= c <= '9' }

  predicate IsAlnum(c: char) { IsUpper(c) || IsLower(c) || IsDigit(c) }

  function LowerChar(c: char): (r: char)
    ensures !IsUpper(r)
    ensures IsAlnum(r) <==> IsAlnum(c)
    ensures IsSpace(r) <==> IsSpace(c)
  {
    if IsUpper(c) then (c as int + 32) as char else c
  }

  function UpperChar(c: char): (r: char)
    ensures !IsLower(r)
    ensures IsSpace(r) <==> IsSpace(c)
  {
    if IsLower(c) then (c as int - 32) as char else c
  }

  function Lower(s: string): (r: string)
    ensures |r| == |s|
    ensures forall i :: 0 <= i < |s| ==> r[i] == LowerChar(s[i])
  {
    seq(|s|, i requires 0 <= i < |s| => LowerChar(s[i]))
  }

  function Upper(s: string): (r: string)
    ensures |r| == |s|
    ensures forall i :: 0 <= i < |s| ==> r[i] == UpperChar(s[i])
  {
    seq(|s|, i requires 0 <= i < |s| => UpperChar(s[i]))
  }

  predicate NoSpace(s: string) {
    forall i :: 0 <= i < |s| ==> !IsSpace(s[i])
  }

  predicate Blank(s: string) {
    forall i :: 0 <= i < |s| ==> IsSpace(s[i])
  }

  /** Python's `a or b` on strings: `a` unless it is empty. */
  function Or(a: string, b: string): (r: string)
    ensures a != "" ==> r == a
    ensures a == "" ==> r == b
  {
    if a != "" then a else b
  }

  // ---------------------------------------------------------------------
  // strip / strip(chars)
  // ---------------------------------------------------------------------

  /** Drops the leading characters satisfying `p`. */
  function TrimStartBy(s: string, p: char -> bool): (r: string)
    ensures |r| <= |s| && r == s[|s| - |r|..]
    ensures r == [] || !p(r[0])
    ensures forall i :: 0 <= i < |s| - |r| ==> p(s[i])
    decreases |s|
  {
    if s != [] && p(s[0]) then TrimStartBy(s[1..], p) else s
  }

  /** Drops the trailing characters satisfying `p`. */
  function TrimEndBy(s: string, p: char -> bool): (r: string)
    ensures |r| <= |s| && r == s[..|r|]
    ensures r == [] || !p(r[|r| - 1])
    ensures forall i :: |r| <= i < |s| ==> p(s[i])
    decreases |s|
  {
    if s != [] && p(s[|s| - 1]) then TrimEndBy(s[..|s| - 1], p) else s
  }

  /** Python's `s.strip(chars)` for the character class `p`. */
  function StripBy(s: string, p: char -> bool): (r: string)
    ensures |r| <= |s|
    ensures r == [] || (!p(r[0]) && !p(r[|r| - 1]))
  {
    TrimEndBy(TrimStartBy(s, p), p)
  }

  /** Stripping keeps only characters of the input. */
  lemma StripByMembers(s: string, p: char -> bool)
    ensures forall i :: 0 <= i < |StripBy(s, p)| ==> StripBy(s, p)[i] in s
  {
    var a := TrimStartBy(s, p);
    var r := TrimEndBy(a, p);
    assert forall i :: 0 <= i < |r| ==> r[i] == a[i] == s[|s| - |a| + i];
  }

  /** Python's `s.strip()`. */
  function Strip(s: string): (r: string)
    ensures |r| <= |s|
    ensures r == [] || (!IsSpace(r[0]) && !IsSpace(r[|r| - 1]))
  {
    StripBy(s, IsSpace)
  }

  /** Stripping leaves a string alone when neither end is strippable. */
  lemma StripByNoop(s: string, p: char -> bool)
    requires s == [] || (!p(s[0]) && !p(s[|s| - 1]))
    ensures StripBy(s, p) == s
  {
  }

  /** Stripping a string made only of strippable characters leaves "". */
  lemma StripByAll(s: string, p: char -> bool)
    requires forall i :: 0 <= i < |s| ==> p(s[i])
    ensures StripBy(s, p) == []
  {
  }

  /** One leading blank is stripped from a word with non-blank ends. */
  lemma StripLeadingBlank(w: string)
    requires w != [] && !IsSpace(w[0]) && !IsSpace(w[|w| - 1])
    ensures Strip([' '] + w) == w
  {
    var s := [' '] + w;
    assert s[1..] == w;
    assert TrimStartBy(s, IsSpace) == TrimStartBy(w, IsSpace) == w;
    StripByNoop(w, IsSpace);
  }

  /** Lower-casing leaves a string without capitals alone. */
  lemma LowerNoop(s: string)
    requires forall i :: 0 <= i < |s| ==> !IsUpper(s[i])
    ensures Lower(s) == s
  {
  }

  /** Every character of `s` that `Strip` keeps sits between the first and
      last non-space characters; a blank string strips to "". */
  lemma StripBlank(s: string)
    ensures Strip(s) == [] <==> Blank(s)
  {
    var a := TrimStartBy(s, IsSpace);
    if Strip(s) == [] {
      assert TrimEndBy(a, IsSpace) == [];
    } else {
      assert !IsSpace(Strip(s)[0]);
      assert Strip(s)[0] == a[0] == s[|s| - |a|];
    }
  }

  // ---------------------------------------------------------------------
  // Prefix / suffix / substring
  // ---------------------------------------------------------------------

  predicate StartsWith(s: string, p: string) {
    |p| <= |s| && s[..|p|] == p
  }

  predicate EndsWith(s: string, p: string) {
    |p| <= |s| && s[|s| - |p|..] == p
  }

  /** `pat` occurs in `s` starting at index `i`. */
  predicate OccursAt(s: string, pat: string, i: int) {
    0 <= i && i + |pat| <= |s| && s[i..i + |pat|] == pat
  }

  /** Python's `pat in s`. */
  predicate Contains(s: string, pat: string) {
    exists i :: 0 <= i <= |s| && OccursAt(s, pat, i)
  }

  lemma ContainsWitness(s: string, pat: string, i: int)
    requires OccursAt(s, pat, i)
    ensures Contains(s, pat)
  {
  }

  // ---------------------------------------------------------------------
  // replace
  // ---------------------------------------------------------------------

  /** Python's `s.replace(pat, rep)`: non-overlapping, left to right. */
  function Replace(s: string, pat: string, rep: string): string
    requires |pat| > 0
    decreases |s|
  {
    if |s| < |pat| then s
    else if s[..|pat|] == pat then rep + Replace(s[|pat|..], pat, rep)
    else [s[0]] + Replace(s[1..], pat, rep)
  }

  /** Replacing a pattern that does not occur changes nothing. */
  lemma {:induction false} ReplaceAbsent(s: string, pat: string, rep: string)
    requires |pat| > 0
    requires !Contains(s, pat)
    ensures Replace(s, pat, rep) == s
    decreases |s|
  {
    if |s| < |pat| {
    } else {
      if s[..|pat|] == pat {
        ContainsWitness(s, pat, 0);
      }
      if Contains(s[1..], pat) {
        var t := s[1..];
        var i :| 0 <= i <= |t| && OccursAt(t, pat, i);
        assert t[i..i + |pat|] == pat;
        assert s[i + 1..i + 1 + |pat|] == s[1..][i..i + |pat|];
        ContainsWitness(s, pat, i + 1);
      }
      ReplaceAbsent(s[1..], pat, rep);
      assert [s[0]] + s[1..] == s;
    }
  }

  // ---------------------------------------------------------------------
  // Order-preserving selection: a list comprehension with a condition
  // ---------------------------------------------------------------------

  /** The elements of `s` that satisfy `p`, in order. */
  function Select<T>(s: seq<T>, p: T -> bool): (r: seq<T>)
    ensures |r| <= |s|
    ensures forall k :: 0 <= k < |r| ==> p(r[k])
  {
    if s == [] then []
    else
      var prev := Select(s[..|s| - 1], p);
      if p(s[|s| - 1]) then prev + [s[|s| - 1]] else prev
  }

  lemma {:induction false} SelectMembers<T>(s: seq<T>, p: T -> bool)
    ensures forall x :: x in Select(s, p) <==> x in s && p(x)
  {
    if s != [] {
      SelectMembers(s[..|s| - 1], p);
      assert s == s[..|s| - 1] + [s[|s| - 1]];
    }
  }

  /** Selecting from a concatenation selects from each part in turn, so
      the selection keeps the input order. */
  lemma {:induction false} SelectAppend<T>(a: seq<T>, b: seq<T>, p: T -> bool)
    ensures Select(a + b, p) == Select(a, p) + Select(b, p)
    decreases |b|
  {
    if b == [] {
      assert a + b == a;
    } else {
      var n := |b| - 1;
      assert (a + b)[..|a + b| - 1] == a + b[..n];
      SelectAppend(a, b[..n], p);
    }
  }

  // ---------------------------------------------------------------------
  // Lists without repeats
  // ---------------------------------------------------------------------

  predicate Distinct<T(==)>(s: seq<T>) {
    forall i, j :: 0 <= i < j < |s| ==> s[i] != s[j]
  }

  lemma {:induction false} DistinctCard<T>(s: seq<T>, elems: set<T>)
    requires Distinct(s)
    requires forall x :: x in elems <==> x in s
    ensures |elems| == |s|
  {
    if s != [] {
      var last := s[|s| - 1];
      var init := s[..|s| - 1];
      assert last !in init;
      DistinctCard(init, elems - {last});
    }
  }

  /** In a list without repeats every element occurs at most once. */
  lemma {:induction false} DistinctCount<T>(s: seq<T>, x: T)
    requires Distinct(s)
    ensures multiset(s)[x] <= 1
  {
    if s != [] {
      var last := s[|s| - 1];
      var init := s[..|s| - 1];
      assert s == init + [last];
      DistinctCount(init, x);
      assert last !in init;
    }
  }

  /** A rearrangement of a list without repeats has none either. */
  lemma DistinctPermutation<T>(a: seq<T>, b: seq<T>)
    requires Distinct(a) && multiset(a) == multiset(b)
    ensures Distinct(b)
  {
    forall i, j | 0 <= i < j < |b| ensures b[i] != b[j] {
      if b[i] == b[j] {
        assert b == b[..j] + b[j..];
        assert b[i] in b[..j] && b[j] in b[j..];
        assert multiset(b)[b[j]] >= 2;
        DistinctCount(a, b[j]);
      }
    }
  }

  /** The first occurrence of each element, in order of first occurrence:
      what building a dict from the list keeps, in key order. */
  function Dedup<T(==)>(s: seq<T>): (d: seq<T>)
    ensures |d| <= |s|
  {
    if s == [] then []
    else
      var prev := Dedup(s[..|s| - 1]);
      if s[|s| - 1] in prev then prev else prev + [s[|s| - 1]]
  }

  lemma {:induction false} DedupMembers<T>(s: seq<T>)
    ensures forall x :: x in Dedup(s) <==> x in s
    ensures Distinct(Dedup(s))
  {
    if s != [] {
      DedupMembers(s[..|s| - 1]);
      assert s == s[..|s| - 1] + [s[|s| - 1]];
    }
  }

  /** A list without repeats is its own first occurrences, so `Dedup` is
      idempotent. */
  lemma {:induction false} DedupOfDistinct<T>(s: seq<T>)
    requires Distinct(s)
    ensures Dedup(s) == s
  {
    if s != [] {
      var init := s[..|s| - 1];
      DedupOfDistinct(init);
      assert s[|s| - 1] !in init;
    }
  }

  lemma DedupIdempotent<T>(s: seq<T>)
    ensures Dedup(Dedup(s)) == Dedup(s)
  {
    DedupMembers(s);
    DedupOfDistinct(Dedup(s));
  }

  lemma DedupStep<T>(s: seq<T>, x: T)
    ensures Dedup(s + [x]) == if x in Dedup(s) then Dedup(s) else Dedup(s) + [x]
  {
    assert (s + [x])[..|s|] == s;
  }

  lemma DedupPush<T>(pre: seq<T>, cs: seq<T>, j: nat)
    requires j < |cs|
    ensures var d := Dedup(pre + cs[..j]);
      Dedup(pre + cs[..j + 1]) == if cs[j] in d then d else d + [cs[j]]
  {
    assert pre + cs[..j + 1] == (pre + cs[..j]) + [cs[j]];
    DedupStep(pre + cs[..j], cs[j]);
  }

  // ---------------------------------------------------------------------
  // Concatenation, join and whitespace split
  // ---------------------------------------------------------------------

  function Concat(ss: seq<string>): string {
    if ss == [] then "" else ss[0] + Concat(ss[1..])
  }

  lemma {:induction false} ConcatAppend(a: seq<string>, b: seq<string>)
    ensures Concat(a + b) == Concat(a) + Concat(b)
    decreases |a|
  {
    if a == [] {
      assert a + b == b;
    } else {
      assert (a + b)[1..] == a[1..] + b;
      ConcatAppend(a[1..], b);
    }
  }

  /** Python's `sep.join(ss)`. */
  function Join(ss: seq<string>, sep: string): string {
    if ss == [] then ""
    else if |ss| == 1 then ss[0]
    else ss[0] + sep + Join(ss[1..], sep)
  }

  /** The characters of `s` that are not whitespace, in order. */
  function RemoveSpaces(s: string): (r: string)
    ensures NoSpace(r)
  {
    if s == [] then ""
    else (if IsSpace(s[0]) then "" else [s[0]]) + RemoveSpaces(s[1..])
  }

  /** Whitespace split with `cur` the token read so far. */
  function SplitFrom(s: string, cur: string): (r: seq<string>)
    requires NoSpace(cur)
    ensures forall k :: 0 <= k < |r| ==> |r[k]| > 0 && NoSpace(r[k])
    ensures Concat(r) == cur + RemoveSpaces(s)
    decreases |s|
  {
    if s == [] then
      (if cur == [] then [] else [cur])
    else if IsSpace(s[0]) then
      var rest := SplitFrom(s[1..], "");
      assert RemoveSpaces(s) == RemoveSpaces(s[1..]);
      if cur == [] then rest
      else
        var r := [cur] + rest;
        assert r[0] == cur && r[1..] == rest;
        assert Concat(r) == cur + Concat(rest);
        r
    else
      var next := cur + [s[0]];
      assert NoSpace(next) by {
        forall i | 0 <= i < |next| ensures !IsSpace(next[i]) {
          if i < |cur| { assert next[i] == cur[i]; }
        }
      }
      var rest := SplitFrom(s[1..], next);
      assert RemoveSpaces(s) == [s[0]] + RemoveSpaces(s[1..]);
      assert cur + RemoveSpaces(s) == next + RemoveSpaces(s[1..]);
      rest
  }

  /** Python's argument-less `s.split()`: maximal runs of non-whitespace.
      Every token is non-empty and space-free, and the tokens put back
      together are exactly the non-space characters of `s`. */
  function SplitWs(s: string): (r: seq<string>)
    ensures forall k :: 0 <= k < |r| ==> |r[k]| > 0 && NoSpace(r[k])
    ensures Concat(r) == RemoveSpaces(s)
  {
    SplitFrom(s, "")
  }

  lemma {:induction false} SplitFromWord(w: string, s: string, cur: string)
    requires NoSpace(cur) && NoSpace(w)
    ensures SplitFrom(w + s, cur) == SplitFrom(s, cur + w)
    decreases |w|
  {
    if w == [] {
      assert w + s == s;
      assert cur + w == cur;
    } else {
      assert (w + s)[0] == w[0];
      assert (w + s)[1..] == w[1..] + s;
      SplitFromWord(w[1..], s, cur + [w[0]]);
      assert cur + [w[0]] + w[1..] == cur + w;
    }
  }

  /** Splitting a space-joined list of space-free tokens gives the list
      back: `" ".join(ts).split() == ts`. */
  lemma {:induction false} SplitJoinRoundTrip(ts: seq<string>)
    requires forall k :: 0 <= k < |ts| ==> |ts[k]| > 0 && NoSpace(ts[k])
    ensures SplitWs(Join(ts, " ")) == ts
    decreases |ts|
  {
    if ts == [] {
    } else if |ts| == 1 {
      assert Join(ts, " ") == ts[0] + "";
      SplitFromWord(ts[0], "", "");
      assert "" + ts[0] == ts[0];
    } else {
      var rest := Join(ts[1..], " ");
      assert Join(ts, " ") == ts[0] + (" " + rest);
      WordThenRest(ts[0], rest);
      SplitJoinRoundTrip(ts[1..]);
      assert ts == [ts[0]] + ts[1..];
    }
  }

  /** A word followed by a blank splits off as the first token. */
  lemma WordThenRest(w: string, rest: string)
    requires |w| > 0 && NoSpace(w)
    ensures SplitWs(w + (" " + rest)) == [w] + SplitWs(rest)
  {
    SplitFromWord(w, " " + rest, "");
    assert "" + w == w;
    assert (" " + rest)[1..] == rest;
    assert SplitFrom(" " + rest, w) == [w] + SplitFrom(rest, "");
  }

  /** Index of the first `c` in `s`. */
  function IndexOf(s: string, c: char): (r: nat)
    requires c in s
    ensures r < |s| && s[r] == c && c !in s[..r]
  {
    if s[0] == c then 0
    else
      var k := IndexOf(s[1..], c);
      assert s[..k + 1] == [s[0]] + s[1..][..k];
      k + 1
  }

  /** Python's `s.split(sep, 1)[-1]`: the text after the first `sep`, or
      all of `s` when `sep` does not occur. */
  function AfterFirst(s: string, sep: char): (r: string)
    ensures |r| <= |s|
    ensures sep !in s ==> r == s
    ensures sep in s ==> r == s[IndexOf(s, sep) + 1..]
  {
    if sep in s then s[IndexOf(s, sep) + 1..] else s
  }

  /** Python's `s.split(sep)` for a one-character separator. */
  function SplitOn(s: string, sep: char): (r: seq<string>)
    ensures |r| >= 1
    ensures forall k :: 0 <= k < |r| ==> sep !in r[k]
    ensures Join(r, [sep]) == s
  {
    if s == [] then [""]
    else
      var rest := SplitOn(s[1..], sep);
      if s[0] == sep then
        assert Join([""] + rest, [sep]) == [sep] + Join(rest, [sep]) by {
          assert ([""] + rest)[1..] == rest;
        }
        [""] + rest
      else
        var r := [[s[0]] + rest[0]] + rest[1..];
        assert r[1..] == rest[1..];
        assert Join(r, [sep]) == [s[0]] + Join(rest, [sep]) by {
          if |rest| == 1 {
          } else {
            assert Join(rest, [sep]) == rest[0] + [sep] + Join(rest[1..], [sep]);
          }
        }
        r
  }

  /** Text without the separator splits into itself alone. */
  lemma {:induction false} SplitOnNoSep(s: string, sep: char)
    requires sep !in s
    ensures SplitOn(s, sep) == [s]
  {
    if s != [] {
      SplitOnNoSep(s[1..], sep);
    }
  }

  /** A separator after separator-free text ends the first piece there. */
  lemma {:induction false} SplitOnSep(a: string, b: string, sep: char)
    requires sep !in a
    ensures SplitOn(a + [sep] + b, sep) == [a] + SplitOn(b, sep)
  {
    if a == [] {
      assert a + [sep] + b == [sep] + b;
      assert ([sep] + b)[1..] == b;
    } else {
      assert (a + [sep] + b)[1..] == a[1..] + [sep] + b;
      SplitOnSep(a[1..], b, sep);
      assert [a[0]] + a[1..] == a;
    }
  }

  /** Splitting undoes joining when no piece holds the separator. */
  lemma {:induction false} SplitJoinOn(cs: seq<string>, sep: char)
    requires |cs| >= 1
    requires forall k :: 0 <= k < |cs| ==> sep !in cs[k]
    ensures SplitOn(Join(cs, [sep]), sep) == cs
  {
    if |cs| == 1 {
      SplitOnNoSep(cs[0], sep);
    } else {
      SplitJoinOn(cs[1..], sep);
      SplitOnSep(cs[0], Join(cs[1..], [sep]), sep);
      assert [cs[0]] + cs[1..] == cs;
    }
  }

  /** Selecting with a condition every element meets keeps everything. */
  lemma {:induction false} SelectAll<T>(s: seq<T>, p: T -> bool)
    requires forall k :: 0 <= k < |s| ==> p(s[k])
    ensures Select(s, p) == s
  {
    if s != [] {
      SelectAll(s[..|s| - 1], p);
      assert s[..|s| - 1] + [s[|s| - 1]] == s;
    }
  }

  // ---------------------------------------------------------------------
  // Numbers
  // ---------------------------------------------------------------------

  function DigitChar(d: nat): char
    requires d < 10
  {
    ('0' as int + d) as char
  }

  /** Python's `str(n)` for an integer. */
  function IntToString(n: int): (r: string)
    ensures |r| > 0
    decreases if n < 0 then 1 - n else n
  {
    if n < 0 then "-" + IntToString(-n)
    else if n < 10 then [DigitChar(n)]
    else IntToString(n / 10) + [DigitChar(n % 10)]
  }

  /** Python's `int(s)` for a non-empty string of decimal digits. */
  function ParseDigits(s: string): (r: nat)
    requires forall i :: 0 <= i < |s| ==> IsDigit(s[i])
    decreases |s|
  {
    if s == [] then 0
    else
      assert IsDigit(s[|s| - 1]);
      ParseDigits(s[..|s| - 1]) * 10 + (s[|s| - 1] as int - '0' as int)
  }

  // ---------------------------------------------------------------------
  // HTML escaping
  // ---------------------------------------------------------------------

  /** No character that HTML gives a meaning to inside text or a quoted
      attribute, other than `&`. */
  predicate NoMarkup(s: string) {
    forall i :: 0 <= i < |s| ==> s[i] != '<' && s[i] != '>' && s[i] != '"' && s[i] != '\''
  }

  /** Text without markup stays so when joined. */
  lemma NoMarkupAppend(a: string, b: string)
    requires NoMarkup(a) && NoMarkup(b)
    ensures NoMarkup(a + b)
  {
    forall i | 0 <= i < |a + b| ensures (a + b)[i] != '<' && (a + b)[i] != '>' && (a + b)[i] != '"' && (a + b)[i] != '\'' {
      if i >= |a| {
        assert (a + b)[i] == b[i - |a|];
      }
    }
  }

  /** `html.escape` of one character (quotes included). */
  function EscapeChar(ch: char): (r: string)
    ensures NoMarkup(r)
    ensures ch != '&' && ch != '<' && ch != '>' && ch != '"' && ch != '\'' ==> r == [ch]
  {
    if ch == '&' then "&amp;"
    else if ch == '<' then "&lt;"
    else if ch == '>' then "&gt;"
    else if ch == '"' then "&quot;"
    else if ch == '\'' then "&#x27;"
    else [ch]
  }

  /** `html.escape(s)`: the result carries no markup character. */
  function HtmlEscape(s: string): (r: string)
    ensures NoMarkup(r)
    ensures |r| >= |s|
  {
    if s == [] then "" else EscapeChar(s[0]) + HtmlEscape(s[1..])
  }
}

=== FILE: ToolWorker.dfy ===
/** `gui/tool_worker.py`: the cached PATH probe, the subprocess runner's
    result codes and line buffering, the hardened per-tool installer, and
    the install and check workers.

    PATH lookups (`shutil.which`), processes, the platform and the effective
    user id are parameters. The module-level `has_cmd` cache is threaded
    through explicitly as a map. */
module ToolWorker {
  import opened Wrappers
  import opened Text
  import Installer
  import Adapters

  // ---------------------------------------------------------------------
  // has_cmd (lines 22-39)
  // ---------------------------------------------------------------------

  /** The module-level `has_cmd_cache`: lower-cased stripped name to the
      answer of the first probe. */
  type Cache = map<string, bool>

  function Key(cmd: string): string { Lower(Strip(cmd)) }

  /** `after` still holds every answer `before` held. */
  predicate Extends(before: Cache, after: Cache) {
    forall k :: k in before ==> k in after && after[k] == before[k]
  }

  datatype Probe = Probe(found: bool, cache: Cache)

  /** Lines 24-39: blank names are never found and never cached; a cached
      key answers from the cache; otherwise `which` decides and the answer
      is stored, negative answers included. */
  function HasCmd(cache: Cache, which: string -> bool, cmd: string): (p: Probe)
    ensures Strip(cmd) == "" ==> p == Probe(false, cache)
    ensures Strip(cmd) != "" ==> Key(cmd) in p.cache && p.found == p.cache[Key(cmd)]
    ensures Strip(cmd) != "" && Key(cmd) !in cache ==> p.found == which(cmd)
    ensures Extends(cache, p.cache)
    ensures p.cache.Keys <= cache.Keys + {Key(cmd)}
  {
    if Strip(cmd) == "" then Probe(false, cache)
    else
      var key := Key(cmd);
      if key in cache then Probe(cache[key], cache)
      else Probe(which(cmd), cache[key := which(cmd)])
  }

  /** A probed name is never probed again: a later probe of any spelling
      with the same key answers the first result, whatever PATH holds by
      then. */
  lemma HasCmdNeverReprobes(cache: Cache, which: string -> bool, later: string -> bool, cmd: string, again: string)
    requires Key(again) == Key(cmd) && Strip(again) != ""
    ensures var first := HasCmd(cache, which, cmd);
      HasCmd(first.cache, later, again) == Probe(first.found, first.cache)
  {
  }

  // ---------------------------------------------------------------------
  // _emit (lines 41-53)
  // ---------------------------------------------------------------------

  /** Lines 41-53: `None` becomes "", and one trailing newline is dropped. */
  function Emit(text: Option<string>): (s: string)
    ensures text.None? ==> s == ""
    ensures text.Some? && !EndsWith(text.value, "\n") ==> s == text.value
    ensures text.Some? && EndsWith(text.value, "\n") ==> s + "\n" == text.value
  {
    match text
    case None => ""
    case Some(t) => if EndsWith(t, "\n") then t[..|t| - 1] else t
  }

  /** Emitting undoes appending one newline, and only one: a second
      newline survives. */
  lemma EmitDropsOneNewline(s: string)
    ensures Emit(Some(s + "\n")) == s
    ensures Emit(Some(s + "\n\n")) == s + "\n"
  {
    assert EndsWith(s + "\n", "\n");
    assert (s + "\n")[..|s|] == s;
    assert EndsWith(s + "\n\n", "\n");
    assert (s + "\n\n")[..|s| + 1] == s + "\n";
  }

  // ---------------------------------------------------------------------
  // _run_cmd: the reader thread's line splitting (lines 115-124)
  // ---------------------------------------------------------------------

  /** Line 117: CRLF, then every remaining CR, becomes LF. */
  function NormaliseNewlines(line: string): string {
    Replace(Replace(line, "\r\n", "\n"), "\r", "\n")
  }

  /** Python's `parts.index(x)`: the first position of `x`. */
  function FirstIndex(parts: seq<string>, x: string): (i: nat)
    requires x in parts
    ensures i < |parts| && parts[i] == x && x !in parts[..i]
  {
    if parts[0] == x then 0
    else
      var k := FirstIndex(parts[1..], x);
      assert parts[..k + 1] == [parts[0]] + parts[1..][..k];
      k + 1
  }

  /** Line 120 as written: a piece is skipped when it is empty, the line
      ended in a newline, and the FIRST empty piece of the line is the last
      piece. */
  predicate Skipped(parts: seq<string>, endsNl: bool, p: string) {
    p == "" && endsNl && p in parts && FirstIndex(parts, p) == |parts| - 1
  }

  /** The pieces of `parts[..n]` the loop of lines 120-124 buffers. */
  function Kept(parts: seq<string>, endsNl: bool, n: nat): seq<string>
    requires n <= |parts|
  {
    if n == 0 then []
    else Kept(parts, endsNl, n - 1) + (if Skipped(parts, endsNl, parts[n - 1]) then [] else [parts[n - 1]])
  }

  /** Lines 117-124: what one line read from the pipe adds to the buffer. */
  function Pieces(line: string): seq<string> {
    var l := NormaliseNewlines(line);
    var parts := SplitOn(l, '\n');
    Kept(parts, EndsWith(l, "\n"), |parts|)
  }

  /** The trailing empty piece is dropped exactly when it is the only
      empty piece; otherwise every piece, trailing empty one included, is
      kept. */
  lemma {:induction false} KeptDropsOnlyLoneTrailing(parts: seq<string>, endsNl: bool)
    requires |parts| >= 1
    ensures endsNl && parts[|parts| - 1] == "" && "" !in parts[..|parts| - 1] ==>
      Kept(parts, endsNl, |parts|) == parts[..|parts| - 1]
    ensures !(endsNl && parts[|parts| - 1] == "" && "" !in parts[..|parts| - 1]) ==>
      Kept(parts, endsNl, |parts|) == parts
  {
    var lone := endsNl && parts[|parts| - 1] == "" && "" !in parts[..|parts| - 1];
    KeptPrefix(parts, endsNl, |parts| - 1);
    if lone {
      assert Skipped(parts, endsNl, parts[|parts| - 1]);
    } else {
      assert !Skipped(parts, endsNl, parts[|parts| - 1]);
      assert parts[..|parts| - 1] + [parts[|parts| - 1]] == parts;
    }
  }

  /** Before the last piece nothing is ever skipped: a skipped piece is an
      empty one whose first occurrence is the last position. */
  lemma {:induction false} KeptPrefix(parts: seq<string>, endsNl: bool, n: nat)
    requires n < |parts|
    ensures Kept(parts, endsNl, n) == parts[..n]
  {
    if n > 0 {
      KeptPrefix(parts, endsNl, n - 1);
      assert !Skipped(parts, endsNl, parts[n - 1]);
      assert parts[..n] == parts[..n - 1] + [parts[n - 1]];
    }
  }

  /** A blank line read from the pipe is buffered as TWO empty pieces: its
      split is `["", ""]`, and the first empty piece is not the last. */
  lemma BlankLineBufferedTwice()
    ensures Pieces("\n") == ["", ""]
  {
    BlankLineSplit();
    assert FirstIndex(["", ""], "") == 0;
    KeptDropsOnlyLoneTrailing(["", ""], true);
  }

  lemma BlankLineSplit()
    ensures NormaliseNewlines("\n") == "\n"
    ensures SplitOn("\n", '\n') == ["", ""]
  {
    var s: string := "\n";
    assert Replace(s, "\r\n", "\n") == s;
    assert s[..1] == ['\n'];
    assert Replace(s, "\r", "\n") == [s[0]] + Replace(s[1..], "\r", "\n");
    assert SplitOn(s[1..], '\n') == [""];
  }

  /** The reader as evidently intended: only the piece after the line's own
      final newline is dropped. */
  function PiecesFixed(line: string): (r: seq<string>)
    ensures var l := NormaliseNewlines(line);
      !EndsWith(l, "\n") ==> r == SplitOn(l, '\n')
  {
    var l := NormaliseNewlines(line);
    var parts := SplitOn(l, '\n');
    if EndsWith(l, "\n") then parts[..|parts| - 1] else parts
  }

  /** The corrected reader loses nothing: its pieces joined with newlines,
      plus the dropped final newline, give back the normalised line. */
  lemma PiecesFixedRejoin(line: string)
    ensures var l := NormaliseNewlines(line);
      Join(PiecesFixed(line), "\n") + (if EndsWith(l, "\n") then "\n" else "") == l
  {
    var l := NormaliseNewlines(line);
    if EndsWith(l, "\n") {
      RejoinWithoutLast(l, SplitOn(l, '\n'), '\n');
    }
  }

  /** When the text ends in the separator, it has at least two pieces, the
      last one empty, and the others joined give the text without its
      final separator. */
  lemma RejoinWithoutLast(l: string, parts: seq<string>, sep: char)
    requires |parts| >= 1 && Join(parts, [sep]) == l
    requires |l| >= 1 && l[|l| - 1] == sep
    requires forall k :: 0 <= k < |parts| ==> sep !in parts[k]
    ensures |parts| >= 2
    ensures Join(parts[..|parts| - 1], [sep]) + [sep] == l
  {
    assert |parts| >= 2 by {
      assert l[|l| - 1] in l;
      SingleSplitHasNoSep(parts, sep);
    }
    var init, last := parts[..|parts| - 1], parts[|parts| - 1];
    var front := Join(init, [sep]) + [sep];
    assert l == front + last by {
      ButLastThenLast(parts);
      JoinSnoc(init, last, [sep]);
    }
    assert last == [] by {
      LastOfConcat(front, last);
      assert |last| > 0 ==> sep in last;
    }
  }

  lemma ButLastThenLast<T>(s: seq<T>)
    requires |s| >= 1
    ensures s[..|s| - 1] + [s[|s| - 1]] == s
  {
  }

  lemma LastOfConcat(a: string, b: string)
    ensures |b| > 0 ==> (a + b)[|a + b| - 1] == b[|b| - 1] && b[|b| - 1] in b
  {
  }

  lemma SingleSplitHasNoSep(parts: seq<string>, sep: char)
    requires forall k :: 0 <= k < |parts| ==> sep !in parts[k]
    ensures |parts| == 1 ==> sep !in Join(parts, [sep])
  {
  }

  lemma {:induction false} JoinSnoc(a: seq<string>, x: string, sep: string)
    requires a != []
    ensures Join(a + [x], sep) == Join(a, sep) + sep + x
    decreases |a|
  {
    if |a| == 1 {
      assert (a + [x])[1..] == [x];
    } else {
      assert (a + [x])[1..] == a[1..] + [x];
      JoinSnoc(a[1..], x, sep);
    }
  }

  /** On a blank line the two readers differ: as written it buffers two
      empty pieces, as intended one. */
  lemma ReadersDifferOnBlankLine()
    ensures Pieces("\n") == ["", ""]
    ensures PiecesFixed("\n") == [""]
  {
    BlankLineBufferedTwice();
    BlankLineSplit();
  }

  // ---------------------------------------------------------------------
  // _run_cmd: the bounded buffer and the result (lines 55-188)
  // ---------------------------------------------------------------------

  /** Line 107: the buffer keeps this many pieces. */
  const MaxLines: nat := 35000

  /** Every piece the reader buffers for the lines read, in order. */
  function AllPieces(lines: seq<string>): seq<string> {
    if lines == [] then [] else AllPieces(lines[..|lines| - 1]) + Pieces(lines[|lines| - 1])
  }

  /** The last `n` items of `xs`. */
  function LastN<T>(xs: seq<T>, n: nat): (r: seq<T>)
    ensures |r| == if |xs| <= n then |xs| else n
    ensures r == xs[|xs| - |r|..]
  {
    if |xs| <= n then xs else xs[|xs| - n..]
  }

  /** `deque(maxlen=n).append(x)`: a full deque drops its oldest items. */
  function Push<T>(buf: seq<T>, x: T, n: nat): seq<T> {
    if |buf| < n then buf + [x] else (buf + [x])[|buf| + 1 - n..]
  }

  /** Appending `xs` one at a time. */
  function PushAll<T>(buf: seq<T>, xs: seq<T>, n: nat): seq<T>
    decreases |xs|
  {
    if xs == [] then buf else PushAll(Push(buf, xs[0], n), xs[1..], n)
  }

  /** Lines 108-124: the bounded deque filled piece by piece holds exactly
      the last 35000 pieces (in general: the last `maxlen`). */
  lemma {:induction false} PushAllKeepsLast<T>(buf: seq<T>, xs: seq<T>, n: nat)
    requires 0 < n && |buf| <= n
    ensures PushAll(buf, xs, n) == LastN(buf + xs, n)
    decreases |xs|
  {
    if xs == [] {
      assert buf + xs == buf;
    } else {
      var b := Push(buf, xs[0], n);
      PushIsLastN(buf, xs[0], n);
      PushAllKeepsLast(b, xs[1..], n);
      assert buf + xs == (buf + [xs[0]]) + xs[1..];
      LastNTwice(buf + [xs[0]], xs[1..], n);
    }
  }

  /** One push keeps the last `n` items of the buffer and the new item. */
  lemma PushIsLastN<T>(buf: seq<T>, x: T, n: nat)
    requires 0 < n && |buf| <= n
    ensures Push(buf, x, n) == LastN(buf + [x], n) && |Push(buf, x, n)| <= n
  {
  }

  /** Trimming early does not change the last `n` items of the whole. */
  lemma LastNTwice<T>(a: seq<T>, b: seq<T>, n: nat)
    ensures LastN(LastN(a, n) + b, n) == LastN(a + b, n)
  {
    var la := LastN(a, n);
    assert a == a[..|a| - |la|] + la;
    assert a + b == a[..|a| - |la|] + (la + b);
  }

  /** What the process oracle reports about a launched command: the lines
      its output was read as, its exit code, and which of the timeout or
      the cancel request the wait loop saw first, if either. */
  datatype Interrupt = TimeoutHit | CancelHit
  datatype Proc = Started(lines: seq<string>, exitCode: int, interrupt: Option<Interrupt>)
                | CommandNotFound
                | SpawnFailed(error: string)

  /** Line 185: the buffer joined with newlines, then stripped. */
  function Output(lines: seq<string>): string {
    Strip(Join(LastN(AllPieces(lines), MaxLines), "\n"))
  }

  /** Lines 68-72: the command gets as far as `Popen`. `cwd == ""` stands
      for no working directory. */
  predicate Launched(args: seq<string>, cwd: string, isDir: string -> bool) {
    args != [] && (cwd == "" || isDir(cwd))
  }

  /** Lines 55-188. A `timeout` of 0 stands for none: the timeout and the
      cancel request are only watched while one is set (lines 136-158). */
  function RunCmd(args: seq<string>, cwd: string, timeout: int, isDir: string -> bool,
                  spawn: (seq<string>, string) -> Proc): (r: (int, string))
    ensures args == [] ==> r == (2, "runner error: empty args")
    ensures args != [] && cwd != "" && !isDir(cwd) ==> r == (2, "runner error: cwd not found: " + cwd)
    ensures Launched(args, cwd, isDir) && spawn(args, cwd).CommandNotFound? ==>
      r == (127, "command not found: " + args[0])
    ensures Launched(args, cwd, isDir) && spawn(args, cwd).SpawnFailed? ==>
      r == (1, "runner error: " + spawn(args, cwd).error)
    ensures Launched(args, cwd, isDir) && spawn(args, cwd).Started? ==>
      var p := spawn(args, cwd);
      (timeout == 0 || p.interrupt.None? ==> r.0 == p.exitCode)
      && (timeout != 0 && p.interrupt == Some(TimeoutHit) ==> r == (124, "command timed out"))
      && (timeout != 0 && p.interrupt == Some(CancelHit) ==> r == (130, Output(p.lines)))
      && (r.0 == 124 ==> r.1 == "command timed out")
      && (r.0 != 124 ==> r.1 == Output(p.lines))
  {
    if args == [] then (2, "runner error: empty args")
    else if cwd != "" && !isDir(cwd) then (2, "runner error: cwd not found: " + cwd)
    else
      match spawn(args, cwd)
      case CommandNotFound => (127, "command not found: " + args[0])
      case SpawnFailed(e) => (1, "runner error: " + e)
      case Started(lines, exitCode, interrupt) =>
        var code :=
          if timeout != 0 && interrupt == Some(TimeoutHit) then 124
          else if timeout != 0 && interrupt == Some(CancelHit) then 130
          else exitCode;
        if code == 124 then (124, "command timed out") else (code, Output(lines))
  }

  /** A tool that itself exits with 124 is reported as timed out, and its
      output is lost, even when no timeout was set. */
  lemma OwnExit124ReadsAsTimeout(args: seq<string>, cwd: string, isDir: string -> bool,
                                 spawn: (seq<string>, string) -> Proc)
    requires Launched(args, cwd, isDir)
    requires spawn(args, cwd).Started? && spawn(args, cwd).exitCode == 124
    ensures RunCmd(args, cwd, 0, isDir, spawn) == (124, "command timed out")
  {
  }

  // ---------------------------------------------------------------------
  // Package helpers (lines 194-249)
  // ---------------------------------------------------------------------

  /** `_run_cmd` as the helpers see it: argv to `(code, output)`. */
  type Runner = seq<string> -> (int, string)

  /** The commands the installers run. */
  datatype Command = AptGetUpdate | AptGetInstall(pkg: string) | BrewInstall(pkg: string)
                   | ChocoInstall(pkg: string) | PipxInstall(pkg: string) | GoInstall(pkg: string)
                   | DockerPull(pkg: string)

  /** The argv each command is run with (lines 201, 215, 219, 228, 237,
      246, 599). */
  function Argv(c: Command): (argv: seq<string>)
    ensures |argv| >= 3 || c == AptGetUpdate
  {
    match c
    case AptGetUpdate => ["apt-get", "update"]
    case AptGetInstall(pkg) => ["apt-get", "install", "-y", pkg]
    case BrewInstall(pkg) => ["brew", "install", pkg]
    case ChocoInstall(pkg) => ["choco", "install", pkg, "-y", "--no-progress"]
    case PipxInstall(pkg) => ["pipx", "install", pkg]
    case GoInstall(pkg) => ["go", "install", pkg]
    case DockerPull(pkg) => ["docker", "pull", pkg]
  }

  /** Distinct commands have distinct argvs, so the runner's answer for a
      command is well defined. */
  lemma ArgvInjective(a: Command, b: Command)
    requires Argv(a) == Argv(b)
    ensures a == b
  {
    assert Argv(a)[0] == Argv(b)[0];
    assert |Argv(a)| == |Argv(b)|;
    if |Argv(a)| >= 3 {
      assert Argv(a)[2] == Argv(b)[2];
    }
    if a.ChocoInstall? || b.ChocoInstall? || a.AptGetInstall? || b.AptGetInstall? {
      assert Argv(a)[3] == Argv(b)[3];
    }
  }

  /** One helper's verdict and message, the cache after its PATH probes,
      and the commands it ran, in order. */
  datatype Step = Step(ok: bool, msg: string, cache: Cache, ran: seq<Command>)

  /** The code the runner reports for a command. */
  function Code(run: Runner, c: Command): int { run(Argv(c)).0 }

  /** The tail every helper shares: run one command; code 0 succeeds; an
      empty output falls back to "OK" or to the failure message. */
  function RunOnce(cache: Cache, c: Command, failMsg: string, run: Runner): (s: Step)
    ensures s.ran == [c] && s.cache == cache
    ensures s.ok <==> Code(run, c) == 0
    ensures s.msg == Or(run(Argv(c)).1, if s.ok then "OK" else failMsg)
  {
    var (code, out) := run(Argv(c));
    if code == 0 then Step(true, Or(out, "OK"), cache, [c])
    else Step(false, Or(out, failMsg), cache, [c])
  }

  /** A reported success comes from the last command run, which exited
      with 0. */
  predicate Confirmed(s: Step, run: Runner) {
    s.ok ==> s.ran != [] && Code(run, s.ran[|s.ran| - 1]) == 0
  }

  /** A helper that first looks its package manager up on PATH. */
  function Guarded(cache: Cache, which: string -> bool, manager: string, missingMsg: string,
                   c: Command, failMsg: string, run: Runner): (s: Step)
    ensures var p := HasCmd(cache, which, manager);
      (!p.found ==> s == Step(false, missingMsg, p.cache, []))
      && (p.found ==> s == RunOnce(p.cache, c, failMsg, run))
    ensures Extends(cache, s.cache)
    ensures Confirmed(s, run)
    ensures s.ran == [] || s.ran == [c]
  {
    var p := HasCmd(cache, which, manager);
    if !p.found then Step(false, missingMsg, p.cache, [])
    else RunOnce(p.cache, c, failMsg, run)
  }

  const PipxMissing: string := "pipx not found (recommended for Python CLIs). See https://pypa.github.io/pipx/"

  /** Lines 197-204. */
  function PipxHelper(cache: Cache, which: string -> bool, run: Runner, tool: string): Step {
    Guarded(cache, which, "pipx", PipxMissing, PipxInstall(tool), "pipx install failed", run)
  }

  /** Lines 225-231. */
  function BrewHelper(cache: Cache, which: string -> bool, run: Runner, pkg: string): Step {
    Guarded(cache, which, "brew", "Homebrew not found. See https://brew.sh/", BrewInstall(pkg),
            "brew install failed", run)
  }

  /** Lines 233-240. */
  function ChocoHelper(cache: Cache, which: string -> bool, run: Runner, pkg: string): Step {
    Guarded(cache, which, "choco", "Chocolatey not found. Install from https://chocolatey.org/install",
            ChocoInstall(pkg), "choco install failed", run)
  }

  /** Line 245: a module path without a version gets `@latest`. */
  function GoMod(pkgPath: string): (mod: string)
    ensures '@' in mod
    ensures '@' in pkgPath ==> mod == pkgPath
    ensures '@' !in pkgPath ==> |mod| == |pkgPath| + 7 && mod[..|pkgPath|] == pkgPath
  {
    if '@' in pkgPath then pkgPath
    else
      assert (pkgPath + "@latest")[|pkgPath|] == '@';
      pkgPath + "@latest"
  }

  /** Pinning is idempotent: an already pinned module is left alone. */
  lemma GoModIdempotent(pkgPath: string)
    ensures GoMod(GoMod(pkgPath)) == GoMod(pkgPath)
  {
  }

  /** Lines 242-249. */
  function GoHelper(cache: Cache, which: string -> bool, run: Runner, pkgPath: string): Step {
    Guarded(cache, which, "go", "Go toolchain not found", GoInstall(GoMod(pkgPath)), "go install failed", run)
  }

  const AptMissing: string := "apt-get not found on this system"

  function NeedsRootMsg(pkg: string): string {
    "Requires root. Try: sudo apt-get update && sudo apt-get install -y " + pkg
  }

  /** Lines 206-223. `euid` is `os.geteuid()`, or `None` where it is
      missing or raises; then the root check is skipped. */
  function AptHelper(cache: Cache, which: string -> bool, run: Runner, euid: Option<int>, pkg: string): (s: Step)
    ensures var p := HasCmd(cache, which, "apt-get");
      (!p.found ==> s == Step(false, AptMissing, p.cache, []))
      && (p.found && euid.Some? && euid.value != 0 ==>
            s == Step(false, NeedsRootMsg(pkg), p.cache, []))
    ensures s.ran == [] || s.ran == [AptGetUpdate] || s.ran == [AptGetUpdate, AptGetInstall(pkg)]
    ensures s.ok ==> s.ran == [AptGetUpdate, AptGetInstall(pkg)]
    ensures Extends(cache, s.cache)
    ensures Confirmed(s, run)
  {
    var p := HasCmd(cache, which, "apt-get");
    if !p.found then Step(false, AptMissing, p.cache, [])
    else if euid.Some? && euid.value != 0 then
      Step(false, NeedsRootMsg(pkg), p.cache, [])
    else AptRefreshThenInstall(p.cache, run, pkg)
  }

  /** Lines 214-223: the index refresh, then the install when the refresh
      exited with 0. */
  function AptRefreshThenInstall(cache: Cache, run: Runner, pkg: string): (s: Step)
    ensures s.cache == cache && Confirmed(s, run)
    ensures Code(run, AptGetUpdate) != 0 ==> !s.ok && s.ran == [AptGetUpdate]
    ensures Code(run, AptGetUpdate) == 0 ==>
      s.ran == [AptGetUpdate, AptGetInstall(pkg)] && (s.ok <==> Code(run, AptGetInstall(pkg)) == 0)
  {
    var (codeU, outU) := run(Argv(AptGetUpdate));
    if codeU != 0 then Step(false, Or(outU, "apt-get update failed"), cache, [AptGetUpdate])
    else
      var i := RunOnce(cache, AptGetInstall(pkg), "apt-get install failed", run);
      Step(i.ok, i.msg, i.cache, [AptGetUpdate] + i.ran)
  }

  /** apt succeeds exactly when both the index refresh and the install
      exit with 0. */
  lemma AptHelperSucceeds(cache: Cache, which: string -> bool, run: Runner, euid: Option<int>, pkg: string)
    ensures var s := AptHelper(cache, which, run, euid, pkg);
      s.ok <==> |s.ran| == 2 && Code(run, AptGetUpdate) == 0 && Code(run, AptGetInstall(pkg)) == 0
  {
  }

  // ---------------------------------------------------------------------
  // try_install_tool_func (lines 254-333)
  // ---------------------------------------------------------------------

  /** Lines 190-192: `platform.system().lower()` against the three names. */
  function OsOf(system: string): Installer.Os {
    var s := Lower(system);
    if s == "linux" then Installer.Linux
    else if s == "darwin" then Installer.Darwin
    else if s == "windows" then Installer.Windows
    else Installer.OtherOs
  }

  /** Where a normalised hint leads on an OS, after the PATH check. */
  datatype Route = AptRoute | BrewRoute | ChocoRoute | PipRoute | GoRoute | GitRoute
                 | ManualRoute | DockerRoute | Fallback
  {
    /** The routes that only give guidance and never run anything. */
    predicate GuidanceOnly() {
      GitRoute? || ManualRoute? || DockerRoute? || Fallback?
    }
  }

  /** Lines 278-320: apt, brew and choco only on their own OS; pip, go,
      git, manual and docker anywhere; everything else falls back. */
  function RouteOf(hint: string, os: Installer.Os): (r: Route)
    ensures r == AptRoute <==> hint == "apt" && os == Installer.Linux
    ensures r == BrewRoute <==> hint == "brew" && os == Installer.Darwin
    ensures r == ChocoRoute <==> hint == "choco" && os == Installer.Windows
    ensures r == PipRoute <==> hint == "pip"
    ensures r == GoRoute <==> hint == "go"
    ensures r == GitRoute <==> hint == "git"
    ensures r == ManualRoute <==> hint == "manual"
    ensures r == DockerRoute <==> hint == "docker"
  {
    if hint == "apt" && os == Installer.Linux then AptRoute
    else if hint == "brew" && os == Installer.Darwin then BrewRoute
    else if hint == "choco" && os == Installer.Windows then ChocoRoute
    else if hint == "pip" then PipRoute
    else if hint == "go" then GoRoute
    else if hint == "git" then GitRoute
    else if hint == "manual" then ManualRoute
    else if hint == "docker" then DockerRoute
    else Fallback
  }

  const PipGuidance: string :=
    "Use pipx (recommended) or install into your ReconCraft virtualenv via requirements.txt. "
    + "If you must install per-user: python -m pip install --user <package>"

  const DockerGuidance: string :=
    "Run via Docker (configure a TOOL_ALIAS shim in your plugin so ReconCraft can call it)."

  /** Lines 322-333: the guidance for a hint no route takes. */
  function FallbackMsg(hint: string, tool: string, os: Installer.Os): string {
    match os
    case Linux => "Unknown install method '" + hint + "'. Try your package manager, e.g.: sudo apt-get install -y " + tool
    case Darwin => "Unknown install method '" + hint + "'. Try: brew install " + tool
    case Windows => "Unknown install method '" + hint + "'. Try: choco install " + tool + " -y"
    case OtherOs => "Unsupported OS or missing install hint"
  }

  /** A command is run by the package manager of the OS it belongs to. */
  predicate NativeFor(c: Command, os: Installer.Os) {
    match c
    case AptGetUpdate => os == Installer.Linux
    case AptGetInstall(_) => os == Installer.Linux
    case BrewInstall(_) => os == Installer.Darwin
    case ChocoInstall(_) => os == Installer.Windows
    case _ => true
  }

  /** Lines 254-333. A missing hint or URL is "". */
  function TryInstallToolFunc(cache: Cache, which: string -> bool, run: Runner, os: Installer.Os,
                              euid: Option<int>, tool: string, installHint: string, installUrl: string): (s: Step)
    ensures var p := HasCmd(cache, which, tool);
      p.found ==> s == Step(true, "OK: " + tool + " already present on PATH", p.cache, [])
    ensures Extends(cache, s.cache)
  {
    var p := HasCmd(cache, which, tool);
    if p.found then Step(true, "OK: " + tool + " already present on PATH", p.cache, [])
    else RouteStep(RouteOf(Lower(Strip(installHint)), os), p.cache, which, run, os, euid, tool,
                   Lower(Strip(installHint)), Strip(installUrl))
  }

  /** Lines 278-333: what the chosen route does once the tool is known to
      be missing. */
  function RouteStep(route: Route, cache: Cache, which: string -> bool, run: Runner, os: Installer.Os,
                     euid: Option<int>, tool: string, hint: string, url: string): (s: Step)
    ensures Extends(cache, s.cache)
  {
    match route
    case AptRoute => AptHelper(cache, which, run, euid, tool)
    case BrewRoute => BrewHelper(cache, which, run, tool)
    case ChocoRoute => ChocoHelper(cache, which, run, tool)
    case PipRoute =>
      var h := PipxHelper(cache, which, run, tool);
      if h.ok then h else Step(false, PipGuidance, h.cache, h.ran)
    case GoRoute => GoHelper(cache, which, run, Or(url, tool))
    case GitRoute => Step(false, GitGuidance(url), cache, [])
    case ManualRoute => Step(false, ManualGuidance(url), cache, [])
    case DockerRoute => Step(false, DockerGuidance, cache, [])
    case Fallback => Step(false, FallbackMsg(hint, tool, os), cache, [])
  }

  /** Lines 304-309: the message of the git route. */
  function GitGuidance(url: string): string {
    if url != "" then "Manual git build required: " + url
    else "No INSTALL_URL provided for git-based install"
  }

  /** Lines 310-314: the message of the manual route. */
  function ManualGuidance(url: string): string {
    if url != "" then "Manual install required: " + url
    else "Manual install requested but no INSTALL_URL provided"
  }

  /** What each route may run, and when it succeeds. */
  lemma {:induction false} RouteStepFacts(route: Route, cache: Cache, which: string -> bool, run: Runner, os: Installer.Os,
                       euid: Option<int>, tool: string, hint: string, url: string)
    requires route == AptRoute ==> os == Installer.Linux
    requires route == BrewRoute ==> os == Installer.Darwin
    requires route == ChocoRoute ==> os == Installer.Windows
    ensures var s := RouteStep(route, cache, which, run, os, euid, tool, hint, url);
      (route.GuidanceOnly() ==> !s.ok && s.ran == [])
      && (route == GoRoute && s.ran != [] ==> s.ran == [GoInstall(GoMod(Or(url, tool)))])
      && Confirmed(s, run)
      && (forall i :: 0 <= i < |s.ran| ==> NativeFor(s.ran[i], os))
  {
    RouteStepNative(route, cache, which, run, os, euid, tool, hint, url);
    RouteStepConfirmed(route, cache, which, run, os, euid, tool, hint, url);
    if route.GuidanceOnly() {
      GuidanceRouteStep(route, cache, which, run, os, euid, tool, hint, url);
    }
    if route == GoRoute {
      GoRouteStep(cache, which, run, os, euid, tool, hint, url);
    }
  }

  lemma {:induction false} RouteStepConfirmed(route: Route, cache: Cache, which: string -> bool, run: Runner, os: Installer.Os,
                           euid: Option<int>, tool: string, hint: string, url: string)
    ensures Confirmed(RouteStep(route, cache, which, run, os, euid, tool, hint, url), run)
  {
    match route
    case AptRoute => AptRouteStep(cache, which, run, os, euid, tool, hint, url);
    case BrewRoute => BrewRouteStep(cache, which, run, os, euid, tool, hint, url);
    case ChocoRoute => ChocoRouteStep(cache, which, run, os, euid, tool, hint, url);
    case PipRoute => PipRouteStep(cache, which, run, os, euid, tool, hint, url);
    case GoRoute => GoRouteStep(cache, which, run, os, euid, tool, hint, url);
    case _ => GuidanceRouteStep(route, cache, which, run, os, euid, tool, hint, url);
  }

  lemma {:induction false} GuidanceRouteStep(route: Route, cache: Cache, which: string -> bool, run: Runner, os: Installer.Os,
                          euid: Option<int>, tool: string, hint: string, url: string)
    requires route.GuidanceOnly()
    ensures var s := RouteStep(route, cache, which, run, os, euid, tool, hint, url);
      !s.ok && s.ran == [] && s.cache == cache
  {
    assert !route.AptRoute? && !route.BrewRoute? && !route.ChocoRoute? && !route.PipRoute? && !route.GoRoute?;
  }

  lemma {:induction false} RouteStepNative(route: Route, cache: Cache, which: string -> bool, run: Runner, os: Installer.Os,
                        euid: Option<int>, tool: string, hint: string, url: string)
    requires route == AptRoute ==> os == Installer.Linux
    requires route == BrewRoute ==> os == Installer.Darwin
    requires route == ChocoRoute ==> os == Installer.Windows
    ensures var s := RouteStep(route, cache, which, run, os, euid, tool, hint, url);
      forall i :: 0 <= i < |s.ran| ==> NativeFor(s.ran[i], os)
  {
    if route in {AptRoute, BrewRoute, ChocoRoute} {
      NativeManagersNative(route, cache, which, run, os, euid, tool, hint, url);
    } else {
      OtherRoutesNative(route, cache, which, run, os, euid, tool, hint, url);
    }
  }

  lemma {:induction false} NativeManagersNative(route: Route, cache: Cache, which: string -> bool, run: Runner, os: Installer.Os,
                             euid: Option<int>, tool: string, hint: string, url: string)
    requires (route == AptRoute && os == Installer.Linux)
          || (route == BrewRoute && os == Installer.Darwin)
          || (route == ChocoRoute && os == Installer.Windows)
    ensures var s := RouteStep(route, cache, which, run, os, euid, tool, hint, url);
      forall i :: 0 <= i < |s.ran| ==> NativeFor(s.ran[i], os)
  {
    match route
    case AptRoute =>
      AptRouteStep(cache, which, run, os, euid, tool, hint, url);
      AptRunsNative(AptHelper(cache, which, run, euid, tool).ran, tool);
    case BrewRoute =>
      BrewRouteStep(cache, which, run, os, euid, tool, hint, url);
      SingleNative(BrewHelper(cache, which, run, tool).ran, BrewInstall(tool), os);
    case ChocoRoute =>
      ChocoRouteStep(cache, which, run, os, euid, tool, hint, url);
      SingleNative(ChocoHelper(cache, which, run, tool).ran, ChocoInstall(tool), os);
  }

  // The routes that run a helper give that helper's step.

  lemma {:induction false} AptRouteStep(cache: Cache, which: string -> bool, run: Runner, os: Installer.Os,
                     euid: Option<int>, tool: string, hint: string, url: string)
    ensures RouteStep(AptRoute, cache, which, run, os, euid, tool, hint, url) == AptHelper(cache, which, run, euid, tool)
  {
  }

  lemma {:induction false} BrewRouteStep(cache: Cache, which: string -> bool, run: Runner, os: Installer.Os,
                     euid: Option<int>, tool: string, hint: string, url: string)
    ensures RouteStep(BrewRoute, cache, which, run, os, euid, tool, hint, url) == BrewHelper(cache, which, run, tool)
  {
    assert !BrewRoute.AptRoute?;
  }

  lemma {:induction false} ChocoRouteStep(cache: Cache, which: string -> bool, run: Runner, os: Installer.Os,
                     euid: Option<int>, tool: string, hint: string, url: string)
    ensures RouteStep(ChocoRoute, cache, which, run, os, euid, tool, hint, url) == ChocoHelper(cache, which, run, tool)
  {
    assert !ChocoRoute.AptRoute? && !ChocoRoute.BrewRoute?;
  }

  lemma {:induction false} GoRouteStep(cache: Cache, which: string -> bool, run: Runner, os: Installer.Os,
                     euid: Option<int>, tool: string, hint: string, url: string)
    ensures RouteStep(GoRoute, cache, which, run, os, euid, tool, hint, url) == GoHelper(cache, which, run, Or(url, tool))
  {
    assert !GoRoute.AptRoute? && !GoRoute.BrewRoute? && !GoRoute.ChocoRoute? && !GoRoute.PipRoute?;
  }

  /** Pip keeps pipx's runs; a failure is replaced by the guidance text. */
  lemma {:induction false} PipRouteStep(cache: Cache, which: string -> bool, run: Runner, os: Installer.Os,
                     euid: Option<int>, tool: string, hint: string, url: string)
    ensures var s := RouteStep(PipRoute, cache, which, run, os, euid, tool, hint, url);
      var h := PipxHelper(cache, which, run, tool);
      s.ran == h.ran && (s.ok ==> s == h)
  {
    assert !PipRoute.AptRoute? && !PipRoute.BrewRoute? && !PipRoute.ChocoRoute?;
  }

  lemma AptRunsNative(ran: seq<Command>, tool: string)
    requires ran == [] || ran == [AptGetUpdate] || ran == [AptGetUpdate, AptGetInstall(tool)]
    ensures forall i :: 0 <= i < |ran| ==> NativeFor(ran[i], Installer.Linux)
  {
  }

  lemma {:induction false} OtherRoutesNative(route: Route, cache: Cache, which: string -> bool, run: Runner, os: Installer.Os,
                          euid: Option<int>, tool: string, hint: string, url: string)
    requires route !in {AptRoute, BrewRoute, ChocoRoute}
    ensures var s := RouteStep(route, cache, which, run, os, euid, tool, hint, url);
      forall i :: 0 <= i < |s.ran| ==> NativeFor(s.ran[i], os)
  {
    match route
    case PipRoute =>
      PipRouteStep(cache, which, run, os, euid, tool, hint, url);
      SingleNative(PipxHelper(cache, which, run, tool).ran, PipxInstall(tool), os);
    case GoRoute =>
      GoRouteStep(cache, which, run, os, euid, tool, hint, url);
      SingleNative(GoHelper(cache, which, run, Or(url, tool)).ran, GoInstall(GoMod(Or(url, tool))), os);
    case _ => GuidanceRouteStep(route, cache, which, run, os, euid, tool, hint, url);
  }

  lemma SingleNative(ran: seq<Command>, c: Command, os: Installer.Os)
    requires ran == [] || ran == [c]
    requires NativeFor(c, os)
    ensures forall i :: 0 <= i < |ran| ==> NativeFor(ran[i], os)
  {
  }

  /** Git, manual, docker and unknown hints never install anything; go
      installs the URL, else the tool, pinned. */
  lemma TryInstallRoutes(cache: Cache, which: string -> bool, run: Runner, os: Installer.Os,
                         euid: Option<int>, tool: string, installHint: string, installUrl: string)
    ensures var s := TryInstallToolFunc(cache, which, run, os, euid, tool, installHint, installUrl);
      var route := RouteOf(Lower(Strip(installHint)), os);
      !HasCmd(cache, which, tool).found ==>
        (route.GuidanceOnly() ==> !s.ok && s.ran == [])
        && (route == GoRoute && s.ran != [] ==> s.ran == [GoInstall(GoMod(Or(Strip(installUrl), tool)))])
  {
    TryInstallUnfold(cache, which, run, os, euid, tool, installHint, installUrl);
  }

  /** Success is either the tool already on PATH or a last command that
      exited with 0. */
  lemma TryInstallSuccessJustified(cache: Cache, which: string -> bool, run: Runner, os: Installer.Os,
                                   euid: Option<int>, tool: string, installHint: string, installUrl: string)
    ensures var s := TryInstallToolFunc(cache, which, run, os, euid, tool, installHint, installUrl);
      s.ok ==> HasCmd(cache, which, tool).found || (s.ran != [] && Code(run, s.ran[|s.ran| - 1]) == 0)
  {
    TryInstallUnfold(cache, which, run, os, euid, tool, installHint, installUrl);
  }

  /** apt-get runs only on Linux, brew only on macOS, choco only on
      Windows. */
  lemma TryInstallOnlyNativeManagers(cache: Cache, which: string -> bool, run: Runner, os: Installer.Os,
                                     euid: Option<int>, tool: string, installHint: string, installUrl: string)
    ensures var s := TryInstallToolFunc(cache, which, run, os, euid, tool, installHint, installUrl);
      forall i :: 0 <= i < |s.ran| ==> NativeFor(s.ran[i], os)
  {
    TryInstallUnfold(cache, which, run, os, euid, tool, installHint, installUrl);
  }

  lemma TryInstallUnfold(cache: Cache, which: string -> bool, run: Runner, os: Installer.Os,
                         euid: Option<int>, tool: string, installHint: string, installUrl: string)
    ensures var s := TryInstallToolFunc(cache, which, run, os, euid, tool, installHint, installUrl);
      var p := HasCmd(cache, which, tool);
      var route := RouteOf(Lower(Strip(installHint)), os);
      !p.found ==>
        (route.GuidanceOnly() ==> !s.ok && s.ran == [])
        && (route == GoRoute && s.ran != [] ==> s.ran == [GoInstall(GoMod(Or(Strip(installUrl), tool)))])
        && (s.ok ==> s.ran != [] && Code(run, s.ran[|s.ran| - 1]) == 0)
        && (forall i :: 0 <= i < |s.ran| ==> NativeFor(s.ran[i], os))
  {
    var p := HasCmd(cache, which, tool);
    var hint := Lower(Strip(installHint));
    var route := RouteOf(hint, os);
    if !p.found {
      TryInstallIsRoute(cache, which, run, os, euid, tool, installHint, installUrl);
      RouteStepFacts(route, p.cache, which, run, os, euid, tool, hint, Strip(installUrl));
    }
  }

  lemma TryInstallIsRoute(cache: Cache, which: string -> bool, run: Runner, os: Installer.Os,
                          euid: Option<int>, tool: string, installHint: string, installUrl: string)
    ensures var p := HasCmd(cache, which, tool);
      var hint := Lower(Strip(installHint));
      !p.found ==> TryInstallToolFunc(cache, which, run, os, euid, tool, installHint, installUrl)
                   == RouteStep(RouteOf(hint, os), p.cache, which, run, os, euid, tool, hint, Strip(installUrl))
  {
  }

  // ---------------------------------------------------------------------
  // ToolInstallWorker._install_one (lines 555-643)
  // ---------------------------------------------------------------------

  /** The plugin attributes the workers read. A missing `REQUIRED_TOOL` is
      `None`; every other missing attribute reads as "". */
  datatype Plugin = Plugin(requiredTool: Option<string>, installHint: string, installUrl: string,
                           toolAlias: string, executable: string, dockerRun: string)

  /** Lines 561 and 712: `REQUIRED_TOOL`, defaulting to the plugin name. */
  function Required(p: Plugin, name: string): string {
    if p.requiredTool.Some? then p.requiredTool.value else name
  }

  /** Lines 564-568 and 709-713: the stripped alias, else the stripped
      executable, else the required tool. */
  function WorkerRuntimeName(p: Plugin, name: string): (r: string)
    ensures Strip(p.toolAlias) != "" ==> r == Strip(p.toolAlias)
    ensures Strip(p.toolAlias) == "" && Strip(p.executable) != "" ==> r == Strip(p.executable)
    ensures Strip(p.toolAlias) == "" && Strip(p.executable) == "" ==> r == Required(p, name)
  {
    Or(Strip(p.toolAlias), Or(Strip(p.executable), Required(p, name)))
  }

  /** The worker's name for a plugin given as an adapter whose alias and
      executable carry no surrounding blanks is the installer's alias
      (`get_plugin_install_meta`, core/installer_utils.py). */
  lemma WorkerRuntimeNameAgrees(a: Adapters.Adapter, name: string)
    requires Strip(a.toolAlias) == a.toolAlias && Strip(a.executable) == a.executable
    ensures WorkerRuntimeName(FromAdapter(a), name) == Installer.GetPluginInstallMeta(a).aliasName
  {
  }

  function FromAdapter(a: Adapters.Adapter): Plugin {
    Plugin(Some(a.requiredTool), a.installHint, a.installUrl, a.toolAlias, a.executable, a.dockerRun)
  }

  /** Lines 538-540 and 562: `(INSTALL_HINT or "manual").strip().lower()`;
      an unknown plugin reads as "manual". */
  function WorkerHint(plugin: Option<Plugin>): string {
    if plugin.None? then "manual" else Lower(Strip(Or(plugin.value.installHint, "manual")))
  }

  /** Lines 579-630: where the normalised hint leads. Unknown hints are
      treated as manual. */
  function InstallRouteOf(hint: string): (r: Route)
    ensures r != Fallback
  {
    if hint == "docker" then DockerRoute
    else if hint == "apt" then AptRoute
    else if hint == "brew" then BrewRoute
    else if hint == "choco" then ChocoRoute
    else if hint == "pip" then PipRoute
    else if hint == "go" then GoRoute
    else if hint == "git" then GitRoute
    else ManualRoute
  }

  /** What creating the shim and verifying it gave (lines 597-608):
      whether the shim file exists, its path, and whether one of the
      verification runs exited with 0. */
  datatype ShimOutcome = ShimOutcome(created: bool, path: string, verified: bool)

  /** Lines 589-593: the image pulled is the last token with a `/` or `:`. */
  function Pulls(dockerRun: string): (cs: seq<Command>)
    ensures |cs| <= 1
  {
    var toks := SplitWs(dockerRun);
    var i := Installer.LastImageIndex(toks);
    if i < 0 then [] else [DockerPull(toks[i])]
  }

  /** The worker pulls exactly what the installer's
      `pull_image_if_mentioned` pulls. */
  lemma PullsAgreeWithInstaller(dockerRun: string)
    ensures |Pulls(dockerRun)| == |Installer.PullCommands(dockerRun)|
    ensures forall i :: 0 <= i < |Pulls(dockerRun)| ==> Argv(Pulls(dockerRun)[i]) == Installer.PullCommands(dockerRun)[i]
  {
  }

  /** Lines 582-611: the docker route. The pull's own result is ignored;
      success needs the shim to exist and pass verification. */
  function DockerPath(cache: Cache, which: string -> bool, dockerRun: string, shim: ShimOutcome): (s: Step)
    ensures !HasCmd(cache, which, "docker").found ==> !s.ok && s.ran == []
    ensures dockerRun == "" ==> !s.ok && s.ran == []
    ensures s.ok <==> HasCmd(cache, which, "docker").found && dockerRun != "" && shim.created && shim.verified
    ensures Extends(cache, s.cache)
  {
    var d := HasCmd(cache, which, "docker");
    if !d.found then Step(false, "Docker not found. Install Docker Engine/Desktop.", d.cache, [])
    else if dockerRun == "" then Step(false, "Plugin missing DOCKER_RUN.", d.cache, [])
    else
      var msg := if !shim.created then "Failed to create shim"
                 else if !shim.verified then "Shim failed verification"
                 else "Shim created at " + shim.path;
      Step(shim.created && shim.verified, msg, d.cache, Pulls(dockerRun))
  }

  /** Lines 579-630: the install attempt for a missing tool. */
  function InstallVia(cache: Cache, which: string -> bool, run: Runner, euid: Option<int>, shim: ShimOutcome,
                      p: Plugin, name: string): (s: Step)
    ensures Extends(cache, s.cache)
  {
    var req := Required(p, name);
    match InstallRouteOf(WorkerHint(Some(p)))
    case DockerRoute => DockerPath(cache, which, p.dockerRun, shim)
    case AptRoute => AptHelper(cache, which, run, euid, req)
    case BrewRoute => BrewHelper(cache, which, run, req)
    case ChocoRoute => ChocoHelper(cache, which, run, req)
    case PipRoute => PipxHelper(cache, which, run, req)
    case GoRoute => GoHelper(cache, which, run, Or(p.installUrl, req))
    case GitRoute => Step(false, "Manual git build required: " + Or(p.installUrl, "no URL provided"), cache, [])
    case _ => Step(false, "Manual install: " + Or(p.installUrl, req), cache, [])
  }

  /** `has_cmd(a) or has_cmd(b)`, short-circuiting. */
  function EitherFound(cache: Cache, which: string -> bool, a: string, b: string): (p: Probe)
    ensures Extends(cache, p.cache)
  {
    var pa := HasCmd(cache, which, a);
    if pa.found then pa else HasCmd(pa.cache, which, b)
  }

  /** Once neither name was found, every later `has_cmd` pair on an
      extension of that cache answers "not found" too, whatever PATH holds
      by then. */
  lemma NotFoundStaysNotFound(cache: Cache, which: string -> bool, later: Cache, whichLater: string -> bool,
                              a: string, b: string)
    requires !EitherFound(cache, which, a, b).found
    requires Extends(EitherFound(cache, which, a, b).cache, later)
    ensures !EitherFound(later, whichLater, a, b).found
  {
    var pa := HasCmd(cache, which, a);
    var pb := HasCmd(pa.cache, which, b);
    assert Extends(pa.cache, pb.cache);
    var la := HasCmd(later, whichLater, a);
    assert Strip(a) != "" ==> la.found == false;
    assert Extends(later, la.cache);
  }

  /** Lines 555-643 as written. `which` is PATH before the attempt and
      `whichAfter` PATH after it; line 633 re-reads the shared cache. */
  function InstallOne(cache: Cache, which: string -> bool, whichAfter: string -> bool, run: Runner,
                      euid: Option<int>, shim: ShimOutcome, plugin: Option<Plugin>, name: string): (r: Step)
    ensures plugin.None? ==> !r.ok && r.ran == []
    ensures plugin.Some? && EitherFound(cache, which, WorkerRuntimeName(plugin.value, name), Required(plugin.value, name)).found
      ==> r.ok && r.ran == []
    ensures Extends(cache, r.cache)
  {
    match plugin
    case None => Step(false, "plugin not found", cache, [])
    case Some(p) =>
      var alias := WorkerRuntimeName(p, name);
      var req := Required(p, name);
      var before := EitherFound(cache, which, alias, req);
      if before.found then Step(true, "already present", before.cache, [])
      else
        var h := InstallVia(before.cache, which, run, euid, shim, p, name);
        var after := EitherFound(h.cache, whichAfter, alias, req);
        Step(h.ok && after.found, h.msg, after.cache, h.ran)
  }

  /** The stale cache: a plugin whose tool was not on PATH before is never
      reported installed, however the attempt went and whatever PATH holds
      afterwards, because the negative answers of line 575 are re-read at
      line 633. */
  lemma InstallOneNeverConfirms(cache: Cache, which: string -> bool, whichAfter: string -> bool, run: Runner,
                                euid: Option<int>, shim: ShimOutcome, p: Plugin, name: string)
    requires !EitherFound(cache, which, WorkerRuntimeName(p, name), Required(p, name)).found
    ensures !InstallOne(cache, which, whichAfter, run, euid, shim, Some(p), name).ok
  {
    var alias := WorkerRuntimeName(p, name);
    var req := Required(p, name);
    var before := EitherFound(cache, which, alias, req);
    var h := InstallVia(before.cache, which, run, euid, shim, p, name);
    NotFoundStaysNotFound(cache, which, h.cache, whichAfter, alias, req);
  }

  /** A concrete run: nmap with hint "apt", absent at first, apt-get on
      PATH, running as root, both apt-get runs exiting with 0 and nmap on
      PATH afterwards. The attempt succeeds, yet the worker reports a
      failure. */
  lemma AptInstallReportedMissing()
    ensures var p := Plugin(Some("nmap"), "apt", "", "", "", "");
      var which := (c: string) => c == "apt-get";
      var whichAfter := (c: string) => true;
      var run := (argv: seq<string>) => (0, "");
      var shim := ShimOutcome(false, "", false);
      InstallVia(map["nmap" := false], which, run, Some(0), shim, p, "nmap").ok
      && whichAfter("nmap")
      && !InstallOne(map[], which, whichAfter, run, Some(0), shim, Some(p), "nmap").ok
  {
    var p := Plugin(Some("nmap"), "apt", "", "", "", "");
    var which := (c: string) => c == "apt-get";
    var whichAfter := (c: string) => true;
    var run := (argv: seq<string>) => (0, "");
    var shim := ShimOutcome(false, "", false);
    NmapAptRoute(p);
    AptGetKey();
    var c: Cache := map["nmap" := false];
    assert HasCmd(c, which, "apt-get").found;
    AptHelperSucceeds(c, which, run, Some(0), "nmap");
    NmapNotFound(which);
    InstallOneNeverConfirms(map[], which, whichAfter, run, Some(0), shim, p, "nmap");
  }

  lemma NmapAptRoute(p: Plugin)
    requires p == Plugin(Some("nmap"), "apt", "", "", "", "")
    ensures WorkerRuntimeName(p, "nmap") == "nmap" && Required(p, "nmap") == "nmap"
    ensures InstallRouteOf(WorkerHint(Some(p))) == AptRoute
  {
    StripByNoop("apt", IsSpace);
    var l := Lower("apt");
    assert l == "apt" by {
      assert l[0] == 'a' && l[1] == 'p' && l[2] == 't';
    }
    assert Strip("") == "";
  }

  lemma AptGetKey()
    ensures Strip("apt-get") != "" && Key("apt-get") != "nmap"
  {
    StripByNoop("apt-get", IsSpace);
  }

  lemma NmapNotFound(which: string -> bool)
    requires which == ((c: string) => c == "apt-get")
    ensures !EitherFound(map[], which, "nmap", "nmap").found
  {
    StripByNoop("nmap", IsSpace);
    assert !which("nmap");
  }

  /** The probe as evidently intended: PATH is looked up afresh and the
      fresh answer replaces the cached one. */
  function Refresh(cache: Cache, which: string -> bool, cmd: string): (p: Probe)
    ensures p.found <==> Strip(cmd) != "" && which(cmd)
  {
    if Strip(cmd) == "" then Probe(false, cache)
    else Probe(which(cmd), cache[Key(cmd) := which(cmd)])
  }

  /** `_install_one` with line 633 re-probing PATH. */
  function InstallOneFixed(cache: Cache, which: string -> bool, whichAfter: string -> bool, run: Runner,
                           euid: Option<int>, shim: ShimOutcome, plugin: Option<Plugin>, name: string): (r: Step)
    ensures plugin.None? ==> !r.ok && r.ran == []
    ensures plugin.Some? ==>
      var alias := WorkerRuntimeName(plugin.value, name);
      var req := Required(plugin.value, name);
      var before := EitherFound(cache, which, alias, req);
      r.ok <==> before.found
                || (InstallVia(before.cache, which, run, euid, shim, plugin.value, name).ok
                    && ((Strip(alias) != "" && whichAfter(alias)) || (Strip(req) != "" && whichAfter(req))))
  {
    match plugin
    case None => Step(false, "plugin not found", cache, [])
    case Some(p) =>
      var alias := WorkerRuntimeName(p, name);
      var req := Required(p, name);
      var before := EitherFound(cache, which, alias, req);
      if before.found then Step(true, "already present", before.cache, [])
      else
        var h := InstallVia(before.cache, which, run, euid, shim, p, name);
        var pa := Refresh(h.cache, whichAfter, alias);
        var after := if pa.found then pa else Refresh(pa.cache, whichAfter, req);
        Step(h.ok && after.found, h.msg, after.cache, h.ran)
  }

  /** The correction only turns false reports into true ones, and on the
      run above it reports the install. */
  lemma FixedConfirmsMore(cache: Cache, which: string -> bool, whichAfter: string -> bool, run: Runner,
                          euid: Option<int>, shim: ShimOutcome, plugin: Option<Plugin>, name: string)
    ensures InstallOne(cache, which, whichAfter, run, euid, shim, plugin, name).ok
            ==> InstallOneFixed(cache, which, whichAfter, run, euid, shim, plugin, name).ok
  {
    if plugin.Some? {
      var p := plugin.value;
      var alias := WorkerRuntimeName(p, name);
      var req := Required(p, name);
      if !EitherFound(cache, which, alias, req).found {
        InstallOneNeverConfirms(cache, which, whichAfter, run, euid, shim, p, name);
      }
    }
  }
}

=== FILE: ToolsUtils.dfy ===
/** `core/tools_utils.py`: `is_tool_installed`, the decision whether a
    tool is present and usable.

    `which` is the PATH lookup, `probe(tool, flag)` the exit code of
    running the tool with one flag (`None` when the run raised or timed
    out), and `isFile` the file test for a script path. */
module ToolsUtils {
  import opened Wrappers
  import opened Text

  /** Line 20: tools that are only looked up, never launched. */
  const GuiTools: set<string> := {"dirbuster", "burpsuite", "zenmap", "owasp-zap"}

  /** Line 34: the flags tried, in order. */
  const Flags: seq<string> := ["--version", "-v", "-h", "--help"]

  /** Line 44: exit code 0, or 1 (which some tools use for help). */
  predicate Usable(rc: Option<int>) {
    rc == Some(0) || rc == Some(1)
  }

  /** Some flag gives a usable exit code. */
  predicate SomeFlagUsable(toolBin: string, probe: (string, string) -> Option<int>) {
    exists i :: 0 <= i < |Flags| && Usable(probe(toolBin, Flags[i]))
  }

  /** The decision as a formula: the tool is on PATH and either a known
      GUI tool or usable with one of the flags, or the script file
      exists. */
  predicate Installed(toolBin: string, scriptPath: string, which: string -> bool,
                      probe: (string, string) -> Option<int>, isFile: string -> bool)
  {
    (which(Strip(toolBin)) && (Lower(toolBin) in GuiTools || SomeFlagUsable(toolBin, probe)))
    || (scriptPath != "" && isFile(scriptPath))
  }

  /** Lines 11-57. `probed` lists the flags the tool was run with, in
      order. The name is stripped for the PATH lookup only; the GUI test
      and the runs use it as given. */
  method IsToolInstalled(toolBin: string, scriptPath: string, which: string -> bool,
                         probe: (string, string) -> Option<int>, isFile: string -> bool)
    returns (installed: bool, probed: seq<string>)
    ensures installed <==> Installed(toolBin, scriptPath, which, probe, isFile)
    ensures probed <= Flags
    ensures !which(Strip(toolBin)) || Lower(toolBin) in GuiTools ==> probed == []
    ensures forall i :: 0 <= i < |probed| - 1 ==> !Usable(probe(toolBin, probed[i]))
    ensures which(Strip(toolBin)) && Lower(toolBin) !in GuiTools && probed != Flags ==>
      probed != [] && Usable(probe(toolBin, probed[|probed| - 1]))
  {
    probed := [];
    if which(Strip(toolBin)) {
      if Lower(toolBin) in GuiTools {
        return true, probed;
      }
      var usable;
      usable, probed := ProbeFlags(toolBin, probe);
      if usable {
        return true, probed;
      }
    }
    installed := scriptPath != "" && isFile(scriptPath);
  }

  /** Lines 34-48: runs the tool with each flag in turn until one gives a
      usable exit code. */
  method ProbeFlags(toolBin: string, probe: (string, string) -> Option<int>)
    returns (usable: bool, probed: seq<string>)
    ensures usable <==> SomeFlagUsable(toolBin, probe)
    ensures probed <= Flags
    ensures forall i :: 0 <= i < |probed| - 1 ==> !Usable(probe(toolBin, probed[i]))
    ensures usable ==> probed != [] && Usable(probe(toolBin, probed[|probed| - 1]))
    ensures !usable ==> probed == Flags
  {
    probed := [];
    var i := 0;
    while i < |Flags|
      invariant 0 <= i <= |Flags|
      invariant probed == Flags[..i]
      invariant forall k :: 0 <= k < i ==> !Usable(probe(toolBin, Flags[k]))
    {
      probed := probed + [Flags[i]];
      if Usable(probe(toolBin, Flags[i])) {
        assert probed[|probed| - 1] == Flags[i];
        return true, probed;
      }
      i := i + 1;
    }
    assert probed == Flags;
    return false, probed;
  }

  /** Lines 23 and 50-57: a tool missing from PATH, with no script path,
      is reported absent without running anything. */
  lemma MissingWithoutScriptIsAbsent(toolBin: string, which: string -> bool,
                                     probe: (string, string) -> Option<int>, isFile: string -> bool)
    requires !which(Strip(toolBin))
    ensures !Installed(toolBin, "", which, probe, isFile)
  {
  }

  /** The GUI test reads the name as given: a padded GUI tool name found
      on PATH is not recognised and gets launched. */
  lemma PaddedGuiNameIsLaunched()
    ensures Strip(" zenmap") == "zenmap" && Lower(" zenmap") !in GuiTools
  {
    var w := "zenmap";
    assert !IsSpace(w[0]) && !IsSpace(w[|w| - 1]);
    StripLeadingBlank(w);
    assert [' '] + w == " zenmap";
    assert |Lower(" zenmap")| == 7;
  }
}

=== FILE: Wrappers.dfy ===
/** Failure-compatible wrappers shared by every module of the model.
    `Option` stands for Python's `None`-or-value, `Result` for a value or a
    raised exception (whose text is kept as the error). */
module Wrappers {

  datatype Option<+T> = None | Some(value: T) {
    function GetOr(default: T): T {
      match this
      case Some(v) => v
      case None => default
    }
  }

  datatype Result<+T> = Ok(value: T) | Err(error: string) {
    predicate IsFailure() {
      Err?
    }
  }
}
